=== FILE: README.md ===
# Zugzwang core in Dafny

This project models the core of Zugzwang, an OpenGL renderer for
Cytoscape network views, and proves properties of that model. It covers:

- The two primitive pools, `ZZRectangleManager` and `ZZLineManager`. Each
  keeps the records of its primitives packed in dense slots, mirrored
  into device buffers. Each hands out stable logical handles through a
  handle-to-slot map, a slot-to-handle map and a FIFO queue of free
  handles (`SlotMaps`, `Buffers`, `RectangleManager`, `LineManager`).
- The primitive handles `ZZRectangle` and `ZZLine`, which forward every
  change to their slot (`Rectangles`, `Lines`, `Primitives`).
- The texture-memory admission counter `GLMemoryLimit` (`MemoryLimit`).
- The view model:
  - the per-node redraw state machine of `ZZNodeView` (`NodeViews`);
  - the edge view (`EdgeViews`);
  - visual-property values and locks with their propagation over the
    lexicon tree (`ViewLocks`, `LexiconTree`, and `LegacyViewLocks` for
    the older copy in `cytoscape/view/ZZView`);
  - the network view's registry of node and edge views and its
    per-frame rules (`NetworkViews`);
  - the custom-graphics property tables of the visual lexicon
    (`VisualLexicon`).
- The visual-property value types:
  - node shapes (`NodeShapes`);
  - arrow shapes (`ArrowShapes`);
  - line types and their strokes (`LineTypes`, `AnimatedStrokes`);
  - label anchors (`Anchors`) and justification (`Justifications`).
- Label layout by `MeasuredLineCreator` (`MeasuredLines`), with the Java
  string operations it relies on (`JavaText`).

Java `null` is `None` of `Wrappers.Option`. Floats are `real`. Shorts,
ints and longs are unbounded `int`s; where the source's integer
arithmetic matters, it is written out (`Primitives.JavaHalf` is Java's
truncating `/ 2`). Mutable objects are immutable values: every operation
takes the state it reads and returns the state it leaves. An operation on
a handle therefore takes and returns the pool it writes to. An operation
that disposes a device texture returns the texture it disposed. The pools'
deletes are split the same way: `RectangleManager.Delete` and
`LineManager.DeleteLine` give up the slot, and `Rectangles.DeleteRectangle`
and `Lines.DeleteLine` add the element's `dispose` that ends
`deleteRectangle` and `deleteLine`, returning the texture it released.

Where the code departs from what it evidently intends, the model follows
the code:

- `deleteLine` never writes the device buffers.
- The rectangle constructor ignores its offset arguments.
- The shape table is keyed by identity, so the renderer's own shape
  constants other than `VEE` resolve to `RECTANGLE`.
- `ZIGZAG` is missing from the line-type table.

Each of these is either listed under "## Findings" or stated as a lemma.

## Model

| member | source | states |
|---|---|---|
| SlotMaps.SlotOf | src/main/java/org/cytoscape/zugzwang/internal/rendering/ZZRectangleManager.java:265-271 | a live handle's slot is below the used count and maps back to that handle through the slot-to-handle map |
| SlotMaps.Range | src/main/java/org/cytoscape/zugzwang/internal/rendering/ZZRectangleManager.java:126-128 | the handles queued when the handle range grows are exactly the new handles, in increasing order |
| SlotMaps.Init | src/main/java/org/cytoscape/zugzwang/internal/rendering/ZZRectangleManager.java:64-83 | a fresh pool has no live handle; every handle of the capacity is queued in order and the bookkeeping invariant holds |
| SlotMaps.Acquire | src/main/java/org/cytoscape/zugzwang/internal/rendering/ZZRectangleManager.java:236-251 | the head of the free queue becomes live at the first unused slot; every earlier handle keeps its slot; nothing else becomes live |
| SlotMaps.Release | src/main/java/org/cytoscape/zugzwang/internal/rendering/ZZRectangleManager.java:265-277 | the handle goes to the back of the queue and stops being live; the handle of the last slot takes over the vacated slot; every other handle keeps its slot |
| SlotMaps.ResizeMaps | src/main/java/org/cytoscape/zugzwang/internal/rendering/ZZRectangleManager.java:91-139 | a resize keeps every live handle at its slot; the handle range and the free queue grow only when the new capacity exceeds the handle range, and then by exactly the new handles |
| SlotMaps.KeptMapsLive | src/main/java/org/cytoscape/zugzwang/internal/rendering/ZZRectangleManager.java:103-114 | truncating or zero-extending the slot-to-handle map beyond the used slots changes no handle's liveness |
| SlotMaps.GrowHandles | src/main/java/org/cytoscape/zugzwang/internal/rendering/ZZRectangleManager.java:123-136 | widening the handle-to-slot map queues exactly the new handles and makes none of them live |
| SlotMaps.GrowthIsStrict | src/main/java/org/cytoscape/zugzwang/internal/rendering/ZZRectangleManager.java:243-244 | the growth rule `capacity * 3 / 2` gives a strictly larger pool for every capacity of at least 2 |
| SlotMaps.GrowthStallsAtOne | src/main/java/org/cytoscape/zugzwang/internal/rendering/ZZRectangleManager.java:243-244 | from capacity 1 the growth rule stays at 1 |
| SlotMaps.ShrinkKeepsElements | src/main/java/org/cytoscape/zugzwang/internal/rendering/ZZRectangleManager.java:308-309 | the shrink `max(10, capacity * 2 / 3)`, taken when fewer than half the slots are used, still leaves room for every used slot |
| Buffers.RecordsApart | src/main/java/org/cytoscape/zugzwang/internal/rendering/ZZRectangleManager.java:282-304 | the fixed-width records of two different slots never overlap |
| Buffers.CopySlot | src/main/java/org/cytoscape/zugzwang/internal/rendering/ZZRectangleManager.java:282-304 | moving a record from one slot to another makes the target record equal to the source record and changes no entry outside it |
| Buffers.CopySlotFrame | src/main/java/org/cytoscape/zugzwang/internal/rendering/ZZRectangleManager.java:282-304 | a record apart from the written one reads the same after the copy |
| Buffers.UpdateSlot | src/main/java/org/cytoscape/zugzwang/internal/rendering/ZZRectangleManager.java:321-339 | writing entry j of one record changes that record at j only, and no other record |
| Buffers.Resized | src/main/java/org/cytoscape/zugzwang/internal/rendering/ZZRectangleManager.java:99-112 | a resized host array keeps its first `min(old, new)` records and holds Java's zero after them |
| Buffers.ResizedSlot | src/main/java/org/cytoscape/zugzwang/internal/rendering/ZZRectangleManager.java:105-112 | a record inside the kept prefix reads the same after the resize |
| RectangleManager.New | src/main/java/org/cytoscape/zugzwang/internal/rendering/ZZRectangleManager.java:64-83 | the constructed pool has the given capacity and default texture, no live handle, all handles queued, nothing dirty, and device buffers equal to the host |
| RectangleManager.Resize | src/main/java/org/cytoscape/zugzwang/internal/rendering/ZZRectangleManager.java:91-139 | a resize to the current capacity changes nothing; otherwise every live handle keeps its slot and record, the device buffers are rebuilt from the host, and the handle range only grows |
| RectangleManager.Create | src/main/java/org/cytoscape/zugzwang/internal/rendering/ZZRectangleManager.java:236-255 | creation grows a full pool by half and hands out a handle that was not live, at the first unused slot; every other live handle keeps its record |
| RectangleManager.Delete | src/main/java/org/cytoscape/zugzwang/internal/rendering/ZZRectangleManager.java:265-309 | the pool's part of deletion leaves exactly the other handles live, each reading its old record; host and device stay mirrored; every dirty flag is raised; the pool shrinks exactly when fewer than half the slots are used |
| RectangleManager.MovedDownRecords | src/main/java/org/cytoscape/zugzwang/internal/rendering/ZZRectangleManager.java:265-304 | after the last slot's record is moved into the vacated slot, every surviving handle reads the record it had before |
| RectangleManager.MovedDownRecord | src/main/java/org/cytoscape/zugzwang/internal/rendering/ZZRectangleManager.java:265-304 | the same, for one surviving handle |
| RectangleManager.MovedRecordAt | src/main/java/org/cytoscape/zugzwang/internal/rendering/ZZRectangleManager.java:282-304 | after the move, the record of the last slot sits in the vacated slot and every other record is where it was |
| RectangleManager.SetPosition | src/main/java/org/cytoscape/zugzwang/internal/rendering/ZZRectangleManager.java:321-379 | `setPositionX/Y/Z` write the addressed coordinate of the handle's record in host and device, and raise the position flag only when the value changes; every other record and buffer is unchanged |
| RectangleManager.PositionWrittenRecords | src/main/java/org/cytoscape/zugzwang/internal/rendering/ZZRectangleManager.java:321-379 | after a coordinate write, the written handle reads the new coordinate and every other live handle its old record |
| RectangleManager.SetSize | src/main/java/org/cytoscape/zugzwang/internal/rendering/ZZRectangleManager.java:381-459 | `setSizeX/Y` and `setTextureSizeU/V` write the addressed size entry in host and device, raise the size flag only on a change, and touch nothing else |
| RectangleManager.SizeWrittenRecords | src/main/java/org/cytoscape/zugzwang/internal/rendering/ZZRectangleManager.java:381-459 | after a size write, the written handle reads the new entry and every other live handle its old record |
| RectangleManager.SetOffset | src/main/java/org/cytoscape/zugzwang/internal/rendering/ZZRectangleManager.java:461-499 | `setOffsetX/Y` write the addressed offset in host and device, raise the offset flag only on a change, and touch nothing else |
| RectangleManager.OffsetWrittenRecords | src/main/java/org/cytoscape/zugzwang/internal/rendering/ZZRectangleManager.java:461-499 | after an offset write, the written handle reads the new offset and every other live handle its old record |
| RectangleManager.SetTexture | src/main/java/org/cytoscape/zugzwang/internal/rendering/ZZRectangleManager.java:501-517 | `setTexture` changes the handle's texture on the host only, leaves the device texture buffer for the next flush, and raises the flag only on a change |
| RectangleManager.SetTextureToDefault | src/main/java/org/cytoscape/zugzwang/internal/rendering/ZZRectangleManager.java:519-543 | the handle's slot shows the default texture with the default dimensions; its geometry and every other slot are unchanged; the texture and size flags are raised |
| RectangleManager.DefaultSlot | src/main/java/org/cytoscape/zugzwang/internal/rendering/ZZRectangleManager.java:519-543 | writing a texture and its dimensions into one slot changes that slot's texture entries only |
| RectangleManager.SwitchDefaultTexture | src/main/java/org/cytoscape/zugzwang/internal/rendering/ZZRectangleManager.java:545-569 | every used slot that showed the old default texture shows the new one with its dimensions; other used slots, unused slots and the slot map are unchanged; the new default is adopted |
| RectangleManager.Flush | src/main/java/org/cytoscape/zugzwang/internal/rendering/ZZRectangleManager.java:571-631 | with no rectangles nothing happens; otherwise every dirty flag is cleared, and when textures were dirty the used prefix of the device texture buffer equals the host's |
| RectangleManager.SizeWithinCapacity | src/main/java/org/cytoscape/zugzwang/internal/rendering/ZZRectangleManager.java:633-646 | `size()` never exceeds `capacity()`, and every handle is either live or queued |
| LineManager.New | src/main/java/org/cytoscape/zugzwang/internal/rendering/ZZLineManager.java:41-59 | the constructed line pool has the given capacity and default texture, no live handle, all handles queued, nothing dirty |
| LineManager.Resize | src/main/java/org/cytoscape/zugzwang/internal/rendering/ZZLineManager.java:61-105 | the resize rule of the rectangle pool, with six position and six size entries per slot: live handles keep slot and record |
| LineManager.Create | src/main/java/org/cytoscape/zugzwang/internal/rendering/ZZLineManager.java:166-186 | creation grows a full pool by half and hands out a fresh handle at the first unused slot, keeping every other record |
| LineManager.Moved | src/main/java/org/cytoscape/zugzwang/internal/rendering/ZZLineManager.java:188-218 | the delete's move step releases the handle and moves the last record into the vacated slot; survivors read their old records; the device buffers receive the move only when asked to |
| LineManager.MovedDownRecords | src/main/java/org/cytoscape/zugzwang/internal/rendering/ZZLineManager.java:188-218 | after the move, every surviving handle reads the record it had before |
| LineManager.MovedDownRecord | src/main/java/org/cytoscape/zugzwang/internal/rendering/ZZLineManager.java:188-218 | the same, for one surviving handle |
| LineManager.MovedRecordAt | src/main/java/org/cytoscape/zugzwang/internal/rendering/ZZLineManager.java:203-218 | after the move, the last record sits in the vacated slot and every other record is where it was |
| LineManager.ShrinkIfSparse | src/main/java/org/cytoscape/zugzwang/internal/rendering/ZZLineManager.java:220-221 | the pool shrinks exactly when fewer than half the slots are used, keeping every live handle's record |
| LineManager.DeleteLineAsWritten | src/main/java/org/cytoscape/zugzwang/internal/rendering/ZZLineManager.java:188-225 | the pool's part of the delete as written leaves exactly the other handles live, each reading its old host record |
| LineManager.DeleteAsWrittenDiverges | src/main/java/org/cytoscape/zugzwang/internal/rendering/ZZLineManager.java:203-221 | when the moved record differs from the deleted one and no shrink follows, the delete as written leaves host and device out of step |
| LineManager.DeleteLine | src/main/java/org/cytoscape/zugzwang/internal/rendering/ZZLineManager.java:188-225 | the pool's part of the corrected delete keeps the survivors' records and the host/device mirror, raises every flag, and shrinks exactly when fewer than half the slots are used |
| LineManager.SetPosition | src/main/java/org/cytoscape/zugzwang/internal/rendering/ZZLineManager.java:230-294 | `setSourceX/Y/Z` and `setTargetX/Y/Z` write one coordinate in host and device and always raise the position flag, whether or not the value changed |
| LineManager.WithBoth | src/main/java/org/cytoscape/zugzwang/internal/rendering/ZZLineManager.java:296-333 | a two-vertex size write sets entry k and entry k + 3 and keeps every other entry of the record |
| LineManager.WriteBoth | src/main/java/org/cytoscape/zugzwang/internal/rendering/ZZLineManager.java:296-333 | a size write reaches both endpoint vertices of one slot and no other slot |
| LineManager.SetSizeBoth | src/main/java/org/cytoscape/zugzwang/internal/rendering/ZZLineManager.java:296-333 | `setWidth` and `setTextureSizeU/V` write the value at both vertices of the handle's slot only, and raise the size flag |
| LineManager.SetTexture | src/main/java/org/cytoscape/zugzwang/internal/rendering/ZZLineManager.java:335-343 | `setTexture` writes the host texture only and always raises the texture flag |
| LineManager.SetTextureToDefault | src/main/java/org/cytoscape/zugzwang/internal/rendering/ZZLineManager.java:345-364 | the slot shows the default texture with its dimensions at both vertices; width, positions and other slots are unchanged |
| LineManager.DefaultSlot | src/main/java/org/cytoscape/zugzwang/internal/rendering/ZZLineManager.java:345-364 | writing a texture and its dimensions into one slot changes that slot's texture entries only |
| LineManager.SwitchDefaultTexture | src/main/java/org/cytoscape/zugzwang/internal/rendering/ZZLineManager.java:366-391 | only used slots that showed the old default are switched to the new texture and dimensions; the new default is adopted |
| LineManager.Flush | src/main/java/org/cytoscape/zugzwang/internal/rendering/ZZLineManager.java:393-431 | with no lines nothing happens; otherwise every flag is cleared and dirty textures are re-uploaded for the used slots |
| MemoryLimit.TryGetMemory | src/main/java/org/cytoscape/zugzwang/internal/tools/GLMemoryLimit.java:26-39 | a request is admitted exactly when the free budget plus what the caller frees strictly exceeds it; an admission moves the counter by the difference and keeps it below the limit; a refusal changes nothing |
| MemoryLimit.FreeMemory | src/main/java/org/cytoscape/zugzwang/internal/tools/GLMemoryLimit.java:46-53 | freeing lowers the counter by the size, but never below zero |
| MemoryLimit.SetMaxMemory | src/main/java/org/cytoscape/zugzwang/internal/tools/GLMemoryLimit.java:80-86 | setting the limit replaces it and leaves the counter alone |
| MemoryLimit.AdmitThenFree | src/main/java/org/cytoscape/zugzwang/internal/tools/GLMemoryLimit.java:26-53 | admitting n fresh bytes and freeing them again restores the counter |
| MemoryLimit.LoweredLimitBreaksBound | src/main/java/org/cytoscape/zugzwang/internal/tools/GLMemoryLimit.java:80-86 | a limit set below current usage leaves the counter above the limit |
| MemoryLimit.OverLimitRefuses | src/main/java/org/cytoscape/zugzwang/internal/tools/GLMemoryLimit.java:26-39 | once usage is above the limit, nothing is admitted unless the caller frees at least the excess alongside |
| Primitives.JavaHalf | src/main/java/org/cytoscape/zugzwang/internal/rendering/ZZRectangle.java:286-292 | Java's `a / 2` rounds toward zero: for a non-negative a the result is the floor of a half, for a negative a the ceiling |
| Primitives.OccupiedMemory | src/main/java/org/cytoscape/zugzwang/internal/rendering/ZZRectangle.java:355-365 | a missing texture occupies no memory and a texture of non-negative dimensions a non-negative amount |
| Primitives.ZeroBytes | src/main/java/org/cytoscape/zugzwang/internal/rendering/ZZRectangle.java:112-128 | a fresh Java `byte[n]` has n entries, all zero |
| Rectangles.WriteCenter | src/main/java/org/cytoscape/zugzwang/internal/rendering/ZZRectangle.java:76-92 | the three position writes of `setCenter` put the centre into the handle's record and leave every other record as it was |
| Rectangles.WriteSizePair | src/main/java/org/cytoscape/zugzwang/internal/rendering/ZZRectangle.java:59-74 | the two size writes of `setSize` or `setTextureSize` set two adjacent size entries of the handle's record only |
| Rectangles.WriteOffset | src/main/java/org/cytoscape/zugzwang/internal/rendering/ZZRectangle.java:94-110 | the two writes of `setOffset` put the offset into the handle's record only |
| Rectangles.CreateAsWritten | src/main/java/org/cytoscape/zugzwang/internal/rendering/ZZRectangleManager.java:236-255 | with the constructor as written, size, centre and default texture reach the new slot, while the slot keeps the offset its previous occupant left |
| Rectangles.CreateAsWrittenLeaksOffset | src/main/java/org/cytoscape/zugzwang/internal/rendering/ZZRectangle.java:40-51 | when the reused slot's stale offset differs from the requested one, the new rectangle does not carry the requested offset |
| Rectangles.Create | src/main/java/org/cytoscape/zugzwang/internal/rendering/ZZRectangleManager.java:236-255 | the corrected creation returns a handle that agrees with its slot on centre, size, offset and the default texture; every other rectangle is unchanged; nothing is on the device yet |
| Rectangles.Construct | src/main/java/org/cytoscape/zugzwang/internal/rendering/ZZRectangle.java:40-51 | the corrected constructor body makes the slot agree with a fresh handle of the given geometry and shows the default texture |
| Rectangles.Place | src/main/java/org/cytoscape/zugzwang/internal/rendering/ZZRectangle.java:40-51 | the constructor's geometry writes put centre, size and offset into the slot and nothing else |
| Rectangles.DefaultTextureKeepsGeometry | src/main/java/org/cytoscape/zugzwang/internal/rendering/ZZRectangleManager.java:519-543 | `setTextureToDefault` keeps the slot's position, size and offset and every other slot |
| Rectangles.SetSize | src/main/java/org/cytoscape/zugzwang/internal/rendering/ZZRectangle.java:59-74 | `setSize` changes the handle's size and the slot's size entries, keeps every other slot, and keeps handle and slot in agreement |
| Rectangles.SetCenter | src/main/java/org/cytoscape/zugzwang/internal/rendering/ZZRectangle.java:76-92 | `setCenter` changes the handle's centre and the slot's position, keeps every other slot, and keeps handle and slot in agreement |
| Rectangles.SetOffset | src/main/java/org/cytoscape/zugzwang/internal/rendering/ZZRectangle.java:94-110 | `setOffset` changes the handle's offset and the slot's offset entries, keeps every other slot, and keeps handle and slot in agreement |
| Rectangles.SetTextureSize | src/main/java/org/cytoscape/zugzwang/internal/rendering/ZZRectangle.java:112-128 | `setTextureSize` gives the handle a zeroed host texture of four bytes per texel and forwards the dimensions to the slot, for any sizes whose byte count is a non-negative `int`, negative sizes included |
| Rectangles.SetTexture | src/main/java/org/cytoscape/zugzwang/internal/rendering/ZZRectangle.java:174-190 | `setTexture` stores the caller's data and dimensions on the handle and forwards the dimensions to the slot |
| Rectangles.PutOnDevice | src/main/java/org/cytoscape/zugzwang/internal/rendering/ZZRectangle.java:216-232 | `putOnDevice` disposes the texture held before, uploads one of the current texture dimensions, points the slot at it, and then occupies four bytes per texel |
| Rectangles.DiscardOnDevice | src/main/java/org/cytoscape/zugzwang/internal/rendering/ZZRectangle.java:234-252 | `discardOnDevice` does nothing without a texture; otherwise it disposes the texture and the slot reverts to the default texture and its dimensions |
| Rectangles.BoundsSpanSize | src/main/java/org/cytoscape/zugzwang/internal/rendering/ZZRectangle.java:286-292 | for non-negative dimensions `getBounds2D` encloses the centre and spans exactly the width and height, despite the truncating halves |
| Rectangles.HalvesAddUp | src/main/java/org/cytoscape/zugzwang/internal/rendering/ZZRectangle.java:286-292 | `a / 2 + (a + 1) / 2 == a` for a non-negative Java int |
| Rectangles.OccupiedTextureMemory | src/main/java/org/cytoscape/zugzwang/internal/rendering/ZZRectangle.java:355-365 | `getOccupiedTextureMemory` is four bytes per texel of the device texture, and 0 without one |
| Rectangles.Dispose | src/main/java/org/cytoscape/zugzwang/internal/rendering/ZZRectangle.java:371-378 | `dispose` releases the texture if there is one and leaves the rectangle without a texture |
| Rectangles.DeleteRectangle | src/main/java/org/cytoscape/zugzwang/internal/rendering/ZZRectangleManager.java:265-313 | `deleteRectangle` as a whole releases exactly the texture the rectangle held and leaves it off the device; the other handles stay live with their records and the mirror is kept |
| Rectangles.CreateThenDelete | src/main/java/org/cytoscape/zugzwang/internal/rendering/ZZRectangleManager.java:236-313 | creating a rectangle and deleting it again releases no texture and leaves the same live handles with the same records |
| Rectangles.UploadThenDelete | src/main/java/org/cytoscape/zugzwang/internal/rendering/ZZRectangleManager.java:311 | deleting a rectangle whose texture was just uploaded releases exactly that texture |
| Rectangles.DisposeIdempotent | src/main/java/org/cytoscape/zugzwang/internal/rendering/ZZRectangle.java:371-378 | a second `dispose` releases nothing and changes nothing |
| Lines.WritePoint | src/main/java/org/cytoscape/zugzwang/internal/rendering/ZZLine.java:45-67 | three consecutive position writes set the source (or the target) coordinates of the handle's record and nothing else |
| Lines.Construct | src/main/java/org/cytoscape/zugzwang/internal/rendering/ZZLine.java:24-33 | the constructor body makes the slot agree with a fresh line of the given endpoints and width, showing the default texture |
| Lines.Place | src/main/java/org/cytoscape/zugzwang/internal/rendering/ZZLine.java:24-32 | width, source and target writes make the slot agree with a fresh line |
| Lines.Create | src/main/java/org/cytoscape/zugzwang/internal/rendering/ZZLineManager.java:166-186 | `createLine` returns a handle that agrees with its slot, with the default texture; every other line is unchanged |
| Lines.SetWidth | src/main/java/org/cytoscape/zugzwang/internal/rendering/ZZLine.java:35-43 | `setWidth` changes the line's width at both vertices of its slot only |
| Lines.SetSource | src/main/java/org/cytoscape/zugzwang/internal/rendering/ZZLine.java:45-55 | `setSource` forwards all three coordinates to the source half of the slot and leaves the target half alone |
| Lines.SetTarget | src/main/java/org/cytoscape/zugzwang/internal/rendering/ZZLine.java:57-67 | `setTarget` forwards all three coordinates to the target half of the slot and leaves the source half alone |
| Lines.WriteTextureSize | src/main/java/org/cytoscape/zugzwang/internal/rendering/ZZLine.java:69-80 | texture dimensions reach both vertices of the slot; width, positions and texture are unchanged |
| Lines.SetTextureSize | src/main/java/org/cytoscape/zugzwang/internal/rendering/ZZLine.java:69-80 | `setTextureSize` gives the line a zeroed host texture of four bytes per texel and forwards the dimensions to both vertices, for any sizes whose byte count is a non-negative `int` |
| Lines.SetTexture | src/main/java/org/cytoscape/zugzwang/internal/rendering/ZZLine.java:102-113 | `setTexture` stores the caller's data and forwards the dimensions to both vertices |
| Lines.PutOnDevice | src/main/java/org/cytoscape/zugzwang/internal/rendering/ZZLine.java:120-131 | `putOnDevice` disposes the previous texture, uploads the current one and points the slot at it |
| Lines.DiscardOnDevice | src/main/java/org/cytoscape/zugzwang/internal/rendering/ZZLine.java:133-145 | `discardOnDevice` does nothing without a texture; otherwise it disposes it and the slot reverts to the default texture |
| Lines.Corners | src/main/java/org/cytoscape/zugzwang/internal/rendering/ZZLine.java:147-154 | `getCorners` is a single zero vector, whatever the view |
| Lines.Dispose | src/main/java/org/cytoscape/zugzwang/internal/rendering/ZZLine.java:161-168 | `dispose` releases the texture if there is one |
| Lines.DisposeIdempotent | src/main/java/org/cytoscape/zugzwang/internal/rendering/ZZLine.java:161-168 | a second `dispose` releases nothing and changes nothing |
| Lines.DeleteLineAsWritten | src/main/java/org/cytoscape/zugzwang/internal/rendering/ZZLineManager.java:188-228 | `deleteLine` as written releases exactly the texture the line held and leaves it off the device; the other handles stay live with their host records |
| Lines.DeleteLine | src/main/java/org/cytoscape/zugzwang/internal/rendering/ZZLineManager.java:188-228 | the corrected `deleteLine` releases exactly the line's texture, keeps the other handles' records and keeps the mirror |
| Lines.CreateThenDelete | src/main/java/org/cytoscape/zugzwang/internal/rendering/ZZLineManager.java:166-228 | creating a line and deleting it again releases no texture and leaves the same live handles with the same records |
| Lines.UploadThenDelete | src/main/java/org/cytoscape/zugzwang/internal/rendering/ZZLineManager.java:227 | deleting a line whose texture was just uploaded releases exactly that texture, with either pool delete |
| Lines.PutThenDiscard | src/main/java/org/cytoscape/zugzwang/internal/rendering/ZZLine.java:120-145 | uploading a texture and discarding it disposes exactly that texture and leaves the slot showing the default again |
| AnimatedStrokes.PhaseIsFractionOfPeriod | src/main/java/org/cytoscape/zugzwang/internal/strokes/AnimatedDashDotStroke.java:11-25 | each pattern's phase factor is the length of one period at width 1, so the offset is a fraction of a period |
| AnimatedStrokes.WidthOnly | src/main/java/org/cytoscape/zugzwang/internal/strokes/AnimatedLongDashStroke.java:11-16 | the width-only constructor gives the style's dash pattern scaled by the width, offset -1 and phase 0 |
| AnimatedStrokes.WithOffset | src/main/java/org/cytoscape/zugzwang/internal/strokes/AnimatedLongDashStroke.java:18-23 | the offset constructor shifts the pattern by `offset` periods |
| AnimatedStrokes.NewInstanceForWidth | src/main/java/org/cytoscape/zugzwang/internal/strokes/AnimatedLongDashStroke.java:25-31 | a resized stroke keeps a non-negative offset, and falls back to the width-only stroke for a negative one, in all three classes alike |
| AnimatedStrokes.NextOffset | src/main/java/org/cytoscape/zugzwang/internal/strokes/AnimatedLongDashStroke.java:33-41 | a step moves the offset back a quarter, wrapping below zero to 0.75; from an offset of at most 1 it lands in [0, 0.75] |
| AnimatedStrokes.ResizeAndStepCommute | src/main/java/org/cytoscape/zugzwang/internal/strokes/AnimatedLongDashStroke.java:25-41 | changing the width and stepping the animation can be done in either order |
| AnimatedStrokes.CycleOfFour | src/main/java/org/cytoscape/zugzwang/internal/strokes/AnimatedLongDashStroke.java:33-41 | from an offset on the cycle the animation stays on it and first returns after exactly four steps |
| AnimatedStrokes.StepsFromStart | src/main/java/org/cytoscape/zugzwang/internal/strokes/AnimatedLongDashStroke.java:11-41 | a stroke at offset -1 or 0 runs through 0.75, 0.5, 0.25, 0 forever, keeping its style and width |
| AnimatedStrokes.StepOnCycle | src/main/java/org/cytoscape/zugzwang/internal/strokes/AnimatedLongDashStroke.java:33-41 | one step moves one place along the cycle |
| LineTypes.GetZZLineType | src/main/java/org/cytoscape/zugzwang/internal/lines/ZZLineType.java:100-112 | the renderer's own type comes back unchanged; another renderer's type resolves by display name to the constant of that name, or to `SOLID` when the name is unknown |
| LineTypes.MapKeyedByDisplayName | src/main/java/org/cytoscape/zugzwang/internal/lines/ZZLineType.java:72-90 | every entry of the line-type table is filed under its own display name |
| LineTypes.NamesDistinct | src/main/java/org/cytoscape/zugzwang/internal/lines/ZZLineType.java:57-70 | no two constants share a display name or a serializable string |
| LineTypes.ForeignByDisplayName | src/main/java/org/cytoscape/zugzwang/internal/lines/ZZLineType.java:72-112 | a foreign type named like a constant resolves to that constant, except `ZIGZAG`, which the table leaves out and which resolves to `SOLID` |
| LineTypes.GetZZLineTypeIdempotent | src/main/java/org/cytoscape/zugzwang/internal/lines/ZZLineType.java:100-112 | resolving a resolved type changes nothing |
| LineTypes.NewInstanceForWidth | src/main/java/org/cytoscape/zugzwang/internal/strokes/SolidStroke.java:17-20 | a stroke resized to w has width w and the same pattern; a marquee stroke keeps a non-negative step |
| LineTypes.GetStroke | src/main/java/org/cytoscape/zugzwang/internal/lines/ZZLineType.java:147-153 | `getStroke` gives a zero stroke exactly for a width that is not positive, and otherwise the type's pattern at that width |
| LineTypes.MarqueeStartsCycle | src/main/java/org/cytoscape/zugzwang/internal/lines/ZZLineType.java:66-70 | a marquee line type drawn at a positive width starts at offset 0 and runs through the four-step cycle from the first step |
| Anchors.ComputeAnchorAsWritten | src/main/java/org/cytoscape/zugzwang/internal/visualproperties/Anchor.java:86-142 | the code as written yields a point exactly for the anchors 0 to 8 |
| Anchors.ComputeAnchor | src/main/java/org/cytoscape/zugzwang/internal/visualproperties/Anchor.java:86-142 | the corrected computation yields a point exactly for the anchors 0 to 8 |
| Anchors.CompassCovers | src/main/java/org/cytoscape/zugzwang/internal/visualproperties/Anchor.java:11-65 | the nine anchors are the nine (row, column) compass pairs, each once |
| Anchors.ComputeAnchorMatchesCompass | src/main/java/org/cytoscape/zugzwang/internal/visualproperties/Anchor.java:86-142 | every anchor picks, along each axis, the side of the box its compass direction names |
| Anchors.ComputeAnchorInBox | src/main/java/org/cytoscape/zugzwang/internal/visualproperties/Anchor.java:86-142 | for a box with its corners in order, every anchor point lies in the box |
| Anchors.MirrorAnchor | src/main/java/org/cytoscape/zugzwang/internal/visualproperties/Anchor.java:11-65 | mirroring an anchor flips its column and keeps its row |
| Anchors.ComputeAnchorMirrors | src/main/java/org/cytoscape/zugzwang/internal/visualproperties/Anchor.java:86-142 | mirroring the box left to right mirrors the anchor point with it |
| Anchors.AsWrittenDiffersOnlyAtEast | src/main/java/org/cytoscape/zugzwang/internal/visualproperties/Anchor.java:86-142 | the code as written and the corrected computation agree at every anchor but `EAST` |
| Anchors.EastLeavesBox | src/main/java/org/cytoscape/zugzwang/internal/visualproperties/Anchor.java:107-110 | as written, `EAST` of the box from (0, 0) to (1, 5) lies at x = 5, outside the box |
| Justifications.ConversionConstants | src/main/java/org/cytoscape/zugzwang/internal/visualproperties/Justification.java:6-8 | the conversion constants are 64, 65 and 66, one per value |
| Justifications.ValuesComplete | src/main/java/org/cytoscape/zugzwang/internal/visualproperties/Justification.java:6-8 | `values()` lists every justification exactly once |
| Justifications.ParseFrom | src/main/java/org/cytoscape/zugzwang/internal/visualproperties/Justification.java:39-46 | the loop of `parse` finds the first value whose name or short name matches, and nothing exactly when none matches |
| Justifications.Parse | src/main/java/org/cytoscape/zugzwang/internal/visualproperties/Justification.java:39-46 | `parse` gives nothing for `null` and otherwise only a value whose name or short name is the string |
| Justifications.NamesUnambiguous | src/main/java/org/cytoscape/zugzwang/internal/visualproperties/Justification.java:6-8 | no string is a name or short name of two values |
| Justifications.ParseIff | src/main/java/org/cytoscape/zugzwang/internal/visualproperties/Justification.java:39-46 | `parse` finds a value exactly when the string is its name or its short name |
| Justifications.ParseRoundTrip | src/main/java/org/cytoscape/zugzwang/internal/visualproperties/Justification.java:24-46 | both names of every value parse back to it |
| Justifications.NamesInOrder | src/main/java/org/cytoscape/zugzwang/internal/visualproperties/Justification.java:49-61 | the display names are listed in declaration order |
| Justifications.GetNames | src/main/java/org/cytoscape/zugzwang/internal/visualproperties/Justification.java:49-61 | `getNames` builds the list on the first call and returns the cached list afterwards |
| Justifications.GetNamesStable | src/main/java/org/cytoscape/zugzwang/internal/visualproperties/Justification.java:49-61 | from a valid cache every call returns the display names in order, later calls return the same, and each name parses back to its value |
| NodeShapes.Shape | src/main/java/org/cytoscape/zugzwang/internal/nodeshape/ZZNodeShape.java:41-51 | each shape constant has its native id and copies the display name and serializable string of the standard shape it stands for |
| NodeShapes.GetZZShape | src/main/java/org/cytoscape/zugzwang/internal/nodeshape/ZZNodeShape.java:68-73 | a standard shape resolves to the renderer's shape of the same kind, `VEE` to itself, and anything else to `RECTANGLE` |
| NodeShapes.StandardKeepsNames | src/main/java/org/cytoscape/zugzwang/internal/nodeshape/ZZNodeShape.java:53-73 | a standard shape comes back under its own display name and serializable string |
| NodeShapes.VeeFacts | src/main/java/org/cytoscape/zugzwang/internal/nodeshape/ZZNodeShape.java:51 | `VEE` resolves to itself, is shown as "V", is saved as "VEE", and has the largest native id |
| NodeShapes.OwnShapesFallBack | src/main/java/org/cytoscape/zugzwang/internal/nodeshape/ZZNodeShape.java:53-73 | because the table is keyed by identity, the renderer's own constants other than `VEE` resolve to `RECTANGLE` |
| NodeShapes.NativeIdsDistinct | src/main/java/org/cytoscape/zugzwang/internal/nodeshape/RendererNodeShape.java:44-52 | different shapes have different native ids, all in 0 to 8 |
| NodeShapes.KindOfId | src/main/java/org/cytoscape/zugzwang/internal/nodeshape/RendererNodeShape.java:44-52 | every native id 0 to 8 names a shape with that id |
| NodeShapes.NativeIdRoundTrip | src/main/java/org/cytoscape/zugzwang/internal/nodeshape/RendererNodeShape.java:44-52 | shape to id to shape is the identity |
| NodeShapes.RegistryCoversShapes | src/main/java/org/cytoscape/zugzwang/internal/nodeshape/RendererNodeShape.java:56-109 | every outline is registered under its own id, the ids are exactly 0 to 8, and every shape `getZZShape` returns has its own outline registered, so `getShape` never returns `null` |
| EdgeViews.Setup | src/main/java/org/cytoscape/zugzwang/internal/viewmodel/ZZEdgeView.java:86-106 | a visible view without a line gets a fresh one and asks for a shape redraw; a hidden view with a line deletes it from the pool; a view whose line already matches its visibility is unchanged |
| EdgeViews.New | src/main/java/org/cytoscape/zugzwang/internal/viewmodel/ZZEdgeView.java:54-81 | the constructor takes visibility, selection and width from the resolved properties and holds a line exactly when visible; every existing line keeps its record |
| EdgeViews.SetVisible | src/main/java/org/cytoscape/zugzwang/internal/viewmodel/ZZEdgeView.java:184-195 | after `setVisible` the view holds a line exactly when visible; an unchanged value changes nothing |
| EdgeViews.SetSourcePosition | src/main/java/org/cytoscape/zugzwang/internal/viewmodel/ZZEdgeView.java:250-266 | a different source position is stored and forwarded to the line, whose record alone changes; an equal one changes nothing (positions compared by value) |
| EdgeViews.SetTargetPosition | src/main/java/org/cytoscape/zugzwang/internal/viewmodel/ZZEdgeView.java:317-333 | a different target position is stored and forwarded to the line, whose record alone changes; an equal one changes nothing (positions compared by value) |
| EdgeViews.WithAxis | src/main/java/org/cytoscape/zugzwang/internal/viewmodel/ZZEdgeView.java:201-248 | a single-coordinate setter replaces exactly the x, y or z coordinate of a point |
| EdgeViews.SetSourceAxis | src/main/java/org/cytoscape/zugzwang/internal/viewmodel/ZZEdgeView.java:201-248 | `setSourceX/Y/Z` replace one source coordinate and keep the target; an unchanged coordinate changes nothing |
| EdgeViews.SetTargetAxis | src/main/java/org/cytoscape/zugzwang/internal/viewmodel/ZZEdgeView.java:268-315 | `setTargetX/Y/Z` replace one target coordinate and keep the source; an unchanged coordinate changes nothing |
| EdgeViews.SetWidth | src/main/java/org/cytoscape/zugzwang/internal/viewmodel/ZZEdgeView.java:335-346 | a new width is copied locally and reaches the line's slot; an unchanged width changes nothing |
| EdgeViews.ApplyAsWritten | src/main/java/org/cytoscape/zugzwang/internal/viewmodel/ZZEdgeView.java:160-177 | as written, selection is ignored, visibility follows the node visibility property, the width is forwarded, and any other property changes nothing |
| EdgeViews.EdgeVisibilityIgnored | src/main/java/org/cytoscape/zugzwang/internal/viewmodel/ZZEdgeView.java:167-170 | as written, setting the edge's own visibility property to false leaves its line in the pool |
| EdgeViews.Apply | src/main/java/org/cytoscape/zugzwang/internal/viewmodel/ZZEdgeView.java:160-177 | corrected: the edge's own visibility property sets visibility and the line follows it; width is forwarded; other properties change nothing |
| EdgeViews.HideThenShow | src/main/java/org/cytoscape/zugzwang/internal/viewmodel/ZZEdgeView.java:86-106 | hiding and showing again gives a fresh line, marked for drawing, with the old endpoints and width |
| EdgeViews.WantsStateUpdate | src/main/java/org/cytoscape/zugzwang/internal/viewmodel/ZZEdgeView.java:379-386 | the edge view's frame stages never ask for texture work |
| EdgeViews.Dispose | src/main/java/org/cytoscape/zugzwang/internal/viewmodel/ZZEdgeView.java:364-371 | `dispose` returns a device texture's bytes to the memory counter and discards it; without one nothing changes |
| ViewLocks.GetVisualProperty | src/main/java/org/cytoscape/zugzwang/internal/viewmodel/ZZView.java:86-110 | the getter returns the direct lock if it holds a value, and otherwise the first non-null of the inherited lock, the regular value and the vault default, or else the property's default |
| ViewLocks.SetVisualProperty | src/main/java/org/cytoscape/zugzwang/internal/viewmodel/ZZView.java:120-141 | `null` removes the regular value and anything else stores it, leaving other properties and the locks alone; the value is applied exactly when the property is not a selection property and not locked |
| ViewLocks.SetThenGet | src/main/java/org/cytoscape/zugzwang/internal/viewmodel/ZZView.java:86-141 | on an unlocked property the getter returns the value just set, or the defaults after setting `null` |
| ViewLocks.LockHidesRegularValue | src/main/java/org/cytoscape/zugzwang/internal/viewmodel/ZZView.java:86-141 | a regular value never shows through a lock and is not applied |
| ViewLocks.Inherit | src/main/java/org/cytoscape/zugzwang/internal/viewmodel/ZZView.java:169-184 | the walk locks every marked property to the value and keeps every other entry |
| ViewLocks.LockedEffect | src/main/java/org/cytoscape/zugzwang/internal/viewmodel/ZZView.java:153-188 | `setLockedValue` sets the property's direct and inherited locks, adds inherited locks of the same value class only, leaves regular values alone, and keeps the lock maps coherent |
| ViewLocks.SetLockedValue | src/main/java/org/cytoscape/zugzwang/internal/viewmodel/ZZView.java:153-188 | the breadth-first walk locks exactly the reachable properties of the same class below the property, stopping at directly locked ones |
| ViewLocks.ClearValueLock | src/main/java/org/cytoscape/zugzwang/internal/viewmodel/ZZView.java:209-249 | the breadth-first release removes exactly the inherited locks the walk reaches |
| ViewLocks.ClearedEffect | src/main/java/org/cytoscape/zugzwang/internal/viewmodel/ZZView.java:209-249 | after `clearValueLock` the property is in neither lock map, other direct locks and the regular values are untouched, and coherence is kept |
| ViewLocks.LockThenClearShowsRegular | src/main/java/org/cytoscape/zugzwang/internal/viewmodel/ZZView.java:86-249 | locking a property that had no lock and releasing it makes the getter show what it showed before |
| ViewLocks.StaleInheritedLock | src/main/java/org/cytoscape/zugzwang/internal/viewmodel/ZZView.java:169-183 | with a property of another class between two of the same class, the release stops where the lock walk went through, so the inner property keeps a stale inherited lock the getter still returns |
| ViewLocks.ClearValueLockCorrected | src/main/java/org/cytoscape/zugzwang/internal/viewmodel/ZZView.java:209-249 | the corrected release walks through properties of another class, as the lock walk does, and removes the inherited locks it reaches |
| ViewLocks.ClearedCorrectedEffect | src/main/java/org/cytoscape/zugzwang/internal/viewmodel/ZZView.java:209-249 | the corrected release removes the property's locks, leaves other direct locks and the regular values alone, and keeps coherence |
| ViewLocks.LockThenClearRestores | src/main/java/org/cytoscape/zugzwang/internal/viewmodel/ZZView.java:153-249 | locking a property whose subtree held no locks of its class and releasing it with the corrected walk restores the view exactly |
| ViewLocks.LockThenClearAsWrittenDiffers | src/main/java/org/cytoscape/zugzwang/internal/viewmodel/ZZView.java:209-249 | on the sandwich tree the release as written does not restore the unlocked view, while the corrected release does |
| ViewLocks.IsSet | src/main/java/org/cytoscape/zugzwang/internal/viewmodel/ZZView.java:258-264 | a property that is not set shows its own default; a set unlocked property without a regular value shows the vault default |
| ViewLocks.ClearVisualProperties | src/main/java/org/cytoscape/zugzwang/internal/viewmodel/ZZView.java:284-301 | only the regular values of properties that ignore defaults remain, unchanged; the locks stay |
| ViewLocks.ClearedPropertyShowsDefault | src/main/java/org/cytoscape/zugzwang/internal/viewmodel/ZZView.java:284-301 | after clearing, an unlocked property that honours defaults shows its default again |
| LegacyViewLocks.DirectlyLocked | src/main/java/org/cytoscape/zugzwang/internal/cytoscape/view/ZZView.java:200-203 | the older class counts a direct lock only when it holds a non-null value |
| LegacyViewLocks.SetVisualPropertyLegacy | src/main/java/org/cytoscape/zugzwang/internal/cytoscape/view/ZZView.java:74-95 | the older setter stores the value as the newer one does, and applies it unless the property is a selection property or locked with a non-null value |
| LegacyViewLocks.SetLockedValueLegacy | src/main/java/org/cytoscape/zugzwang/internal/cytoscape/view/ZZView.java:98-139 | the older lock walk locks exactly the same properties as the newer one |
| LegacyViewLocks.NullLockCountsAsUnlocked | src/main/java/org/cytoscape/zugzwang/internal/cytoscape/view/ZZView.java:142-145 | a lock holding `null` is stored, yet a regular value set afterwards is applied in the older class and not in the newer one |
| LegacyViewLocks.LockedLegacyCoherent | src/main/java/org/cytoscape/zugzwang/internal/cytoscape/view/ZZView.java:98-139 | locking keeps every counted direct lock mirrored in the inherited-lock map |
| LegacyViewLocks.ClearValueLockLegacy | src/main/java/org/cytoscape/zugzwang/internal/cytoscape/view/ZZView.java:149-187 | the older release queues every child twice, so its walk reaches every property below the root |
| LegacyViewLocks.DirectLockLosesEntry | src/main/java/org/cytoscape/zugzwang/internal/cytoscape/view/ZZView.java:159-182 | releasing a parent drops a directly locked child's inherited-lock entry; the view becomes incoherent and a regular value set on the child is applied over its direct lock |
| LegacyViewLocks.ClearValueLockLegacyCorrected | src/main/java/org/cytoscape/zugzwang/internal/cytoscape/view/ZZView.java:149-187 | the corrected older release queues only the children that are not directly locked |
| LegacyViewLocks.ClearedLegacyCorrectedCoherent | src/main/java/org/cytoscape/zugzwang/internal/cytoscape/view/ZZView.java:149-187 | the corrected older release removes the property's locks and keeps the view coherent |
| LegacyViewLocks.CorrectedKeepsChildLock | src/main/java/org/cytoscape/zugzwang/internal/cytoscape/view/ZZView.java:178-182 | on the family tree the corrected older release keeps the child's lock and changes nothing else |
| LexiconTree.Reach | src/main/java/org/cytoscape/zugzwang/internal/viewmodel/ZZView.java:166-184 | a walk visits only properties it is allowed to enter |
| LexiconTree.Unstopped | src/main/java/org/cytoscape/zugzwang/internal/viewmodel/ZZView.java:241-244 | the filtered child list keeps, in order, exactly the children that are not directly locked |
| LexiconTree.ReachAppend | src/main/java/org/cytoscape/zugzwang/internal/viewmodel/ZZView.java:166-184 | a walk over a concatenated queue visits what the walks over the parts visit |
| LexiconTree.UnstoppedReach | src/main/java/org/cytoscape/zugzwang/internal/cytoscape/view/ZZView.java:178-182 | dropping the directly locked children before queueing changes neither what a walk stopping at them visits nor adds weight |
| LexiconTree.ReachAntitone | src/main/java/org/cytoscape/zugzwang/internal/viewmodel/ZZView.java:174-183 | more stopping properties means fewer visits |
| LexiconTree.ReachOfKind | src/main/java/org/cytoscape/zugzwang/internal/viewmodel/ZZView.java:176-180 | a walk restricted to one value class visits part of what the unrestricted walk visits |
| LexiconTree.Walk | src/main/java/org/cytoscape/zugzwang/internal/viewmodel/ZZView.java:166-184 | the queue-driven walk visits exactly the set `Reach` defines |
| LexiconTree.WalkAll | src/main/java/org/cytoscape/zugzwang/internal/cytoscape/view/ZZView.java:156-183 | the older release walk, queueing children both filtered and unfiltered, visits every property below the roots |
| VisualLexicon.Zip | src/main/java/org/cytoscape/zugzwang/internal/viewmodel/ZZVisualLexicon.java:141-169 | a table built with one `put` per index holds exactly the listed keys, each mapped to the entry at the same index |
| VisualLexicon.ZipInverse | src/main/java/org/cytoscape/zugzwang/internal/viewmodel/ZZVisualLexicon.java:141-169 | zipping the lists the other way round undoes the table |
| VisualLexicon.Tables | src/main/java/org/cytoscape/zugzwang/internal/viewmodel/ZZVisualLexicon.java:111-139 | each list holds its kind of property numbered by position, 1 to 9, with no repeats |
| VisualLexicon.ListsAligned | src/main/java/org/cytoscape/zugzwang/internal/viewmodel/ZZVisualLexicon.java:46 | the three lists have one entry per custom-graphics layer, the count the node view uses |
| VisualLexicon.AssociatedSize | src/main/java/org/cytoscape/zugzwang/internal/viewmodel/ZZVisualLexicon.java:302-305 | `getAssociatedCGSizeVP` gives the size property of the same number, and `null` off the table |
| VisualLexicon.AssociatedPosition | src/main/java/org/cytoscape/zugzwang/internal/viewmodel/ZZVisualLexicon.java:307-310 | `getAssociatedCGPositionVP` gives the position property of the same number, and `null` off the table |
| VisualLexicon.AssociatedCustomGraphics | src/main/java/org/cytoscape/zugzwang/internal/viewmodel/ZZVisualLexicon.java:313-316 | `getAssociatedCGVisualProperties` gives the custom-graphics property of a size property, and `null` off the table |
| VisualLexicon.SizeTableInverse | src/main/java/org/cytoscape/zugzwang/internal/viewmodel/ZZVisualLexicon.java:141-169 | the size-to-graphics table and the graphics-to-size table are exact inverses |
| VisualLexicon.SizeTableKeys | src/main/java/org/cytoscape/zugzwang/internal/viewmodel/ZZVisualLexicon.java:141-169 | the keys of each table are the values of the other |
| VisualLexicon.ZipKeysValues | src/main/java/org/cytoscape/zugzwang/internal/viewmodel/ZZVisualLexicon.java:161-169 | the keys of a reversed table are the values of the table |
| VisualLexicon.CgToSizeInverse | src/main/java/org/cytoscape/zugzwang/internal/viewmodel/ZZVisualLexicon.java:141-169 | looking up a graphics property's size property and going back gives the graphics property |
| VisualLexicon.SizeToCgInverse | src/main/java/org/cytoscape/zugzwang/internal/viewmodel/ZZVisualLexicon.java:141-169 | looking up a size property's graphics property and going back gives the size property |
| VisualLexicon.IsSupported | src/main/java/org/cytoscape/zugzwang/internal/viewmodel/ZZVisualLexicon.java:259-262 | `isSupported` is false for the unsupported set and otherwise the base lexicon's answer |
| VisualLexicon.CustomGraphicsSupported | src/main/java/org/cytoscape/zugzwang/internal/viewmodel/ZZVisualLexicon.java:197-208 | no custom-graphics, size or position property is in the unsupported set |
| NetworkViews.Adjacent | src/main/java/org/cytoscape/zugzwang/internal/viewmodel/ZZNetworkView.java:195-207 | exactly the edges leaving (or entering) the node that already have views |
| NetworkViews.AttachAll | src/main/java/org/cytoscape/zugzwang/internal/viewmodel/ZZNetworkView.java:195-207 | attaching a sequence of edges lists each once, keeps the existing list as a prefix, and adds nothing else |
| NetworkViews.AddNodeView | src/main/java/org/cytoscape/zugzwang/internal/viewmodel/ZZNetworkView.java:185-211 | an existing node view is left alone; a new one lists exactly the registered outgoing and incoming edge views, no other entry changes, and the registry stays linked |
| NetworkViews.NewEntryLinked | src/main/java/org/cytoscape/zugzwang/internal/viewmodel/ZZNetworkView.java:192-207 | a fresh node entry lists exactly the registered edges at that end and is consistent with the edge map |
| NetworkViews.InsertLinked | src/main/java/org/cytoscape/zugzwang/internal/viewmodel/ZZNetworkView.java:193 | storing a linked entry keeps the whole registry linked |
| NetworkViews.RemoveNodeView | src/main/java/org/cytoscape/zugzwang/internal/viewmodel/ZZNetworkView.java:219-232 | only that node's entry disappears; edge views, other entries and defaults are untouched and the registry stays linked |
| NetworkViews.UpdateEntry | src/main/java/org/cytoscape/zugzwang/internal/viewmodel/ZZNetworkView.java:249-255 | only the named node's outgoing or incoming list changes, by one add or one remove |
| NetworkViews.AddEdgeView | src/main/java/org/cytoscape/zugzwang/internal/viewmodel/ZZNetworkView.java:239-259 | a new edge view is registered and listed at its source as outgoing and at its target as incoming when those have views; nodes at neither end are untouched |
| NetworkViews.Attach | src/main/java/org/cytoscape/zugzwang/internal/viewmodel/ZZNetworkView.java:246-255 | registering an edge lists it at both ends and changes no other node |
| NetworkViews.AttachLinked | src/main/java/org/cytoscape/zugzwang/internal/viewmodel/ZZNetworkView.java:246-255 | attaching keeps the registry linked |
| NetworkViews.WithoutLinked | src/main/java/org/cytoscape/zugzwang/internal/viewmodel/ZZNetworkView.java:275-281 | a node entry without the edge no longer names it and stays linked once the edge is gone |
| NetworkViews.Detach | src/main/java/org/cytoscape/zugzwang/internal/viewmodel/ZZNetworkView.java:275-281 | detaching changes only the node lists, each by removing the edge |
| NetworkViews.DetachLinked | src/main/java/org/cytoscape/zugzwang/internal/viewmodel/ZZNetworkView.java:275-283 | after detaching no list names the edge, so the registry stays linked with or without the edge's view |
| NetworkViews.RemoveEdgeViewAsWritten | src/main/java/org/cytoscape/zugzwang/internal/viewmodel/ZZNetworkView.java:267-288 | as written: the edge leaves both node lists, yet the edge map still holds its view because the removal targets the node map |
| NetworkViews.RemovedEdgeViewStays | src/main/java/org/cytoscape/zugzwang/internal/viewmodel/ZZNetworkView.java:284 | the edge view survives its own removal |
| NetworkViews.RemoveEdgeView | src/main/java/org/cytoscape/zugzwang/internal/viewmodel/ZZNetworkView.java:267-288 | corrected: the edge map loses exactly that key, node keys and defaults stay, the registry stays linked |
| NetworkViews.AddThenRemoveEdge | src/main/java/org/cytoscape/zugzwang/internal/viewmodel/ZZNetworkView.java:239-288 | adding a new edge view and removing it again restores the registry exactly |
| NetworkViews.RemoveStaleNodes | src/main/java/org/cytoscape/zugzwang/internal/viewmodel/ZZNetworkView.java:154-164 | node views are kept exactly for the nodes still in the model, unchanged |
| NetworkViews.RemoveStaleEdgesAsWritten | src/main/java/org/cytoscape/zugzwang/internal/viewmodel/ZZNetworkView.java:158-166 | with the source's edge removal, no edge view is removed at all |
| NetworkViews.RemoveStaleEdges | src/main/java/org/cytoscape/zugzwang/internal/viewmodel/ZZNetworkView.java:158-166 | with the corrected removal, edge views are kept exactly for the edges still in the model |
| NetworkViews.AddNodes | src/main/java/org/cytoscape/zugzwang/internal/viewmodel/ZZNetworkView.java:168-169 | every model node gets a view and no edge view changes |
| NetworkViews.AddEdges | src/main/java/org/cytoscape/zugzwang/internal/viewmodel/ZZNetworkView.java:171-172 | every model edge gets a view and no node key changes |
| NetworkViews.SyncWithModelAsWritten | src/main/java/org/cytoscape/zugzwang/internal/viewmodel/ZZNetworkView.java:143-174 | as written: node views become exactly the model's nodes, but edge views are the old ones plus the model's |
| NetworkViews.SyncWithModel | src/main/java/org/cytoscape/zugzwang/internal/viewmodel/ZZNetworkView.java:143-174 | corrected: node and edge views become exactly the model's nodes and edges, and the registry is linked |
| NetworkViews.SetViewDefault | src/main/java/org/cytoscape/zugzwang/internal/viewmodel/ZZNetworkView.java:485-495 | the default is stored; the changed flag is raised exactly when the stored value was missing or different; an equal value changes nothing |
| NetworkViews.AfterStatePass | src/main/java/org/cytoscape/zugzwang/internal/viewmodel/ZZNetworkView.java:801 | after the state pass the changed flag is clear and nothing else moves |
| NetworkViews.SetViewDefaultIdempotent | src/main/java/org/cytoscape/zugzwang/internal/viewmodel/ZZNetworkView.java:485-495 | setting the same default twice is the same as once |
| NetworkViews.ClipRange | src/main/java/org/cytoscape/zugzwang/internal/viewmodel/ZZNetworkView.java:769-787 | the range is left alone exactly when no node is more than 0.1 in front; otherwise near is at least 0.1 and below every counted distance, and far is at least 2 beyond each |
| NetworkViews.Extremes | src/main/java/org/cytoscape/zugzwang/internal/viewmodel/ZZNetworkView.java:770-781 | the loop finds bounds around every distance beyond 0.1 and counts whether any exist; the far bound starts at 0.2 |
| NetworkViews.NextDownsampling | src/main/java/org/cytoscape/zugzwang/internal/viewmodel/ZZNetworkView.java:879-891 | above 90% use the factor shrinks and stays positive; between the two thresholds it holds; below the lower one it grows back while under 1; never above 1 |
| NetworkViews.PressureKeepsShrinking | src/main/java/org/cytoscape/zugzwang/internal/viewmodel/ZZNetworkView.java:881-882 | under any steady consumption above 90% the factor falls strictly at every frame and never reaches zero (over reals) |
| NetworkViews.ReliefGrows | src/main/java/org/cytoscape/zugzwang/internal/viewmodel/ZZNetworkView.java:883-885 | under steady consumption below `0.88 * 0.8 * 0.8` the factor never falls, never exceeds 1, and gains a quarter of its starting value per frame until it reaches 1 |
| NetworkViews.ReliefRestores | src/main/java/org/cytoscape/zugzwang/internal/viewmodel/ZZNetworkView.java:883-885 | corrected: once consumption stays below `0.88 * 0.8 * 0.8`, the factor is back at 1 after finitely many frames, from any positive factor |
| NetworkViews.ShrinkSubnormal | src/main/java/org/cytoscape/zugzwang/internal/viewmodel/ZZNetworkView.java:882 | as written, `globalDownsampling * 0.8f` for a subnormal factor is the exact product rounded to the nearest multiple of 2⁻¹⁴⁹ |
| NetworkViews.GrowSubnormal | src/main/java/org/cytoscape/zugzwang/internal/viewmodel/ZZNetworkView.java:884 | as written, `globalDownsampling / 0.8f` for a subnormal factor is the exact quotient rounded to the nearest multiple of 2⁻¹⁴⁹ |
| NetworkViews.ShrinkStopsAtTwo | src/main/java/org/cytoscape/zugzwang/internal/viewmodel/ZZNetworkView.java:881-882 | as written, under pressure a factor of three or more units of 2⁻¹⁴⁹ falls, and none falls below two units |
| NetworkViews.SubnormalFactorSticks | src/main/java/org/cytoscape/zugzwang/internal/viewmodel/ZZNetworkView.java:881-888 | as written, two units of 2⁻¹⁴⁹ is a fixed point of both float steps, so relief never raises the factor, where the rule over reals does |
| NodeViews.OccupiedNonNegative | src/main/java/org/cytoscape/zugzwang/internal/viewmodel/ZZNodeView.java:771-830 | the device bytes a node holds, and those marked for freeing, are never negative, and the freed part never exceeds what is held |
| NodeViews.DoomedCovered | src/main/java/org/cytoscape/zugzwang/internal/viewmodel/ZZNodeView.java:771-830 | what `updateResources` frees never exceeds what the parts hold plus what was admitted for them |
| NodeViews.SetupPart | src/main/java/org/cytoscape/zugzwang/internal/viewmodel/ZZNodeView.java:236-303 | a part ends with a rectangle exactly when wanted; a new one is 1×1 and REDRAW, a deleted one KEEP, an unchanged one untouched |
| NodeViews.SetupAll | src/main/java/org/cytoscape/zugzwang/internal/viewmodel/ZZNodeView.java:232-306 | each part follows `SetupPart`, and the counter drops by exactly the device bytes of the deleted rectangles |
| NodeViews.WantedAll | src/main/java/org/cytoscape/zugzwang/internal/viewmodel/ZZNodeView.java:236-293 | which parts a node wants: shape and label when visible, each custom graphics layer when visible and set |
| NodeViews.SetupRectangles | src/main/java/org/cytoscape/zugzwang/internal/viewmodel/ZZNodeView.java:232-306 | rectangles exist exactly for the wanted parts; new ones are REDRAW and off the device, deleted ones KEEP; the counter drops by exactly the freed bytes |
| NodeViews.MarkPart | src/main/java/org/cytoscape/zugzwang/internal/viewmodel/ZZNodeView.java:575-616 | off screen a device texture is marked DELETE; on screen a part is marked REDRAW when it has no texture (label: and has text) or either size is off by more than 1 |
| NodeViews.MeasureAll | src/main/java/org/cytoscape/zugzwang/internal/viewmodel/ZZNodeView.java:548-569 | optimum sizes are computed for the parts that had a rectangle, without touching rectangles or device bytes |
| NodeViews.MarkAll | src/main/java/org/cytoscape/zugzwang/internal/viewmodel/ZZNodeView.java:575-616 | every part marked as `MarkPart` says: off screen nothing on the device escapes DELETE, on screen no non-label rectangle without a texture escapes REDRAW |
| NodeViews.Prepare | src/main/java/org/cytoscape/zugzwang/internal/viewmodel/ZZNodeView.java:548-573 | the node is on screen when any part is in the frustum; parts are measured and then set up; the counter drops by exactly the freed bytes |
| NodeViews.UpdateState | src/main/java/org/cytoscape/zugzwang/internal/viewmodel/ZZNodeView.java:537-623 | setup, then marking as in `MarkAll`; the reported work is exactly whether the shape or the label is not KEEP |
| NodeViews.UpdateStateKeepsCounter | src/main/java/org/cytoscape/zugzwang/internal/viewmodel/ZZNodeView.java:537-623 | when every rectangle the node holds is still wanted, `updateState` deletes nothing and leaves the memory counter alone |
| NodeViews.UpdateStateKeepsCentered | src/main/java/org/cytoscape/zugzwang/internal/viewmodel/ZZNodeView.java:537-623 | every rectangle present after `updateState` sits at the node's position |
| NodeViews.SameTextures | src/main/java/org/cytoscape/zugzwang/internal/viewmodel/ZZNodeView.java:771-830 | parts with the same device textures hold the same device bytes |
| NodeViews.RedrawPart | src/main/java/org/cytoscape/zugzwang/internal/viewmodel/ZZNodeView.java:644-760 | a REDRAW part stays REDRAW exactly when it passes its guard and the counter admits the optimum size's bytes; the image allocation then throws exactly when that size is below 1 by 1, leaving the part as it was with the counter already moved, and otherwise the host texture takes the optimum size; without admission the part becomes DELETE if on the device, else KEEP, with the counter unchanged |
| NodeViews.RedrawAll | src/main/java/org/cytoscape/zugzwang/internal/viewmodel/ZZNodeView.java:642-761 | no part gains a REDRAW, non-REDRAW parts are untouched, device bytes do not change; it cannot throw when no REDRAW part passing its guard has a size below 1 by 1; without a throw, only parts passing their guard keep REDRAW and the counter grows by exactly the bytes now pending upload |
| NodeViews.DrawableAll | src/main/java/org/cytoscape/zugzwang/internal/viewmodel/ZZNodeView.java:648-732 | which parts pass the guard of their `redrawTextures` branch: the shape always, the label with text, colour, font, lines and a label rectangle of at least 1 by 1, a layer with its graphics and an optimum size of at least 1 by 1; the shape and label guards do not look at the optimum size |
| NodeViews.ThrowingPart | src/main/java/org/cytoscape/zugzwang/internal/viewmodel/ZZNodeView.java:644-692 | a throw from `redrawTextures` always has a cause: the shape or the label is REDRAW with a rectangle and an optimum size below 1 by 1 |
| NodeViews.RedrawTextures | src/main/java/org/cytoscape/zugzwang/internal/viewmodel/ZZNodeView.java:626-768 | off screen device textures are marked DELETE and the counter is untouched; on screen and hidden nothing changes; only an on-screen visible node can throw (the cause is stated by `ThrowingPart`); without a throw only drawable parts keep REDRAW and the counter grows by the pending bytes; a throw reports no work |
| NodeViews.ResourcePart | src/main/java/org/cytoscape/zugzwang/internal/viewmodel/ZZNodeView.java:775-827 | DELETE frees the occupied bytes, discards the texture and resets the host texture to 1×1; REDRAW uploads under the given handle; every part ends KEEP |
| NodeViews.ResourcesAll | src/main/java/org/cytoscape/zugzwang/internal/viewmodel/ZZNodeView.java:771-830 | device bytes become held minus freed plus uploaded, and the counter drops by exactly the freed bytes |
| NodeViews.UpdateResources | src/main/java/org/cytoscape/zugzwang/internal/viewmodel/ZZNodeView.java:771-830 | every part ends KEEP; deleted textures are off the device at 1×1, redrawn ones on it; positions are kept; the counter drops by exactly the freed bytes |
| NodeViews.SetVisible | src/main/java/org/cytoscape/zugzwang/internal/viewmodel/ZZNodeView.java:922-932 | an unchanged value does nothing; hiding removes every rectangle, showing creates the wanted ones as REDRAW; the counter drops by exactly the freed bytes |
| NodeViews.HidingFreesEverything | src/main/java/org/cytoscape/zugzwang/internal/viewmodel/ZZNodeView.java:922-932 | hiding a visible node gives every byte its textures held back to the counter |
| NodeViews.SetSelected | src/main/java/org/cytoscape/zugzwang/internal/viewmodel/ZZNodeView.java:934-944 | a change of selection marks only the shape REDRAW; an unchanged value does nothing |
| NodeViews.SetWidth | src/main/java/org/cytoscape/zugzwang/internal/viewmodel/ZZNodeView.java:1054-1071 | a new width marks the shape REDRAW and leaves the other parts; an unchanged value does nothing |
| NodeViews.SetHeight | src/main/java/org/cytoscape/zugzwang/internal/viewmodel/ZZNodeView.java:1073-1090 | as `SetWidth`, for the height |
| NodeViews.Recenter | src/main/java/org/cytoscape/zugzwang/internal/viewmodel/ZZNodeView.java:1178-1184 | only the rectangle's center moves |
| NodeViews.SetPosition | src/main/java/org/cytoscape/zugzwang/internal/viewmodel/ZZNodeView.java:1164-1186 | every rectangle of the node moves to the new position; states, rectangles and device bytes stay |
| NodeViews.SetLabel | src/main/java/org/cytoscape/zugzwang/internal/viewmodel/ZZNodeView.java:1188-1200 | new text marks only the label REDRAW; unchanged text does nothing |
| NodeViews.Resync | src/main/java/org/cytoscape/zugzwang/internal/viewmodel/ZZNodeView.java:1319-1323 | the setup after a layer change touches no other part of a node that was in sync, and a new layer rectangle is REDRAW |
| NodeViews.AddLayer | src/main/java/org/cytoscape/zugzwang/internal/viewmodel/ZZNodeView.java:1319-1333 | a graphics on an empty layer creates that layer's rectangle, marked REDRAW and not on the device, and leaves the rest of a synced node alone |
| NodeViews.AddLayerKeepsCounter | src/main/java/org/cytoscape/zugzwang/internal/viewmodel/ZZNodeView.java:1319-1333 | adding a layer to an in-sync node deletes nothing, so the memory counter is unchanged |
| NodeViews.ReplaceLayer | src/main/java/org/cytoscape/zugzwang/internal/viewmodel/ZZNodeView.java:1325-1333 | a different graphics on a set layer only marks that layer REDRAW |
| NodeViews.ResyncKeeps | src/main/java/org/cytoscape/zugzwang/internal/viewmodel/ZZNodeView.java:1305-1334 | a node in sync before a layer change keeps every other part through the setup after it |
| NodeViews.MarkLayerSynced | src/main/java/org/cytoscape/zugzwang/internal/viewmodel/ZZNodeView.java:1333 | marking a layer for redraw keeps the node in sync |
| NodeViews.MarkLayer | src/main/java/org/cytoscape/zugzwang/internal/viewmodel/ZZNodeView.java:1333 | only the layer's state becomes REDRAW |
| NodeViews.ClearLayer | src/main/java/org/cytoscape/zugzwang/internal/viewmodel/ZZNodeView.java:1308-1316 | resetting a set layer to the null graphics deletes its rectangle and frees its bytes, leaving the rest of a synced node alone |
| NodeViews.SetCustomGraphics | src/main/java/org/cytoscape/zugzwang/internal/viewmodel/ZZNodeView.java:1305-1334 | the layer takes the new value; a null graphics removes its rectangle, a new one marks it REDRAW, the same one changes nothing; other parts of a synced node stay |
| NodeViews.AddEdge | src/main/java/org/cytoscape/zugzwang/internal/viewmodel/ZZNodeView.java:159-177 | the edge is appended unless an edge with that SUID is already listed; lists stay free of duplicates |
| NodeViews.RemoveEdge | src/main/java/org/cytoscape/zugzwang/internal/viewmodel/ZZNodeView.java:179-187 | the first occurrence is removed: one element fewer if listed, nothing else lost, and a duplicate-free list no longer holds it |
| NodeViews.AddThenRemove | src/main/java/org/cytoscape/zugzwang/internal/viewmodel/ZZNodeView.java:159-187 | adding an unlisted edge and removing it again restores the list |
| NodeViews.DisposePart | src/main/java/org/cytoscape/zugzwang/internal/viewmodel/ZZNodeView.java:511-528 | a device texture is discarded and its bytes freed; a part without one is untouched |
| NodeViews.DisposeAll | src/main/java/org/cytoscape/zugzwang/internal/viewmodel/ZZNodeView.java:509-529 | the counter gets back exactly the bytes the parts held |
| NodeViews.Dispose | src/main/java/org/cytoscape/zugzwang/internal/viewmodel/ZZNodeView.java:509-529 | no texture stays on the device, rectangles stay, and the counter drops by exactly the bytes held |
| NodeViews.RunFrame | src/main/java/org/cytoscape/zugzwang/internal/viewmodel/ZZNetworkView.java:792-813 | the three stages as the frame drives them keep the node well formed |
| NodeViews.OffScreenFrameLeaks | src/main/java/org/cytoscape/zugzwang/internal/viewmodel/ZZNodeView.java:575-586 | as written, a visible in-sync node whose 1×1 shape rectangle is set up but not drawn, framed off screen, ends up holding device bytes the counter never admitted |
| NodeViews.SetupLeavesLeakStart | src/main/java/org/cytoscape/zugzwang/internal/viewmodel/ZZNodeView.java:155-156 | the constructor's `setupRectangles` on a visible node leaves it in sync, with nothing on the device and a fresh 1×1 shape rectangle marked REDRAW: the start of the leak above |
| NodeViews.OffScreenStateStage | src/main/java/org/cytoscape/zugzwang/internal/viewmodel/ZZNodeView.java:548-621 | off screen `updateState` keeps the set-up 1×1 shape rectangle REDRAW, reports work, frees nothing and puts nothing on the device |
| NodeViews.OffScreenRedrawStage | src/main/java/org/cytoscape/zugzwang/internal/viewmodel/ZZNodeView.java:630-641 | off screen `redrawTextures` keeps that REDRAW, so bytes are pending upload and none are freed |
| NodeViews.CustomGraphicsStall | src/main/java/org/cytoscape/zugzwang/internal/viewmodel/ZZNodeView.java:1319-1323 | as written, a layer added by `setCustomGraphics` to an in-sync on-screen node whose shape and label are settled is marked REDRAW and is still REDRAW and off the device after the next frame; a further frame with the same inputs changes neither the node nor the counter, so the layer is never drawn |
| NodeViews.StalledFrame | src/main/java/org/cytoscape/zugzwang/internal/viewmodel/ZZNodeView.java:587-621 | as written, for such a node the frame stops after `updateState`: the layer stays REDRAW and the node ends up stalled |
| NodeViews.StallIsFixed | src/main/java/org/cytoscape/zugzwang/internal/viewmodel/ZZNetworkView.java:795-813 | as written, a stalled node is a fixed point of the frame: a frame with the same inputs returns the node and the counter unchanged |
| NodeViews.NoneOccupy | src/main/java/org/cytoscape/zugzwang/internal/viewmodel/ZZNodeView.java:771-830 | parts without device textures hold no device bytes |
| NodeViews.PendingAtLeast | src/main/java/org/cytoscape/zugzwang/internal/viewmodel/ZZNodeView.java:784-788 | a fresh 1×1 REDRAW part has four bytes pending upload |
| NodeViews.UpdateStateCorrected | src/main/java/org/cytoscape/zugzwang/internal/viewmodel/ZZNodeView.java:618-621 | corrected: the node reports work exactly when some part, layers included, is not at rest |
| NodeViews.RedrawTexturesCorrected | src/main/java/org/cytoscape/zugzwang/internal/viewmodel/ZZNodeView.java:626-768 | corrected: off screen a REDRAW without a device texture becomes KEEP, so nothing is pending; on screen the shape and label are skipped at an optimum size below 1 by 1, as layers are, so nothing throws, and wherever `redrawTextures` does not throw the two agree; only parts passing the corrected guard keep REDRAW; it reports work exactly when some part is not at rest |
| NodeViews.OffScreenCorrectedFacts | src/main/java/org/cytoscape/zugzwang/internal/viewmodel/ZZNodeView.java:630-641 | the corrected off-screen pass keeps rectangles and device bytes and leaves nothing pending |
| NodeViews.DrawableAllCorrected | src/main/java/org/cytoscape/zugzwang/internal/viewmodel/ZZNodeView.java:729-733 | corrected: a part passes exactly when it passes its guard as written and its optimum size is at least 1 by 1, the check the layer guard makes |
| NodeViews.RedrawAgrees | src/main/java/org/cytoscape/zugzwang/internal/viewmodel/ZZNodeView.java:642-761 | skipping parts with an optimum size below 1 by 1 never throws, and changes neither the parts nor the counter of a pass that does not throw as written |
| NodeViews.ThrowSite | src/main/java/org/cytoscape/zugzwang/internal/viewmodel/ZZNodeView.java:650-655 | a pass that throws met a REDRAW part with a rectangle, passing its guard, whose optimum size is below 1 by 1 |
| NodeViews.ZeroOptimumThrows | src/main/java/org/cytoscape/zugzwang/internal/viewmodel/ZZNodeView.java:650-655 | as written, an on-screen shape marked REDRAW at an optimum size below 1 by 1 asks for nothing, is admitted, and throws: the node is unchanged and the counter has dropped by its device texture's bytes |
| NodeViews.ZeroOptimumFrameUndercounts | src/main/java/org/cytoscape/zugzwang/internal/viewmodel/ZZNodeView.java:550-568 | as written, a frame of an in-sync node whose shape texture is on the device while the optimum shape size is 0 by 0 leaves the texture on the device and REDRAW, with the counter short by its bytes |
| NodeViews.LayerStateStage | src/main/java/org/cytoscape/zugzwang/internal/viewmodel/ZZNodeView.java:537-623 | `updateState` of such a node leaves the counter alone, the shape and label KEEP, and the layer REDRAW at this frame's optimum size |
| NodeViews.LayerRedrawStage | src/main/java/org/cytoscape/zugzwang/internal/viewmodel/ZZNodeView.java:726-760 | the corrected `redrawTextures` keeps the REDRAW of an admitted layer behind a KEEP shape and label, and reports work |
| NodeViews.LayerFrame | src/main/java/org/cytoscape/zugzwang/internal/viewmodel/ZZNetworkView.java:792-813 | with the corrections, one frame of a node in the stall setting draws the layer and puts it on the device when its optimum size is at least 1 by 1 and the counter admits it |
| NodeViews.CorrectedFrameDrawsLayer | src/main/java/org/cytoscape/zugzwang/internal/viewmodel/ZZNetworkView.java:792-813 | with the corrections, the layer that `CustomGraphicsStall` leaves off the device is on the device after the next frame whenever its optimum size is at least 1 by 1 and the counter admits it |
| NodeViews.RunFrameCorrected | src/main/java/org/cytoscape/zugzwang/internal/viewmodel/ZZNetworkView.java:792-813 | the frame with both corrections keeps the node well formed |
| NodeViews.FrameTailCorrected | src/main/java/org/cytoscape/zugzwang/internal/viewmodel/ZZNetworkView.java:805-813 | with the corrections, the stages after `updateState` leave every part at rest |
| NodeViews.FrameTailBalances | src/main/java/org/cytoscape/zugzwang/internal/viewmodel/ZZNetworkView.java:805-813 | with the corrections, after `updateState` the counter moves by exactly the change in device bytes |
| NodeViews.EveryFrameBalances | src/main/java/org/cytoscape/zugzwang/internal/viewmodel/ZZNetworkView.java:792-813 | with the corrections every frame, on screen or off, moves the counter by exactly the change in the node's device bytes |
| NodeViews.CorrectedFrameSettles | src/main/java/org/cytoscape/zugzwang/internal/viewmodel/ZZNetworkView.java:792-813 | with the corrections a frame leaves every part of the node at rest |
| ArrowShapes.ValuesComplete | src/main/java/org/cytoscape/zugzwang/internal/arrowshape/ZZArrowShape.java:42-56 | `values()` lists every constant once, in declaration order |
| ArrowShapes.NameChars | src/main/java/org/cytoscape/zugzwang/internal/arrowshape/ZZArrowShape.java:44-56 | every constant name starts with an upper-case letter and holds only upper-case letters, digits and underscores |
| ArrowShapes.NameDistinct | src/main/java/org/cytoscape/zugzwang/internal/arrowshape/ZZArrowShape.java:44-56 | no two constants share a name |
| ArrowShapes.IdDistinct | src/main/java/org/cytoscape/zugzwang/internal/arrowshape/RendererArrowShape.java:41-53 | no two constants share a renderer id |
| ArrowShapes.NameIndex | src/main/java/org/cytoscape/zugzwang/internal/arrowshape/ZZArrowShape.java:124 | the search for a name stops at the first constant with that name, or runs off the end when none has it |
| ArrowShapes.DisplayIndex | src/main/java/org/cytoscape/zugzwang/internal/arrowshape/ZZArrowShape.java:133-138 | the display-name loop stops at the first constant whose display name equals the text ignoring case |
| ArrowShapes.IdIndex | src/main/java/org/cytoscape/zugzwang/internal/arrowshape/ZZArrowShape.java:149-153 | the id loop stops at the first constant with that renderer id |
| ArrowShapes.NameIndexFinds | src/main/java/org/cytoscape/zugzwang/internal/arrowshape/ZZArrowShape.java:124 | the name search finds a constant exactly when the key is its name |
| ArrowShapes.Parse | src/main/java/org/cytoscape/zugzwang/internal/arrowshape/ZZArrowShape.java:117-146 | a missing text gives `NONE` |
| ArrowShapes.ParseByName | src/main/java/org/cytoscape/zugzwang/internal/arrowshape/ZZArrowShape.java:120-124 | text whose trimmed upper case is a constant's name parses to that constant |
| ArrowShapes.ParseByLegacyKey | src/main/java/org/cytoscape/zugzwang/internal/arrowshape/ZZArrowShape.java:125-129 | text that is no name but a Cytoscape 2.8 key parses to that key's constant |
| ArrowShapes.ParseByDisplay | src/main/java/org/cytoscape/zugzwang/internal/arrowshape/ZZArrowShape.java:131-138 | text that is neither parses to the first constant whose display name it equals ignoring case, the untrimmed text being compared |
| ArrowShapes.UnmatchedIsNone | src/main/java/org/cytoscape/zugzwang/internal/arrowshape/ZZArrowShape.java:143 | text that matches nothing parses to `NONE` |
| ArrowShapes.NameRoundTrip | src/main/java/org/cytoscape/zugzwang/internal/arrowshape/ZZArrowShape.java:117-146 | every constant's name parses back to it |
| ArrowShapes.PaddedNameRoundTrip | src/main/java/org/cytoscape/zugzwang/internal/arrowshape/ZZArrowShape.java:121 | so does the name with blanks or control characters around it |
| ArrowShapes.LegacyKeys | src/main/java/org/cytoscape/zugzwang/internal/arrowshape/ZZArrowShape.java:66-77 | each legacy key parses to the constant its table names |
| ArrowShapes.HalfTopKey | src/main/java/org/cytoscape/zugzwang/internal/arrowshape/ZZArrowShape.java:50-51 | "Half Top" is neither a name nor a legacy key, so it reaches the display-name loop |
| ArrowShapes.HalfBottomDisplayParsesToHalfTop | src/main/java/org/cytoscape/zugzwang/internal/arrowshape/ZZArrowShape.java:51 | as written, the display name of `HALF_BOTTOM` parses to `HALF_TOP` |
| ArrowShapes.HalfTopShadowsHalfBottom | src/main/java/org/cytoscape/zugzwang/internal/arrowshape/ZZArrowShape.java:50-51 | as written, the display-name loop never stops at `HALF_BOTTOM` |
| ArrowShapes.HalfBottomOnlyByName | src/main/java/org/cytoscape/zugzwang/internal/arrowshape/ZZArrowShape.java:117-146 | as written, only the name `HALF_BOTTOM` or the legacy key "17" parse to `HALF_BOTTOM` |
| ArrowShapes.DisplayNeverHalfBottom | src/main/java/org/cytoscape/zugzwang/internal/arrowshape/ZZArrowShape.java:131-138 | as written, the display-name stage never yields `HALF_BOTTOM` |
| ArrowShapes.LegacyHalfBottom | src/main/java/org/cytoscape/zugzwang/internal/arrowshape/ZZArrowShape.java:76 | "17" is the only legacy key of `HALF_BOTTOM` |
| ArrowShapes.DisplayRoundTrip | src/main/java/org/cytoscape/zugzwang/internal/arrowshape/ZZArrowShape.java:117-146 | with `HALF_BOTTOM` named "Half Bottom", every constant's display name parses back to that constant |
| ArrowShapes.PlainDisplayKey | src/main/java/org/cytoscape/zugzwang/internal/arrowshape/ZZArrowShape.java:44-49 | the display names of the first six constants upper-case to their names |
| ArrowShapes.SpacedDisplayKey | src/main/java/org/cytoscape/zugzwang/internal/arrowshape/ZZArrowShape.java:50-56 | the other display names hold a blank, so they are no name and no legacy key |
| ArrowShapes.EarlierDisplayDiffers | src/main/java/org/cytoscape/zugzwang/internal/arrowshape/ZZArrowShape.java:50-56 | with the intended names, the display names from `HALF_TOP` on differ, ignoring case, from every earlier one |
| ArrowShapes.ArrowShapeOfId | src/main/java/org/cytoscape/zugzwang/internal/arrowshape/ZZArrowShape.java:148-155 | the presentation shape of the constant with that renderer id, or that of `NONE` for an unknown id |
| ArrowShapes.ArrowShapeOf | src/main/java/org/cytoscape/zugzwang/internal/arrowshape/ZZArrowShape.java:157-167 | the constant with that serializable string, or `NONE` when none has it |
| ArrowShapes.NameLookup | src/main/java/org/cytoscape/zugzwang/internal/arrowshape/ZZArrowShape.java:160-163 | the serializable-string search stops at the constant with that string |
| ArrowShapes.ConversionsRoundTrip | src/main/java/org/cytoscape/zugzwang/internal/arrowshape/ZZArrowShape.java:148-167 | renderer id, presentation shape and constant convert into one another without loss; the ids are -13 to -1 |
| MeasuredLines.MaxWidth | src/main/java/org/cytoscape/zugzwang/internal/tools/MeasuredLineCreator.java:140-176 | the largest line width, never below 0, attained by some line unless it is 0 |
| MeasuredLines.Emit | src/main/java/org/cytoscape/zugzwang/internal/tools/MeasuredLineCreator.java:138-141 | a line is appended and the maximum width and total height keep matching the lines |
| MeasuredLines.Create | src/main/java/org/cytoscape/zugzwang/internal/tools/MeasuredLineCreator.java:51-180 | empty text gives no lines; a single raw line that fits or has no blank is kept whole with its own bounds; otherwise the totals match the lines and every line is narrower than the label or a lone wide word |
| MeasuredLines.EmptyLayout | src/main/java/org/cytoscape/zugzwang/internal/tools/MeasuredLineCreator.java:206-209 | the empty creator has no lines, width 0 and height 0 |
| MeasuredLines.StepWell | src/main/java/org/cytoscape/zugzwang/internal/tools/MeasuredLineCreator.java:122-168 | one word keeps the line being built narrower than the label and every emitted line well wrapped |
| MeasuredLines.CloseWell | src/main/java/org/cytoscape/zugzwang/internal/tools/MeasuredLineCreator.java:135-144 | ending the current line emits a line narrower than the label |
| MeasuredLines.WordsWell | src/main/java/org/cytoscape/zugzwang/internal/tools/MeasuredLineCreator.java:121-169 | the loop over the words of a raw line keeps every emitted line well wrapped |
| MeasuredLines.LineWrapperWell | src/main/java/org/cytoscape/zugzwang/internal/tools/MeasuredLineCreator.java:110-179 | wrapping one raw line emits only well-wrapped lines |
| MeasuredLines.FlushWell | src/main/java/org/cytoscape/zugzwang/internal/tools/MeasuredLineCreator.java:171-178 | the last line of a raw line is narrower than the label |
| MeasuredLines.WrapLinesWell | src/main/java/org/cytoscape/zugzwang/internal/tools/MeasuredLineCreator.java:110-179 | the loop over raw lines keeps every line well wrapped |
| MeasuredLines.EmitShows | src/main/java/org/cytoscape/zugzwang/internal/tools/MeasuredLineCreator.java:138 | emitting a line adds its visible characters after the others |
| MeasuredLines.AppendWordShows | src/main/java/org/cytoscape/zugzwang/internal/tools/MeasuredLineCreator.java:159-166 | appending a word and a blank adds exactly the word's visible characters |
| MeasuredLines.CloseShows | src/main/java/org/cytoscape/zugzwang/internal/tools/MeasuredLineCreator.java:135-144 | ending the current line moves its visible characters, unchanged, into the lines |
| MeasuredLines.StepKeepsText | src/main/java/org/cytoscape/zugzwang/internal/tools/MeasuredLineCreator.java:124-168 | each word's visible characters end up, in order, in the lines or the line being built |
| MeasuredLines.WideWordKeepsText | src/main/java/org/cytoscape/zugzwang/internal/tools/MeasuredLineCreator.java:147-156 | a word as wide as the label ends the current line and is emitted on its own, losing nothing |
| MeasuredLines.NewLineKeepsText | src/main/java/org/cytoscape/zugzwang/internal/tools/MeasuredLineCreator.java:132-162 | a word that does not fit ends the current line and starts the next, losing nothing |
| MeasuredLines.WordsKeepText | src/main/java/org/cytoscape/zugzwang/internal/tools/MeasuredLineCreator.java:121-169 | the word loop keeps every visible character of the words, in order |
| MeasuredLines.FlushKeepsText | src/main/java/org/cytoscape/zugzwang/internal/tools/MeasuredLineCreator.java:171-178 | the last line of a raw line keeps its visible characters |
| MeasuredLines.WrapLineKeepsText | src/main/java/org/cytoscape/zugzwang/internal/tools/MeasuredLineCreator.java:110-179 | wrapping a raw line adds its visible characters after the others |
| MeasuredLines.WrapLinesKeepText | src/main/java/org/cytoscape/zugzwang/internal/tools/MeasuredLineCreator.java:110-179 | the loop over raw lines shows all their visible characters, in order |
| MeasuredLines.NoTextLost | src/main/java/org/cytoscape/zugzwang/internal/tools/MeasuredLineCreator.java:51-180 | with a font that measures no string as negative and a blank as wider than 0, the lines show every visible character of the text, in order |
| MeasuredLines.KeptWholeShows | src/main/java/org/cytoscape/zugzwang/internal/tools/MeasuredLineCreator.java:87-100 | a raw line kept whole shows all its visible characters |
| JavaText.Pieces | src/main/java/org/cytoscape/zugzwang/internal/tools/MeasuredLineCreator.java:121 | the pieces between separators hold no separator and there is at least one |
| JavaText.JoinPieces | src/main/java/org/cytoscape/zugzwang/internal/tools/MeasuredLineCreator.java:121 | joining the pieces with the separator gives back the string |
| JavaText.DropTrailingEmpty | src/main/java/org/cytoscape/zugzwang/internal/tools/MeasuredLineCreator.java:58 | only trailing empty pieces are dropped; the rest is a prefix ending in a non-empty piece |
| JavaText.Split | src/main/java/org/cytoscape/zugzwang/internal/tools/MeasuredLineCreator.java:58 | `split` pieces hold no separator; a string without the separator splits into itself; otherwise no trailing empty piece remains |
| JavaText.VisibleAppend | src/main/java/org/cytoscape/zugzwang/internal/tools/MeasuredLineCreator.java:159 | the visible characters of a concatenation are those of its parts, in order |
| JavaText.VisiblePieces | src/main/java/org/cytoscape/zugzwang/internal/tools/MeasuredLineCreator.java:121 | cutting at blanks or line breaks loses no visible character |
| JavaText.SplitKeepsVisible | src/main/java/org/cytoscape/zugzwang/internal/tools/MeasuredLineCreator.java:58 | `split` at blanks or line breaks loses no visible character |
| JavaText.SplitJoin | src/main/java/org/cytoscape/zugzwang/internal/tools/MeasuredLineCreator.java:58 | `split` drops only trailing separators: the joined pieces are a prefix of the string followed by separators alone |
| JavaText.JoinDropTrailing | src/main/java/org/cytoscape/zugzwang/internal/tools/MeasuredLineCreator.java:58 | dropping trailing empty pieces shortens the join by separators only |
| JavaText.Trim | src/main/java/org/cytoscape/zugzwang/internal/arrowshape/ZZArrowShape.java:121 | `trim` leaves a slice of the string that starts and ends above U+0020, and leaves an already trimmed string alone |
| JavaText.TrimStart | src/main/java/org/cytoscape/zugzwang/internal/arrowshape/ZZArrowShape.java:121 | the leading characters up to U+0020 go, and nothing else |
| JavaText.TrimEnd | src/main/java/org/cytoscape/zugzwang/internal/arrowshape/ZZArrowShape.java:121 | the trailing characters up to U+0020 go, and nothing else |
| JavaText.UpperChar | src/main/java/org/cytoscape/zugzwang/internal/arrowshape/ZZArrowShape.java:121 | a lower-case ASCII letter moves to upper case; every other character is kept |
| JavaText.Upper | src/main/java/org/cytoscape/zugzwang/internal/arrowshape/ZZArrowShape.java:121 | `toUpperCase` maps each character by `UpperChar`, keeping the length |
| JavaText.TrimPadding | src/main/java/org/cytoscape/zugzwang/internal/arrowshape/ZZArrowShape.java:121 | trimming removes padding of blanks and control characters on both sides |
| JavaText.UpperKeeps | src/main/java/org/cytoscape/zugzwang/internal/arrowshape/ZZArrowShape.java:121 | text without lower-case letters is its own upper case |

## Left out

- OpenGL calls are not modelled: buffer binding, uploads, draws, shader programs and texture objects. The device side of each pool is a mirror array. A device texture is an integer handle that the caller supplies.
- After a resize the model fills the fresh device storage with a copy of the host arrays. OpenGL leaves it undefined beyond the live prefix, and the model never reads that part.
- The drawing daemon, the `synchronized` blocks and every other form of concurrency are left out. Each operation is one atomic step.
- Floats are `real`s, so NaN, infinities and rounding are not modelled, except for the downsampling factor near zero (`NetworkViews.ShrinkSubnormal`, `GrowSubnormal`). NaN separates the long-dash stroke's test `offset < 0` from the others' `offset >= 0`.
- `nsteps` of the marquee strokes is the constant 4, as in the source. The restore threshold `0.88 * 0.8 * 0.8` is the real 0.5632, not its float rounding.
- Camera, viewport, picking, `fitContent`, the frustum test and the projection to optimum texture sizes are left out. The optimum sizes and the in-frustum flags are inputs of a frame (`NodeViews.Frame`), already capped and cast to `short`.
- AWT rasterisation is left out: shape outlines, label rendering, custom-graphics layers and `setQualityOptions`. Whether a part passes its guard is a condition on its inputs. Drawing succeeds exactly when the memory counter admits the request and the optimum size is at least 1 by 1. Below that, `new BufferedImage` throws for the shape and the label (`NodeViews.RedrawPart`). Layers never reach it, since their guard checks the size.
- Font measurement is a parameter `m: string -> Bounds` of `MeasuredLines`. Whether a label fits its rectangle is a parameter of `NodeViews.SetLabel`.
- `JavaText` upper-cases ASCII letters only, and `equalsIgnoreCase` compares ASCII case. Unicode case mapping is not modelled.
- `syncProperties` is modelled by the setters it calls (`NodeViews.SetVisible`, `SetSelected`, `SetWidth`, `SetHeight`, `SetPosition`, `SetLabel`, `SetCustomGraphics`). The colour, font, border and label-position setters only record a value and mark a redraw, and are not modelled one by one.
- Event payloads (`addEventPayload`, `fireViewChangedEvent`) are left out. They report to listeners and change no state of the core.
- `getNodeView`/`getEdgeView` cast between node and edge maps. Only the registry operations are modelled.
- The lexicon subtree of a property is passed to the lock operations as a `LexiconTree` value. `ZZVisualLexicon.addVisualPropertyNodes` and `createLookupMap` are left out; their content is fixed tables from the Cytoscape API.
- The API names of the standard node shapes, line types and arrow shapes are constants of the model. `ArrowShapeVisualProperty` itself is not part of this model.
- `newInstanceForWidth` of the non-animated strokes is modelled only by its result's pattern and width. The stroke geometry (zigzag, sine wave, slashes, arrows) is not modelled.
- The node-shape outline classes and `getShape`'s geometry are not modelled beyond the registry of which class draws which id.
- `Justification.getNames` returns a shared array that callers could change; the model's cache is immutable.
- `NodeShapes.GetZZShape` tells values apart by identity through the `NodeShapeValue` constructor. Objects outside the table, including `null`, are `Other`.
- `SlotMaps.Init`: requires a capacity of at least 2. With capacity 1 the 3/2 growth rule stays at 1 (`SlotMaps.GrowthStallsAtOne`), so a second creation would fail in the source as well.
- `RectangleManager.New`: requires a capacity of at least 2, for the same reason.
- `LineManager.New`: requires a capacity of at least 2, for the same reason.
- `RectangleManager.Resize`: requires a new capacity of at least 2 that holds every used slot. The pools only call it that way.
- `LineManager.Resize`: requires a new capacity of at least 2 that holds every used slot, as `RectangleManager.Resize`.
- `RectangleManager.Delete`: requires a live handle. The source has no guard for a handle that is not live. It is the pool's part only; the `rect.dispose` that ends `deleteRectangle` is in `Rectangles.DeleteRectangle`.
- `LineManager.DeleteLine`: requires a live handle, as `RectangleManager.Delete`. It is the pool's part only; the `line.dispose` that ends `deleteLine` is in `Lines.DeleteLine`.
- `LineManager.DeleteLineAsWritten`: requires a live handle, and is the pool's part only, as `LineManager.DeleteLine`; the whole call is `Lines.DeleteLineAsWritten`.
- `EdgeViews.Setup`: the texture `Lines.DeleteLineAsWritten` releases when a view is hidden is dropped, and the memory counter is not told, as in the source.
- `NetworkViews.RemoveNodeView`: removes the registry entry only. The node view's own `dispose` is `NodeViews.Dispose`, since registry entries do not hold the node's parts.
- `NetworkViews.RemoveEdgeView`: removes the registry entry only. The edge view's `dispose` is in `EdgeViews`.
- `NodeViews.RunFrame`: states only that the node stays well formed. What a frame does is stated by the lemmas about it (`OffScreenFrameLeaks`, `StalledFrame`, `CustomGraphicsStall`, `ZeroOptimumFrameUndercounts`, `EveryFrameBalances`, `CorrectedFrameSettles`, `CorrectedFrameDrawsLayer`). A throw in `redrawTextures` ends the node's frame at the point of the throw. In the source the exception also leaves the network view's frame loop: no node runs `updateResources`, the pools are not flushed, and the downsampling factor is not updated. The per-node model does not show those effects on the other nodes or on the network view.
- `NodeViews.RunFrameCorrected`: states only that the node stays well formed, as `NodeViews.RunFrame`.
- `NetworkViews.NextDownsampling`: stated over reals. In `float` the factor does not shrink strictly for ever: sustained pressure brings it down to 2·2⁻¹⁴⁹, where neither step changes it (listed under "## Findings").
- `NetworkViews.PressureKeepsShrinking`: stated over reals, for the same reason; the float behaviour near zero is `NetworkViews.ShrinkStopsAtTwo`.
- `EdgeViews.SetSourcePosition`: compares positions by value. `Vector3` declares no `equals`, so the source compares references.
  - `ZZNodeView.updateState` runs `syncProperties` every frame. That passes `setPosition` a freshly built vector from `getPosition`, and `setPosition` forwards it to every attached edge.
  - So in the source every edge of every node in the frame loop gets a new vector each frame. The edge rewrites its line and raises the line pool's position flag even when the coordinates are unchanged.
  - The model changes nothing for equal coordinates. It hides that per-frame rewrite and re-upload, and only the record contents it states (equal either way) are faithful.
  - The source also keeps the caller's vector, shared with the node, rather than a copy.
- `EdgeViews.SetTargetPosition`: compares positions by value, as `EdgeViews.SetSourcePosition`, with the same per-frame rewrite hidden.
- `EdgeViews.Dispose`: `ZZLine` declares no `getOccupiedTextureMemory`, although `ZZEdgeView.dispose` calls it. ZZLine.java is the only line class here. The model assumes the byte count follows `ZZRectangle.getOccupiedTextureMemory`: four bytes per texel of the device texture.
- `Rectangles.SetTextureSize`: requires the byte count `width * height * 4` to be a non-negative `int`. Java computes it in wrapping `int` arithmetic, so sizes whose count passes 2³¹ throw or allocate a wrapped count; the frame passes optimum sizes of at most 2048, which never wrap.
- `Lines.SetTextureSize`: requires a non-negative `int` byte count, as `Rectangles.SetTextureSize`.
- `AnimatedStrokes.WidthOnly`: the `BasicStroke` constructor throws for a negative width or an all-zero dash array, and the model does not. `LineTypes.GetStroke` never reaches those inputs: a width of 0 or less gives the zero stroke, and every dash pattern has a positive entry.
- `AnimatedStrokes.WithOffset`: does not model the `BasicStroke` exceptions either, as `AnimatedStrokes.WidthOnly`.

## Findings

| source | as written | input that shows it | evidently intended | confidence | as-written member | corrected member |
|---|---|---|---|---|---|---|
| src/main/java/org/cytoscape/zugzwang/internal/viewmodel/ZZNodeView.java:630-641 | off screen, `redrawTextures` only turns device textures to DELETE, so a rectangle set up but not yet drawn keeps REDRAW and `updateResources` uploads it without a `tryGetMemory` | a newly constructed visible node (`NodeViews.SetupLeavesLeakStart`) whose first frame has nothing in the frustum | a REDRAW that was never admitted is dropped to KEEP, so the memory counter matches the bytes on the device | not executed | NodeViews.OffScreenFrameLeaks | NodeViews.EveryFrameBalances |
| src/main/java/org/cytoscape/zugzwang/internal/viewmodel/ZZNodeView.java:618-621 | `updateState` and `redrawTextures` report work only when the shape or the label is not KEEP | `setCustomGraphics` on an empty layer of an in-sync, on-screen node whose shape and label textures are settled, followed by frames with unchanged inputs | the node reports work whenever any part, custom graphics included, is not at rest | not executed | NodeViews.CustomGraphicsStall | NodeViews.CorrectedFrameDrawsLayer |
| src/main/java/org/cytoscape/zugzwang/internal/viewmodel/ZZNodeView.java:644-692 | the shape and label branches of `redrawTextures` allocate `new BufferedImage` at the optimum size without checking that it is at least 1 by 1, after `tryGetMemory` has moved the counter; the allocation throws for a size of 0 | an in-sync visible node on screen whose shape texture is on the device while the downsampling factor is below 1/2048, so that its optimum size casts to 0 by 0 (`NodeViews.ZeroOptimumFrameUndercounts`) | the shape and label skip the draw below 1 by 1, as the custom-graphics guard does, so the counter is not moved for a texture that stays on the device | not executed | NodeViews.ZeroOptimumFrameUndercounts | NodeViews.RedrawTexturesCorrected |
| src/main/java/org/cytoscape/zugzwang/internal/viewmodel/ZZEdgeView.java:169-172 | the edge view's visibility reacts to `NODE_VISIBLE` | setting the edge's own visibility property to false | `EDGE_VISIBLE` hides the edge and removes its line | not executed | EdgeViews.EdgeVisibilityIgnored | EdgeViews.Apply |
| src/main/java/org/cytoscape/zugzwang/internal/viewmodel/ZZNetworkView.java:284 | `removeEdgeView` removes the edge from the node-view map | `syncWithModel` after an edge was deleted from the network | the edge view is removed from the edge-view map | not executed | NetworkViews.RemovedEdgeViewStays | NetworkViews.SyncWithModel |
| src/main/java/org/cytoscape/zugzwang/internal/viewmodel/ZZView.java:225-226 | the release walk stops at a property of another class, which the lock walk passes through | a tree of three properties whose middle one has another class; lock the root, then release it | the release walk mirrors the lock walk and removes every inherited lock it placed | not executed | ViewLocks.LockThenClearAsWrittenDiffers | ViewLocks.LockThenClearRestores |
| src/main/java/org/cytoscape/zugzwang/internal/cytoscape/view/ZZView.java:178-182 | after queueing the children that are not directly locked, the release queues all children again | a parent whose only child is directly locked; release the parent | directly locked children keep their lock entry | not executed | LegacyViewLocks.DirectLockLosesEntry | LegacyViewLocks.CorrectedKeepsChildLock |
| src/main/java/org/cytoscape/zugzwang/internal/rendering/ZZLineManager.java:204-221 | `deleteLine` copies the last record into the hole in the host arrays only | deleting a line that is not in the last slot, with no shrink following | the device buffers receive the same copy, as in `deleteRectangle` | not executed | LineManager.DeleteAsWrittenDiverges | LineManager.DeleteLine |
| src/main/java/org/cytoscape/zugzwang/internal/rendering/ZZRectangle.java:40-51 | the constructor does not forward its offset arguments | creating a rectangle with an offset in a slot that held a different one | the new rectangle's slot holds the requested offset | not executed | Rectangles.CreateAsWrittenLeaksOffset | Rectangles.Create |
| src/main/java/org/cytoscape/zugzwang/internal/arrowshape/ZZArrowShape.java:51 | `HALF_BOTTOM` has the display name "Half Top" | parsing the text "Half Top" that `HALF_BOTTOM` displays | `HALF_BOTTOM` is displayed as "Half Bottom", and every display name parses back to its constant | not executed | ArrowShapes.HalfBottomDisplayParsesToHalfTop | ArrowShapes.DisplayRoundTrip |
| src/main/java/org/cytoscape/zugzwang/internal/visualproperties/Anchor.java:107-110 | `EAST` takes x from `input.w`; the method is private and nothing calls it, so the slip cannot show at present | the box from (0, 0) to (1, 5) | `EAST` takes x from `input.z`, mirroring `WEST` | not executed | Anchors.EastLeavesBox | Anchors.ComputeAnchorMirrors |
| src/main/java/org/cytoscape/zugzwang/internal/viewmodel/ZZNetworkView.java:881-888 | the factor is a `float`, and `* 0.8f` and `/ 0.8f` round to the nearest float | sustained consumption above 90% (459 shrinks from 1.0 in float rounding) leaves the factor at 2·2⁻¹⁴⁹, which both steps round back to itself; relief then never restores resolution. This needs frames in which no on-screen shape or label is redrawn: from the 35th shrink the factor is below 1/2048, and a shape or label redrawn on screen then throws (row above), which ends the frame before the factor is updated | below `0.88 * 0.8 * 0.8` the factor grows back to 1 | not executed | NetworkViews.SubnormalFactorSticks | NetworkViews.ReliefRestores |

=== FILE: anchor.dfy ===
/**
  Label anchors (visualproperties/Anchor.java): the nine compass points of
  a box, numbered 0 to 8, and `lemma_computeAnchor`, which picks the point
  of a box an anchor names. A box is the `Vector4` the label code passes:
  `(x, y)` one corner and `(z, w)` the opposite one, with y growing
  downwards (south is `w`). Floats are reals.
*/
module Anchors {
  import opened Wrappers

  const AnchorCenter: int := 0
  const AnchorNorth: int := 1
  const AnchorNortheast: int := 2
  const AnchorEast: int := 3
  const AnchorSoutheast: int := 4
  const AnchorSouth: int := 5
  const AnchorSouthwest: int := 6
  const AnchorWest: int := 7
  const AnchorNorthwest: int := 8
  const MaxAnchorVal: int := 8

  /** The label-wrap justification constants, shared with `Justification`. */
  const LabelWrapJustifyCenter: int := 64
  const LabelWrapJustifyLeft: int := 65
  const LabelWrapJustifyRight: int := 66

  datatype Box = Box(x: real, y: real, z: real, w: real)

  datatype Point = Point(x: real, y: real)

  /** Which `EAST` branch: the code's, which takes x from `w`, or the corrected one, which takes it from `z`. */
  datatype Table = AsWritten | Corrected

  function Mid(a: real, b: real): real
  {
    (a + b) / 2.0
  }

  /** `lemma_computeAnchor`; an anchor outside 0..8 throws, here `None`. */
  function Compute(t: Table, anchor: int, b: Box): (r: Option<Point>)
    ensures r.Some? <==> 0 <= anchor <= MaxAnchorVal
  {
    if anchor == AnchorCenter then Some(Point(Mid(b.x, b.z), Mid(b.y, b.w)))
    else if anchor == AnchorSouth then Some(Point(Mid(b.x, b.z), b.w))
    else if anchor == AnchorSoutheast then Some(Point(b.z, b.w))
    else if anchor == AnchorEast then Some(Point(if t == AsWritten then b.w else b.z, Mid(b.y, b.w)))
    else if anchor == AnchorNortheast then Some(Point(b.z, b.y))
    else if anchor == AnchorNorth then Some(Point(Mid(b.x, b.z), b.y))
    else if anchor == AnchorNorthwest then Some(Point(b.x, b.y))
    else if anchor == AnchorWest then Some(Point(b.x, Mid(b.y, b.w)))
    else if anchor == AnchorSouthwest then Some(Point(b.x, b.w))
    else None
  }

  function ComputeAnchorAsWritten(anchor: int, b: Box): (r: Option<Point>)
    ensures r.Some? <==> 0 <= anchor <= MaxAnchorVal
  {
    Compute(AsWritten, anchor, b)
  }

  function ComputeAnchor(anchor: int, b: Box): (r: Option<Point>)
    ensures r.Some? <==> 0 <= anchor <= MaxAnchorVal
  {
    Compute(Corrected, anchor, b)
  }

  /** Compass reference: the column of an anchor, -1 west, 0 middle, 1 east. */
  function Column(anchor: int): int
  {
    if anchor in {AnchorNortheast, AnchorEast, AnchorSoutheast} then 1
    else if anchor in {AnchorNorthwest, AnchorWest, AnchorSouthwest} then -1
    else 0
  }

  /** Compass reference: the row of an anchor, -1 north, 0 middle, 1 south. */
  function Row(anchor: int): int
  {
    if anchor in {AnchorNorthwest, AnchorNorth, AnchorNortheast} then -1
    else if anchor in {AnchorSouthwest, AnchorSouth, AnchorSoutheast} then 1
    else 0
  }

  /** The low side, the high side or the middle of an interval. */
  function Pick(lo: real, hi: real, side: int): real
  {
    if side < 0 then lo else if side > 0 then hi else Mid(lo, hi)
  }

  /** The nine anchors are the nine (row, column) pairs, each once. */
  lemma CompassCovers(a: int, c: int)
    requires 0 <= a <= MaxAnchorVal && 0 <= c <= MaxAnchorVal
    requires Column(a) == Column(c) && Row(a) == Row(c)
    ensures a == c
  {
  }

  /** Every anchor picks, along each axis, the side its compass direction names. */
  lemma ComputeAnchorMatchesCompass(anchor: int, b: Box)
    requires 0 <= anchor <= MaxAnchorVal
    ensures ComputeAnchor(anchor, b) == Some(Point(Pick(b.x, b.z, Column(anchor)), Pick(b.y, b.w, Row(anchor))))
  {
  }

  /** For a box with its corners in order, the anchor point lies in the box. */
  lemma ComputeAnchorInBox(anchor: int, b: Box)
    requires 0 <= anchor <= MaxAnchorVal
    requires b.x <= b.z && b.y <= b.w
    ensures b.x <= ComputeAnchor(anchor, b).value.x <= b.z
    ensures b.y <= ComputeAnchor(anchor, b).value.y <= b.w
  {
    ComputeAnchorMatchesCompass(anchor, b);
  }

  /** The anchor on the other side of the vertical axis. */
  function MirrorAnchor(anchor: int): (r: int)
    ensures 0 <= anchor <= MaxAnchorVal ==> 0 <= r <= MaxAnchorVal && Column(r) == -Column(anchor) && Row(r) == Row(anchor)
  {
    if anchor == AnchorEast then AnchorWest
    else if anchor == AnchorWest then AnchorEast
    else if anchor == AnchorNortheast then AnchorNorthwest
    else if anchor == AnchorNorthwest then AnchorNortheast
    else if anchor == AnchorSoutheast then AnchorSouthwest
    else if anchor == AnchorSouthwest then AnchorSoutheast
    else anchor
  }

  function MirrorBox(b: Box): Box
  {
    Box(-b.z, b.y, -b.x, b.w)
  }

  /** Mirroring the box left to right mirrors the anchor point with it. */
  lemma ComputeAnchorMirrors(anchor: int, b: Box)
    requires 0 <= anchor <= MaxAnchorVal
    ensures ComputeAnchor(MirrorAnchor(anchor), MirrorBox(b)) == Some(Point(-ComputeAnchor(anchor, b).value.x, ComputeAnchor(anchor, b).value.y))
  {
  }

  /** The code as written differs from the corrected one only at `EAST`. */
  lemma AsWrittenDiffersOnlyAtEast(anchor: int, b: Box)
    requires anchor != AnchorEast
    ensures ComputeAnchorAsWritten(anchor, b) == ComputeAnchor(anchor, b)
  {
  }

  /** As written, `EAST` of the box from (0, 0) to (1, 5) is at x = 5, outside the box, where the mirror image of `WEST` is at x = 1. */
  lemma EastLeavesBox()
    ensures ComputeAnchorAsWritten(AnchorEast, Box(0.0, 0.0, 1.0, 5.0)) == Some(Point(5.0, 2.5))
    ensures ComputeAnchorAsWritten(AnchorWest, MirrorBox(Box(0.0, 0.0, 1.0, 5.0))) == Some(Point(-1.0, 2.5))
    ensures ComputeAnchor(AnchorEast, Box(0.0, 0.0, 1.0, 5.0)) == Some(Point(1.0, 2.5))
  {
  }
}

=== FILE: animated_strokes.dfy ===
/**
  The marquee strokes (strokes/AnimatedLongDashStroke.java,
  AnimatedEqualDashStroke.java and AnimatedDashDotStroke.java): a dash
  pattern scaled by the width, shifted along the line by a phase that
  steps through a four-step cycle. The three classes differ only in their
  pattern, its phase factor and the line cap, so one datatype with a
  `Style` stands for all three. Floats are reals; every offset the cycle
  visits (0, 0.25, 0.5, 0.75) is exact in binary floating point.
*/
module AnimatedStrokes {

  datatype Style = LongDash | EqualDash | DashDot

  datatype Cap = Butt | RoundCap

  /** The `BasicStroke` state the classes set, with their own `width` and `offset` fields. */
  datatype AnimatedStroke = AnimatedStroke(style: Style, width: real, offset: real, dash: seq<real>, dashPhase: real, cap: Cap)

  /** `nsteps`: the offset moves by a quarter per animation step. */
  const NSteps: real := 4.0

  /** The offset the width-only constructors store: no animation yet. */
  const NoOffset: real := -1.0

  function CapOf(style: Style): Cap
  {
    if style == DashDot then RoundCap else Butt
  }

  /** The dash array: long dash `[4w, 2w]`, equal dash `[2w, 2w]`, dash-dot `[4w, 2w, w, 2w]`. */
  function Dash(style: Style, w: real): seq<real>
  {
    match style
    case LongDash => [w * 4.0, w * 2.0]
    case EqualDash => [w * 2.0, w * 2.0]
    case DashDot => [w * 4.0, w * 2.0, w, w * 2.0]
  }

  /** The factor the offset constructors multiply `width * offset` by to get the dash phase. */
  function PhaseFactor(style: Style): real
  {
    match style
    case LongDash => 6.0
    case EqualDash => 4.0
    case DashDot => 9.0
  }

  function Sum(s: seq<real>): real
  {
    if |s| == 0 then 0.0 else s[0] + Sum(s[1..])
  }

  /** The phase factor is the length of one period of the pattern at width 1, so the offset is a fraction of a period. */
  lemma PhaseIsFractionOfPeriod(style: Style, w: real)
    ensures Sum(Dash(style, w)) == PhaseFactor(style) * w
  {
    var d := Dash(style, w);
    assert Sum(d[|d| - 1..]) == d[|d| - 1];
    if style == DashDot {
      assert Sum(d[2..]) == d[2] + Sum(d[3..]);
    }
  }

  /** The width-only constructor: offset -1 and dash phase 0. */
  function WidthOnly(style: Style, w: real): (r: AnimatedStroke)
    ensures r.style == style && r.width == w && r.offset == NoOffset && r.dashPhase == 0.0
    ensures r.dash == Dash(style, w) && r.cap == CapOf(style)
  {
    AnimatedStroke(style, w, NoOffset, Dash(style, w), 0.0, CapOf(style))
  }

  /** The constructor with an offset: the pattern shifted by `offset` periods. */
  function WithOffset(style: Style, w: real, offset: real): (r: AnimatedStroke)
    ensures r.style == style && r.width == w && r.offset == offset
    ensures r.dash == Dash(style, w) && r.cap == CapOf(style)
    ensures r.dashPhase == Sum(r.dash) * offset
  {
    PhaseIsFractionOfPeriod(style, w);
    AnimatedStroke(style, w, offset, Dash(style, w), w * PhaseFactor(style) * offset, CapOf(style))
  }

  /**
    `newInstanceForWidth`: a stroke of width `w` that keeps the offset
    when it is not negative and otherwise is the width-only stroke. The
    long-dash class tests `offset < 0`, the others `offset >= 0`, which
    select the same branch for every real offset.
  */
  function NewInstanceForWidth(s: AnimatedStroke, w: real): (r: AnimatedStroke)
    ensures r.style == s.style && r.width == w && r.dash == Dash(s.style, w)
    ensures s.offset >= 0.0 ==> r.offset == s.offset && r.dashPhase == Sum(r.dash) * s.offset
    ensures s.offset < 0.0 ==> r.offset == NoOffset && r.dashPhase == 0.0
  {
    match s.style
    case LongDash => if s.offset < 0.0 then WidthOnly(s.style, w) else WithOffset(s.style, w, s.offset)
    case EqualDash => if s.offset >= 0.0 then WithOffset(s.style, w, s.offset) else WidthOnly(s.style, w)
    case DashDot => if s.offset >= 0.0 then WithOffset(s.style, w, s.offset) else WidthOnly(s.style, w)
  }

  /** `newInstanceForNextOffset`: the offset moves back a step, wrapping below zero to the last step. */
  function NextOffset(s: AnimatedStroke): (r: AnimatedStroke)
    ensures r.style == s.style && r.width == s.width
    ensures s.offset <= 1.0 ==> 0.0 <= r.offset <= 0.75
    ensures s.offset >= 0.25 ==> r.offset == s.offset - 0.25
    ensures s.offset < 0.25 ==> r.offset == 0.75
  {
    var stepSize := 1.0 / NSteps;
    var newOffset := s.offset - stepSize;
    WithOffset(s.style, s.width, if newOffset < 0.0 then 1.0 - stepSize else newOffset)
  }

  /** Changing the width and stepping the animation can be done in either order. */
  lemma ResizeAndStepCommute(s: AnimatedStroke, w: real)
    ensures NextOffset(NewInstanceForWidth(s, w)) == NewInstanceForWidth(NextOffset(s), w)
  {
  }

  /** The offsets of the cycle. */
  predicate OnCycle(offset: real)
  {
    offset == 0.0 || offset == 0.25 || offset == 0.5 || offset == 0.75
  }

  /** `n` animation steps. */
  function Steps(s: AnimatedStroke, n: nat): AnimatedStroke
    decreases n
  {
    if n == 0 then s else Steps(NextOffset(s), n - 1)
  }

  /** The cycle, in step order. */
  const Cycle: seq<real> := [0.75, 0.5, 0.25, 0.0]

  /** From an offset on the cycle, the animation stays on it and returns after exactly four steps. */
  lemma CycleOfFour(s: AnimatedStroke)
    requires OnCycle(s.offset)
    ensures OnCycle(NextOffset(s).offset)
    ensures Steps(s, 4).offset == s.offset
    ensures forall k :: 0 < k < 4 ==> Steps(s, k).offset != s.offset
  {
    StepsSplit(s, 0);
    StepsSplit(s, 1);
    StepsSplit(s, 2);
    StepsSplit(s, 3);
  }

  /**
    A stroke made with the width-only constructor, or at offset 0 as the
    line types make them, runs through 0.75, 0.5, 0.25, 0 forever.
  */
  lemma {:induction false} StepsFromStart(s: AnimatedStroke, n: nat)
    requires s.offset == NoOffset || s.offset == 0.0
    ensures Steps(s, n + 1).offset == Cycle[n % 4]
    ensures Steps(s, n + 1).style == s.style && Steps(s, n + 1).width == s.width
    decreases n
  {
    StepsSplit(s, n);
    if n == 0 {
      assert Steps(s, 0) == s;
    } else {
      StepsFromStart(s, n - 1);
      StepOnCycle(Steps(s, n), n - 1);
    }
  }

  /** One more step moves one place along the cycle. */
  lemma StepOnCycle(s: AnimatedStroke, k: nat)
    requires s.offset == Cycle[k % 4]
    ensures NextOffset(s).offset == Cycle[(k + 1) % 4]
  {
  }

  lemma {:induction false} StepsSplit(s: AnimatedStroke, n: nat)
    ensures Steps(s, n + 1) == NextOffset(Steps(s, n))
    decreases n
  {
    if n > 0 {
      StepsSplit(NextOffset(s), n - 1);
    }
  }
}

=== FILE: arrow_shape.dfy ===
/**
  Arrow shapes (arrowshape/ZZArrowShape.java): the thirteen constants
  with their display names, constant names and renderer ids, and the
  three lookups. Text is `Option<string>`, `None` standing for `null`.
  The renderer's `ArrowShape` values are represented by their
  serializable string, which for each constant is its name.
*/
module ArrowShapes {
  import Wrappers
  import opened JavaText

  datatype ArrowShape =
    | None | Diamond | Delta | Arrow | T | Circle | HalfTop | HalfBottom
    | DeltaShort1 | DeltaShort2 | ArrowShort | DiamondShort1 | DiamondShort2

  /** `values()`, in declaration order. */
  const Values: seq<ArrowShape> := [
    None, Diamond, Delta, Arrow, T, Circle, HalfTop, HalfBottom,
    DeltaShort1, DeltaShort2, ArrowShort, DiamondShort1, DiamondShort2
  ]

  /** The position of a constant in declaration order. */
  function Index(s: ArrowShape): nat
  {
    match s
    case None => 0
    case Diamond => 1
    case Delta => 2
    case Arrow => 3
    case T => 4
    case Circle => 5
    case HalfTop => 6
    case HalfBottom => 7
    case DeltaShort1 => 8
    case DeltaShort2 => 9
    case ArrowShort => 10
    case DiamondShort1 => 11
    case DiamondShort2 => 12
  }

  /** `Values` lists every constant once, at its position. */
  lemma ValuesComplete(s: ArrowShape)
    ensures Index(s) < |Values| && s == Values[Index(s)]
  {
  }

  lemma IndexOfValue(i: nat)
    requires i < |Values|
    ensures Index(Values[i]) == i
  {
  }

  /** The constant's name, which is also its serializable string. */
  function Name(s: ArrowShape): string
  {
    match s
    case None => "NONE"
    case Diamond => "DIAMOND"
    case Delta => "DELTA"
    case Arrow => "ARROW"
    case T => "T"
    case Circle => "CIRCLE"
    case HalfTop => "HALF_TOP"
    case HalfBottom => "HALF_BOTTOM"
    case DeltaShort1 => "DELTA_SHORT_1"
    case DeltaShort2 => "DELTA_SHORT_2"
    case ArrowShort => "ARROW_SHORT"
    case DiamondShort1 => "DIAMOND_SHORT_1"
    case DiamondShort2 => "DIAMOND_SHORT_2"
  }

  /** The two display-name tables: as written, `HALF_BOTTOM` repeats "Half Top". */
  datatype Table = AsWritten | Corrected

  function DisplayName(t: Table, s: ArrowShape): string
  {
    match s
    case None => "None"
    case Diamond => "Diamond"
    case Delta => "Delta"
    case Arrow => "Arrow"
    case T => "T"
    case Circle => "Circle"
    case HalfTop => "Half Top"
    case HalfBottom => if t == AsWritten then "Half Top" else "Half Bottom"
    case DeltaShort1 => "Delta Short 1"
    case DeltaShort2 => "Delta Short 2"
    case ArrowShort => "Arrow Short"
    case DiamondShort1 => "Diamond Short 1"
    case DiamondShort2 => "Diamond Short 2"
  }

  /** `RendererArrowShape`'s byte ids, -1 down to -13. */
  function RendererTypeId(s: ArrowShape): int
  {
    match s
    case None => -1
    case Delta => -2
    case Diamond => -3
    case Circle => -4
    case T => -5
    case HalfTop => -6
    case HalfBottom => -7
    case Arrow => -8
    case DeltaShort1 => -9
    case DeltaShort2 => -10
    case ArrowShort => -11
    case DiamondShort1 => -12
    case DiamondShort2 => -13
  }

  /** The Cytoscape 2.8 keys. */
  const Legacy: map<string, ArrowShape> := map[
    "0" := None, "3" := Delta, "6" := Arrow, "9" := Diamond,
    "12" := Circle, "15" := T, "16" := HalfTop, "17" := HalfBottom
  ]

  /** Names are made of upper-case letters, digits and underscores, and start with a letter. */
  lemma NameChars(s: ArrowShape)
    ensures |Name(s)| > 0 && 'A' <= Name(s)[0] <= 'Z'
    ensures forall i :: 0 <= i < |Name(s)| ==> 'A' <= Name(s)[i] <= 'Z' || '0' <= Name(s)[i] <= '9' || Name(s)[i] == '_'
  {
  }

  /** No two constants share a name. */
  lemma NameDistinct(a: ArrowShape, b: ArrowShape)
    ensures Name(a) == Name(b) ==> a == b
  {
  }

  /** No two constants share a renderer id. */
  lemma IdDistinct(a: ArrowShape, b: ArrowShape)
    ensures RendererTypeId(a) == RendererTypeId(b) ==> a == b
  {
  }

  // ----- the loops over `values()` ------------------------------------------------------

  /** Whether `text` names constant `s` in display-name table `t`, ignoring case. */
  predicate Displays(t: Table, s: ArrowShape, text: string)
  {
    EqualsIgnoreCase(DisplayName(t, s), text)
  }

  /** The `valueOf` and serializable-string search: the first index from `from` on whose constant is named `key`, or `|Values|`. */
  function NameIndex(key: string, from: nat): (r: nat)
    requires from <= |Values|
    ensures from <= r <= |Values|
    ensures r < |Values| ==> Name(Values[r]) == key
    ensures forall j :: from <= j < r ==> Name(Values[j]) != key
    decreases |Values| - from
  {
    if from == |Values| || Name(Values[from]) == key then from else NameIndex(key, from + 1)
  }

  /** The display-name search: the first index from `from` on whose display name equals `text` ignoring case, or `|Values|`. */
  function DisplayIndex(t: Table, text: string, from: nat): (r: nat)
    requires from <= |Values|
    ensures from <= r <= |Values|
    ensures r < |Values| ==> Displays(t, Values[r], text)
    ensures forall j :: from <= j < r ==> !Displays(t, Values[j], text)
    decreases |Values| - from
  {
    if from == |Values| || Displays(t, Values[from], text) then from else DisplayIndex(t, text, from + 1)
  }

  /** The renderer-id search: the first index from `from` on whose constant has id `id`, or `|Values|`. */
  function IdIndex(id: int, from: nat): (r: nat)
    requires from <= |Values|
    ensures from <= r <= |Values|
    ensures r < |Values| ==> RendererTypeId(Values[r]) == id
    ensures forall j :: from <= j < r ==> RendererTypeId(Values[j]) != id
    decreases |Values| - from
  {
    if from == |Values| || RendererTypeId(Values[from]) == id then from else IdIndex(id, from + 1)
  }

  /** The name search finds a constant exactly when the key is its name. */
  lemma NameIndexFinds(key: string, s: ArrowShape)
    ensures Name(s) == key <==> NameIndex(key, 0) == Index(s)
  {
    ValuesComplete(s);
    var i := NameIndex(key, 0);
    if Name(s) == key && i < Index(s) {
      NameDistinct(s, Values[i]);
      IndexOfValue(i);
    }
  }

  // ----- parseArrowText ---------------------------------------------------------------------

  /** The key `parseArrowText` looks up: the text trimmed and upper-cased. */
  function Key(text: string): string
  {
    Upper(Trim(text))
  }

  /**
    `parseArrowText` with display-name table `t`: the constant named by
    the key; else the legacy key's constant; else the first constant whose
    display name equals the untrimmed text ignoring case; else `NONE`.
  */
  function Parse(t: Table, text: Wrappers.Option<string>): (r: ArrowShape)
    ensures text.None? ==> r == None
  {
    if text.None? then None else FromKey(t, Key(text.value), text.value)
  }

  /** The stages after the key is computed: the constant the key names, else the legacy stage. */
  function FromKey(t: Table, key: string, text: string): ArrowShape
  {
    var n := NameIndex(key, 0);
    if n < |Values| then Values[n] else FromLegacy(t, key, text)
  }

  /** The legacy key's constant, else the display-name stage. */
  function FromLegacy(t: Table, key: string, text: string): ArrowShape
  {
    if key in Legacy then Legacy[key] else FromDisplay(t, text)
  }

  /** The first constant whose display name equals the text ignoring case, else `NONE`. */
  function FromDisplay(t: Table, text: string): ArrowShape
  {
    var d := DisplayIndex(t, text, 0);
    if d < |Values| then Values[d] else None
  }

  /** `parseArrowText` as written. */
  function ParseArrowTextAsWritten(text: Wrappers.Option<string>): ArrowShape
  {
    Parse(AsWritten, text)
  }

  /** `parseArrowText` with the intended display names. */
  function ParseArrowText(text: Wrappers.Option<string>): ArrowShape
  {
    Parse(Corrected, text)
  }

  /** Text whose trimmed upper case is a constant's name parses to that constant. */
  lemma ParseByName(t: Table, text: string, s: ArrowShape)
    requires Key(text) == Name(s)
    ensures Parse(t, Wrappers.Some(text)) == s
  {
    KeyNamesConstant(t, Key(text), text, s);
  }

  lemma KeyNamesConstant(t: Table, key: string, text: string, s: ArrowShape)
    requires key == Name(s)
    ensures FromKey(t, key, text) == s
  {
    NameIndexFinds(key, s);
    ValuesComplete(s);
  }

  lemma NoNameNotFound(key: string)
    requires forall x :: Name(x) != key
    ensures NameIndex(key, 0) == |Values|
  {
  }

  /** Text that is no name but a legacy key parses to the key's constant. */
  lemma ParseByLegacyKey(t: Table, text: string)
    requires forall x :: Name(x) != Key(text)
    requires Key(text) in Legacy
    ensures Parse(t, Wrappers.Some(text)) == Legacy[Key(text)]
  {
    NoNameNotFound(Key(text));
  }

  /**
    Text that is no name and no legacy key parses to the first constant,
    in declaration order, whose display name it equals ignoring case.
  */
  lemma ParseByDisplay(t: Table, text: string, s: ArrowShape)
    requires forall x :: Name(x) != Key(text)
    requires Key(text) !in Legacy
    requires Displays(t, s, text) && forall x :: Index(x) < Index(s) ==> !Displays(t, x, text)
    ensures Parse(t, Wrappers.Some(text)) == s
  {
    NoNameNotFound(Key(text));
    FirstDisplayFound(t, text, s);
  }

  lemma FirstDisplayFound(t: Table, text: string, s: ArrowShape)
    requires Displays(t, s, text) && forall x :: Index(x) < Index(s) ==> !Displays(t, x, text)
    ensures FromDisplay(t, text) == s
  {
    ValuesComplete(s);
    var d := DisplayIndex(t, text, 0);
    if d < |Values| {
      IndexOfValue(d);
    }
  }

  /** Text that is no name, no legacy key and no display name parses to `NONE`. */
  lemma UnmatchedIsNone(t: Table, text: string)
    requires forall x :: Name(x) != Key(text) && !Displays(t, x, text)
    requires Key(text) !in Legacy
    ensures Parse(t, Wrappers.Some(text)) == None
  {
    NoNameNotFound(Key(text));
    NoDisplayFound(t, text);
  }

  lemma NoDisplayFound(t: Table, text: string)
    requires forall x :: !Displays(t, x, text)
    ensures FromDisplay(t, text) == None
  {
  }

  /** A constant's name is its own key. */
  lemma NameIsKey(s: ArrowShape)
    ensures Key(Name(s)) == Name(s)
  {
    NameChars(s);
    WordIsKey(Name(s));
  }

  /** Upper-case words are their own key. */
  lemma WordIsKey(w: string)
    requires |w| > 0 && 'A' <= w[0] <= 'Z'
    requires forall i :: 0 <= i < |w| ==> 'A' <= w[i] <= 'Z' || '0' <= w[i] <= '9' || w[i] == '_'
    ensures Trim(w) == w && Upper(w) == w && Key(w) == w
  {
    UpperKeeps(w);
  }

  /** A constant's name parses back to that constant. */
  lemma NameRoundTrip(t: Table, s: ArrowShape)
    ensures Parse(t, Wrappers.Some(Name(s))) == s
  {
    NameIsKey(s);
    ParseByName(t, Name(s), s);
  }

  /** So does the name with any padding of blanks and control characters around it. */
  lemma PaddedNameRoundTrip(t: Table, s: ArrowShape, pad: string)
    requires forall i :: 0 <= i < |pad| ==> pad[i] <= ' '
    ensures Parse(t, Wrappers.Some(pad + Name(s) + pad)) == s
  {
    PaddedNameKey(s, pad);
    ParseByName(t, pad + Name(s) + pad, s);
  }

  lemma PaddedNameKey(s: ArrowShape, pad: string)
    requires forall i :: 0 <= i < |pad| ==> pad[i] <= ' '
    ensures Key(pad + Name(s) + pad) == Name(s)
  {
    NameChars(s);
    WordIsKey(Name(s));
    TrimPadding(pad, Name(s));
  }

  /** The Cytoscape 2.8 keys parse per their table. */
  lemma LegacyKeys(t: Table, k: string)
    requires k in Legacy
    ensures Parse(t, Wrappers.Some(k)) == Legacy[k]
  {
    LegacyKeyDigits(k);
    UpperKeeps(k);
    DigitsNoName(k);
    ParseByLegacyKey(t, k);
  }

  lemma LegacyKeyDigits(k: string)
    requires k in Legacy
    ensures 0 < |k| <= 2 && forall i :: 0 <= i < |k| ==> '0' <= k[i] <= '9'
  {
  }

  /** Names start with a letter, so no string starting with a digit is one. */
  lemma DigitsNoName(k: string)
    requires 0 < |k| && '0' <= k[0] <= '9'
    ensures forall s :: Name(s) != k
  {
    forall s ensures Name(s) != k {
      NameChars(s);
    }
  }

  /** No name holds a blank. */
  lemma BlankNoName(key: string, i: int)
    requires 0 <= i < |key| && key[i] == ' '
    ensures forall s :: Name(s) != key
  {
    forall s ensures Name(s) != key {
      NameChars(s);
    }
  }

  /** Legacy keys have at most two characters. */
  lemma LongNoLegacy(key: string)
    requires |key| > 2
    ensures key !in Legacy
  {
  }

  // ----- the display-name fallback ------------------------------------------------------

  /** "Half Top" keys to a string with a blank, which is no name and no legacy key. */
  lemma HalfTopKey(text: string)
    requires text == "Half Top"
    ensures forall s :: Name(s) != Key(text)
    ensures Key(text) !in Legacy
  {
    assert Trim(text) == text;
    BlankNoName(Key(text), 4);
    LongNoLegacy(Key(text));
  }

  /** With the written names, `HALF_BOTTOM`'s display name parses to `HALF_TOP`. */
  lemma HalfBottomDisplayParsesToHalfTop(text: string)
    requires text == DisplayName(AsWritten, HalfBottom)
    ensures ParseArrowTextAsWritten(Wrappers.Some(text)) == HalfTop
  {
    HalfTopKey(text);
    forall x | Index(x) < Index(HalfTop) ensures !Displays(AsWritten, x, text) {
      assert |DisplayName(AsWritten, x)| != |text|;
    }
    ParseByDisplay(AsWritten, text, HalfTop);
  }

  /** With the written names, the display-name search never stops at `HALF_BOTTOM`: `HALF_TOP` comes first with the same name. */
  lemma HalfTopShadowsHalfBottom(text: string)
    ensures DisplayIndex(AsWritten, text, 0) != Index(HalfBottom)
  {
    assert DisplayName(AsWritten, Values[6]) == DisplayName(AsWritten, Values[7]);
  }

  /**
    With the written names, only `HALF_BOTTOM`'s constant name or its
    legacy key "17" parse to it: no text reaches it through the display
    names.
  */
  lemma HalfBottomOnlyByName(text: string)
    requires ParseArrowTextAsWritten(Wrappers.Some(text)) == HalfBottom
    ensures Key(text) == Name(HalfBottom) || Key(text) == "17"
  {
    var key := Key(text);
    assert FromKey(AsWritten, key, text) == HalfBottom;
    var n := NameIndex(key, 0);
    if n < |Values| {
      assert Values[n] == HalfBottom;
    } else if key in Legacy {
      LegacyHalfBottom(key);
    } else {
      DisplayNeverHalfBottom(text);
    }
  }

  /** With the written names, the display-name stage never yields `HALF_BOTTOM`. */
  lemma DisplayNeverHalfBottom(text: string)
    ensures FromDisplay(AsWritten, text) != HalfBottom
  {
    HalfTopShadowsHalfBottom(text);
    var d := DisplayIndex(AsWritten, text, 0);
    if d < |Values| {
      IndexOfValue(d);
    }
  }

  /** Only "17" is the legacy key of `HALF_BOTTOM`. */
  lemma LegacyHalfBottom(key: string)
    requires key in Legacy && Legacy[key] == HalfBottom
    ensures key == "17"
  {
  }

  /** With the intended names, every constant's display name parses back to it. */
  lemma DisplayRoundTrip(s: ArrowShape, text: string)
    requires text == DisplayName(Corrected, s)
    ensures ParseArrowText(Wrappers.Some(text)) == s
  {
    if Index(s) < 6 {
      PlainDisplayKey(s, text);
      ParseByName(Corrected, text, s);
    } else {
      SpacedDisplayKey(s, text);
      LongNoLegacy(Key(text));
      forall x | Index(x) < Index(s) ensures !Displays(Corrected, x, text) {
        EarlierDisplayDiffers(s, x);
      }
      ParseByDisplay(Corrected, text, s);
    }
  }

  /** The first six display names upper-case to the constants' names. */
  lemma PlainDisplayKey(s: ArrowShape, text: string)
    requires Index(s) < 6 && text == DisplayName(Corrected, s)
    ensures Key(text) == Name(s)
  {
    assert Trim(text) == text;
    if Index(s) < 3 {
      PlainDisplayKeyFirst(s, text);
    } else {
      PlainDisplayKeySecond(s, text);
    }
  }

  lemma PlainDisplayKeyFirst(s: ArrowShape, text: string)
    requires Index(s) < 3 && text == DisplayName(Corrected, s)
    ensures Upper(text) == Name(s)
  {
  }

  lemma PlainDisplayKeySecond(s: ArrowShape, text: string)
    requires 3 <= Index(s) < 6 && text == DisplayName(Corrected, s)
    ensures Upper(text) == Name(s)
  {
  }

  /** The other display names hold a blank, which no name holds, and are longer than any legacy key. */
  lemma SpacedDisplayKey(s: ArrowShape, text: string)
    requires Index(s) >= 6 && text == DisplayName(Corrected, s)
    ensures forall x :: Name(x) != Key(text)
    ensures |Key(text)| > 2
  {
    var i := if s == HalfTop || s == HalfBottom then 4 else if s == DiamondShort1 || s == DiamondShort2 then 7 else 5;
    assert 2 < i < |text| - 1 && text[0] > ' ' && text[|text| - 1] > ' ' && text[i] == ' ';
    SpacedKey(text, i);
  }

  /** Text with no blank at either end and a blank inside keeps the blank in its key, which is then no name. */
  lemma SpacedKey(text: string, i: nat)
    requires 2 < i < |text| - 1 && text[0] > ' ' && text[|text| - 1] > ' ' && text[i] == ' '
    ensures forall x :: Name(x) != Key(text)
    ensures |Key(text)| > 2
  {
    assert Trim(text) == text;
    BlankNoName(Key(text), i);
  }

  /** With the intended names, the display names from `HALF_TOP` on differ, ignoring case, from every earlier one. */
  lemma EarlierDisplayDiffers(s: ArrowShape, x: ArrowShape)
    requires Index(s) >= 6 && Index(x) < Index(s)
    ensures !Displays(Corrected, x, DisplayName(Corrected, s))
  {
    var d := DisplayName(Corrected, x);
    var text := DisplayName(Corrected, s);
    if |d| == |text| {
      var i := if x == HalfBottom then 0 else |d| - 1;
      assert UpperChar(d[i]) != UpperChar(text[i]);
    }
  }

  // ----- lookups by renderer id and by serializable string --------------------------------

  /** The renderer's `ArrowShape` value, known by its serializable string. */
  datatype PresentationShape = PresentationShape(serializableString: string)

  function Presentation(s: ArrowShape): PresentationShape
  {
    PresentationShape(Name(s))
  }

  /** `getArrowShape(Byte)`: the presentation shape of the constant with this id, else that of `NONE`. */
  function ArrowShapeOfId(id: int): (r: PresentationShape)
    ensures forall s :: RendererTypeId(s) == id ==> r == Presentation(s)
    ensures (forall s :: RendererTypeId(s) != id) ==> r == Presentation(None)
  {
    var i := IdIndex(id, 0);
    forall s | RendererTypeId(s) == id ensures i == Index(s) {
      ValuesComplete(s);
      if i < Index(s) {
        IdDistinct(s, Values[i]);
        IndexOfValue(i);
      }
    }
    if i < |Values| then Presentation(Values[i]) else Presentation(None)
  }

  /** `getArrowShape(ArrowShape)`: the constant with this serializable string, else `NONE`. */
  function ArrowShapeOf(p: PresentationShape): (r: ArrowShape)
    ensures forall s :: Name(s) == p.serializableString ==> r == s
    ensures (forall s :: Name(s) != p.serializableString) ==> r == None
  {
    NameLookup(p.serializableString);
    var i := NameIndex(p.serializableString, 0);
    if i < |Values| then Values[i] else None
  }

  /** The name search stops at the constant with that name. */
  lemma NameLookup(name: string)
    ensures forall s :: Name(s) == name ==> NameIndex(name, 0) < |Values| && Values[NameIndex(name, 0)] == s
  {
    forall s | Name(s) == name
      ensures NameIndex(name, 0) < |Values| && Values[NameIndex(name, 0)] == s
    {
      NameIndexFinds(name, s);
      ValuesComplete(s);
    }
  }

  /** Renderer id, presentation shape and constant convert into one another without loss. */
  lemma ConversionsRoundTrip(s: ArrowShape)
    ensures ArrowShapeOfId(RendererTypeId(s)) == Presentation(s)
    ensures ArrowShapeOf(ArrowShapeOfId(RendererTypeId(s))) == s
    ensures -13 <= RendererTypeId(s) <= -1
  {
  }
}

=== FILE: buffers.dfy ===
/**
  Packed host buffers: the primitive in dense slot `d` owns the `width`
  consecutive entries starting at `d * width`. The helpers below take the
  start of a record (`d * width`, computed by each manager with its own
  constant width) so that everything here stays linear.
*/
module Buffers {

  /** Two records of the same width that start at different multiples of it do not overlap. */
  ghost predicate Apart(a: int, b: int, width: nat)
  {
    a + width <= b || b + width <= a
  }

  /** The records of two different slots do not overlap. */
  lemma RecordsApart(d: nat, e: nat, width: nat)
    requires d != e
    ensures Apart(d * width, e * width, width)
  {
    if d < e {
      assert d * width + width == (d + 1) * width;
      assert (d + 1) * width <= e * width by { MulLe(d + 1, e, width); }
    } else {
      assert e * width + width == (e + 1) * width;
      assert (e + 1) * width <= d * width by { MulLe(e + 1, d, width); }
    }
  }

  lemma {:induction false} MulLe(a: nat, b: nat, width: nat)
    requires a <= b
    ensures a * width <= b * width
    decreases b - a
  {
    if a < b {
      MulLe(a + 1, b, width);
      assert (a + 1) * width == a * width + width;
    }
  }

  /** The record of `width` entries starting at `base`. */
  function Slot<T>(s: seq<T>, base: nat, width: nat): (r: seq<T>)
    requires base + width <= |s|
    ensures |r| == width
    ensures forall j :: 0 <= j < width ==> r[j] == s[base + j]
  {
    s[base .. base + width]
  }

  /**
    Overwrites the record starting at `to` in `dst` with the record starting
    at `from` in `src`; nothing else changes.
  */
  function CopySlot<T>(dst: seq<T>, to: nat, src: seq<T>, from: nat, width: nat): (r: seq<T>)
    requires to + width <= |dst| && from + width <= |src|
    ensures |r| == |dst|
    ensures Slot(r, to, width) == Slot(src, from, width)
    ensures forall i :: 0 <= i < |dst| && !(to <= i < to + width) ==> r[i] == dst[i]
  {
    var r := seq(|dst|, i requires 0 <= i < |dst| =>
                 if to <= i < to + width then src[from + (i - to)] else dst[i]);
    assert Slot(r, to, width) == Slot(src, from, width);
    r
  }

  /** Copying into one record leaves every record apart from it as it was. */
  lemma CopySlotFrame<T>(dst: seq<T>, to: nat, src: seq<T>, from: nat, width: nat, e: nat)
    requires to + width <= |dst| && from + width <= |src|
    requires e + width <= |dst| && Apart(e, to, width)
    ensures Slot(CopySlot(dst, to, src, from, width), e, width) == Slot(dst, e, width)
  {
  }

  /** Writing entry `j` of the record at `base` changes that record in position `j` only. */
  lemma UpdateSlot<T>(s: seq<T>, base: nat, width: nat, j: nat, v: T, e: nat)
    requires base + width <= |s| && j < width
    requires e + width <= |s| && (e == base || Apart(e, base, width))
    ensures Slot(s[base + j := v], e, width)
              == if e == base then Slot(s, base, width)[j := v] else Slot(s, e, width)
  {
    if e == base {
      assert Slot(s[base + j := v], e, width) == Slot(s, base, width)[j := v];
    }
  }

  /**
    A resized buffer: the first `keep` entries survive, the rest are the
    zero a freshly allocated Java array holds.
  */
  function Resized<T>(s: seq<T>, keep: nat, newLength: nat, zero: T): (r: seq<T>)
    requires keep <= |s| && keep <= newLength
    ensures |r| == newLength
    ensures forall i :: 0 <= i < keep ==> r[i] == s[i]
    ensures forall i :: keep <= i < newLength ==> r[i] == zero
  {
    s[..keep] + seq(newLength - keep, _ => zero)
  }

  /** Records inside the kept prefix read the same after a resize. */
  lemma ResizedSlot<T>(s: seq<T>, keep: nat, newLength: nat, zero: T, e: nat, width: nat)
    requires keep <= |s| && keep <= newLength
    requires e + width <= keep
    ensures Slot(Resized(s, keep, newLength, zero), e, width) == Slot(s, e, width)
  {
  }
}

=== FILE: edge_view.dfy ===
/**
  The per-edge view (viewmodel/ZZEdgeView.java): a local copy of the
  edge's visibility, width and endpoints, and at most one line in the
  shared line pool that mirrors them. Operations take and return the pool.
  Edge views draw no textures yet: their three frame stages do nothing.
*/
module EdgeViews {
  import opened Wrappers
  import opened SlotMaps
  import opened Primitives
  import opened MemoryLimit
  import Pool = LineManager
  import Lines

  datatype EdgeView = EdgeView(
    visible: bool,
    selected: bool,
    width: int,
    source: Vec3,
    target: Vec3,
    line: Option<Lines.Line>,
    needsShapeRedraw: bool)

  /** The line exists exactly when the edge is visible, and its slot shows the view's endpoints and width. */
  ghost predicate Bound(e: EdgeView, m: Pool.Manager)
  {
    Pool.Valid(m)
    && (e.line.Some? <==> e.visible)
    && (e.line.Some? ==>
          Lines.Consistent(e.line.value, m)
          && e.line.value.source == e.source && e.line.value.target == e.target && e.line.value.width == e.width)
  }

  /** Every live slot other than this view's own line survives with its record intact. */
  ghost predicate Untouched(m: Pool.Manager, r: Pool.Manager, e: EdgeView)
    requires Pool.Valid(m) && Pool.Valid(r)
  {
    forall g :: IsLive(m.slots, g) && !(e.line.Some? && g == e.line.value.index) ==>
      IsLive(r.slots, g) && Pool.RecordOf(r, g) == Pool.RecordOf(m, g)
  }

  /**
    `setupRectangles`: a visible view without a line gets one and asks for a
    shape redraw; an invisible view with a line deletes it from the pool.
    The delete is `deleteLine` as the source has it, which leaves the
    device buffer behind and disposes the line's texture
    (`Lines.DeleteLineAsWritten`); as in the source, the memory counter is
    not told.
  */
  function Setup(e: EdgeView, m: Pool.Manager): (res: (EdgeView, Pool.Manager))
    requires Pool.Valid(m)
    requires e.line.Some? ==> Lines.Attached(e.line.value, m)
    requires e.line.Some? && e.visible ==> Bound(e, m)
    ensures Bound(res.0, res.1)
    ensures Untouched(m, res.1, e)
    ensures res.0 == e.(line := res.0.line, needsShapeRedraw := res.0.needsShapeRedraw)
    ensures e.visible && e.line.None? ==> res.0.needsShapeRedraw && !Lines.IsOnDevice(res.0.line.value)
    ensures !e.visible && e.line.Some? ==>
              res.0.needsShapeRedraw == e.needsShapeRedraw
              && forall g :: IsLive(res.1.slots, g) <==> IsLive(m.slots, g) && g != e.line.value.index
    ensures e.visible == e.line.Some? ==> res == (e, m)
  {
    if e.visible && e.line.None? then
      var lPair := Lines.Create(m, e.source, e.target, e.width);
      var l := lPair.0;
      var r := lPair.1;
      (e.(line := Some(l), needsShapeRedraw := true), r)
    else if !e.visible && e.line.Some? then
      (e.(line := None), Lines.DeleteLineAsWritten(e.line.value, m).1)
    else (e, m)
  }

  /**
    The constructor: visibility, selection and width come from the resolved
    visual properties, the endpoints start at the origin, then setup runs.
  */
  function New(visible: bool, selected: bool, width: int, m: Pool.Manager): (res: (EdgeView, Pool.Manager))
    requires Pool.Valid(m)
    ensures Bound(res.0, res.1)
    ensures res.0.line.Some? <==> visible
    ensures res.0.visible == visible && res.0.selected == selected && res.0.width == width
    ensures forall g :: IsLive(m.slots, g) ==> IsLive(res.1.slots, g) && Pool.RecordOf(res.1, g) == Pool.RecordOf(m, g)
    ensures visible ==> !IsLive(m.slots, res.0.line.value.index)
  {
    var origin := Vec3(0.0, 0.0, 0.0);
    Setup(EdgeView(visible, selected, width, origin, origin, None, false), m)
  }

  /** `setVisible`: nothing when unchanged, otherwise the line follows the new visibility. */
  function SetVisible(e: EdgeView, m: Pool.Manager, value: bool): (res: (EdgeView, Pool.Manager))
    requires Bound(e, m)
    ensures Bound(res.0, res.1) && res.0.visible == value
    ensures Untouched(m, res.1, e)
    ensures res.0.line.Some? <==> value
    ensures e.visible == value ==> res == (e, m)
    ensures res.0.source == e.source && res.0.target == e.target && res.0.width == e.width
  {
    if e.visible == value then (e, m)
    else Setup(e.(visible := value), m)
  }

  /**
    `setSourcePosition`: nothing when the position is the same, otherwise
    the stored position and the line move. Positions are compared by value;
    `Vector3` has no `equals` of its own, so the source compares references.
  */
  function SetSourcePosition(e: EdgeView, m: Pool.Manager, p: Vec3): (res: (EdgeView, Pool.Manager))
    requires Bound(e, m)
    ensures Bound(res.0, res.1)
    ensures res.0 == e.(source := p, line := res.0.line)
    ensures res.0.line.Some? == e.line.Some?
    ensures Untouched(m, res.1, e) && res.1.slots == m.slots
    ensures e.source == p ==> res == (e, m)
    ensures e.line.None? ==> res.1 == m
  {
    if e.source == p then (e, m)
    else if e.line.None? then (e.(source := p), m)
    else
      var lPair := Lines.SetSource(e.line.value, m, p);
      var l := lPair.0;
      var r := lPair.1;
      (e.(source := p, line := Some(l)), r)
  }

  /** `setTargetPosition`: as `setSourcePosition`, for the other end. */
  function SetTargetPosition(e: EdgeView, m: Pool.Manager, p: Vec3): (res: (EdgeView, Pool.Manager))
    requires Bound(e, m)
    ensures Bound(res.0, res.1)
    ensures res.0 == e.(target := p, line := res.0.line)
    ensures res.0.line.Some? == e.line.Some?
    ensures Untouched(m, res.1, e) && res.1.slots == m.slots
    ensures e.target == p ==> res == (e, m)
    ensures e.line.None? ==> res.1 == m
  {
    if e.target == p then (e, m)
    else if e.line.None? then (e.(target := p), m)
    else
      var lPair := Lines.SetTarget(e.line.value, m, p);
      var l := lPair.0;
      var r := lPair.1;
      (e.(target := p, line := Some(l)), r)
  }

  /** One coordinate of a point: x for 0, y for 1, z for 2. */
  function WithAxis(p: Vec3, axis: nat, value: real): (r: Vec3)
    requires axis < 3
    ensures axis == 0 ==> r == p.(x := value)
    ensures axis == 1 ==> r == p.(y := value)
    ensures axis == 2 ==> r == p.(z := value)
  {
    if axis == 0 then p.(x := value) else if axis == 1 then p.(y := value) else p.(z := value)
  }

  /** `setSourceX/Y/Z`: the coordinate comparison is the only change detection. */
  function SetSourceAxis(e: EdgeView, m: Pool.Manager, axis: nat, value: real): (res: (EdgeView, Pool.Manager))
    requires Bound(e, m) && axis < 3
    ensures Bound(res.0, res.1)
    ensures res.0.source == WithAxis(e.source, axis, value) && res.0.target == e.target
    ensures WithAxis(e.source, axis, value) == e.source ==> res == (e, m)
  {
    SetSourcePosition(e, m, WithAxis(e.source, axis, value))
  }

  /** `setTargetX/Y/Z`. */
  function SetTargetAxis(e: EdgeView, m: Pool.Manager, axis: nat, value: real): (res: (EdgeView, Pool.Manager))
    requires Bound(e, m) && axis < 3
    ensures Bound(res.0, res.1)
    ensures res.0.target == WithAxis(e.target, axis, value) && res.0.source == e.source
    ensures WithAxis(e.target, axis, value) == e.target ==> res == (e, m)
  {
    SetTargetPosition(e, m, WithAxis(e.target, axis, value))
  }

  /** `setWidth`: nothing when unchanged, otherwise forwarded to the line. */
  function SetWidth(e: EdgeView, m: Pool.Manager, width: int): (res: (EdgeView, Pool.Manager))
    requires Bound(e, m)
    ensures Bound(res.0, res.1)
    ensures res.0 == e.(width := width, line := res.0.line)
    ensures res.0.line.Some? == e.line.Some?
    ensures Untouched(m, res.1, e) && res.1.slots == m.slots
    ensures e.width == width ==> res == (e, m)
    ensures e.line.Some? ==> Pool.RecordOf(res.1, e.line.value.index).size[Pool.Width] == width
  {
    if e.width == width then (e, m)
    else if e.line.None? then (e.(width := width), m)
    else
      var lPair := Lines.SetWidth(e.line.value, m, width);
      var l := lPair.0;
      var r := lPair.1;
      (e.(width := width, line := Some(l)), r)
  }

  /** The visual properties `applyVisualProperty` looks at, and every other one. */
  datatype Property = EdgeSelected | EdgeVisible | NodeVisible | EdgeWidth | OtherProperty

  /** A resolved property value: a flag or a width already narrowed to a `short`. */
  datatype Value = Flag(b: bool) | Amount(n: int)

  /** Values of the type each property carries; a wrong one is a cast failure in the source. */
  predicate WellTyped(p: Property, v: Value)
  {
    match p
    case EdgeSelected => v.Flag?
    case EdgeVisible => v.Flag?
    case NodeVisible => v.Flag?
    case EdgeWidth => v.Amount?
    case OtherProperty => true
  }

  /**
    `applyVisualProperty` as written: selection is ignored, visibility
    follows the node visibility property, width is forwarded.
  */
  function ApplyAsWritten(e: EdgeView, m: Pool.Manager, p: Property, v: Value): (res: (EdgeView, Pool.Manager))
    requires Bound(e, m) && WellTyped(p, v)
    ensures Bound(res.0, res.1)
    ensures p == NodeVisible ==> res.0.visible == v.b
    ensures p != NodeVisible ==> res.0.visible == e.visible
    ensures p == EdgeWidth ==> res.0.width == v.n
    ensures p !in {NodeVisible, EdgeWidth} ==> res == (e, m)
  {
    match p
    case NodeVisible => SetVisible(e, m, v.b)
    case EdgeWidth => SetWidth(e, m, v.n)
    case _ => (e, m)
  }

  /**
    Hiding an edge through its own visibility property has no effect: the
    line stays in the pool although the constructor read visibility from
    that very property.
  */
  lemma EdgeVisibilityIgnored(e: EdgeView, m: Pool.Manager)
    requires Bound(e, m) && e.visible
    ensures ApplyAsWritten(e, m, EdgeVisible, Flag(false)).0.line.Some?
  {
  }

  /** `applyVisualProperty` reacting to the edge's own visibility property. */
  function Apply(e: EdgeView, m: Pool.Manager, p: Property, v: Value): (res: (EdgeView, Pool.Manager))
    requires Bound(e, m) && WellTyped(p, v)
    ensures Bound(res.0, res.1)
    ensures p == EdgeVisible ==> res.0.visible == v.b && (res.0.line.Some? <==> v.b)
    ensures p != EdgeVisible ==> res.0.visible == e.visible
    ensures p == EdgeWidth ==> res.0.width == v.n
    ensures p !in {EdgeVisible, EdgeWidth} ==> res == (e, m)
  {
    match p
    case EdgeVisible => SetVisible(e, m, v.b)
    case EdgeWidth => SetWidth(e, m, v.n)
    case _ => (e, m)
  }

  /** Hiding and showing again gives a line with the same endpoints and width, freshly marked for drawing. */
  lemma HideThenShow(e: EdgeView, m: Pool.Manager)
    requires Bound(e, m) && e.visible
    ensures var (e1, m1) := SetVisible(e, m, false);
            var e2Pair := SetVisible(e1, m1, true);
            var e2 := e2Pair.0;
            var m2 := e2Pair.1;
            e2.line.Some? && e2.needsShapeRedraw && !Lines.IsOnDevice(e2.line.value)
            && Pool.RecordOf(m2, e2.line.value.index).position
               == [e.source.x, e.source.y, e.source.z, e.target.x, e.target.y, e.target.z]
            && Pool.RecordOf(m2, e2.line.value.index).size[Pool.Width] == e.width
  {
  }

  /** `updateState`, `redrawTextures`: edge views never ask for texture work. */
  function WantsStateUpdate(e: EdgeView): (r: bool)
    ensures !r
  {
    false
  }

  /** `dispose`: a device texture, if any, goes back to the counter and is discarded. */
  function Dispose(e: EdgeView, m: Pool.Manager, mem: Limit): (res: (EdgeView, Pool.Manager, Limit))
    requires Bound(e, m)
    ensures Bound(res.0, res.1)
    ensures res.0.line.Some? ==> !Lines.IsOnDevice(res.0.line.value)
    ensures res.0.line.Some? == e.line.Some?
    ensures e.line.Some? && Lines.IsOnDevice(e.line.value) ==>
              res.2 == FreeMemory(mem, OccupiedMemory(e.line.value.texture))
    ensures e.line.None? || !Lines.IsOnDevice(e.line.value) ==> res == (e, m, mem)
  {
    if e.line.Some? && Lines.IsOnDevice(e.line.value) then
      var lTriple := Lines.DiscardOnDevice(e.line.value, m);
      var l := lTriple.0;
      var r := lTriple.1;
      (e.(line := Some(l)), r, FreeMemory(mem, OccupiedMemory(e.line.value.texture)))
    else (e, m, mem)
  }
}

=== FILE: java_text.dfy ===
/**
  `String.split` on a one-character separator, as the label code uses it
  (`text.split("\n")`, `line.split(" ")`): the pieces between separators,
  with trailing empty pieces dropped, except that a string without the
  separator splits into itself, empty or not.
*/
module JavaText {

  /** Every piece between occurrences of `c`, one more than there are occurrences. */
  function Pieces(s: string, c: char): (r: seq<string>)
    ensures |r| >= 1
    ensures forall i :: 0 <= i < |r| ==> c !in r[i]
    decreases |s|
  {
    if |s| == 0 then [""]
    else
      var rest := Pieces(s[1..], c);
      if s[0] == c then [""] + rest
      else [[s[0]] + rest[0]] + rest[1..]
  }

  /** The pieces put back together with `c` between them. */
  function Join(ps: seq<string>, c: char): string
    decreases |ps|
  {
    if |ps| == 0 then ""
    else if |ps| == 1 then ps[0]
    else ps[0] + [c] + Join(ps[1..], c)
  }

  /** Splitting and joining again gives back the string. */
  lemma {:induction false} JoinPieces(s: string, c: char)
    ensures Join(Pieces(s, c), c) == s
    decreases |s|
  {
    if |s| > 0 {
      var rest := Pieces(s[1..], c);
      JoinPieces(s[1..], c);
      if s[0] == c {
        assert s == [c] + s[1..];
      } else {
        var ps := [[s[0]] + rest[0]] + rest[1..];
        assert ps[1..] == rest[1..];
        if |rest| == 1 {
          assert s == [s[0]] + s[1..];
        } else {
          assert Join(rest, c) == rest[0] + [c] + Join(rest[1..], c);
          assert s == [s[0]] + s[1..];
        }
      }
    }
  }

  function DropTrailingEmpty(ps: seq<string>): (r: seq<string>)
    ensures |r| <= |ps| && r == ps[..|r|]
    ensures |r| > 0 ==> r[|r| - 1] != ""
    ensures forall i :: |r| <= i < |ps| ==> ps[i] == ""
    decreases |ps|
  {
    if |ps| > 0 && ps[|ps| - 1] == "" then DropTrailingEmpty(ps[..|ps| - 1]) else ps
  }

  /** `s.split(c)` with the default limit. */
  function Split(s: string, c: char): (r: seq<string>)
    ensures forall i :: 0 <= i < |r| ==> c !in r[i]
    ensures c !in s ==> r == [s]
    ensures c in s ==> |r| == 0 || r[|r| - 1] != ""
  {
    if c !in s then [s] else DropTrailingEmpty(Pieces(s, c))
  }

  /** The characters a label shows: everything but spaces and line breaks. */
  function Visible(s: string): (r: string)
    ensures |r| <= |s|
    decreases |s|
  {
    if |s| == 0 then ""
    else if s[0] == ' ' || s[0] == '\n' then Visible(s[1..])
    else [s[0]] + Visible(s[1..])
  }

  lemma {:induction false} VisibleAppend(a: string, b: string)
    ensures Visible(a + b) == Visible(a) + Visible(b)
    decreases |a|
  {
    if |a| == 0 {
      assert a + b == b;
    } else {
      assert (a + b)[1..] == a[1..] + b;
      VisibleAppend(a[1..], b);
    }
  }

  /** Visible characters of a list of strings, one after another. */
  function VisibleAll(ps: seq<string>): string
    decreases |ps|
  {
    if |ps| == 0 then "" else Visible(ps[0]) + VisibleAll(ps[1..])
  }

  lemma {:induction false} VisibleAllAppend(a: seq<string>, b: seq<string>)
    ensures VisibleAll(a + b) == VisibleAll(a) + VisibleAll(b)
    decreases |a|
  {
    if |a| == 0 {
      assert a + b == b;
    } else {
      assert (a + b)[1..] == a[1..] + b;
      VisibleAllAppend(a[1..], b);
    }
  }

  /** Splitting at spaces or line breaks loses no visible character. */
  lemma {:induction false} VisiblePieces(s: string, c: char)
    requires c == ' ' || c == '\n'
    ensures VisibleAll(Pieces(s, c)) == Visible(s)
    decreases |s|
  {
    if |s| > 0 {
      var rest := Pieces(s[1..], c);
      VisiblePieces(s[1..], c);
      if s[0] != c {
        var ps := [[s[0]] + rest[0]] + rest[1..];
        assert ps[1..] == rest[1..];
        VisibleAppend([s[0]], rest[0]);
      }
    }
  }

  lemma {:induction false} VisibleDropTrailing(ps: seq<string>)
    ensures VisibleAll(DropTrailingEmpty(ps)) == VisibleAll(ps)
    decreases |ps|
  {
    if |ps| > 0 && ps[|ps| - 1] == "" {
      var n := |ps| - 1;
      assert ps == ps[..n] + [ps[n]];
      VisibleAllAppend(ps[..n], [ps[n]]);
      VisibleDropTrailing(ps[..n]);
    }
  }

  /** `split` at spaces or line breaks loses no visible character. */
  lemma SplitKeepsVisible(s: string, c: char)
    requires c == ' ' || c == '\n'
    ensures VisibleAll(Split(s, c)) == Visible(s)
  {
    if c in s {
      VisiblePieces(s, c);
      VisibleDropTrailing(Pieces(s, c));
    }
  }

  /** `split` drops only trailing separators: joining the pieces gives a prefix of the string followed by separators alone. */
  lemma SplitJoin(s: string, c: char)
    ensures |Join(Split(s, c), c)| <= |s|
    ensures Join(Split(s, c), c) == s[..|Join(Split(s, c), c)|]
    ensures forall i :: |Join(Split(s, c), c)| <= i < |s| ==> s[i] == c
  {
    if c in s {
      var ps := Pieces(s, c);
      JoinPieces(s, c);
      JoinDropTrailing(ps, c);
    }
  }

  /** Dropping trailing empty pieces shortens the join by separators only. */
  lemma {:induction false} JoinDropTrailing(ps: seq<string>, c: char)
    ensures |Join(DropTrailingEmpty(ps), c)| <= |Join(ps, c)|
    ensures Join(DropTrailingEmpty(ps), c) == Join(ps, c)[..|Join(DropTrailingEmpty(ps), c)|]
    ensures forall i :: |Join(DropTrailingEmpty(ps), c)| <= i < |Join(ps, c)| ==> Join(ps, c)[i] == c
    decreases |ps|
  {
    if |ps| > 0 && ps[|ps| - 1] == "" {
      var n := |ps| - 1;
      JoinSnoc(ps[..n], c);
      assert ps[..n] + [""] == ps;
      JoinDropTrailing(ps[..n], c);
    }
  }

  /** Appending an empty piece appends one separator, unless there was nothing before it. */
  lemma {:induction false} JoinSnoc(ps: seq<string>, c: char)
    ensures Join(ps + [""], c) == (if |ps| == 0 then "" else Join(ps, c) + [c])
    decreases |ps|
  {
    if |ps| == 1 {
      assert (ps + [""])[1..] == [""];
    } else if |ps| > 1 {
      assert (ps + [""])[1..] == ps[1..] + [""];
      JoinSnoc(ps[1..], c);
    }
  }

  /** `String.trim`: leading and trailing characters up to U+0020 removed, so a slice of `s` is left. */
  function Trim(s: string): (r: string)
    ensures |r| <= |s|
    ensures |r| <= |TrimStart(s)| && r == TrimStart(s)[..|r|]
    ensures |r| > 0 ==> r[0] > ' ' && r[|r| - 1] > ' '
    ensures |s| > 0 && s[0] > ' ' && s[|s| - 1] > ' ' ==> r == s
  {
    TrimEnd(TrimStart(s))
  }

  function TrimStart(s: string): (r: string)
    ensures |r| <= |s| && r == s[|s| - |r|..]
    ensures |r| > 0 ==> r[0] > ' '
    ensures |s| > 0 && s[0] > ' ' ==> r == s
    decreases |s|
  {
    if |s| > 0 && s[0] <= ' ' then TrimStart(s[1..]) else s
  }

  function TrimEnd(s: string): (r: string)
    ensures |r| <= |s| && r == s[..|r|]
    ensures |r| > 0 ==> r[|r| - 1] > ' '
    ensures |s| > 0 && s[|s| - 1] > ' ' ==> r == s
    ensures |s| > 0 && s[0] > ' ' && |r| > 0 ==> r[0] == s[0]
    decreases |s|
  {
    if |s| > 0 && s[|s| - 1] <= ' ' then TrimEnd(s[..|s| - 1]) else s
  }

  /** Upper case for the ASCII letters; every other character is kept. */
  function UpperChar(c: char): (r: char)
    ensures 'a' <= c <= 'z' ==> r as int == c as int - 32
    ensures !('a' <= c <= 'z') ==> r == c
  {
    if 'a' <= c <= 'z' then (c as int - 32) as char else c
  }

  /** `toUpperCase`, for text whose letters are ASCII. */
  function Upper(s: string): (r: string)
    ensures |r| == |s|
    ensures forall i :: 0 <= i < |s| ==> r[i] == UpperChar(s[i])
  {
    seq(|s|, i requires 0 <= i < |s| => UpperChar(s[i]))
  }

  /** `equalsIgnoreCase`, for text whose letters are ASCII: same length, and each pair of characters equal once upper-cased. */
  predicate EqualsIgnoreCase(a: string, b: string)
  {
    |a| == |b| && forall i :: 0 <= i < |a| ==> UpperChar(a[i]) == UpperChar(b[i])
  }

  /** Trimming removes padding of blanks and control characters on both sides. */
  lemma TrimPadding(pad: string, s: string)
    requires forall i :: 0 <= i < |pad| ==> pad[i] <= ' '
    requires |s| > 0 && s[0] > ' ' && s[|s| - 1] > ' '
    ensures Trim(pad + s + pad) == s
  {
    TrimStartPadding(pad, s + pad);
    assert pad + s + pad == pad + (s + pad);
    TrimEndPadding(s, pad);
  }

  lemma {:induction false} TrimStartPadding(pad: string, s: string)
    requires forall i :: 0 <= i < |pad| ==> pad[i] <= ' '
    requires |s| > 0 && s[0] > ' '
    ensures TrimStart(pad + s) == s
    decreases |pad|
  {
    if |pad| > 0 {
      assert (pad + s)[1..] == pad[1..] + s;
      TrimStartPadding(pad[1..], s);
    } else {
      assert pad + s == s;
    }
  }

  lemma {:induction false} TrimEndPadding(s: string, pad: string)
    requires forall i :: 0 <= i < |pad| ==> pad[i] <= ' '
    requires |s| > 0 && s[|s| - 1] > ' '
    ensures TrimEnd(s + pad) == s
    decreases |pad|
  {
    if |pad| > 0 {
      assert (s + pad)[..|s + pad| - 1] == s + pad[..|pad| - 1];
      TrimEndPadding(s, pad[..|pad| - 1]);
    } else {
      assert s + pad == s;
    }
  }

  /** Text without lower-case letters is its own upper case. */
  lemma UpperKeeps(s: string)
    requires forall i :: 0 <= i < |s| ==> !('a' <= s[i] <= 'z')
    ensures Upper(s) == s
  {
  }
}

=== FILE: justification.dfy ===
/**
  Label justification (visualproperties/Justification.java): three values,
  each with a display name, a one-letter short name and the native
  constant the label code uses, plus `parse` and the lazily built list of
  display names.
*/
module Justifications {
  import opened Wrappers
  import Anchors

  datatype Justification = JustifyCenter | JustifyLeft | JustifyRight

  /** `values()`, in declaration order. */
  const Values: seq<Justification> := [JustifyCenter, JustifyLeft, JustifyRight]

  function Name(j: Justification): string
  {
    match j
    case JustifyCenter => "Center Justified"
    case JustifyLeft => "Left Justified"
    case JustifyRight => "Right Justified"
  }

  function ShortName(j: Justification): string
  {
    match j
    case JustifyCenter => "c"
    case JustifyLeft => "l"
    case JustifyRight => "r"
  }

  /** `getConversionConstant`: the anchor module's label-wrap constant of the same side. */
  function ConversionConstant(j: Justification): int
  {
    match j
    case JustifyCenter => Anchors.LabelWrapJustifyCenter
    case JustifyLeft => Anchors.LabelWrapJustifyLeft
    case JustifyRight => Anchors.LabelWrapJustifyRight
  }

  /** The conversion constants are 64, 65 and 66, one per value. */
  lemma ConversionConstants(j: Justification, k: Justification)
    ensures 64 <= ConversionConstant(j) <= 66
    ensures ConversionConstant(j) == ConversionConstant(k) ==> j == k
  {
  }

  /** Every value is listed once. */
  lemma ValuesComplete(j: Justification)
    ensures j in Values
    ensures forall a, b :: 0 <= a < b < |Values| ==> Values[a] != Values[b]
  {
  }

  predicate Matches(j: Justification, value: string)
  {
    Name(j) == value || ShortName(j) == value
  }

  /** The loop of `parse` from position `from`: the first value whose name or short name is `value`. */
  function ParseFrom(value: string, from: nat): (r: Option<Justification>)
    requires from <= |Values|
    ensures r.Some? ==> exists i :: from <= i < |Values| && Values[i] == r.value && Matches(r.value, value)
                                      && forall k :: from <= k < i ==> !Matches(Values[k], value)
    ensures r.None? <==> forall i :: from <= i < |Values| ==> !Matches(Values[i], value)
    decreases |Values| - from
  {
    if from == |Values| then None
    else if Matches(Values[from], value) then Some(Values[from])
    else ParseFrom(value, from + 1)
  }

  /** `parse`: `None` for a missing string or one that names no value. */
  function Parse(value: Option<string>): (r: Option<Justification>)
    ensures value.None? ==> r.None?
    ensures r.Some? ==> value.Some? && Matches(r.value, value.value)
  {
    if value.None? then None else ParseFrom(value.value, 0)
  }

  /** No two values share a name or a short name, and no name is another's short name. */
  lemma NamesUnambiguous(j: Justification, k: Justification, value: string)
    requires Matches(j, value) && Matches(k, value)
    ensures j == k
  {
  }

  /** `parse` finds a value exactly when the string is its name or its short name. */
  lemma ParseIff(j: Justification, value: string)
    ensures Parse(Some(value)) == Some(j) <==> Matches(j, value)
  {
    if Matches(j, value) {
      var r := Parse(Some(value));
      ValuesComplete(j);
      assert r.Some?;
      NamesUnambiguous(j, r.value, value);
    }
  }

  /** Both names of every value parse back to it. */
  lemma ParseRoundTrip(j: Justification)
    ensures Parse(Some(Name(j))) == Some(j)
    ensures Parse(Some(ShortName(j))) == Some(j)
  {
    ParseIff(j, Name(j));
    ParseIff(j, ShortName(j));
  }

  /** The display names in declaration order. */
  function NamesInOrder(): (r: seq<string>)
    ensures |r| == |Values|
    ensures forall i :: 0 <= i < |Values| ==> r[i] == Name(Values[i])
  {
    [Name(Values[0]), Name(Values[1]), Name(Values[2])]
  }

  /**
    `getNames`: the cached array, built on the first call. The cache is
    the state `JUSTIFY`; the result is the names and the cache after the
    call.
  */
  function GetNames(cache: Option<seq<string>>): (r: (seq<string>, Option<seq<string>>))
    ensures r.1 == Some(r.0)
    ensures cache.Some? ==> r.0 == cache.value
    ensures cache.None? ==> r.0 == NamesInOrder()
  {
    var names := if cache.None? then NamesInOrder() else cache.value;
    (names, Some(names))
  }

  /** The cache holds the display names in order, or nothing yet. */
  predicate CacheValid(cache: Option<seq<string>>)
  {
    cache.None? || cache.value == NamesInOrder()
  }

  /** From a valid cache every call returns the names in order, every later call the same, and the cache stays valid. */
  lemma GetNamesStable(cache: Option<seq<string>>)
    requires CacheValid(cache)
    ensures GetNames(cache).0 == NamesInOrder()
    ensures CacheValid(GetNames(cache).1)
    ensures GetNames(GetNames(cache).1).0 == GetNames(cache).0
    ensures forall i :: 0 <= i < |Values| ==> Parse(Some(GetNames(cache).0[i])) == Some(Values[i])
  {
    forall i | 0 <= i < |Values|
      ensures Parse(Some(GetNames(cache).0[i])) == Some(Values[i])
    {
      ParseRoundTrip(Values[i]);
    }
  }
}

=== FILE: legacy_view_locks.dfy ===
/**
  The older lock handling (cytoscape/view/ZZView.java). Values,
  resolution order and `clearVisualProperties` are those of `ViewLocks`;
  what differs is that the lock tests read the stored value, so a lock
  holding `null` counts as no lock, and that `clearValueLock` queues every
  child again after the filtered ones, so its walk reaches the whole
  subtree.
*/
module LegacyViewLocks {
  import opened Wrappers
  import opened LexiconTree
  import opened ViewLocks

  /** `isValueLocked`: an inherited or direct lock with a non-null value. */
  predicate IsValueLockedLegacy(v: View, p: Prop)
  {
    p in v.all && v.all[p].Some?
  }

  /** `isDirectlyLocked`: a direct lock with a non-null value. */
  predicate IsDirectlyLockedLegacy(v: View, p: Prop)
  {
    p in v.direct && v.direct[p].Some?
  }

  /** The properties whose direct lock counts. */
  function DirectlyLocked(direct: map<Prop, Option<int>>): (r: set<Prop>)
    ensures forall p :: p in r <==> p in direct && direct[p].Some?
  {
    set p | p in direct && direct[p].Some?
  }

  /** Every counted direct lock is also an inherited lock with the same value. */
  ghost predicate CoherentLegacy(v: View)
  {
    forall p :: p in v.direct && v.direct[p].Some? ==> p in v.all && v.all[p] == v.direct[p]
  }

  /** `setVisualProperty`: as in the newer class, but applied unless locked with a non-null value. */
  function SetVisualPropertyLegacy(v: View, p: Prop, value: Option<int>): (r: (View, bool))
    ensures r.0 == SetVisualProperty(v, p, value).0
    ensures r.1 <==> !p.isSelection && !IsValueLockedLegacy(v, p)
  {
    (SetVisualProperty(v, p, value).0, !p.isSelection && !IsValueLockedLegacy(v, p))
  }

  /**
    The reference for `setLockedValue` and `propagateLockedVisualProperty`:
    the walk from the children stops at nodes whose direct lock counts,
    the root's new lock included.
  */
  function LockedLegacy(v: View, node: Node, value: Option<int>): View
  {
    var direct := v.direct[node.vp := value];
    var inherited := set p | p in Reach(node.children, DirectlyLocked(direct), None) && p.kind == node.vp.kind;
    View(v.values, direct, Inherit(v.all, inherited, value)[node.vp := value])
  }

  /** `setLockedValue`, with the breadth-first walk. */
  method SetLockedValueLegacy(v: View, node: Node, value: Option<int>) returns (r: View)
    ensures r == LockedLegacy(v, node, value)
  {
    var direct := v.direct[node.vp := value];
    var visited := Walk(node.children, DirectlyLocked(direct), None);
    var marked := set p | p in visited && p.kind == node.vp.kind;
    r := View(v.values, direct, Inherit(v.all, marked, value)[node.vp := value]);
  }

  /** Locking with `null` stores the lock, yet setting a regular value is still applied, as if unlocked. */
  lemma NullLockCountsAsUnlocked(v: View, node: Node, value: Option<int>)
    requires !node.vp.isSelection
    ensures node.vp in LockedLegacy(v, node, None).direct && node.vp in LockedLegacy(v, node, None).all
    ensures SetVisualPropertyLegacy(LockedLegacy(v, node, None), node.vp, value).1
    ensures !SetVisualProperty(LockedLegacy(v, node, None), node.vp, value).1
  {
  }

  /** Locking keeps counted direct locks mirrored in the inherited-lock map. */
  lemma LockedLegacyCoherent(v: View, node: Node, value: Option<int>)
    requires CoherentLegacy(v)
    ensures CoherentLegacy(LockedLegacy(v, node, value))
  {
  }

  /**
    The reference for `clearValueLock` as written: the direct lock goes,
    and every property in the subtree loses its inherited-lock entry,
    directly locked ones included.
  */
  function ClearedLegacy(v: View, node: Node): View
  {
    View(v.values, v.direct - {node.vp}, v.all - Reach([node], {}, None))
  }

  /** `clearValueLock` as written, with its walk that queues children twice. */
  method ClearValueLockLegacy(v: View, node: Node) returns (r: View)
    ensures r == ClearedLegacy(v, node)
  {
    var direct := v.direct - {node.vp};
    var removed := WalkAll([node], DirectlyLocked(direct));
    r := View(v.values, direct, v.all - removed);
  }

  /** A property with one child of the same class, the child directly locked. */
  const Parent := Prop(1, 1, false, false, 0)
  const Child := Prop(2, 1, false, false, 0)
  const Family := Node(Parent, [Node(Child, [])])
  const ChildLocked := View(map[], map[Child := Some(7)], map[Child := Some(7)])

  /**
    Releasing the parent drops the child's inherited-lock entry although
    its direct lock stays: the view is no longer coherent, and a regular
    value set on the child is applied over its direct lock.
  */
  lemma DirectLockLosesEntry()
    ensures CoherentLegacy(ChildLocked)
    ensures ClearedLegacy(ChildLocked, Family).direct == map[Child := Some(7)]
    ensures Child !in ClearedLegacy(ChildLocked, Family).all
    ensures !CoherentLegacy(ClearedLegacy(ChildLocked, Family))
    ensures SetVisualPropertyLegacy(ClearedLegacy(ChildLocked, Family), Child, Some(1)).1
  {
    assert Reach(Family.children, {}, None) == {Child} by {
      assert Reach(Family.children[1..], {}, None) == {};
    }
    assert Reach([Family], {}, None) == {Parent, Child};
    assert ChildLocked.direct - {Parent} == ChildLocked.direct;
  }

  /**
    The release the filtered queueing intends: children with a counted
    direct lock are not visited, so their entries stay.
  */
  function ClearedLegacyCorrected(v: View, node: Node): View
  {
    var direct := v.direct - {node.vp};
    View(v.values, direct, v.all - Reach([node], DirectlyLocked(direct), None))
  }

  /** The corrected older `clearValueLock`, queueing only the filtered children. */
  method ClearValueLockLegacyCorrected(v: View, node: Node) returns (r: View)
    ensures r == ClearedLegacyCorrected(v, node)
  {
    var direct := v.direct - {node.vp};
    var removed := Walk([node], DirectlyLocked(direct), None);
    r := View(v.values, direct, v.all - removed);
  }

  /** The corrected release removes the property's locks and keeps the view coherent. */
  lemma ClearedLegacyCorrectedCoherent(v: View, node: Node)
    requires CoherentLegacy(v)
    ensures node.vp !in ClearedLegacyCorrected(v, node).direct && node.vp !in ClearedLegacyCorrected(v, node).all
    ensures CoherentLegacy(ClearedLegacyCorrected(v, node))
  {
    var direct := v.direct - {node.vp};
    assert node.vp in Reach([node], DirectlyLocked(direct), None);
  }

  /** On the family tree the corrected release keeps the child's lock. */
  lemma CorrectedKeepsChildLock()
    ensures ClearedLegacyCorrected(ChildLocked, Family) == ChildLocked
  {
    assert ChildLocked.direct - {Parent} == ChildLocked.direct;
    assert DirectlyLocked(ChildLocked.direct) == {Child};
    assert Reach(Family.children, {Child}, None) == {} by {
      assert Reach(Family.children[1..], {Child}, None) == {};
    }
    assert Reach([Family], {Child}, None) == {Parent};
  }
}

=== FILE: lexicon_tree.dfy ===
/**
  The visual lexicon's property tree as the lock walks see it
  (VisualLexiconNode): every node carries one visual property and an
  ordered list of children. The walks are breadth-first, with a queue, as
  in both ZZView classes; `Reach` is the set of properties such a walk
  visits, defined by structural recursion, and each walk is proved to
  visit exactly that set.
*/
module LexiconTree {
  import opened Wrappers

  /**
    A visual property: its identity, the Java class of its values (the
    walks compare it with `getClass()`), whether it ignores defaults,
    whether it is one of the two selection properties, and its own
    default value.
  */
  datatype Prop = Prop(id: int, kind: int, ignoresDefault: bool, isSelection: bool, default: int)

  datatype Node = Node(vp: Prop, children: seq<Node>)

  /** Number of nodes in a forest. */
  function Size(ns: seq<Node>): nat
    decreases ns
  {
    if |ns| == 0 then 0 else 1 + Size(ns[0].children) + Size(ns[1..])
  }

  /** A measure that also falls when a node's children are queued twice. */
  function Weight(ns: seq<Node>): nat
    decreases ns
  {
    if |ns| == 0 then 0 else 1 + 2 * Weight(ns[0].children) + Weight(ns[1..])
  }

  /** Whether a walk enters a node: its property is not a stop, and has the wanted class if one is wanted. */
  predicate Enters(p: Prop, stop: set<Prop>, kind: Option<int>)
  {
    p !in stop && (kind.None? || p.kind == kind.value)
  }

  /** The properties a walk over `ns` visits when it enters only the nodes `Enters` admits. */
  function Reach(ns: seq<Node>, stop: set<Prop>, kind: Option<int>): (r: set<Prop>)
    ensures forall p :: p in r ==> Enters(p, stop, kind)
    decreases ns
  {
    if |ns| == 0 then {}
    else
      (if Enters(ns[0].vp, stop, kind) then {ns[0].vp} + Reach(ns[0].children, stop, kind) else {})
      + Reach(ns[1..], stop, kind)
  }

  /** The children of `ns` whose properties are not in `stop`, in order. */
  function Unstopped(ns: seq<Node>, stop: set<Prop>): (r: seq<Node>)
    ensures |r| <= |ns|
    ensures forall i :: 0 <= i < |r| ==> r[i] in ns && r[i].vp !in stop
    ensures forall n :: n in ns && n.vp !in stop ==> n in r
    decreases |ns|
  {
    if |ns| == 0 then []
    else if ns[0].vp in stop then Unstopped(ns[1..], stop)
    else [ns[0]] + Unstopped(ns[1..], stop)
  }

  lemma {:induction false} SizeAppend(a: seq<Node>, b: seq<Node>)
    ensures Size(a + b) == Size(a) + Size(b)
    decreases |a|
  {
    if |a| > 0 {
      assert (a + b)[0] == a[0] && (a + b)[1..] == a[1..] + b;
      SizeAppend(a[1..], b);
    } else {
      assert a + b == b;
    }
  }

  lemma {:induction false} WeightAppend(a: seq<Node>, b: seq<Node>)
    ensures Weight(a + b) == Weight(a) + Weight(b)
    decreases |a|
  {
    if |a| > 0 {
      assert (a + b)[0] == a[0] && (a + b)[1..] == a[1..] + b;
      WeightAppend(a[1..], b);
    } else {
      assert a + b == b;
    }
  }

  /** A walk over a concatenation visits what the walks over the parts visit. */
  lemma {:induction false} ReachAppend(a: seq<Node>, b: seq<Node>, stop: set<Prop>, kind: Option<int>)
    ensures Reach(a + b, stop, kind) == Reach(a, stop, kind) + Reach(b, stop, kind)
    decreases |a|
  {
    if |a| > 0 {
      assert (a + b)[0] == a[0] && (a + b)[1..] == a[1..] + b;
      ReachAppend(a[1..], b, stop, kind);
    } else {
      assert a + b == b;
    }
  }

  /** Dropping the stopped children first changes neither what a walk stopping there visits nor more than it weighs. */
  lemma {:induction false} UnstoppedReach(ns: seq<Node>, stop: set<Prop>, kind: Option<int>)
    ensures Reach(Unstopped(ns, stop), stop, kind) == Reach(ns, stop, kind)
    ensures Reach(Unstopped(ns, stop), {}, None) <= Reach(ns, {}, None)
    ensures Weight(Unstopped(ns, stop)) <= Weight(ns)
    decreases |ns|
  {
    if |ns| > 0 {
      UnstoppedReach(ns[1..], stop, kind);
      if ns[0].vp !in stop {
        var u := [ns[0]] + Unstopped(ns[1..], stop);
        assert u[0] == ns[0] && u[1..] == Unstopped(ns[1..], stop);
      }
    }
  }

  /** More stops, fewer visits. */
  lemma {:induction false} ReachAntitone(ns: seq<Node>, stop: set<Prop>, more: set<Prop>, kind: Option<int>)
    requires stop <= more
    ensures Reach(ns, more, kind) <= Reach(ns, stop, kind)
    decreases ns
  {
    if |ns| > 0 {
      ReachAntitone(ns[0].children, stop, more, kind);
      ReachAntitone(ns[1..], stop, more, kind);
    }
  }

  /** A class-restricted walk visits only part of what the unrestricted walk with the same stops visits. */
  lemma {:induction false} ReachOfKind(ns: seq<Node>, stop: set<Prop>, k: int)
    ensures Reach(ns, stop, Some(k)) <= Reach(ns, stop, None)
    decreases ns
  {
    if |ns| > 0 {
      ReachOfKind(ns[0].children, stop, k);
      ReachOfKind(ns[1..], stop, k);
    }
  }

  /**
    The breadth-first walk of `setLockedValue` and of the newer
    `clearValueLock`: pop the head of the queue; if the walk enters it, it
    is visited and its children are queued at the back.
  */
  method Walk(roots: seq<Node>, stop: set<Prop>, kind: Option<int>) returns (visited: set<Prop>)
    ensures visited == Reach(roots, stop, kind)
  {
    var queue := roots;
    visited := {};
    while |queue| > 0
      invariant visited + Reach(queue, stop, kind) == Reach(roots, stop, kind)
      decreases Size(queue)
    {
      var n := queue[0];
      ReachAppend(queue[1..], n.children, stop, kind);
      SizeAppend(queue[1..], n.children);
      if Enters(n.vp, stop, kind) {
        visited := visited + {n.vp};
        queue := queue[1..] + n.children;
      } else {
        queue := queue[1..];
      }
    }
  }

  /**
    The walk of the older `clearValueLock`: every popped node is visited,
    and its children are queued twice, once filtered by `locked` and once
    unfiltered, so it reaches every node below the roots.
  */
  method WalkAll(roots: seq<Node>, locked: set<Prop>) returns (visited: set<Prop>)
    ensures visited == Reach(roots, {}, None)
  {
    var queue := roots;
    visited := {};
    while |queue| > 0
      invariant visited + Reach(queue, {}, None) == Reach(roots, {}, None)
      decreases Weight(queue)
    {
      var n := queue[0];
      var again := Unstopped(n.children, locked);
      UnstoppedReach(n.children, locked, None);
      ReachAppend(queue[1..] + again, n.children, {}, None);
      ReachAppend(queue[1..], again, {}, None);
      WeightAppend(queue[1..] + again, n.children);
      WeightAppend(queue[1..], again);
      visited := visited + {n.vp};
      queue := queue[1..] + again + n.children;
    }
  }
}

=== FILE: line.dfy ===
/**
  The line handle (rendering/ZZLine.java): the local copy of one line's
  endpoints, width and texture, forwarded to its slot in the line pool.
  As for rectangles, operations take and return the pool state, and those
  that dispose a device texture return the texture disposed.
*/
module Lines {
  import opened Wrappers
  import opened SlotMaps
  import opened Primitives
  import Pool = LineManager

  datatype Line = Line(
    index: int,
    source: Vec3,
    target: Vec3,
    width: int,
    textureWidth: int,
    textureHeight: int,
    textureHost: seq<bv8>,
    texture: Option<Texture>)

  ghost predicate Attached(l: Line, m: Pool.Manager)
  {
    Pool.Valid(m) && IsLive(m.slots, l.index)
  }

  /** The slot holds the endpoints and the width (at both vertices) the handle holds. */
  ghost predicate Consistent(l: Line, m: Pool.Manager)
  {
    Attached(l, m)
    && Pool.RecordOf(m, l.index).position
       == [l.source.x, l.source.y, l.source.z, l.target.x, l.target.y, l.target.z]
    && Pool.RecordOf(m, l.index).size[Pool.Width] == l.width
    && Pool.RecordOf(m, l.index).size[Pool.Width + 3] == l.width
  }

  /** Only handle `h`'s record may differ; the slot layout and the mirror are kept. */
  ghost predicate OthersKept(m: Pool.Manager, r: Pool.Manager, h: int)
    requires Pool.Valid(m) && Pool.Valid(r)
  {
    r.slots == m.slots
    && (forall g :: IsLive(m.slots, g) && g != h ==> Pool.RecordOf(r, g) == Pool.RecordOf(m, g))
    && (Pool.Mirrored(m) ==> Pool.Mirrored(r))
    && r.defaultTexture == m.defaultTexture && r.defaultWidth == m.defaultWidth
    && r.defaultHeight == m.defaultHeight
  }

  /** Three consecutive position writes starting at `base`: `setSourceX/Y/Z` for 0, `setTargetX/Y/Z` for 3. */
  function WritePoint(m: Pool.Manager, h: int, base: nat, p: Vec3): (r: Pool.Manager)
    requires Pool.Valid(m) && IsLive(m.slots, h) && (base == 0 || base == 3)
    ensures Pool.Valid(r) && OthersKept(m, r, h)
    ensures Pool.RecordOf(r, h)
            == Pool.RecordOf(m, h).(position := Pool.RecordOf(m, h).position[base := p.x][base + 1 := p.y][base + 2 := p.z])
  {
    var m1 := Pool.SetPosition(m, h, base, p.x);
    var m2 := Pool.SetPosition(m1, h, base + 1, p.y);
    Pool.SetPosition(m2, h, base + 2, p.z)
  }

  /** The Java field initialisers of a new line before its constructor body runs. */
  function Fresh(index: int): Line
  {
    Line(index, Vec3(0.0, 0.0, 0.0), Vec3(0.0, 0.0, 0.0), 0, 1, 1, [0, 0, 0, 0], None)
  }

  /** The constructor body on the pool: width, source, target, then the default texture. */
  function Construct(m: Pool.Manager, h: int, source: Vec3, target: Vec3, width: int): (r: Pool.Manager)
    requires Pool.Valid(m) && IsLive(m.slots, h)
    ensures Pool.Valid(r) && OthersKept(m, r, h)
    ensures Consistent(Fresh(h).(source := source, target := target, width := width), r)
    ensures Pool.RecordOf(r, h).texture == m.defaultTexture
  {
    var m1 := Place(m, h, source, target, width);
    Pool.SetTextureToDefault(m1, h)
  }

  /** The geometry writes of the constructor: width, source, then target. */
  function Place(m: Pool.Manager, h: int, source: Vec3, target: Vec3, width: int): (r: Pool.Manager)
    requires Pool.Valid(m) && IsLive(m.slots, h)
    ensures Pool.Valid(r) && OthersKept(m, r, h)
    ensures Consistent(Fresh(h).(source := source, target := target, width := width), r)
  {
    var m1 := Pool.SetSizeBoth(m, h, Pool.Width, width);
    var m2 := WritePoint(m1, h, 0, source);
    var r := WritePoint(m2, h, 3, target);
    assert Pool.RecordOf(r, h).position == [source.x, source.y, source.z, target.x, target.y, target.z];
    r
  }

  /** `createLine`: a fresh slot whose contents agree with the new handle. */
  function Create(m: Pool.Manager, source: Vec3, target: Vec3, width: int): (res: (Line, Pool.Manager))
    requires Pool.Valid(m)
    ensures Consistent(res.0, res.1)
    ensures !IsLive(m.slots, res.0.index)
    ensures forall g :: IsLive(res.1.slots, g) <==> IsLive(m.slots, g) || g == res.0.index
    ensures forall g :: IsLive(m.slots, g) ==> Pool.RecordOf(res.1, g) == Pool.RecordOf(m, g)
    ensures res.0.source == source && res.0.target == target && res.0.width == width
    ensures Pool.RecordOf(res.1, res.0.index).texture == m.defaultTexture
    ensures !IsOnDevice(res.0)
    ensures Pool.Mirrored(m) ==> Pool.Mirrored(res.1)
  {
    var m1Pair := Pool.Create(m);
    var m1 := m1Pair.0;
    var h := m1Pair.1;
    (Fresh(h).(source := source, target := target, width := width), Construct(m1, h, source, target, width))
  }

  /** `setWidth`: both vertices of the slot get the width. */
  function SetWidth(l: Line, m: Pool.Manager, width: int): (res: (Line, Pool.Manager))
    requires Attached(l, m)
    ensures Attached(res.0, res.1) && OthersKept(m, res.1, l.index)
    ensures res.0 == l.(width := width)
    ensures Consistent(l, m) ==> Consistent(res.0, res.1)
  {
    (l.(width := width), Pool.SetSizeBoth(m, l.index, Pool.Width, width))
  }

  /** `setSource`: all three coordinates are forwarded. */
  function SetSource(l: Line, m: Pool.Manager, source: Vec3): (res: (Line, Pool.Manager))
    requires Attached(l, m)
    ensures Attached(res.0, res.1) && OthersKept(m, res.1, l.index)
    ensures res.0 == l.(source := source)
    ensures Pool.RecordOf(res.1, l.index).position[..3] == [source.x, source.y, source.z]
    ensures Pool.RecordOf(res.1, l.index).position[3..] == Pool.RecordOf(m, l.index).position[3..]
    ensures Consistent(l, m) ==> Consistent(res.0, res.1)
  {
    var r := WritePoint(m, l.index, 0, source);
    assert Pool.RecordOf(r, l.index).position[..3] == [source.x, source.y, source.z];
    (l.(source := source), r)
  }

  /** `setTarget`: all three coordinates are forwarded. */
  function SetTarget(l: Line, m: Pool.Manager, target: Vec3): (res: (Line, Pool.Manager))
    requires Attached(l, m)
    ensures Attached(res.0, res.1) && OthersKept(m, res.1, l.index)
    ensures res.0 == l.(target := target)
    ensures Pool.RecordOf(res.1, l.index).position[3..] == [target.x, target.y, target.z]
    ensures Pool.RecordOf(res.1, l.index).position[..3] == Pool.RecordOf(m, l.index).position[..3]
    ensures Consistent(l, m) ==> Consistent(res.0, res.1)
  {
    var r := WritePoint(m, l.index, 3, target);
    assert Pool.RecordOf(r, l.index).position[3..] == [target.x, target.y, target.z];
    (l.(target := target), r)
  }

  /** Texture dimensions at both vertices, as `setTextureSizeU/V` write them. */
  function WriteTextureSize(m: Pool.Manager, h: int, width: int, height: int): (r: Pool.Manager)
    requires Pool.Valid(m) && IsLive(m.slots, h)
    ensures Pool.Valid(r) && OthersKept(m, r, h)
    ensures Pool.RecordOf(r, h).size[1] == width && Pool.RecordOf(r, h).size[4] == width
    ensures Pool.RecordOf(r, h).size[2] == height && Pool.RecordOf(r, h).size[5] == height
    ensures Pool.RecordOf(r, h).size[0] == Pool.RecordOf(m, h).size[0]
    ensures Pool.RecordOf(r, h).size[3] == Pool.RecordOf(m, h).size[3]
    ensures Pool.RecordOf(r, h).position == Pool.RecordOf(m, h).position
    ensures Pool.RecordOf(r, h).texture == Pool.RecordOf(m, h).texture
  {
    var m1 := Pool.SetSizeBoth(m, h, Pool.TextureU, width);
    Pool.SetSizeBoth(m1, h, Pool.TextureV, height)
  }

  /**
    `setTextureSize`: a zeroed host buffer of four bytes per texel,
    dimensions forwarded. A negative byte count makes `new byte[]` throw.
  */
  function SetTextureSize(l: Line, m: Pool.Manager, width: int, height: int): (res: (Line, Pool.Manager))
    requires Attached(l, m) && 0 <= width * height * 4 < 0x8000_0000
    ensures Attached(res.0, res.1) && OthersKept(m, res.1, l.index)
    ensures res.0.textureWidth == width && res.0.textureHeight == height
    ensures |res.0.textureHost| == width * height * 4
    ensures forall i :: 0 <= i < |res.0.textureHost| ==> res.0.textureHost[i] == 0
    ensures res.0.(textureWidth := l.textureWidth, textureHeight := l.textureHeight, textureHost := l.textureHost) == l
    ensures Pool.RecordOf(res.1, l.index).size[1] == width && Pool.RecordOf(res.1, l.index).size[4] == width
    ensures Pool.RecordOf(res.1, l.index).size[2] == height && Pool.RecordOf(res.1, l.index).size[5] == height
    ensures Consistent(l, m) ==> Consistent(res.0, res.1)
  {
    (l.(textureWidth := width, textureHeight := height, textureHost := ZeroBytes(width * height * 4)),
     WriteTextureSize(m, l.index, width, height))
  }

  /** `setTexture(data, width, height)`. */
  function SetTexture(l: Line, m: Pool.Manager, data: seq<bv8>, width: int, height: int): (res: (Line, Pool.Manager))
    requires Attached(l, m)
    ensures Attached(res.0, res.1) && OthersKept(m, res.1, l.index)
    ensures res.0 == l.(textureWidth := width, textureHeight := height, textureHost := data)
    ensures Pool.RecordOf(res.1, l.index).size[1] == width && Pool.RecordOf(res.1, l.index).size[4] == width
    ensures Pool.RecordOf(res.1, l.index).size[2] == height && Pool.RecordOf(res.1, l.index).size[5] == height
    ensures Consistent(l, m) ==> Consistent(res.0, res.1)
  {
    (l.(textureWidth := width, textureHeight := height, textureHost := data),
     WriteTextureSize(m, l.index, width, height))
  }

  /** `isOnDevice`. */
  predicate IsOnDevice(l: Line)
  {
    l.texture.Some?
  }

  /** `putOnDevice`: the previous texture is disposed, the new one is uploaded and its handle goes to the slot. */
  function PutOnDevice(l: Line, m: Pool.Manager, id: int): (res: (Line, Pool.Manager, Option<Texture>))
    requires Attached(l, m)
    ensures Attached(res.0, res.1) && OthersKept(m, res.1, l.index)
    ensures IsOnDevice(res.0)
    ensures res.0.texture == Some(Texture(id, l.textureWidth, l.textureHeight))
    ensures res.2 == l.texture
    ensures res.0.(texture := l.texture) == l
    ensures Pool.RecordOf(res.1, l.index) == Pool.RecordOf(m, l.index).(texture := id)
    ensures Consistent(l, m) ==> Consistent(res.0, res.1)
  {
    (l.(texture := Some(Texture(id, l.textureWidth, l.textureHeight))), Pool.SetTexture(m, l.index, id), l.texture)
  }

  /** `discardOnDevice`: a no-op without a texture; otherwise dispose it and revert the slot to the default. */
  function DiscardOnDevice(l: Line, m: Pool.Manager): (res: (Line, Pool.Manager, Option<Texture>))
    requires Attached(l, m)
    ensures Attached(res.0, res.1) && OthersKept(m, res.1, l.index)
    ensures !IsOnDevice(res.0) && res.2 == l.texture && res.0 == l.(texture := None)
    ensures !IsOnDevice(l) ==> res.1 == m
    ensures IsOnDevice(l) ==> Pool.RecordOf(res.1, l.index).texture == m.defaultTexture
    ensures Consistent(l, m) ==> Consistent(res.0, res.1)
  {
    if !IsOnDevice(l) then (l, m, None)
    else (l.(texture := None), Pool.SetTextureToDefault(m, l.index), l.texture)
  }

  /** `getCorners`: a single zero vector, whatever the view. */
  function Corners(l: Line): (c: seq<Vec4>)
    ensures |c| == 1 && c[0] == Origin4
  {
    [Origin4]
  }

  /** `isInFrustum`: lines are never culled. */
  predicate IsInFrustum(l: Line)
  {
    true
  }

  /** `dispose`: the texture, if any, is released and returned. */
  function Dispose(l: Line): (res: (Line, Option<Texture>))
    ensures !IsOnDevice(res.0) && res.1 == l.texture
    ensures res.0 == l.(texture := None)
  {
    (l.(texture := None), l.texture)
  }

  /** Disposing twice releases nothing the second time. */
  lemma DisposeIdempotent(l: Line)
    ensures Dispose(Dispose(l).0).0 == Dispose(l).0
    ensures Dispose(Dispose(l).0).1 == None
  {
  }

  /**
    `deleteLine` as a whole, with the pool's delete as the source writes it
    (`LineManager.DeleteLineAsWritten`): the slot is given up and the line
    is then disposed, so the texture it held, if any, is what the call
    releases.
  */
  function DeleteLineAsWritten(l: Line, m: Pool.Manager): (res: (Line, Pool.Manager, Option<Texture>))
    requires Attached(l, m)
    ensures Pool.Valid(res.1) && !IsOnDevice(res.0)
    ensures res.2 == l.texture
    ensures res.0 == l.(texture := None)
    ensures forall g :: IsLive(res.1.slots, g) <==> IsLive(m.slots, g) && g != l.index
    ensures forall g :: IsLive(res.1.slots, g) ==> Pool.RecordOf(res.1, g) == Pool.RecordOf(m, g)
  {
    var d := Dispose(l);
    (d.0, Pool.DeleteLineAsWritten(m, l.index), d.1)
  }

  /** `deleteLine` as a whole, with the corrected pool delete (`LineManager.DeleteLine`), which also keeps the mirror. */
  function DeleteLine(l: Line, m: Pool.Manager): (res: (Line, Pool.Manager, Option<Texture>))
    requires Attached(l, m)
    ensures Pool.Valid(res.1) && !IsOnDevice(res.0)
    ensures res.2 == l.texture
    ensures res.0 == l.(texture := None)
    ensures forall g :: IsLive(res.1.slots, g) <==> IsLive(m.slots, g) && g != l.index
    ensures forall g :: IsLive(res.1.slots, g) ==> Pool.RecordOf(res.1, g) == Pool.RecordOf(m, g)
    ensures Pool.Mirrored(m) ==> Pool.Mirrored(res.1)
  {
    var d := Dispose(l);
    (d.0, Pool.DeleteLine(m, l.index), d.1)
  }

  /** A line created and deleted again releases nothing and leaves the pool's live handles and their records as they were. */
  lemma CreateThenDelete(m: Pool.Manager, source: Vec3, target: Vec3, width: int)
    requires Pool.Valid(m)
    ensures var (l, m1) := Create(m, source, target, width);
            var (_, m2, released) := DeleteLine(l, m1);
            && released == None
            && (forall g :: IsLive(m2.slots, g) <==> IsLive(m.slots, g))
            && (forall g :: IsLive(m.slots, g) ==> Pool.RecordOf(m2, g) == Pool.RecordOf(m, g))
  {
  }

  /** Deleting a line whose texture was just uploaded releases exactly that texture, with either pool delete. */
  lemma UploadThenDelete(l: Line, m: Pool.Manager, id: int)
    requires Attached(l, m)
    ensures var (l1, m1, _) := PutOnDevice(l, m, id);
            && DeleteLine(l1, m1).2 == Some(Texture(id, l.textureWidth, l.textureHeight))
            && DeleteLineAsWritten(l1, m1).2 == DeleteLine(l1, m1).2
  {
  }

  /** Putting a texture on the device and discarding it leaves the slot showing the default again. */
  lemma PutThenDiscard(l: Line, m: Pool.Manager, id: int)
    requires Consistent(l, m)
    ensures var (l1, m1, _) := PutOnDevice(l, m, id);
            var l2Triple := DiscardOnDevice(l1, m1);
            var l2 := l2Triple.0;
            var m2 := l2Triple.1;
            var disposed := l2Triple.2;
            Consistent(l2, m2) && !IsOnDevice(l2) && disposed == Some(Texture(id, l.textureWidth, l.textureHeight))
            && Pool.RecordOf(m2, l.index).texture == m.defaultTexture
  {
  }
}

=== FILE: line_manager.dfy ===
/**
  The line buffer pool (rendering/ZZLineManager.java).

  Each line owns one dense slot: 6 position floats (source xyz, then target
  xyz), 6 size shorts (width, texture width, texture height, repeated for
  the target vertex) and one texture handle. The slot bookkeeping is the
  one in `SlotMaps`; unlike rectangles, the setters have no change
  detection, and the source's delete never writes the device mirror.
*/
module LineManager {
  import opened SlotMaps
  import opened Buffers

  datatype Dirty = Dirty(position: bool, size: bool, texture: bool)

  const AllClean := Dirty(false, false, false)
  const AllDirty := Dirty(true, true, true)

  datatype Manager = Manager(
    slots: SlotMap,
    defaultTexture: int,
    defaultWidth: int,
    defaultHeight: int,
    hostPosition: seq<real>,
    hostSize: seq<int>,
    hostTexture: seq<int>,
    devicePosition: seq<real>,
    deviceSize: seq<int>,
    deviceTexture: seq<int>,
    dirty: Dirty)

  /** What one line's slot holds. */
  datatype Record = Record(position: seq<real>, size: seq<int>, texture: int)

  /** Size entries: width at 0, texture width at 1, texture height at 2; the target vertex repeats them at +3. */
  const Width := 0
  const TextureU := 1
  const TextureV := 2

  ghost predicate Valid(m: Manager)
  {
    SlotMaps.Valid(m.slots)
    && |m.hostPosition| == m.slots.capacity * 6 == |m.devicePosition|
    && |m.hostSize| == m.slots.capacity * 6 == |m.deviceSize|
    && |m.hostTexture| == m.slots.capacity == |m.deviceTexture|
  }

  /** The mapped device buffers hold what the host arrays hold. */
  ghost predicate Mirrored(m: Manager)
  {
    m.devicePosition == m.hostPosition && m.deviceSize == m.hostSize
  }

  function RecordAt(m: Manager, d: nat): (r: Record)
    requires Valid(m) && d < m.slots.capacity
    ensures |r.position| == 6 && |r.size| == 6
  {
    Record(Slot(m.hostPosition, d * 6, 6), Slot(m.hostSize, d * 6, 6), m.hostTexture[d])
  }

  /** The record a live handle reads. */
  function RecordOf(m: Manager, h: int): (r: Record)
    requires Valid(m) && IsLive(m.slots, h)
    ensures |r.position| == 6 && |r.size| == 6
  {
    RecordAt(m, SlotOf(m.slots, h))
  }

  /** The constructor: every handle free, zeroed buffers, nothing dirty. */
  function New(capacity: nat, defaultTexture: int, defaultWidth: int, defaultHeight: int): (m: Manager)
    requires 2 <= capacity
    ensures Valid(m) && Mirrored(m)
    ensures m.slots.elements == 0 && m.slots.capacity == capacity
    ensures m.slots.free == Range(0, capacity)
    ensures forall h :: !IsLive(m.slots, h)
    ensures m.dirty == AllClean
    ensures m.defaultTexture == defaultTexture && m.defaultWidth == defaultWidth && m.defaultHeight == defaultHeight
  {
    var position := seq(capacity * 6, _ => 0.0);
    var size := seq(capacity * 6, _ => 0);
    var texture := seq(capacity, _ => 0);
    Manager(Init(capacity), defaultTexture, defaultWidth, defaultHeight,
            position, size, texture, position, size, texture, AllClean)
  }

  /** `resize`: same rule as the rectangle pool, with six entries per slot. */
  function Resize(m: Manager, newCapacity: nat): (r: Manager)
    requires Valid(m) && 2 <= newCapacity && m.slots.elements <= newCapacity
    ensures Valid(r)
    ensures r.slots.capacity == newCapacity && r.slots.elements == m.slots.elements
    ensures newCapacity == m.slots.capacity ==> r == m
    ensures newCapacity != m.slots.capacity ==> Mirrored(r)
    ensures Mirrored(m) ==> Mirrored(r)
    ensures |r.slots.indicesMap| >= |m.slots.indicesMap|
    ensures newCapacity <= |m.slots.indicesMap| ==> r.slots.free == m.slots.free && r.slots.indicesMap == m.slots.indicesMap
    ensures newCapacity > |m.slots.indicesMap| ==>
              r.slots.free == m.slots.free + Range(|m.slots.indicesMap|, newCapacity)
    ensures forall d :: 0 <= d < m.slots.capacity && d < newCapacity ==> RecordAt(r, d) == RecordAt(m, d)
    ensures forall g :: IsLive(r.slots, g) <==> IsLive(m.slots, g)
    ensures forall g :: IsLive(m.slots, g) ==> SlotOf(r.slots, g) == SlotOf(m.slots, g) && RecordOf(r, g) == RecordOf(m, g)
    ensures r.dirty == m.dirty
    ensures r.defaultTexture == m.defaultTexture && r.defaultWidth == m.defaultWidth && r.defaultHeight == m.defaultHeight
  {
    if newCapacity == m.slots.capacity then m
    else
      var keep := if newCapacity < m.slots.capacity then newCapacity else m.slots.capacity;
      var position := Resized(m.hostPosition, keep * 6, newCapacity * 6, 0.0);
      var size := Resized(m.hostSize, keep * 6, newCapacity * 6, 0);
      var texture := Resized(m.hostTexture, keep, newCapacity, 0);
      var r := m.(slots := ResizeMaps(m.slots, newCapacity),
                  hostPosition := position, hostSize := size, hostTexture := texture,
                  devicePosition := position, deviceSize := size, deviceTexture := texture);
      forall d | 0 <= d < keep
        ensures RecordAt(r, d) == RecordAt(m, d)
      {
        ResizedSlot(m.hostPosition, keep * 6, newCapacity * 6, 0.0, d * 6, 6);
        ResizedSlot(m.hostSize, keep * 6, newCapacity * 6, 0, d * 6, 6);
      }
      r
  }

  /** `createLine`, the pool's part: grow by half when full, then take the head of the free queue. */
  function Create(m: Manager): (r: (Manager, int))
    requires Valid(m)
    ensures Valid(r.0)
    ensures r.0.slots.capacity
              == if m.slots.elements >= m.slots.capacity then GrownCapacity(m.slots.capacity) else m.slots.capacity
    ensures r.0.slots.elements == m.slots.elements + 1
    ensures IsLive(r.0.slots, r.1) && !IsLive(m.slots, r.1) && SlotOf(r.0.slots, r.1) == m.slots.elements
    ensures forall g :: IsLive(r.0.slots, g) <==> IsLive(m.slots, g) || g == r.1
    ensures forall g :: IsLive(m.slots, g) ==> RecordOf(r.0, g) == RecordOf(m, g)
    ensures Mirrored(m) ==> Mirrored(r.0)
    ensures r.0.dirty == m.dirty
    ensures r.0.defaultTexture == m.defaultTexture && r.0.defaultWidth == m.defaultWidth
            && r.0.defaultHeight == m.defaultHeight
  {
    var grown := if m.slots.elements >= m.slots.capacity then Resize(m, GrownCapacity(m.slots.capacity)) else m;
    var slotsPair := Acquire(grown.slots);
    var slots := slotsPair.0;
    var h := slotsPair.1;
    var r := grown.(slots := slots);
    assert forall g :: IsLive(m.slots, g) ==> RecordOf(r, g) == RecordOf(grown, g);
    (r, h)
  }

  /**
    The move step of a delete: the handle is released and the record of the
    last slot is copied into the vacated slot of the host arrays; the device
    buffers receive the same copy only when `writeDevice` holds.
  */
  function Moved(m: Manager, h: int, writeDevice: bool): (r: Manager)
    requires Valid(m) && IsLive(m.slots, h)
    ensures Valid(r)
    ensures r.slots == Release(m.slots, h)
    ensures forall g :: IsLive(r.slots, g) ==> RecordOf(r, g) == RecordOf(m, g)
    ensures writeDevice && Mirrored(m) ==> Mirrored(r)
    ensures !writeDevice ==> r.devicePosition == m.devicePosition && r.deviceSize == m.deviceSize
    ensures r.dirty == AllDirty && r.deviceTexture == m.deviceTexture
    ensures r.defaultTexture == m.defaultTexture && r.defaultWidth == m.defaultWidth && r.defaultHeight == m.defaultHeight
  {
    MovedDownRecords(m, h, writeDevice);
    MovedDown(m, h, writeDevice)
  }

  /** The manager after the release of `h` and the move of the last record into its slot. */
  function MovedDown(m: Manager, h: int, writeDevice: bool): Manager
    requires Valid(m) && IsLive(m.slots, h)
  {
    var dense := SlotOf(m.slots, h);
    var last := m.slots.elements - 1;
    m.(slots := Release(m.slots, h),
       hostPosition := CopySlot(m.hostPosition, dense * 6, m.hostPosition, last * 6, 6),
       hostSize := CopySlot(m.hostSize, dense * 6, m.hostSize, last * 6, 6),
       devicePosition := if writeDevice then CopySlot(m.devicePosition, dense * 6, m.hostPosition, last * 6, 6) else m.devicePosition,
       deviceSize := if writeDevice then CopySlot(m.deviceSize, dense * 6, m.hostSize, last * 6, 6) else m.deviceSize,
       hostTexture := m.hostTexture[dense := m.hostTexture[last]],
       dirty := AllDirty)
  }

  lemma MovedDownValid(m: Manager, h: int, writeDevice: bool)
    requires Valid(m) && IsLive(m.slots, h)
    ensures Valid(MovedDown(m, h, writeDevice))
  {
  }

  /** After the move, every surviving handle reads its old record. */
  lemma MovedDownRecords(m: Manager, h: int, writeDevice: bool)
    requires Valid(m) && IsLive(m.slots, h)
    ensures Valid(MovedDown(m, h, writeDevice))
    ensures forall g :: IsLive(MovedDown(m, h, writeDevice).slots, g) ==> RecordOf(MovedDown(m, h, writeDevice), g) == RecordOf(m, g)
  {
    MovedDownValid(m, h, writeDevice);
    forall g | IsLive(MovedDown(m, h, writeDevice).slots, g)
      ensures RecordOf(MovedDown(m, h, writeDevice), g) == RecordOf(m, g)
    {
      MovedDownRecord(m, h, writeDevice, g);
    }
  }

  lemma MovedDownRecord(m: Manager, h: int, writeDevice: bool, g: int)
    requires Valid(m) && IsLive(m.slots, h) && IsLive(Release(m.slots, h), g)
    ensures Valid(MovedDown(m, h, writeDevice)) && IsLive(m.slots, g)
    ensures RecordOf(MovedDown(m, h, writeDevice), g) == RecordOf(m, g)
  {
    MovedDownValid(m, h, writeDevice);
    var dense := SlotOf(m.slots, h);
    var last := m.slots.elements - 1;
    var e := SlotOf(m.slots, g);
    assert SlotOf(Release(m.slots, h), g) == if e == last then dense else e;
    MovedRecordAt(m, MovedDown(m, h, writeDevice), dense, last, e);
  }

  /**
    After the last record is copied over slot `dense`, the record of slot
    `e` sits at `dense` if `e` was the last one and where it was otherwise.
  */
  lemma MovedRecordAt(m: Manager, moved: Manager, dense: nat, last: nat, e: nat)
    requires Valid(m) && Valid(moved)
    requires dense <= last < m.slots.capacity && e <= last && e != dense
    requires (if e == last then dense else e) < moved.slots.capacity
    requires moved.hostPosition == CopySlot(m.hostPosition, dense * 6, m.hostPosition, last * 6, 6)
    requires moved.hostSize == CopySlot(m.hostSize, dense * 6, m.hostSize, last * 6, 6)
    requires moved.hostTexture == m.hostTexture[dense := m.hostTexture[last]]
    ensures RecordAt(moved, if e == last then dense else e) == RecordAt(m, e)
  {
    if e != last {
      RecordsApart(e, dense, 6);
      CopySlotFrame(m.hostPosition, dense * 6, m.hostPosition, last * 6, 6, e * 6);
      CopySlotFrame(m.hostSize, dense * 6, m.hostSize, last * 6, 6, e * 6);
    }
  }

  /** The shrink step shared by both deletes. */
  function ShrinkIfSparse(m: Manager, oldCapacity: nat): (r: Manager)
    requires Valid(m) && m.slots.capacity == oldCapacity
    ensures Valid(r)
    ensures r.slots.elements == m.slots.elements
    ensures r.slots.capacity == if m.slots.elements < oldCapacity / 2 then ShrunkCapacity(oldCapacity) else oldCapacity
    ensures forall g :: IsLive(r.slots, g) <==> IsLive(m.slots, g)
    ensures forall g :: IsLive(m.slots, g) ==> RecordOf(r, g) == RecordOf(m, g)
    ensures r.slots.capacity != oldCapacity ==> Mirrored(r)
    ensures Mirrored(m) ==> Mirrored(r)
    ensures m.slots.elements >= oldCapacity / 2 ==> r == m
    ensures r.dirty == m.dirty
    ensures r.defaultTexture == m.defaultTexture && r.defaultWidth == m.defaultWidth && r.defaultHeight == m.defaultHeight
  {
    if m.slots.elements < oldCapacity / 2 then
      ShrinkKeepsElements(m.slots.elements, oldCapacity);
      Resize(m, ShrunkCapacity(oldCapacity))
    else m
  }

  /**
    `deleteLine` as the source writes it: host arrays only, so the device
    mirror keeps the deleted line's data in the vacated slot.
  */
  function DeleteLineAsWritten(m: Manager, h: int): (r: Manager)
    requires Valid(m) && IsLive(m.slots, h)
    ensures Valid(r)
    ensures r.slots.elements == m.slots.elements - 1
    ensures forall g :: IsLive(r.slots, g) <==> IsLive(m.slots, g) && g != h
    ensures forall g :: IsLive(r.slots, g) ==> RecordOf(r, g) == RecordOf(m, g)
  {
    ShrinkIfSparse(Moved(m, h, false), m.slots.capacity)
  }

  /** Without a shrink to re-create the buffers, the as-written delete leaves host and device apart. */
  lemma DeleteAsWrittenDiverges(m: Manager, h: int)
    requires Valid(m) && Mirrored(m) && IsLive(m.slots, h)
    requires SlotOf(m.slots, h) != m.slots.elements - 1
    requires m.slots.elements - 1 >= m.slots.capacity / 2
    requires RecordAt(m, m.slots.elements - 1).position != RecordOf(m, h).position
    ensures !Mirrored(DeleteLineAsWritten(m, h))
  {
    var dense := SlotOf(m.slots, h);
    var moved := Moved(m, h, false);
    var r := DeleteLineAsWritten(m, h);
    assert r == moved;
    var last := m.slots.elements - 1;
    assert Slot(r.hostPosition, dense * 6, 6) == RecordAt(m, last).position;
    assert Slot(r.devicePosition, dense * 6, 6) == RecordAt(m, dense).position;
  }

  /**
    `deleteLine` with the evidently intended device writes, as the
    rectangle pool does them: the surviving records move in host and
    device alike, so the mirror is kept.
  */
  function DeleteLine(m: Manager, h: int): (r: Manager)
    requires Valid(m) && IsLive(m.slots, h)
    ensures Valid(r)
    ensures r.slots.elements == m.slots.elements - 1
    ensures r.slots.capacity
              == if m.slots.elements - 1 < m.slots.capacity / 2 then ShrunkCapacity(m.slots.capacity) else m.slots.capacity
    ensures forall g :: IsLive(r.slots, g) <==> IsLive(m.slots, g) && g != h
    ensures forall g :: IsLive(r.slots, g) ==> RecordOf(r, g) == RecordOf(m, g)
    ensures Mirrored(m) ==> Mirrored(r)
    ensures r.dirty == AllDirty
    ensures r.defaultTexture == m.defaultTexture && r.defaultWidth == m.defaultWidth && r.defaultHeight == m.defaultHeight
  {
    ShrinkIfSparse(Moved(m, h, true), m.slots.capacity)
  }

  /**
    The setters `setSourceX/Y/Z` (`k` 0, 1, 2) and `setTargetX/Y/Z` (`k` 3,
    4, 5): host and device are written and the flag is raised whether or
    not the value changed.
  */
  function SetPosition(m: Manager, h: int, k: nat, v: real): (r: Manager)
    requires Valid(m) && IsLive(m.slots, h) && k < 6
    ensures Valid(r) && r.slots == m.slots
    ensures RecordOf(r, h) == RecordOf(m, h).(position := RecordOf(m, h).position[k := v])
    ensures forall g :: IsLive(m.slots, g) && g != h ==> RecordOf(r, g) == RecordOf(m, g)
    ensures r.dirty == m.dirty.(position := true)
    ensures r.devicePosition == m.devicePosition[SlotOf(m.slots, h) * 6 + k := v]
    ensures Mirrored(m) ==> Mirrored(r)
    ensures r.hostSize == m.hostSize && r.hostTexture == m.hostTexture
  {
    var d := SlotOf(m.slots, h);
    var a := d * 6 + k;
    var r := m.(hostPosition := m.hostPosition[a := v], devicePosition := m.devicePosition[a := v],
                dirty := m.dirty.(position := true));
    forall g | IsLive(m.slots, g)
      ensures RecordOf(r, g) == if g == h then RecordOf(m, h).(position := RecordOf(m, h).position[k := v]) else RecordOf(m, g)
    {
      UpdateSlot(m.hostPosition, d * 6, 6, k, v, SlotOf(m.slots, g) * 6);
    }
    r
  }

  /** The record after writing `v` at both vertices of size entry `k`. */
  function WithBoth(rec: Record, k: nat, v: int): (r: Record)
    requires |rec.size| == 6 && k < 3
    ensures |r.size| == 6 && r.size[k] == v && r.size[k + 3] == v
    ensures forall j :: 0 <= j < 6 && j != k && j != k + 3 ==> r.size[j] == rec.size[j]
    ensures r.position == rec.position && r.texture == rec.texture
  {
    rec.(size := rec.size[k := v][k + 3 := v])
  }

  /** Writes `v` at size entry `k` of both vertices of slot `d`, host and device. */
  function WriteBoth(m: Manager, d: nat, k: nat, v: int): (r: Manager)
    requires Valid(m) && d < m.slots.capacity && k < 3
    ensures Valid(r) && r.slots == m.slots && r.dirty == m.dirty
    ensures RecordAt(r, d) == WithBoth(RecordAt(m, d), k, v)
    ensures forall e :: 0 <= e < m.slots.capacity && e != d ==> RecordAt(r, e) == RecordAt(m, e)
    ensures Mirrored(m) ==> Mirrored(r)
    ensures r.hostPosition == m.hostPosition && r.hostTexture == m.hostTexture
    ensures r.defaultTexture == m.defaultTexture && r.defaultWidth == m.defaultWidth && r.defaultHeight == m.defaultHeight
  {
    var a := d * 6 + k;
    var r := m.(hostSize := m.hostSize[a := v][a + 3 := v], deviceSize := m.deviceSize[a := v][a + 3 := v]);
    forall e | 0 <= e < m.slots.capacity
      ensures RecordAt(r, e) == if e == d then WithBoth(RecordAt(m, d), k, v) else RecordAt(m, e)
    {
      UpdateSlot(m.hostSize, d * 6, 6, k, v, e * 6);
      UpdateSlot(m.hostSize[a := v], d * 6, 6, k + 3, v, e * 6);
    }
    r
  }

  /**
    `setWidth` (`k` 0), `setTextureSizeU` (`k` 1) and `setTextureSizeV`
    (`k` 2): the value goes to both endpoint vertices, `address` and
    `address + 3`.
  */
  function SetSizeBoth(m: Manager, h: int, k: nat, v: int): (r: Manager)
    requires Valid(m) && IsLive(m.slots, h) && k < 3
    ensures Valid(r) && r.slots == m.slots
    ensures RecordOf(r, h).size[k] == v && RecordOf(r, h).size[k + 3] == v
    ensures RecordOf(r, h) == WithBoth(RecordOf(m, h), k, v)
    ensures forall g :: IsLive(m.slots, g) && g != h ==> RecordOf(r, g) == RecordOf(m, g)
    ensures r.dirty == m.dirty.(size := true)
    ensures Mirrored(m) ==> Mirrored(r)
  {
    WriteBoth(m, SlotOf(m.slots, h), k, v).(dirty := m.dirty.(size := true))
  }

  /** `setTexture`: host only, flag always raised. */
  function SetTexture(m: Manager, h: int, v: int): (r: Manager)
    requires Valid(m) && IsLive(m.slots, h)
    ensures Valid(r) && r.slots == m.slots
    ensures RecordOf(r, h) == RecordOf(m, h).(texture := v)
    ensures forall g :: IsLive(m.slots, g) && g != h ==> RecordOf(r, g) == RecordOf(m, g)
    ensures r.dirty == m.dirty.(texture := true)
    ensures r.deviceTexture == m.deviceTexture
    ensures Mirrored(m) ==> Mirrored(r)
  {
    var d := SlotOf(m.slots, h);
    m.(hostTexture := m.hostTexture[d := v], dirty := m.dirty.(texture := true))
  }

  /** The record of a slot showing texture `t` of dimensions `(w, h)`: offsets 1, 2, 4 and 5. */
  function WithDefault(rec: Record, t: int, w: int, h: int): (r: Record)
    requires |rec.size| == 6
    ensures |r.size| == 6 && r.size[0] == rec.size[0] && r.size[3] == rec.size[3]
    ensures r.position == rec.position && r.texture == t
  {
    rec.(texture := t, size := rec.size[TextureU := w][TextureV := h][TextureU + 3 := w][TextureV + 3 := h])
  }

  /** Writes texture `t` and its dimensions into slot `d`. */
  function DefaultSlot(m: Manager, d: nat, t: int, w: int, h: int): (r: Manager)
    requires Valid(m) && d < m.slots.capacity
    ensures Valid(r) && r.slots == m.slots && r.dirty == m.dirty
    ensures RecordAt(r, d) == WithDefault(RecordAt(m, d), t, w, h)
    ensures forall e :: 0 <= e < m.slots.capacity && e != d ==> RecordAt(r, e) == RecordAt(m, e)
    ensures Mirrored(m) ==> Mirrored(r)
    ensures r.defaultTexture == m.defaultTexture && r.defaultWidth == m.defaultWidth && r.defaultHeight == m.defaultHeight
    ensures r.hostPosition == m.hostPosition
  {
    var m1 := WriteBoth(m, d, TextureU, w);
    var m2 := WriteBoth(m1, d, TextureV, h);
    m2.(hostTexture := m2.hostTexture[d := t])
  }

  /** `setTextureToDefault`: default texture and dimensions at slot offsets 1, 2, 4 and 5. */
  function SetTextureToDefault(m: Manager, h: int): (r: Manager)
    requires Valid(m) && IsLive(m.slots, h)
    ensures Valid(r) && r.slots == m.slots
    ensures RecordOf(r, h).texture == m.defaultTexture
    ensures RecordOf(r, h).size[1] == m.defaultWidth && RecordOf(r, h).size[2] == m.defaultHeight
    ensures RecordOf(r, h).size[4] == m.defaultWidth && RecordOf(r, h).size[5] == m.defaultHeight
    ensures RecordOf(r, h) == WithDefault(RecordOf(m, h), m.defaultTexture, m.defaultWidth, m.defaultHeight)
    ensures forall g :: IsLive(m.slots, g) && g != h ==> RecordOf(r, g) == RecordOf(m, g)
    ensures r.dirty == m.dirty.(texture := true, size := true)
    ensures Mirrored(m) ==> Mirrored(r)
  {
    var r := DefaultSlot(m, SlotOf(m.slots, h), m.defaultTexture, m.defaultWidth, m.defaultHeight);
    r.(dirty := m.dirty.(texture := true, size := true))
  }

  /** What `switchDefaultTexture` does to one record. */
  function Switched(rec: Record, oldDefault: int, t: int, w: int, h: int): Record
    requires |rec.size| == 6
  {
    if rec.texture == oldDefault then WithDefault(rec, t, w, h) else rec
  }

  /** `switchDefaultTexture`: only used slots holding the old default are rewritten. */
  method SwitchDefaultTexture(m: Manager, t: int, w: int, h: int) returns (r: Manager)
    requires Valid(m)
    ensures Valid(r) && r.slots == m.slots
    ensures r.defaultTexture == t && r.defaultWidth == w && r.defaultHeight == h
    ensures r.dirty == m.dirty.(texture := true, size := true)
    ensures forall d :: 0 <= d < m.slots.elements ==>
              RecordAt(r, d) == Switched(RecordAt(m, d), m.defaultTexture, t, w, h)
    ensures forall d :: m.slots.elements <= d < m.slots.capacity ==> RecordAt(r, d) == RecordAt(m, d)
    ensures forall g :: IsLive(m.slots, g) ==>
              RecordOf(r, g) == Switched(RecordOf(m, g), m.defaultTexture, t, w, h)
    ensures Mirrored(m) ==> Mirrored(r)
  {
    r := m;
    var i := 0;
    while i < m.slots.elements
      invariant 0 <= i <= m.slots.elements
      invariant Valid(r) && r.slots == m.slots && r.dirty == m.dirty
      invariant r.defaultTexture == m.defaultTexture && r.defaultWidth == m.defaultWidth
      invariant r.defaultHeight == m.defaultHeight
      invariant forall d :: 0 <= d < i ==> RecordAt(r, d) == Switched(RecordAt(m, d), m.defaultTexture, t, w, h)
      invariant forall d :: i <= d < m.slots.capacity ==> RecordAt(r, d) == RecordAt(m, d)
      invariant Mirrored(m) ==> Mirrored(r)
    {
      if r.hostTexture[i] == m.defaultTexture {
        r := DefaultSlot(r, i, t, w, h);
      }
      i := i + 1;
    }
    r := r.(dirty := m.dirty.(texture := true, size := true), defaultTexture := t, defaultWidth := w,
            defaultHeight := h);
  }

  /** `flush`: nothing at zero lines; otherwise all flags cleared, textures re-uploaded if dirty. */
  method Flush(m: Manager) returns (r: Manager)
    requires Valid(m)
    ensures Valid(r) && r.slots == m.slots
    ensures m.slots.elements == 0 ==> r == m
    ensures m.slots.elements > 0 ==> r.dirty == AllClean
    ensures m.slots.elements > 0 && m.dirty.texture ==>
              r.deviceTexture[..m.slots.elements] == m.hostTexture[..m.slots.elements]
    ensures forall d :: m.slots.elements <= d < m.slots.capacity ==> r.deviceTexture[d] == m.deviceTexture[d]
    ensures !m.dirty.texture ==> r.deviceTexture == m.deviceTexture
    ensures r.(deviceTexture := m.deviceTexture, dirty := m.dirty) == m
  {
    if m.slots.elements == 0 {
      return m;
    }
    var device := m.deviceTexture;
    if m.dirty.texture {
      var i := 0;
      while i < m.slots.elements
        invariant 0 <= i <= m.slots.elements
        invariant |device| == |m.deviceTexture|
        invariant forall d :: 0 <= d < i ==> device[d] == m.hostTexture[d]
        invariant forall d :: i <= d < |device| ==> device[d] == m.deviceTexture[d]
      {
        device := device[i := m.hostTexture[i]];
        i := i + 1;
      }
    }
    r := m.(deviceTexture := device, dirty := AllClean);
  }

  /** `size()`. */
  function Size(m: Manager): nat
  {
    m.slots.elements
  }

  /** `capacity()`. */
  function Capacity(m: Manager): nat
  {
    m.slots.capacity
  }
}

=== FILE: line_type.dfy ===
/**
  Edge line types (lines/ZZLineType.java): twelve named strokes of width
  1, the table that matches another renderer's line types to them by
  display name, and `getStroke`, which scales a line type's stroke to an
  edge width. Widths are reals.
*/
module LineTypes {
  import AnimatedStrokes

  /** The strokes that are not animated, named by their classes. */
  datatype StrokeKind = Solid | Zigzag | SineWave | VerticalSlash | ForwardSlash | BackwardSlash | ParallelLines | ContiguousArrow | SeparateArrow

  /** A `WidthStroke`: a plain stroke of some width, or a marquee stroke. */
  datatype WidthStroke = Plain(kind: StrokeKind, width: real) | Marquee(a: AnimatedStrokes.AnimatedStroke)

  /** What `getStroke` returns: a `ZeroStroke` around the type's stroke, or a stroke of the asked width. */
  datatype Stroke = ZeroStroke(inner: WidthStroke) | Sized(s: WidthStroke)

  datatype ZZLineType = ZZLineType(displayName: string, serializableString: string, stroke: WidthStroke)

  /** The renderer's twelve line-type constants. */
  datatype Style =
    | SolidType | ZigzagType | SinewaveType | VerticalSlashType | ForwardSlashType | BackwardSlashType
    | ParallelLinesType | ContiguousArrowType | SeparateArrowType
    | MarqueeDash | MarqueeEqual | MarqueeDashDot

  function StrokeWidth(s: WidthStroke): real
  {
    match s
    case Plain(_, w) => w
    case Marquee(a) => a.width
  }

  /** Two strokes draw the same pattern, whatever their width and animation step. */
  predicate SamePattern(s: WidthStroke, t: WidthStroke)
  {
    match s
    case Plain(k, _) => t.Plain? && t.kind == k
    case Marquee(a) => t.Marquee? && t.a.style == a.style
  }

  function DisplayName(style: Style): string
  {
    match style
    case SolidType => "Solid"
    case ZigzagType => "Zigzag"
    case SinewaveType => "Sinewave"
    case VerticalSlashType => "Vertical Slash"
    case ForwardSlashType => "Forward Slash"
    case BackwardSlashType => "Backward Slash"
    case ParallelLinesType => "Parallel Lines"
    case ContiguousArrowType => "Contiguous Arrow"
    case SeparateArrowType => "Separate Arrow"
    case MarqueeDash => "Marquee Dash"
    case MarqueeEqual => "Marquee Equal Dash"
    case MarqueeDashDot => "Marquee Dash Dot"
  }

  function SerializableString(style: Style): string
  {
    match style
    case SolidType => "SOLID"
    case ZigzagType => "ZIGZAG"
    case SinewaveType => "SINEWAVE"
    case VerticalSlashType => "VERTICAL_SLASH"
    case ForwardSlashType => "FORWARD_SLASH"
    case BackwardSlashType => "BACKWARD_SLASH"
    case ParallelLinesType => "PARALLEL_LINES"
    case ContiguousArrowType => "CONTIGUOUS_ARROW"
    case SeparateArrowType => "SEPARATE_ARROW"
    case MarqueeDash => "MARQUEE_DASH"
    case MarqueeEqual => "MARQUEE_EQUAL"
    case MarqueeDashDot => "MARQUEE_DASH_DOT"
  }

  /** The width-1 stroke of each constant; the marquee strokes start at offset 0. */
  function BaseStroke(style: Style): WidthStroke
  {
    match style
    case SolidType => Plain(Solid, 1.0)
    case ZigzagType => Plain(Zigzag, 1.0)
    case SinewaveType => Plain(SineWave, 1.0)
    case VerticalSlashType => Plain(VerticalSlash, 1.0)
    case ForwardSlashType => Plain(ForwardSlash, 1.0)
    case BackwardSlashType => Plain(BackwardSlash, 1.0)
    case ParallelLinesType => Plain(ParallelLines, 1.0)
    case ContiguousArrowType => Plain(ContiguousArrow, 1.0)
    case SeparateArrowType => Plain(SeparateArrow, 1.0)
    case MarqueeDash => Marquee(AnimatedStrokes.WithOffset(AnimatedStrokes.LongDash, 1.0, 0.0))
    case MarqueeEqual => Marquee(AnimatedStrokes.WithOffset(AnimatedStrokes.EqualDash, 1.0, 0.0))
    case MarqueeDashDot => Marquee(AnimatedStrokes.WithOffset(AnimatedStrokes.DashDot, 1.0, 0.0))
  }

  /** The twelve constants. */
  function Type(style: Style): ZZLineType
  {
    ZZLineType(DisplayName(style), SerializableString(style), BaseStroke(style))
  }

  /** `DEF_LINE_TYPE_MAP`: every constant but `ZIGZAG`, under a display name. */
  const DefLineTypeMap: map<string, Style> := map[
    "Solid" := SolidType,
    "Sinewave" := SinewaveType,
    "Vertical Slash" := VerticalSlashType,
    "Forward Slash" := ForwardSlashType,
    "Backward Slash" := BackwardSlashType,
    "Parallel Lines" := ParallelLinesType,
    "Contiguous Arrow" := ContiguousArrowType,
    "Separate Arrow" := SeparateArrowType,
    "Marquee Dash" := MarqueeDash,
    "Marquee Equal Dash" := MarqueeEqual,
    "Marquee Dash Dot" := MarqueeDashDot
  ]

  /** A line-type value as `getZZLineType` receives it: one of this renderer's, or another's known by its display name. */
  datatype LineTypeValue = Own(z: ZZLineType) | Foreign(displayName: string)

  /** `getZZLineType`: this renderer's own type unchanged; another's by display name, `SOLID` when the name is unknown. */
  function GetZZLineType(lt: LineTypeValue): (r: ZZLineType)
    ensures lt.Own? ==> r == lt.z
    ensures lt.Foreign? ==> exists style :: r == Type(style)
    ensures lt.Foreign? && lt.displayName in DefLineTypeMap ==> r.displayName == lt.displayName
    ensures lt.Foreign? && lt.displayName !in DefLineTypeMap ==> r == Type(SolidType)
  {
    match lt
    case Own(z) => z
    case Foreign(name) =>
      MapKeyedByDisplayName();
      if name in DefLineTypeMap then Type(DefLineTypeMap[name]) else Type(SolidType)
  }

  /** Each entry of the table is filed under its own display name. */
  lemma MapKeyedByDisplayName()
    ensures forall name :: name in DefLineTypeMap ==> Type(DefLineTypeMap[name]).displayName == name
  {
    forall name | name in DefLineTypeMap
      ensures DisplayName(DefLineTypeMap[name]) == name
    {
    }
  }

  /** No two constants share a display name or a serializable string. */
  lemma NamesDistinct(a: Style, b: Style)
    requires a != b
    ensures Type(a).displayName != Type(b).displayName
    ensures Type(a).serializableString != Type(b).serializableString
  {
    DisplayNamesDistinct(a, b);
    SerializableStringsDistinct(a, b);
  }

  lemma DisplayNamesDistinct(a: Style, b: Style)
    requires a != b
    ensures DisplayName(a) != DisplayName(b)
  {
  }

  lemma SerializableStringsDistinct(a: Style, b: Style)
    requires a != b
    ensures SerializableString(a) != SerializableString(b)
  {
  }

  /** Another renderer's type named like one of the constants resolves to that constant, except `ZIGZAG`, which the table leaves out. */
  lemma ForeignByDisplayName(style: Style)
    ensures style != ZigzagType ==> GetZZLineType(Foreign(Type(style).displayName)) == Type(style)
    ensures style == ZigzagType ==> GetZZLineType(Foreign(Type(style).displayName)) == Type(SolidType)
  {
    var name := Type(style).displayName;
    if name in DefLineTypeMap {
      MapKeyedByDisplayName();
      var found := DefLineTypeMap[name];
      if found != style {
        NamesDistinct(found, style);
      }
    } else if style != ZigzagType {
      assert false;
    }
  }

  /** Resolving a resolved type changes nothing. */
  lemma GetZZLineTypeIdempotent(lt: LineTypeValue)
    ensures GetZZLineType(Own(GetZZLineType(lt))) == GetZZLineType(lt)
  {
  }

  /** `newInstanceForWidth` of the stroke classes: the same pattern at width `w`; marquee strokes keep their step. */
  function NewInstanceForWidth(s: WidthStroke, w: real): (r: WidthStroke)
    ensures StrokeWidth(r) == w && SamePattern(s, r)
    ensures r.Marquee? && s.a.offset >= 0.0 ==> r.a.offset == s.a.offset
  {
    match s
    case Plain(k, _) => Plain(k, w)
    case Marquee(a) => Marquee(AnimatedStrokes.NewInstanceForWidth(a, w))
  }

  /** `getStroke`: a zero stroke for a width that is not positive, else the type's stroke at that width. */
  function GetStroke(t: ZZLineType, width: real): (r: Stroke)
    ensures r.ZeroStroke? <==> width <= 0.0
    ensures r.ZeroStroke? ==> r.inner == t.stroke
    ensures r.Sized? ==> StrokeWidth(r.s) == width && SamePattern(t.stroke, r.s)
  {
    if width <= 0.0 then ZeroStroke(t.stroke) else Sized(NewInstanceForWidth(t.stroke, width))
  }

  predicate IsMarquee(style: Style)
  {
    style == MarqueeDash || style == MarqueeEqual || style == MarqueeDashDot
  }

  /**
    A marquee line type drawn at any positive width starts at offset 0,
    so its animation runs through the four-step cycle from the first step.
  */
  lemma MarqueeStartsCycle(style: Style, width: real, n: nat)
    requires IsMarquee(style) && width > 0.0
    ensures GetStroke(Type(style), width).s.Marquee?
    ensures GetStroke(Type(style), width).s.a.offset == 0.0
    ensures AnimatedStrokes.Steps(GetStroke(Type(style), width).s.a, n + 1).offset == AnimatedStrokes.Cycle[n % 4]
  {
    AnimatedStrokes.StepsFromStart(GetStroke(Type(style), width).s.a, n);
  }
}

=== FILE: measured_lines.dfy ===
/**
  Label layout (tools/MeasuredLineCreator.java): the text is split into
  raw lines at line breaks; one raw line that fits, or has no space, is
  kept whole; otherwise every raw line is wrapped greedily word by word
  against the label width. The font's string bounds are a parameter
  `m`; widths and heights are reals (float rounding is not modelled).
*/
module MeasuredLines {
  import opened JavaText

  /** `Font.getStringBounds`: width, height and the top's offset from the baseline. */
  datatype Bounds = Bounds(width: real, height: real, y: real)

  datatype MeasuredLine = MeasuredLine(text: string, width: real, height: real, offsetY: real)

  /** The creator's results: the lines, the widest line's width and the summed height. */
  datatype Layout = Layout(lines: seq<MeasuredLine>, maxLineWidth: real, totalHeight: real)

  /** The line being built: its text, `currentWidth`, `wordHeight` and `wordOffsetY`. */
  datatype Acc = Acc(text: string, width: real, height: real, offsetY: real)

  const Fresh := Acc("", 0.0, 0.0, 0.0)
  const NoLines := Layout([], 0.0, 0.0)

  function Max(a: real, b: real): real { if a >= b then a else b }
  function Min(a: real, b: real): real { if a <= b then a else b }

  /** The largest width among `lines`, or 0. */
  function MaxWidth(lines: seq<MeasuredLine>): (r: real)
    ensures r >= 0.0
    ensures forall i :: 0 <= i < |lines| ==> lines[i].width <= r
    ensures r == 0.0 || exists i :: 0 <= i < |lines| && lines[i].width == r
    decreases |lines|
  {
    if |lines| == 0 then 0.0
    else
      var rest := MaxWidth(lines[..|lines| - 1]);
      assert forall i :: 0 <= i < |lines| - 1 ==> lines[..|lines| - 1][i] == lines[i];
      Max(rest, lines[|lines| - 1].width)
  }

  /** The heights of `lines`, added up. */
  function TotalHeight(lines: seq<MeasuredLine>): real
    decreases |lines|
  {
    if |lines| == 0 then 0.0 else TotalHeight(lines[..|lines| - 1]) + lines[|lines| - 1].height
  }

  /** The creator's running maximum and running sum agree with its lines. */
  ghost predicate Tallied(o: Layout)
  {
    o.maxLineWidth == MaxWidth(o.lines) && o.totalHeight == TotalHeight(o.lines)
  }

  /** `measuredLines.add` together with the updates of `maxLineWidth` and `totalHeight`. */
  function Emit(o: Layout, l: MeasuredLine): (r: Layout)
    ensures r.lines == o.lines + [l]
    ensures Tallied(o) ==> Tallied(r)
  {
    assert (o.lines + [l])[..|o.lines|] == o.lines;
    Layout(o.lines + [l], Max(o.maxLineWidth, l.width), o.totalHeight + l.height)
  }

  /**
    One word of a raw line. If it does not fit after the current line,
    the current line (if any width has built up) is emitted with its
    trailing space's width taken off; then the word either is emitted on
    its own, when it alone reaches the label width, or starts the next
    line. A word that fits is appended with a space.
  */
  function Step(acc: Acc, o: Layout, word: string, m: string -> Bounds, space: real, labelWidth: real): (Acc, Layout)
  {
    var b := m(word);
    var offsetY := Min(acc.offsetY, b.y);
    if acc.width + b.width >= labelWidth then
      var c := Close(acc, o, b.height, offsetY, space);
      if b.width >= labelWidth then
        (Acc(c.text, 0.0, b.height, 0.0), Emit(c.out, MeasuredLine(word, b.width, b.height, b.y)))
      else
        (Acc(c.text + word + " ", b.width + space, b.height, b.y), c.out)
    else
      (Acc(acc.text + word + " ", acc.width + b.width + space, b.height, offsetY), o)
  }

  /** The builder's text and the lines after a word that does not fit ends the current line. */
  datatype Closed = Closed(text: string, out: Layout)

  /** Ends the current line, with the new word's height, if any width has built up. */
  function Close(acc: Acc, o: Layout, height: real, offsetY: real, space: real): Closed
  {
    if acc.width > 0.0 then Closed("", Emit(o, MeasuredLine(acc.text, acc.width - space, height, offsetY)))
    else Closed(acc.text, o)
  }

  /** The loop over a raw line's words. */
  function Words(acc: Acc, o: Layout, words: seq<string>, m: string -> Bounds, space: real, labelWidth: real): (Acc, Layout)
    decreases |words|
  {
    if |words| == 0 then (acc, o)
    else
      var r := Step(acc, o, words[0], m, space, labelWidth);
      Words(r.0, r.1, words[1..], m, space, labelWidth)
  }

  /** The end of a raw line: the line being built is emitted if any width has built up. */
  function Flush(acc: Acc, o: Layout, space: real): Layout
  {
    if acc.width > 0.0 then Emit(o, MeasuredLine(acc.text, acc.width - space, acc.height, acc.offsetY)) else o
  }

  /** One raw line: its words, then the last line. */
  function WrapLine(o: Layout, line: string, m: string -> Bounds, space: real, labelWidth: real): Layout
  {
    var r := Words(Fresh, o, Split(line, ' '), m, space, labelWidth);
    Flush(r.0, r.1, space)
  }

  /** One raw line's wrapping with this font, space width and label width, as the step of the loop over raw lines. */
  function LineWrapper(m: string -> Bounds, space: real, labelWidth: real): (Layout, string) -> Layout
  {
    (o: Layout, line: string) => WrapLine(o, line, m, space, labelWidth)
  }

  /** The loop over the raw lines, each one wrapped by `wrap`. */
  function WrapLines(o: Layout, raw: seq<string>, wrap: (Layout, string) -> Layout): Layout
    decreases |raw|
  {
    if |raw| == 0 then o else WrapLines(wrap(o, raw[0]), raw[1..], wrap)
  }

  /** Whether the constructor keeps the text as its single raw line. */
  predicate KeptWhole(raw: seq<string>, m: string -> Bounds, labelWidth: real)
  {
    |raw| == 1 && (m(raw[0]).width <= labelWidth || ' ' !in raw[0])
  }

  /**
    A line of the wrapping path: narrower than the label, or a single
    word, measured on its own, that reaches the label width.
  */
  predicate WellWrapped(l: MeasuredLine, m: string -> Bounds, labelWidth: real)
  {
    l.width < labelWidth
    || (' ' !in l.text && l.width >= labelWidth && l.width == m(l.text).width && l.height == m(l.text).height)
  }

  /** The constructor with `createMeasuredLines`. */
  function Create(text: string, m: string -> Bounds, labelWidth: real): (r: Layout)
    ensures |text| == 0 ==> r == NoLines
    ensures |text| > 0 && KeptWhole(Split(text, '\n'), m, labelWidth) ==>
              var line := Split(text, '\n')[0];
              r == Layout([MeasuredLine(line, m(line).width, m(line).height, m(line).y)], m(line).width, m(line).height)
    ensures |text| > 0 && !KeptWhole(Split(text, '\n'), m, labelWidth) ==>
              Tallied(r) && forall i :: 0 <= i < |r.lines| ==> WellWrapped(r.lines[i], m, labelWidth)
  {
    if |text| == 0 then NoLines
    else
      var raw := Split(text, '\n');
      if KeptWhole(raw, m, labelWidth) then
        var b := m(raw[0]);
        Layout([MeasuredLine(raw[0], b.width, b.height, b.y)], b.width, b.height)
      else
        LineWrapperWell(m, m(" ").width, labelWidth);
        WrapLinesWell(NoLines, raw, LineWrapper(m, m(" ").width, labelWidth), m, labelWidth);
        WrapLines(NoLines, raw, LineWrapper(m, m(" ").width, labelWidth))
  }

  /** `MeasuredLineCreator.Empty()`: the creator of the empty text. */
  function EmptyLayout(): (r: Layout)
    ensures r.lines == [] && r.maxLineWidth == 0.0 && r.totalHeight == 0.0
  {
    Create("", s => Bounds(0.0, 0.0, 0.0), 1.0)
  }

  // ----- the wrapping path keeps its promises ------------------------------------------

  /** The line being built is always narrower than the label once its trailing space is taken off. */
  ghost predicate Narrow(acc: Acc, space: real, labelWidth: real)
  {
    acc.width > 0.0 ==> acc.width - space < labelWidth
  }

  ghost predicate AllWellWrapped(o: Layout, m: string -> Bounds, labelWidth: real)
  {
    Tallied(o) && forall i :: 0 <= i < |o.lines| ==> WellWrapped(o.lines[i], m, labelWidth)
  }

  lemma StepWell(acc: Acc, o: Layout, word: string, m: string -> Bounds, space: real, labelWidth: real)
    requires ' ' !in word
    requires Narrow(acc, space, labelWidth) && AllWellWrapped(o, m, labelWidth)
    ensures Narrow(Step(acc, o, word, m, space, labelWidth).0, space, labelWidth)
    ensures AllWellWrapped(Step(acc, o, word, m, space, labelWidth).1, m, labelWidth)
  {
    var b := m(word);
    var offsetY := Min(acc.offsetY, b.y);
    if acc.width + b.width >= labelWidth {
      CloseWell(acc, o, b.height, offsetY, space, m, labelWidth);
      var c := Close(acc, o, b.height, offsetY, space);
      if b.width >= labelWidth {
        EmitWell(c.out, MeasuredLine(word, b.width, b.height, b.y), m, labelWidth);
      }
    }
  }

  lemma EmitWell(o: Layout, l: MeasuredLine, m: string -> Bounds, labelWidth: real)
    requires AllWellWrapped(o, m, labelWidth) && WellWrapped(l, m, labelWidth)
    ensures AllWellWrapped(Emit(o, l), m, labelWidth)
  {
    var r := Emit(o, l);
    assert forall i :: 0 <= i < |r.lines| ==> r.lines[i] == if i < |o.lines| then o.lines[i] else l;
  }

  /** Ending the current line emits a line narrower than the label. */
  lemma CloseWell(acc: Acc, o: Layout, height: real, offsetY: real, space: real, m: string -> Bounds, labelWidth: real)
    requires Narrow(acc, space, labelWidth) && AllWellWrapped(o, m, labelWidth)
    ensures AllWellWrapped(Close(acc, o, height, offsetY, space).out, m, labelWidth)
  {
    if acc.width > 0.0 {
      EmitWell(o, MeasuredLine(acc.text, acc.width - space, height, offsetY), m, labelWidth);
    }
  }

  lemma {:induction false} WordsWell(acc: Acc, o: Layout, words: seq<string>, m: string -> Bounds, space: real, labelWidth: real)
    requires forall i :: 0 <= i < |words| ==> ' ' !in words[i]
    requires Narrow(acc, space, labelWidth) && AllWellWrapped(o, m, labelWidth)
    ensures Narrow(Words(acc, o, words, m, space, labelWidth).0, space, labelWidth)
    ensures AllWellWrapped(Words(acc, o, words, m, space, labelWidth).1, m, labelWidth)
    decreases |words|
  {
    if |words| > 0 {
      StepWell(acc, o, words[0], m, space, labelWidth);
      var r := Step(acc, o, words[0], m, space, labelWidth);
      WordsWell(r.0, r.1, words[1..], m, space, labelWidth);
    }
  }

  /** Wrapping one raw line emits only lines narrower than the label or lone wide words, and keeps the totals up. */
  lemma LineWrapperWell(m: string -> Bounds, space: real, labelWidth: real)
    ensures forall o, line :: AllWellWrapped(o, m, labelWidth) ==> AllWellWrapped(LineWrapper(m, space, labelWidth)(o, line), m, labelWidth)
  {
    forall o, line | AllWellWrapped(o, m, labelWidth)
      ensures AllWellWrapped(WrapLine(o, line, m, space, labelWidth), m, labelWidth)
    {
      var r := Words(Fresh, o, Split(line, ' '), m, space, labelWidth);
      WordsWell(Fresh, o, Split(line, ' '), m, space, labelWidth);
      FlushWell(r.0, r.1, space, m, labelWidth);
    }
  }

  /** The end of a raw line emits a line narrower than the label. */
  lemma FlushWell(acc: Acc, o: Layout, space: real, m: string -> Bounds, labelWidth: real)
    requires Narrow(acc, space, labelWidth) && AllWellWrapped(o, m, labelWidth)
    ensures AllWellWrapped(Flush(acc, o, space), m, labelWidth)
  {
    if acc.width > 0.0 {
      EmitWell(o, MeasuredLine(acc.text, acc.width - space, acc.height, acc.offsetY), m, labelWidth);
    }
  }

  /** A loop over raw lines whose step keeps every line well wrapped keeps them all well wrapped. */
  lemma {:induction false} WrapLinesWell(o: Layout, raw: seq<string>, wrap: (Layout, string) -> Layout, m: string -> Bounds, labelWidth: real)
    requires AllWellWrapped(o, m, labelWidth)
    requires forall o', line :: AllWellWrapped(o', m, labelWidth) ==> AllWellWrapped(wrap(o', line), m, labelWidth)
    ensures AllWellWrapped(WrapLines(o, raw, wrap), m, labelWidth)
    decreases |raw|
  {
    if |raw| > 0 {
      WrapLinesWell(wrap(o, raw[0]), raw[1..], wrap, m, labelWidth);
    }
  }

  // ----- no visible character is lost ------------------------------------------------------

  /** Fonts as the layout needs them: no negative width, and a space of positive width. */
  ghost predicate Measurable(m: string -> Bounds)
  {
    (forall s :: m(s).width >= 0.0) && m(" ").width > 0.0
  }

  /** A line under construction with no width has no text. */
  ghost predicate Pending(acc: Acc)
  {
    acc.width >= 0.0 && (acc.width == 0.0 ==> acc.text == "")
  }

  /** The visible characters of the lines' texts, one line after another. */
  ghost function Shows(lines: seq<MeasuredLine>): string
    decreases |lines|
  {
    if |lines| == 0 then "" else Shows(lines[..|lines| - 1]) + Visible(lines[|lines| - 1].text)
  }

  /** What a label shows so far: the emitted lines, then the line being built. */
  ghost function Shown(acc: Acc, o: Layout): string
  {
    Shows(o.lines) + Visible(acc.text)
  }

  /** Emitting a line adds its visible characters after the others. */
  lemma EmitShows(o: Layout, l: MeasuredLine)
    ensures Shows(Emit(o, l).lines) == Shows(o.lines) + Visible(l.text)
  {
    assert (o.lines + [l])[..|o.lines|] == o.lines;
  }

  /** Appending a word and a space adds the word's visible characters. */
  lemma AppendWordShows(t: string, word: string)
    ensures Visible(t + word + " ") == Visible(t) + Visible(word)
  {
    VisibleAppend(t + word, " ");
    VisibleAppend(t, word);
    assert Visible(" ") == "";
  }

  /** Ending the current line moves its text, visible characters unchanged, into the lines. */
  lemma CloseShows(acc: Acc, o: Layout, height: real, offsetY: real, space: real)
    requires Pending(acc)
    ensures Close(acc, o, height, offsetY, space).text == ""
    ensures Shows(Close(acc, o, height, offsetY, space).out.lines) == Shows(o.lines) + Visible(acc.text)
  {
    if acc.width > 0.0 {
      EmitShows(o, MeasuredLine(acc.text, acc.width - space, height, offsetY));
    }
  }

  lemma StepKeepsText(acc: Acc, o: Layout, word: string, m: string -> Bounds, labelWidth: real)
    requires Measurable(m) && Pending(acc)
    ensures Pending(Step(acc, o, word, m, m(" ").width, labelWidth).0)
    ensures Shown(Step(acc, o, word, m, m(" ").width, labelWidth).0, Step(acc, o, word, m, m(" ").width, labelWidth).1)
            == Shown(acc, o) + Visible(word)
  {
    if acc.width + m(word).width >= labelWidth {
      if m(word).width >= labelWidth {
        WideWordKeepsText(acc, o, word, m, labelWidth);
      } else {
        NewLineKeepsText(acc, o, word, m, labelWidth);
      }
    } else {
      AppendWordShows(acc.text, word);
    }
  }

  /** A word that alone reaches the label width ends the current line and is emitted on its own. */
  lemma WideWordKeepsText(acc: Acc, o: Layout, word: string, m: string -> Bounds, labelWidth: real)
    requires Measurable(m) && Pending(acc)
    requires m(word).width >= labelWidth
    ensures Pending(Step(acc, o, word, m, m(" ").width, labelWidth).0)
    ensures Shown(Step(acc, o, word, m, m(" ").width, labelWidth).0, Step(acc, o, word, m, m(" ").width, labelWidth).1)
            == Shown(acc, o) + Visible(word)
  {
    var b := m(word);
    var c := Close(acc, o, b.height, Min(acc.offsetY, b.y), m(" ").width);
    CloseShows(acc, o, b.height, Min(acc.offsetY, b.y), m(" ").width);
    EmitShows(c.out, MeasuredLine(word, b.width, b.height, b.y));
  }

  /** A word that does not fit after the current line ends it and starts the next one. */
  lemma NewLineKeepsText(acc: Acc, o: Layout, word: string, m: string -> Bounds, labelWidth: real)
    requires Measurable(m) && Pending(acc)
    requires acc.width + m(word).width >= labelWidth > m(word).width
    ensures Pending(Step(acc, o, word, m, m(" ").width, labelWidth).0)
    ensures Shown(Step(acc, o, word, m, m(" ").width, labelWidth).0, Step(acc, o, word, m, m(" ").width, labelWidth).1)
            == Shown(acc, o) + Visible(word)
  {
    var b := m(word);
    var space := m(" ").width;
    var c := Close(acc, o, b.height, Min(acc.offsetY, b.y), space);
    var r := Step(acc, o, word, m, space, labelWidth);
    assert r == (Acc(c.text + word + " ", b.width + space, b.height, b.y), c.out);
    assert c.text == "" && Shows(c.out.lines) == Shows(o.lines) + Visible(acc.text) by {
      CloseShows(acc, o, b.height, Min(acc.offsetY, b.y), space);
    }
    assert Visible(c.text + word + " ") == Visible(word) by {
      AppendWordShows("", word);
    }
  }

  lemma {:induction false} WordsKeepText(acc: Acc, o: Layout, words: seq<string>, m: string -> Bounds, labelWidth: real)
    requires Measurable(m) && Pending(acc)
    ensures Pending(Words(acc, o, words, m, m(" ").width, labelWidth).0)
    ensures Shown(Words(acc, o, words, m, m(" ").width, labelWidth).0, Words(acc, o, words, m, m(" ").width, labelWidth).1)
            == Shown(acc, o) + VisibleAll(words)
    decreases |words|
  {
    if |words| > 0 {
      var space := m(" ").width;
      StepKeepsText(acc, o, words[0], m, labelWidth);
      var r := Step(acc, o, words[0], m, space, labelWidth);
      WordsKeepText(r.0, r.1, words[1..], m, labelWidth);
      assert VisibleAll(words) == Visible(words[0]) + VisibleAll(words[1..]);
    }
  }

  lemma FlushKeepsText(acc: Acc, o: Layout, space: real)
    requires Pending(acc)
    ensures Shows(Flush(acc, o, space).lines) == Shows(o.lines) + Visible(acc.text)
  {
    if acc.width > 0.0 {
      EmitShows(o, MeasuredLine(acc.text, acc.width - space, acc.height, acc.offsetY));
    }
  }

  lemma WrapLineKeepsText(o: Layout, line: string, m: string -> Bounds, labelWidth: real)
    requires Measurable(m)
    ensures Shows(WrapLine(o, line, m, m(" ").width, labelWidth).lines) == Shows(o.lines) + Visible(line)
  {
    var space := m(" ").width;
    var words := Split(line, ' ');
    var r := Words(Fresh, o, words, m, space, labelWidth);
    WordsKeepText(Fresh, o, words, m, labelWidth);
    SplitKeepsVisible(line, ' ');
    FlushKeepsText(r.0, r.1, space);
    calc {
      Shows(WrapLine(o, line, m, space, labelWidth).lines);
      Shows(Flush(r.0, r.1, space).lines);
      Shown(r.0, r.1);
      Shown(Fresh, o) + VisibleAll(words);
      { assert Shown(Fresh, o) == Shows(o.lines); }
      Shows(o.lines) + Visible(line);
    }
  }

  /** A loop over raw lines whose step adds each line's visible characters shows all of them, in order. */
  lemma {:induction false} WrapLinesKeepText(o: Layout, raw: seq<string>, wrap: (Layout, string) -> Layout)
    requires forall o', line {:trigger wrap(o', line)} :: Shows(wrap(o', line).lines) == Shows(o'.lines) + Visible(line)
    ensures Shows(WrapLines(o, raw, wrap).lines) == Shows(o.lines) + VisibleAll(raw)
    decreases |raw|
  {
    if |raw| > 0 {
      var o1 := wrap(o, raw[0]);
      WrapLinesKeepText(o1, raw[1..], wrap);
      var a, b, c := Shows(o.lines), Visible(raw[0]), VisibleAll(raw[1..]);
      calc {
        Shows(WrapLines(o, raw, wrap).lines);
        Shows(WrapLines(o1, raw[1..], wrap).lines);
        (a + b) + c;
        a + (b + c);
        a + VisibleAll(raw);
      }
    }
  }

  /** Wrapping one raw line adds its visible characters after the others. */
  lemma LineWrapperKeepsText(m: string -> Bounds, labelWidth: real)
    requires Measurable(m)
    ensures forall o, line {:trigger LineWrapper(m, m(" ").width, labelWidth)(o, line)} ::
              Shows(LineWrapper(m, m(" ").width, labelWidth)(o, line).lines) == Shows(o.lines) + Visible(line)
  {
    forall o, line
      ensures Shows(WrapLine(o, line, m, m(" ").width, labelWidth).lines) == Shows(o.lines) + Visible(line)
    {
      WrapLineKeepsText(o, line, m, labelWidth);
    }
  }

  /** With a real font, the lines show every visible character of the text, in order. */
  lemma NoTextLost(text: string, m: string -> Bounds, labelWidth: real)
    requires Measurable(m)
    ensures Shows(Create(text, m, labelWidth).lines) == Visible(text)
  {
    if |text| > 0 {
      var raw := Split(text, '\n');
      SplitKeepsVisible(text, '\n');
      if KeptWhole(raw, m, labelWidth) {
        KeptWholeShows(text, m, labelWidth);
      } else {
        var wrap := LineWrapper(m, m(" ").width, labelWidth);
        assert Create(text, m, labelWidth) == WrapLines(NoLines, raw, wrap);
        LineWrapperKeepsText(m, labelWidth);
        WrapLinesKeepText(NoLines, raw, wrap);
      }
    }
  }

  lemma KeptWholeShows(text: string, m: string -> Bounds, labelWidth: real)
    requires |text| > 0 && KeptWhole(Split(text, '\n'), m, labelWidth)
    ensures Shows(Create(text, m, labelWidth).lines) == VisibleAll(Split(text, '\n'))
  {
    var raw := Split(text, '\n');
    var lines := Create(text, m, labelWidth).lines;
    assert |lines| == 1 && lines[0].text == raw[0];
    assert lines[..0] == [];
    assert raw[1..] == [];
  }
}

=== FILE: memory_limit.dfy ===
/**
  The texture-memory admission counter (tools/GLMemoryLimit.java). The
  source keeps it in static fields; here it is an explicit value threaded
  through the callers. Counts are bytes.
*/
module MemoryLimit {

  datatype Limit = Limit(maxMemory: int, currentMemory: int)

  /** 256 MB, `1 << 28`. */
  const DefaultMax: int := 268435456

  /** The static initial state: default limit, nothing registered. */
  const Initial := Limit(DefaultMax, 0)

  /** The counter never goes negative and never exceeds the limit. */
  ghost predicate Bounded(l: Limit)
  {
    0 <= l.currentMemory <= l.maxMemory
  }

  /**
    `tryGetMemory(requested, freed)`: admits the request iff what is left,
    plus what the caller is about to free, strictly exceeds the request; on
    admission the counter moves by `requested - freed`.
  */
  function TryGetMemory(l: Limit, requested: int, freed: int): (res: (Limit, bool))
    ensures res.1 <==> l.maxMemory - l.currentMemory + freed > requested
    ensures res.1 ==> res.0 == l.(currentMemory := l.currentMemory + requested - freed)
    ensures !res.1 ==> res.0 == l
    ensures res.1 ==> res.0.currentMemory < res.0.maxMemory
    ensures l.currentMemory + requested - freed == l.maxMemory ==> !res.1
    ensures Bounded(l) && 0 <= freed <= l.currentMemory && 0 <= requested ==> Bounded(res.0)
  {
    if l.maxMemory - l.currentMemory + freed > requested then
      (l.(currentMemory := l.currentMemory + requested - freed), true)
    else
      (l, false)
  }

  /** `freeMemory(size)`: the counter drops by `size` but not below zero. */
  function FreeMemory(l: Limit, size: int): (r: Limit)
    ensures r.maxMemory == l.maxMemory
    ensures r.currentMemory >= 0
    ensures r.currentMemory == l.currentMemory - size || (r.currentMemory == 0 && l.currentMemory - size < 0)
    ensures Bounded(l) && 0 <= size ==> Bounded(r) && r.currentMemory <= l.currentMemory
  {
    l.(currentMemory := if 0 > l.currentMemory - size then 0 else l.currentMemory - size)
  }

  /** `setMaxMemory`: the limit is replaced, the counter is not looked at. */
  function SetMaxMemory(l: Limit, value: int): (r: Limit)
    ensures r.maxMemory == value && r.currentMemory == l.currentMemory
  {
    l.(maxMemory := value)
  }

  /** Admitting `n` fresh bytes and freeing them again restores the counter. */
  lemma AdmitThenFree(l: Limit, n: int)
    requires 0 <= l.currentMemory
    requires TryGetMemory(l, n, 0).1
    ensures FreeMemory(TryGetMemory(l, n, 0).0, n) == l
  {
  }

  /** A limit set below the current usage leaves the counter above the limit. */
  lemma LoweredLimitBreaksBound(l: Limit, value: int)
    requires Bounded(l) && value < l.currentMemory
    ensures !Bounded(SetMaxMemory(l, value))
  {
  }

  /** Once above the limit, nothing is admitted unless at least the excess is freed alongside. */
  lemma OverLimitRefuses(l: Limit, requested: int, freed: int)
    requires l.currentMemory > l.maxMemory && 0 <= requested && freed <= l.currentMemory - l.maxMemory
    ensures !TryGetMemory(l, requested, freed).1
  {
  }
}

=== FILE: network_view.dfy ===
/**
  The network view's registry and per-frame rules
  (viewmodel/ZZNetworkView.java): the maps from model nodes and edges to
  their views, the attachment of edge views to the node views at their
  ends, reconciliation with the model, the default-value store with its
  changed flag, the depth clipping range and the downsampling factor.

  Nodes and edges are identified by their SUIDs, which Cytoscape keeps
  unique across nodes and edges. A node view is reduced here to its two
  edge lists (the rest is `NodeViews`); an edge view to its key (the rest
  is `EdgeViews`). Releasing device resources on removal is left to those
  modules.
*/
module NetworkViews {
  import opened Wrappers
  import opened NodeViews

  /**
    The model as the registry reads it: nodes and edges in the order the
    network lists them, and the two ends of every edge the registry may
    meet, including edges already removed from the model.
  */
  datatype Graph = Graph(nodeList: seq<int>, edgeList: seq<int>, ends: map<int, (int, int)>)

  datatype NodeEntry = NodeEntry(outgoing: seq<int>, incoming: seq<int>)

  datatype NetworkView = NetworkView(
    nodeViews: map<int, NodeEntry>,
    edgeViews: set<int>,
    defaults: map<int, int>,
    defaultsChanged: bool)

  ghost predicate WellFormed(g: Graph)
  {
    (forall e :: e in g.edgeList ==> e in g.ends)
    && (forall n :: n in g.nodeList ==> n !in g.ends)
  }

  /**
    The registry's invariant: every listed edge has a view and ends at the
    node that lists it, no list holds an edge twice, and no edge key is
    used as a node key.
  */
  ghost predicate Linked(nv: NetworkView, g: Graph)
  {
    (forall e :: e in nv.edgeViews ==> e in g.ends)
    && (forall n :: n in nv.nodeViews ==> n !in g.ends)
    && (forall n :: n in nv.nodeViews ==> EntryLinked(nv.nodeViews[n], n, nv.edgeViews, g))
  }

  ghost predicate EntryLinked(entry: NodeEntry, n: int, edgeViews: set<int>, g: Graph)
  {
    NoDuplicates(entry.outgoing) && NoDuplicates(entry.incoming)
    && (forall e :: e in entry.outgoing ==> e in edgeViews && e in g.ends && g.ends[e].0 == n)
    && (forall e :: e in entry.incoming ==> e in edgeViews && e in g.ends && g.ends[e].1 == n)
  }

  const Empty := NetworkView(map[], {}, map[], false)

  // ----- node views --------------------------------------------------------------

  /** The model's edges leaving `n` (`which` 0) or entering it (`which` 1) that already have views, in model order. */
  function Adjacent(es: seq<int>, g: Graph, n: int, which: nat, edgeViews: set<int>): (r: seq<int>)
    requires which < 2
    ensures forall e :: e in r <==> e in es && e in edgeViews && e in g.ends && (if which == 0 then g.ends[e].0 else g.ends[e].1) == n
    decreases |es|
  {
    if |es| == 0 then []
    else
      var e := es[0];
      var rest := Adjacent(es[1..], g, n, which, edgeViews);
      assert forall x :: x in es <==> x == e || x in es[1..];
      if e in edgeViews && e in g.ends && (if which == 0 then g.ends[e].0 else g.ends[e].1) == n then [e] + rest
      else rest
  }

  /** Each edge of `es` added to `list` in turn, skipping those already listed. */
  function AttachAll(list: seq<int>, es: seq<int>): (r: seq<int>)
    ensures forall e :: e in r <==> e in list || e in es
    ensures NoDuplicates(list) ==> NoDuplicates(r)
    ensures |list| <= |r|
    ensures forall i :: 0 <= i < |list| ==> r[i] == list[i]
    decreases |es|
  {
    if |es| == 0 then list
    else
      assert forall x :: x in es <==> x == es[0] || x in es[1..];
      AttachAll(AddEdge(list, es[0]), es[1..])
  }

  /**
    `addNodeView`: nothing if the node has a view; otherwise a fresh view
    to which the existing views of its adjacent edges are attached.
  */
  function AddNodeView(nv: NetworkView, g: Graph, n: int): (r: NetworkView)
    requires WellFormed(g) && Linked(nv, g) && n !in g.ends
    ensures Linked(r, g)
    ensures r.nodeViews.Keys == nv.nodeViews.Keys + {n}
    ensures n in nv.nodeViews ==> r == nv
    ensures n !in nv.nodeViews ==>
              r == nv.(nodeViews := r.nodeViews)
              && (forall k :: k in nv.nodeViews ==> r.nodeViews[k] == nv.nodeViews[k])
              && (forall e :: e in r.nodeViews[n].outgoing <==>
                    e in g.edgeList && e in nv.edgeViews && g.ends[e].0 == n)
              && (forall e :: e in r.nodeViews[n].incoming <==>
                    e in g.edgeList && e in nv.edgeViews && g.ends[e].1 == n)
  {
    if n in nv.nodeViews then nv
    else
      var entry := NewEntry(nv, g, n);
      NewEntryLinked(nv, g, n);
      InsertLinked(nv, g, n, entry);
      nv.(nodeViews := nv.nodeViews[n := entry])
  }

  /** The entry of a fresh node view: the existing views of its adjacent edges, in model order. */
  function NewEntry(nv: NetworkView, g: Graph, n: int): NodeEntry
  {
    NodeEntry(AttachAll([], Adjacent(g.edgeList, g, n, 0, nv.edgeViews)),
              AttachAll([], Adjacent(g.edgeList, g, n, 1, nv.edgeViews)))
  }

  lemma NewEntryLinked(nv: NetworkView, g: Graph, n: int)
    requires WellFormed(g)
    ensures EntryLinked(NewEntry(nv, g, n), n, nv.edgeViews, g)
    ensures forall e :: e in NewEntry(nv, g, n).outgoing <==> e in g.edgeList && e in nv.edgeViews && g.ends[e].0 == n
    ensures forall e :: e in NewEntry(nv, g, n).incoming <==> e in g.edgeList && e in nv.edgeViews && g.ends[e].1 == n
  {
    assert NoDuplicates([]);
  }

  /** A linked entry for a node key keeps the registry linked. */
  lemma InsertLinked(nv: NetworkView, g: Graph, n: int, entry: NodeEntry)
    requires Linked(nv, g) && n !in g.ends && EntryLinked(entry, n, nv.edgeViews, g)
    ensures Linked(nv.(nodeViews := nv.nodeViews[n := entry]), g)
  {
  }

  /** `removeNodeView`: the node's entry goes; edge views stay, and so do the other nodes' lists. */
  function RemoveNodeView(nv: NetworkView, g: Graph, n: int): (r: NetworkView)
    requires Linked(nv, g)
    ensures Linked(r, g)
    ensures r.nodeViews.Keys == nv.nodeViews.Keys - {n}
    ensures forall k :: k in r.nodeViews ==> r.nodeViews[k] == nv.nodeViews[k]
    ensures r.edgeViews == nv.edgeViews && r.defaults == nv.defaults && r.defaultsChanged == nv.defaultsChanged
  {
    nv.(nodeViews := map k | k in nv.nodeViews && k != n :: nv.nodeViews[k])
  }

  // ----- edge views --------------------------------------------------------------

  /** Adds `e` to, or removes it from, one list of node `n`'s entry, if `n` has one. */
  function UpdateEntry(nodes: map<int, NodeEntry>, n: int, outgoing: bool, add: bool, e: int): (r: map<int, NodeEntry>)
    ensures r.Keys == nodes.Keys
    ensures forall k :: k in r && k != n ==> r[k] == nodes[k]
    ensures n in nodes && outgoing ==>
              r[n] == nodes[n].(outgoing := if add then AddEdge(nodes[n].outgoing, e) else RemoveEdge(nodes[n].outgoing, e))
    ensures n in nodes && !outgoing ==>
              r[n] == nodes[n].(incoming := if add then AddEdge(nodes[n].incoming, e) else RemoveEdge(nodes[n].incoming, e))
  {
    if n !in nodes then nodes
    else
      var entry := nodes[n];
      var list := if outgoing then entry.outgoing else entry.incoming;
      var list' := if add then AddEdge(list, e) else RemoveEdge(list, e);
      nodes[n := if outgoing then entry.(outgoing := list') else entry.(incoming := list')]
  }

  /**
    `addEdgeView`: nothing if the edge has a view; otherwise the view is
    registered and listed at its source (outgoing) and target (incoming)
    when those have views.
  */
  function AddEdgeView(nv: NetworkView, g: Graph, e: int): (r: NetworkView)
    requires Linked(nv, g) && e in g.ends
    ensures Linked(r, g)
    ensures r.edgeViews == nv.edgeViews + {e}
    ensures r.nodeViews.Keys == nv.nodeViews.Keys
    ensures e in nv.edgeViews ==> r == nv
    ensures e !in nv.edgeViews ==>
              (g.ends[e].0 in r.nodeViews ==> e in r.nodeViews[g.ends[e].0].outgoing)
              && (g.ends[e].1 in r.nodeViews ==> e in r.nodeViews[g.ends[e].1].incoming)
    ensures forall k :: k in r.nodeViews && k != g.ends[e].0 && k != g.ends[e].1 ==> r.nodeViews[k] == nv.nodeViews[k]
    ensures r.defaults == nv.defaults && r.defaultsChanged == nv.defaultsChanged
  {
    if e in nv.edgeViews then nv
    else
      AttachLinked(nv, g, e);
      Attach(nv, g, e)
  }

  /** Registers edge view `e` and lists it at its source (outgoing) and its target (incoming). */
  function Attach(nv: NetworkView, g: Graph, e: int): (r: NetworkView)
    requires e in g.ends
    ensures r.edgeViews == nv.edgeViews + {e}
    ensures r.nodeViews.Keys == nv.nodeViews.Keys
    ensures g.ends[e].0 in r.nodeViews ==> e in r.nodeViews[g.ends[e].0].outgoing
    ensures g.ends[e].1 in r.nodeViews ==> e in r.nodeViews[g.ends[e].1].incoming
    ensures forall k :: k in r.nodeViews && k != g.ends[e].0 && k != g.ends[e].1 ==> r.nodeViews[k] == nv.nodeViews[k]
    ensures r.defaults == nv.defaults && r.defaultsChanged == nv.defaultsChanged
  {
    var nodes1 := UpdateEntry(nv.nodeViews, g.ends[e].0, true, true, e);
    var nodes2 := UpdateEntry(nodes1, g.ends[e].1, false, true, e);
    nv.(nodeViews := nodes2, edgeViews := nv.edgeViews + {e})
  }

  lemma AttachLinked(nv: NetworkView, g: Graph, e: int)
    requires Linked(nv, g) && e in g.ends && e !in nv.edgeViews
    ensures Linked(Attach(nv, g, e), g)
  {
    var r := Attach(nv, g, e);
    forall n | n in r.nodeViews
      ensures EntryLinked(r.nodeViews[n], n, r.edgeViews, g)
    {
      assert EntryLinked(nv.nodeViews[n], n, nv.edgeViews, g);
    }
  }

  /** An entry with `e` taken out of both lists. */
  function Without(entry: NodeEntry, e: int): NodeEntry
  {
    NodeEntry(RemoveEdge(entry.outgoing, e), RemoveEdge(entry.incoming, e))
  }

  lemma WithoutLinked(entry: NodeEntry, n: int, edgeViews: set<int>, g: Graph, e: int)
    requires EntryLinked(entry, n, edgeViews, g)
    ensures EntryLinked(Without(entry, e), n, edgeViews - {e}, g)
    ensures e !in Without(entry, e).outgoing && e !in Without(entry, e).incoming
  {
  }

  /** Detaches edge view `e` from the lists of its two end nodes. */
  function Detach(nv: NetworkView, g: Graph, e: int): (r: NetworkView)
    requires Linked(nv, g) && e in g.ends
    ensures r == nv.(nodeViews := r.nodeViews)
    ensures r.nodeViews.Keys == nv.nodeViews.Keys
    ensures forall n :: n in r.nodeViews ==> r.nodeViews[n] == Without(nv.nodeViews[n], e)
  {
    var s := g.ends[e].0;
    var t := g.ends[e].1;
    var nodes1 := UpdateEntry(nv.nodeViews, s, true, false, e);
    var nodes2 := UpdateEntry(nodes1, t, false, false, e);
    assert forall n :: n in nodes2 ==> nodes2[n] == Without(nv.nodeViews[n], e) by {
      forall n | n in nodes2
        ensures nodes2[n] == Without(nv.nodeViews[n], e)
      {
        assert EntryLinked(nv.nodeViews[n], n, nv.edgeViews, g);
      }
    }
    nv.(nodeViews := nodes2)
  }

  /** After detaching, no list names `e`, and the registry would stay linked without `e`'s view. */
  lemma DetachLinked(nv: NetworkView, g: Graph, e: int)
    requires Linked(nv, g) && e in g.ends
    ensures forall n :: n in Detach(nv, g, e).nodeViews ==>
              e !in Detach(nv, g, e).nodeViews[n].outgoing && e !in Detach(nv, g, e).nodeViews[n].incoming
    ensures Linked(Detach(nv, g, e).(edgeViews := nv.edgeViews - {e}), g)
    ensures Linked(Detach(nv, g, e), g)
  {
    DetachUnlinks(nv, g, e);
    var d := Detach(nv, g, e);
    forall n | n in d.nodeViews
      ensures EntryLinked(d.nodeViews[n], n, nv.edgeViews, g)
    {
      EntryLinkedWiden(d.nodeViews[n], n, nv.edgeViews - {e}, nv.edgeViews, g);
    }
  }

  lemma DetachUnlinks(nv: NetworkView, g: Graph, e: int)
    requires Linked(nv, g) && e in g.ends
    ensures forall n :: n in Detach(nv, g, e).nodeViews ==>
              e !in Detach(nv, g, e).nodeViews[n].outgoing && e !in Detach(nv, g, e).nodeViews[n].incoming
    ensures Linked(Detach(nv, g, e).(edgeViews := nv.edgeViews - {e}), g)
  {
    var d := Detach(nv, g, e);
    forall n | n in d.nodeViews
      ensures EntryLinked(d.nodeViews[n], n, nv.edgeViews - {e}, g)
      ensures e !in d.nodeViews[n].outgoing && e !in d.nodeViews[n].incoming
    {
      WithoutLinked(nv.nodeViews[n], n, nv.edgeViews, g, e);
    }
  }

  /** An entry linked against fewer edge views is linked against more. */
  lemma EntryLinkedWiden(entry: NodeEntry, n: int, small: set<int>, large: set<int>, g: Graph)
    requires EntryLinked(entry, n, small, g) && small <= large
    ensures EntryLinked(entry, n, large, g)
  {
  }

  /**
    `removeEdgeView` as written: the view is detached from its ends, then
    the edge's key is removed from the node map, where it never is, so the
    edge view stays registered.
  */
  function RemoveEdgeViewAsWritten(nv: NetworkView, g: Graph, e: int): (r: NetworkView)
    requires Linked(nv, g) && e in g.ends
    ensures Linked(r, g)
    ensures r.edgeViews == nv.edgeViews
    ensures r.nodeViews.Keys == nv.nodeViews.Keys
    ensures e in nv.edgeViews ==> forall n :: n in r.nodeViews ==> e !in r.nodeViews[n].outgoing + r.nodeViews[n].incoming
    ensures e !in nv.edgeViews ==> r == nv
  {
    if e !in nv.edgeViews then nv
    else
      var d := Detach(nv, g, e);
      DetachLinked(nv, g, e);
      assert e !in d.nodeViews;
      RemoveAbsentKey(d.nodeViews, e);
      d.(nodeViews := map k | k in d.nodeViews && k != e :: d.nodeViews[k])
  }

  /** Removing a key the map does not hold leaves the map as it was. */
  lemma RemoveAbsentKey<V>(m: map<int, V>, key: int)
    requires key !in m
    ensures (map k | k in m && k != key :: m[k]) == m
  {
  }

  /** The edge view survives its own removal. */
  lemma RemovedEdgeViewStays(nv: NetworkView, g: Graph, e: int)
    requires Linked(nv, g) && e in nv.edgeViews
    ensures e in RemoveEdgeViewAsWritten(nv, g, e).edgeViews
  {
  }

  /** `removeEdgeView` with the edge map as the target of the removal. */
  function RemoveEdgeView(nv: NetworkView, g: Graph, e: int): (r: NetworkView)
    requires Linked(nv, g) && e in g.ends
    ensures Linked(r, g)
    ensures r.edgeViews == nv.edgeViews - {e}
    ensures r.nodeViews.Keys == nv.nodeViews.Keys
    ensures e !in nv.edgeViews ==> r == nv
    ensures r.defaults == nv.defaults && r.defaultsChanged == nv.defaultsChanged
  {
    if e !in nv.edgeViews then nv
    else
      var d := Detach(nv, g, e);
      DetachLinked(nv, g, e);
      d.(edgeViews := nv.edgeViews - {e})
  }

  /** Adding an edge view that was not there and removing it again restores the registry. */
  lemma AddThenRemoveEdge(nv: NetworkView, g: Graph, e: int)
    requires Linked(nv, g) && e in g.ends && e !in nv.edgeViews
    ensures RemoveEdgeView(AddEdgeView(nv, g, e), g, e) == nv
  {
    var a := AddEdgeView(nv, g, e);
    var r := RemoveEdgeView(a, g, e);
    var s := g.ends[e].0;
    var t := g.ends[e].1;
    forall n | n in nv.nodeViews
      ensures r.nodeViews[n] == nv.nodeViews[n]
    {
      assert EntryLinked(nv.nodeViews[n], n, nv.edgeViews, g);
      assert e !in nv.nodeViews[n].outgoing && e !in nv.nodeViews[n].incoming;
      AddThenRemove(nv.nodeViews[n].outgoing, e);
      AddThenRemove(nv.nodeViews[n].incoming, e);
      if n == s && n == t {
        assert AddEdge(AddEdge(nv.nodeViews[n].outgoing, e), e) == AddEdge(nv.nodeViews[n].outgoing, e);
      }
    }
  }

  // ----- reconciliation with the model ---------------------------------------------

  /** A non-empty set has a member to pick. */
  lemma Inhabited(s: set<int>)
    requires s != {}
    ensures exists x :: x in s
  {
    assert (forall x :: x !in s) ==> s == {};
  }

  /** The removal pass over node views the model no longer has. */
  method RemoveStaleNodes(nv: NetworkView, g: Graph) returns (r: NetworkView)
    requires Linked(nv, g)
    ensures Linked(r, g)
    ensures r.nodeViews.Keys == nv.nodeViews.Keys * set n | n in g.nodeList
    ensures forall k :: k in r.nodeViews ==> r.nodeViews[k] == nv.nodeViews[k]
    ensures r.edgeViews == nv.edgeViews && r.defaults == nv.defaults && r.defaultsChanged == nv.defaultsChanged
  {
    var stale := set n | n in nv.nodeViews && n !in g.nodeList;
    r := nv;
    while stale != {}
      invariant Linked(r, g)
      invariant stale <= r.nodeViews.Keys <= nv.nodeViews.Keys
      invariant r.nodeViews.Keys - stale == nv.nodeViews.Keys * set n | n in g.nodeList
      invariant forall k :: k in r.nodeViews ==> r.nodeViews[k] == nv.nodeViews[k]
      invariant r.edgeViews == nv.edgeViews && r.defaults == nv.defaults && r.defaultsChanged == nv.defaultsChanged
      decreases |stale|
    {
      Inhabited(stale);
      var n :| n in stale;
      r := RemoveNodeView(r, g, n);
      stale := stale - {n};
    }
  }

  /** The removal pass over edge views the model no longer has, with the source's `removeEdgeView`. */
  method RemoveStaleEdgesAsWritten(nv: NetworkView, g: Graph) returns (r: NetworkView)
    requires Linked(nv, g)
    ensures Linked(r, g)
    ensures r.edgeViews == nv.edgeViews && r.nodeViews.Keys == nv.nodeViews.Keys && r.defaults == nv.defaults
  {
    var stale := set e | e in nv.edgeViews && e !in g.edgeList;
    r := nv;
    while stale != {}
      invariant Linked(r, g)
      invariant stale <= r.edgeViews
      invariant r.edgeViews == nv.edgeViews && r.nodeViews.Keys == nv.nodeViews.Keys && r.defaults == nv.defaults
      decreases |stale|
    {
      Inhabited(stale);
      var e :| e in stale;
      r := RemoveEdgeViewAsWritten(r, g, e);
      stale := stale - {e};
    }
  }

  /** The removal pass over stale edge views, with the corrected `removeEdgeView`. */
  method RemoveStaleEdges(nv: NetworkView, g: Graph) returns (r: NetworkView)
    requires Linked(nv, g)
    ensures Linked(r, g)
    ensures r.edgeViews == set e | e in nv.edgeViews && e in g.edgeList
    ensures r.nodeViews.Keys == nv.nodeViews.Keys && r.defaults == nv.defaults
  {
    var stale := set e | e in nv.edgeViews && e !in g.edgeList;
    r := nv;
    while stale != {}
      invariant Linked(r, g)
      invariant stale <= r.edgeViews
      invariant r.edgeViews - stale == set e | e in nv.edgeViews && e in g.edgeList
      invariant r.nodeViews.Keys == nv.nodeViews.Keys && r.defaults == nv.defaults
      decreases |stale|
    {
      Inhabited(stale);
      var e :| e in stale;
      r := RemoveEdgeView(r, g, e);
      stale := stale - {e};
    }
  }

  /** `addNodeView` for every model node, in model order. */
  method AddNodes(nv: NetworkView, g: Graph) returns (r: NetworkView)
    requires WellFormed(g) && Linked(nv, g)
    ensures Linked(r, g)
    ensures r.nodeViews.Keys == nv.nodeViews.Keys + set n | n in g.nodeList
    ensures r.edgeViews == nv.edgeViews && r.defaults == nv.defaults
  {
    r := nv;
    var i := 0;
    while i < |g.nodeList|
      invariant 0 <= i <= |g.nodeList|
      invariant Linked(r, g)
      invariant r.nodeViews.Keys == nv.nodeViews.Keys + set n | n in g.nodeList[..i]
      invariant r.edgeViews == nv.edgeViews && r.defaults == nv.defaults
    {
      assert g.nodeList[..i + 1] == g.nodeList[..i] + [g.nodeList[i]];
      r := AddNodeView(r, g, g.nodeList[i]);
      i := i + 1;
    }
    assert g.nodeList[..i] == g.nodeList;
  }

  /** `addEdgeView` for every model edge, in model order. */
  method AddEdges(nv: NetworkView, g: Graph) returns (r: NetworkView)
    requires WellFormed(g) && Linked(nv, g)
    ensures Linked(r, g)
    ensures r.edgeViews == nv.edgeViews + set e | e in g.edgeList
    ensures r.nodeViews.Keys == nv.nodeViews.Keys && r.defaults == nv.defaults
  {
    r := nv;
    var i := 0;
    while i < |g.edgeList|
      invariant 0 <= i <= |g.edgeList|
      invariant Linked(r, g)
      invariant r.edgeViews == nv.edgeViews + set e | e in g.edgeList[..i]
      invariant r.nodeViews.Keys == nv.nodeViews.Keys && r.defaults == nv.defaults
    {
      assert g.edgeList[..i + 1] == g.edgeList[..i] + [g.edgeList[i]];
      r := AddEdgeView(r, g, g.edgeList[i]);
      i := i + 1;
    }
    assert g.edgeList[..i] == g.edgeList;
  }

  /**
    `syncWithModel` as written: node views end up exactly the model's
    nodes and every model edge gets a view, but stale edge views survive.
  */
  method SyncWithModelAsWritten(nv: NetworkView, g: Graph) returns (r: NetworkView)
    requires WellFormed(g) && Linked(nv, g)
    ensures Linked(r, g)
    ensures r.nodeViews.Keys == set n | n in g.nodeList
    ensures r.edgeViews == nv.edgeViews + set e | e in g.edgeList
    ensures r.defaults == nv.defaults
  {
    r := RemoveStaleNodes(nv, g);
    r := RemoveStaleEdgesAsWritten(r, g);
    r := AddNodes(r, g);
    r := AddEdges(r, g);
  }

  /** `syncWithModel` with the corrected edge removal: both maps match the model exactly. */
  method SyncWithModel(nv: NetworkView, g: Graph) returns (r: NetworkView)
    requires WellFormed(g) && Linked(nv, g)
    ensures Linked(r, g)
    ensures r.nodeViews.Keys == set n | n in g.nodeList
    ensures r.edgeViews == set e | e in g.edgeList
    ensures r.defaults == nv.defaults
  {
    r := RemoveStaleNodes(nv, g);
    r := RemoveStaleEdges(r, g);
    r := AddNodes(r, g);
    r := AddEdges(r, g);
  }

  // ----- defaults -------------------------------------------------------------------

  /** `setViewDefault`: a missing or different stored default is replaced and the changed flag raised. */
  function SetViewDefault(nv: NetworkView, vp: int, value: int): (r: NetworkView)
    ensures r.defaults == nv.defaults[vp := value]
    ensures r.defaultsChanged <==> nv.defaultsChanged || vp !in nv.defaults || nv.defaults[vp] != value
    ensures vp in nv.defaults && nv.defaults[vp] == value ==> r == nv
    ensures r.nodeViews == nv.nodeViews && r.edgeViews == nv.edgeViews
  {
    if vp !in nv.defaults || nv.defaults[vp] != value then
      nv.(defaults := nv.defaults[vp := value], defaultsChanged := true)
    else nv
  }

  /** After the state pass of a frame every view is in sync with the defaults. */
  function AfterStatePass(nv: NetworkView): (r: NetworkView)
    ensures !r.defaultsChanged && r == nv.(defaultsChanged := false)
  {
    nv.(defaultsChanged := false)
  }

  /** Setting a default twice raises the flag at most once: the second call changes nothing. */
  lemma SetViewDefaultIdempotent(nv: NetworkView, vp: int, value: int)
    ensures SetViewDefault(SetViewDefault(nv, vp, value), vp, value) == SetViewDefault(nv, vp, value)
  {
  }

  // ----- per-frame rules ----------------------------------------------------------------

  /**
    The depth clipping range from the nodes' distances along the view
    direction: only nodes more than 0.1 in front count; with none the range
    is left alone.
  */
  function ClipRange(distances: seq<real>): (r: Option<(real, real)>)
    ensures r.None? <==> forall i :: 0 <= i < |distances| ==> distances[i] <= 0.1
    ensures r.Some? ==> 0.1 <= r.value.0 < r.value.1
    ensures r.Some? ==> forall i :: 0 <= i < |distances| && distances[i] > 0.1 ==>
              r.value.0 < distances[i] && distances[i] + 2.0 <= r.value.1
  {
    var nearTriple := Extremes(distances);
    var near := nearTriple.0;
    var far := nearTriple.1;
    var count := nearTriple.2;
    if count == 0 then None
    else Some(((if near - 2.0 > 0.1 then near - 2.0 else 0.1), far + 2.0))
  }

  /** The loop over the nodes: smallest and largest distance beyond 0.1, starting from 0.2 for the largest. */
  function Extremes(distances: seq<real>): (r: (real, real, nat))
    ensures r.1 >= 0.2
    ensures r.2 == 0 <==> forall i :: 0 <= i < |distances| ==> distances[i] <= 0.1
    ensures forall i :: 0 <= i < |distances| && distances[i] > 0.1 ==> r.0 <= distances[i] <= r.1
    ensures r.2 > 0 ==> r.0 > 0.1 && r.0 <= r.1
    decreases |distances|
  {
    if |distances| == 0 then (0.0, 0.2, 0)
    else
      var nearTriple := Extremes(distances[..|distances| - 1]);
      var near := nearTriple.0;
      var far := nearTriple.1;
      var count := nearTriple.2;
      var d := distances[|distances| - 1];
      assert forall i :: 0 <= i < |distances| - 1 ==> distances[i] == distances[..|distances| - 1][i];
      if d <= 0.1 then (near, far, count)
      else
        ((if count == 0 || d < near then d else near), (if d > far then d else far), count + 1)
  }

  /** `0.88 * 0.8 * 0.8`, the consumption below which resolution is restored. */
  const RestoreBelow: real := 0.5632

  /**
    The downsampling rule after each frame: shrink by 0.8 above 90% memory
    use, grow back by 1/0.8 below `RestoreBelow` while below full
    resolution, never above 1.
  */
  function NextDownsampling(ds: real, consumption: real): (r: real)
    ensures r <= 1.0
    ensures consumption > 0.9 && ds > 0.0 ==> 0.0 < r < ds
    ensures consumption <= 0.9 && ds > 0.0 ==> r >= ds || ds > 1.0
    ensures 0.0 < ds <= 1.0 && RestoreBelow <= consumption <= 0.9 ==> r == ds
    ensures 0.0 < ds < 1.0 && consumption < RestoreBelow ==> ds < r
    ensures ds > 0.0 ==> r > 0.0
  {
    var next := if consumption > 0.9 then ds * 0.8
                else if ds < 1.0 && consumption < RestoreBelow then ds / 0.8
                else ds;
    if next < 1.0 then next else 1.0
  }

  /** Under steady pressure above 90% the factor falls at every frame and never reaches zero. */
  lemma {:induction false} PressureKeepsShrinking(ds: real, c: real, n: nat)
    requires 0.0 < ds && c > 0.9
    ensures 0.0 < Repeat(ds, c, n + 1) < Repeat(ds, c, n) <= ds
    decreases n
  {
    if n > 0 {
      PressureKeepsShrinking(ds, c, n - 1);
    }
  }

  /** `n` frames at the same memory consumption. */
  function Repeat(ds: real, consumption: real, n: nat): real
    decreases n
  {
    if n == 0 then ds else NextDownsampling(Repeat(ds, consumption, n - 1), consumption)
  }

  /** Under steady relief the factor gains a quarter of its starting value per frame until it reaches 1. */
  lemma {:induction false} ReliefGrows(ds: real, c: real, n: nat)
    requires 0.0 < ds <= 1.0 && c < RestoreBelow
    ensures ds <= Repeat(ds, c, n) <= 1.0
    ensures Repeat(ds, c, n) == 1.0 || Repeat(ds, c, n) >= ds + ds * (n as real) / 4.0
    decreases n
  {
    if n > 0 {
      ReliefGrows(ds, c, n - 1);
    }
  }

  /** Once memory use stays below `RestoreBelow`, full resolution comes back after finitely many frames. */
  lemma ReliefRestores(ds: real, c: real)
    requires 0.0 < ds <= 1.0 && c < RestoreBelow
    ensures exists n: nat :: Repeat(ds, c, n) == 1.0
  {
    var x := 4.0 / ds;
    var n: nat := x.Floor + 1;
    var nr := n as real;
    assert nr > x;
    assert x * ds == 4.0;
    ScaleStrict(nr, x, ds);
    ReliefGrows(ds, c, n);
    var r := Repeat(ds, c, n);
    assert r <= 1.0;
    assert ds + ds * nr / 4.0 > 1.0;
    assert r == 1.0;
  }

  lemma ScaleStrict(a: real, b: real, c: real)
    requires a > b && c > 0.0
    ensures a * c > b * c
  {
  }

  // ----- the float rule near zero ------------------------------------------

  /** `0.8f` is exactly 13421773 · 2⁻²⁴. */
  const EightTenthsF: nat := 13421773
  const TwoTo24: nat := 16777216

  /**
    The smallest float unit, 2⁻¹⁴⁹. A factor below 2⁻¹²⁶ is a subnormal
    float, `k` units for some `k` below 2²³, and up to 2⁻¹²⁵ floats are
    spaced one unit apart.
  */
  const FloatUnit: real := 1.0 / 713623846352979940529142984724747568191373312.0
  const SubnormalLimit: nat := 8388608

  /** `n / d` rounded to the nearest integer, ties to even, as IEEE 754 rounds by default. */
  function RoundNearest(n: nat, d: nat): (r: nat)
    requires d > 0
    ensures 2 * (n - r * d) <= d && 2 * (r * d - n) <= d
  {
    var q := n / d;
    var rem := n % d;
    assert n == q * d + rem;
    if 2 * rem > d || (2 * rem == d && q % 2 == 1) then
      assert (q + 1) * d == q * d + d;
      q + 1
    else q
  }

  /** `globalDownsampling * 0.8f` for a factor of `k` units: the exact product, rounded to whole units. */
  function ShrinkSubnormal(k: nat): (r: nat)
    requires k < SubnormalLimit
    ensures 2 * (k * EightTenthsF - r * TwoTo24) <= TwoTo24 && 2 * (r * TwoTo24 - k * EightTenthsF) <= TwoTo24
  {
    RoundNearest(k * EightTenthsF, TwoTo24)
  }

  /** `globalDownsampling / 0.8f` for a factor of `k` units: the exact quotient, rounded to whole units. */
  function GrowSubnormal(k: nat): (r: nat)
    requires k < SubnormalLimit
    ensures 2 * (k * TwoTo24 - r * EightTenthsF) <= EightTenthsF && 2 * (r * EightTenthsF - k * TwoTo24) <= EightTenthsF
  {
    RoundNearest(k * TwoTo24, EightTenthsF)
  }

  /** Under pressure, a factor of a few units falls by at least one unit per frame until it reaches two units, and never below. */
  lemma ShrinkStopsAtTwo(k: nat)
    requires 2 <= k < SubnormalLimit
    ensures 2 <= ShrinkSubnormal(k) <= k
    ensures k >= 3 ==> ShrinkSubnormal(k) < k
  {
  }

  /**
    As written, two units is a fixed point of both float steps: pressure no
    longer shrinks the factor and relief never grows it back, where the
    rule over reals does.
  */
  lemma SubnormalFactorSticks()
    ensures ShrinkSubnormal(2) == 2 && GrowSubnormal(2) == 2
    ensures NextDownsampling(2.0 * FloatUnit, 0.0) > 2.0 * FloatUnit
  {
  }
}

=== FILE: node_shape.dfy ===
/**
  Node shapes (nodeshape/ZZNodeShape.java and nodeshape/RendererNodeShape.java):
  the renderer's nine shapes, each a native id with a display name and a
  serializable string, the table that maps the standard Cytoscape node
  shapes onto them, and the registry of outline classes keyed by native id.
*/
module NodeShapes {
  import opened Wrappers

  /** The renderer's shapes; `Vee` is the one the standard set lacks. */
  datatype Kind = Rectangle | RoundRectangle | Triangle | Parallelogram | Diamond | Ellipse | Hexagon | Octagon | Vee

  /** The eight shapes of the standard node-shape property. */
  datatype StandardShape = StdRectangle | StdRoundRectangle | StdTriangle | StdParallelogram | StdDiamond | StdEllipse | StdHexagon | StdOctagon

  /**
    A node-shape value as `getZZShape` receives it. Keys of the shape
    table are compared by identity, so a value is one of the standard
    property's constants, one of this renderer's own shape constants, or
    any other object (including `null`), told apart by `id`.
  */
  datatype NodeShapeValue = Standard(s: StandardShape) | Own(k: Kind) | Other(id: nat)

  datatype ZZNodeShape = ZZNodeShape(rendererShapeId: int, displayName: string, serializableString: string)

  /** The `SHAPE_*` native ids. */
  function NativeId(k: Kind): int
  {
    match k
    case Rectangle => 0
    case Diamond => 1
    case Ellipse => 2
    case Hexagon => 3
    case Octagon => 4
    case Parallelogram => 5
    case RoundRectangle => 6
    case Triangle => 7
    case Vee => 8
  }

  const MaxNativeId: int := 8

  function StandardDisplayName(s: StandardShape): string
  {
    match s
    case StdRectangle => "Rectangle"
    case StdRoundRectangle => "Round Rectangle"
    case StdTriangle => "Triangle"
    case StdParallelogram => "Parallelogram"
    case StdDiamond => "Diamond"
    case StdEllipse => "Ellipse"
    case StdHexagon => "Hexagon"
    case StdOctagon => "Octagon"
  }

  function StandardSerializable(s: StandardShape): string
  {
    match s
    case StdRectangle => "RECTANGLE"
    case StdRoundRectangle => "ROUND_RECTANGLE"
    case StdTriangle => "TRIANGLE"
    case StdParallelogram => "PARALLELOGRAM"
    case StdDiamond => "DIAMOND"
    case StdEllipse => "ELLIPSE"
    case StdHexagon => "HEXAGON"
    case StdOctagon => "OCTAGON"
  }

  /** The renderer shape a standard shape is drawn as. */
  function KindOf(s: StandardShape): Kind
  {
    match s
    case StdRectangle => Rectangle
    case StdRoundRectangle => RoundRectangle
    case StdTriangle => Triangle
    case StdParallelogram => Parallelogram
    case StdDiamond => Diamond
    case StdEllipse => Ellipse
    case StdHexagon => Hexagon
    case StdOctagon => Octagon
  }

  /** The standard shape whose names a renderer shape copies; `Vee` has none. */
  function StandardOf(k: Kind): Option<StandardShape>
  {
    match k
    case Rectangle => Some(StdRectangle)
    case RoundRectangle => Some(StdRoundRectangle)
    case Triangle => Some(StdTriangle)
    case Parallelogram => Some(StdParallelogram)
    case Diamond => Some(StdDiamond)
    case Ellipse => Some(StdEllipse)
    case Hexagon => Some(StdHexagon)
    case Octagon => Some(StdOctagon)
    case Vee => None
  }

  /** The nine shape constants: the standard names for eight, "V" and "VEE" for the renderer's own. */
  function Shape(k: Kind): (r: ZZNodeShape)
    ensures r.rendererShapeId == NativeId(k)
    ensures StandardOf(k).Some? ==> r.displayName == StandardDisplayName(StandardOf(k).value)
                                    && r.serializableString == StandardSerializable(StandardOf(k).value)
  {
    match StandardOf(k)
    case Some(s) => ZZNodeShape(NativeId(k), StandardDisplayName(s), StandardSerializable(s))
    case None => ZZNodeShape(NativeId(k), "V", "VEE")
  }

  /** `VEE`. */
  const VeeShape: ZZNodeShape := Shape(Vee)

  /** `DEF_SHAPE_MAP`: the eight standard constants and `VEE` itself. */
  const DefShapeMap: map<NodeShapeValue, Kind> := map[
    Standard(StdRectangle) := Rectangle,
    Standard(StdDiamond) := Diamond,
    Standard(StdEllipse) := Ellipse,
    Standard(StdHexagon) := Hexagon,
    Standard(StdOctagon) := Octagon,
    Standard(StdParallelogram) := Parallelogram,
    Standard(StdRoundRectangle) := RoundRectangle,
    Standard(StdTriangle) := Triangle,
    Own(Vee) := Vee
  ]

  /** `getZZShape`: the table's shape, or `RECTANGLE` for anything it does not hold. */
  function GetZZShape(shape: NodeShapeValue): (r: ZZNodeShape)
    ensures shape.Standard? ==> r == Shape(KindOf(shape.s))
    ensures shape == Own(Vee) ==> r == VeeShape
    ensures !shape.Standard? && shape != Own(Vee) ==> r == Shape(Rectangle)
  {
    if shape in DefShapeMap then Shape(DefShapeMap[shape]) else Shape(Rectangle)
  }

  /** A standard shape comes back under its own display name and serializable string. */
  lemma StandardKeepsNames(s: StandardShape)
    ensures GetZZShape(Standard(s)).displayName == StandardDisplayName(s)
    ensures GetZZShape(Standard(s)).serializableString == StandardSerializable(s)
  {
    assert StandardOf(KindOf(s)) == Some(s);
  }

  /** `VEE` maps to itself, is shown as "V" and saved as "VEE"; `toString` is the display name. */
  lemma VeeFacts()
    ensures GetZZShape(Own(Vee)) == VeeShape
    ensures VeeShape.displayName == "V" && VeeShape.serializableString == "VEE"
    ensures ToString(VeeShape) == "V"
    ensures VeeShape.rendererShapeId == MaxNativeId
  {
  }

  /** `toString`. */
  function ToString(z: ZZNodeShape): string
  {
    z.displayName
  }

  /**
    The table is keyed by identity: the renderer's own constants other
    than `VEE` are not keys, so handing one back gives `RECTANGLE`.
  */
  lemma OwnShapesFallBack(k: Kind)
    requires k != Vee
    ensures GetZZShape(Own(k)) == Shape(Rectangle)
    ensures k != Rectangle ==> GetZZShape(Own(k)) != Shape(k)
  {
    assert NativeId(k) != NativeId(Rectangle) || k == Rectangle;
  }

  /** Different shapes have different native ids, and the ids are exactly 0..8. */
  lemma NativeIdsDistinct(a: Kind, b: Kind)
    ensures 0 <= NativeId(a) <= MaxNativeId
    ensures NativeId(a) == NativeId(b) ==> a == b
  {
  }

  /** The shape of a native id, the inverse of `NativeId`. */
  function KindOfId(id: int): (r: Kind)
    requires 0 <= id <= MaxNativeId
    ensures NativeId(r) == id
  {
    if id == 0 then Rectangle
    else if id == 1 then Diamond
    else if id == 2 then Ellipse
    else if id == 3 then Hexagon
    else if id == 4 then Octagon
    else if id == 5 then Parallelogram
    else if id == 6 then RoundRectangle
    else if id == 7 then Triangle
    else Vee
  }

  /** `KindOfId` and `NativeId` undo each other. */
  lemma NativeIdRoundTrip(k: Kind)
    ensures KindOfId(NativeId(k)) == k
  {
    NativeIdsDistinct(k, KindOfId(NativeId(k)));
  }

  /**
    `RendererNodeShape.nodeShapes`: each native id with the outline class
    registered for it, named by the shape it draws.
  */
  const Registry: map<int, Kind> := map[
    0 := Rectangle, 2 := Ellipse, 6 := RoundRectangle, 1 := Diamond, 3 := Hexagon,
    4 := Octagon, 5 := Parallelogram, 7 := Triangle, 8 := Vee
  ]

  /**
    Every outline is registered under its own type, and every shape
    `getZZShape` can return has an outline registered under its native
    id, the outline of that very shape. So `nodeShapes` and the copy
    `getNodeShapes` re-keys by each outline's own type are the same map,
    and `getShape` is never `null`.
  */
  lemma RegistryCoversShapes(shape: NodeShapeValue)
    ensures forall id :: id in Registry ==> NativeId(Registry[id]) == id
    ensures forall id :: id in Registry <==> 0 <= id <= MaxNativeId
    ensures GetZZShape(shape).rendererShapeId in Registry
    ensures Registry[GetZZShape(shape).rendererShapeId] == KindOfId(GetZZShape(shape).rendererShapeId)
  {
  }
}

=== FILE: node_view.dfy ===
/**
  The per-node view state machine (viewmodel/ZZNodeView.java, the
  `RedrawState` logic only).

  A node owns up to eleven rectangles: the shape (part 0), the label
  (part 1) and one per custom-graphics layer (parts 2 to 10). Each part has
  a redraw state that the three per-frame stages move along:
  `updateState` decides what needs a new texture, `redrawTextures` admits
  and rasterises, `updateResources` uploads or discards. Rectangles are
  reduced to the fields these stages read; the frustum test and the
  optimum texture size are inputs of the frame. Rasterisation succeeds
  when the texture memory is admitted and the optimum size is at least 1
  by 1; for a smaller size the image allocation throws. The memory counter
  (`MemoryLimit`) is threaded through every stage that touches it.
*/
module NodeViews {
  import opened Wrappers
  import opened Primitives
  import opened MemoryLimit

  datatype RedrawState = Keep | Redraw | Delete

  /** A node rectangle as the state machine sees it. */
  datatype Prim = Prim(center: Vec3, textureWidth: int, textureHeight: int, texture: Option<Texture>)

  datatype Part = Part(rect: Option<Prim>, state: RedrawState, optimumWidth: int, optimumHeight: int)

  const NumCustomGraphics := 9
  const PartCount := 11
  const ShapePart := 0
  const LabelPart := 1

  datatype NodeView = NodeView(
    visible: bool,
    selected: bool,
    onScreen: bool,
    position: Vec3,
    width: int,
    height: int,
    labelText: string,
    labelFits: bool,
    cgInfo: seq<Option<int>>,
    parts: seq<Part>,
    outgoing: seq<int>,
    incoming: seq<int>)

  /** The per-frame inputs: frustum test and optimum texture size of every part. */
  datatype Frame = Frame(inFrustum: seq<bool>, optimumWidth: seq<int>, optimumHeight: seq<int>)

  ghost predicate PartOk(p: Part)
  {
    p.optimumWidth >= 0 && p.optimumHeight >= 0
    && (p.rect.Some? ==>
          p.rect.value.textureWidth >= 0 && p.rect.value.textureHeight >= 0
          && (p.rect.value.texture.Some? ==>
                p.rect.value.texture.value.width >= 0 && p.rect.value.texture.value.height >= 0))
  }

  ghost predicate AllOk(ps: seq<Part>)
  {
    forall k :: 0 <= k < |ps| ==> PartOk(ps[k])
  }

  ghost predicate Valid(v: NodeView)
  {
    |v.cgInfo| == NumCustomGraphics && |v.parts| == PartCount && AllOk(v.parts)
  }

  ghost predicate FrameOk(f: Frame)
  {
    |f.inFrustum| == PartCount && |f.optimumWidth| == PartCount && |f.optimumHeight| == PartCount
    && (forall k :: 0 <= k < PartCount ==> f.optimumWidth[k] >= 0 && f.optimumHeight[k] >= 0)
  }

  /** Every rectangle of the node sits at the node's position. */
  ghost predicate Centered(v: NodeView)
  {
    forall k :: 0 <= k < |v.parts| && v.parts[k].rect.Some? ==> v.parts[k].rect.value.center == v.position
  }

  // ----- memory bookkeeping --------------------------------------------------

  /** Device bytes held by one part. */
  function OccupiedOf(p: Part): int
  {
    if p.rect.Some? then OccupiedMemory(p.rect.value.texture) else 0
  }

  predicate OnDevice(p: Part)
  {
    p.rect.Some? && p.rect.value.texture.Some?
  }

  /** Device bytes held by all parts. */
  function Occupied(ps: seq<Part>): int
  {
    if |ps| == 0 then 0 else OccupiedOf(ps[0]) + Occupied(ps[1..])
  }

  /** Bytes admitted for textures drawn but not yet uploaded: the new size minus what they replace. */
  function Pending(ps: seq<Part>): int
  {
    if |ps| == 0 then 0
    else
      (if ps[0].rect.Some? && ps[0].state == Redraw
       then ps[0].rect.value.textureWidth * ps[0].rect.value.textureHeight * 4 - OccupiedOf(ps[0])
       else 0)
      + Pending(ps[1..])
  }

  /** Bytes that `updateResources` will free. */
  function Doomed(ps: seq<Part>): int
  {
    if |ps| == 0 then 0
    else (if ps[0].rect.Some? && ps[0].state == Delete then OccupiedOf(ps[0]) else 0) + Doomed(ps[1..])
  }

  lemma {:induction false} OccupiedNonNegative(ps: seq<Part>)
    requires AllOk(ps)
    ensures Occupied(ps) >= 0 && Doomed(ps) >= 0 && Doomed(ps) <= Occupied(ps)
    decreases |ps|
  {
    if |ps| > 0 {
      assert PartOk(ps[0]);
      OccupiedNonNegative(ps[1..]);
    }
  }

  lemma SplitOk(ps: seq<Part>)
    requires |ps| > 0
    ensures AllOk(ps) ==> PartOk(ps[0]) && AllOk(ps[1..]) && Occupied(ps[1..]) >= 0 && Doomed(ps[1..]) >= 0
  {
    if AllOk(ps) {
      assert PartOk(ps[0]);
      OccupiedNonNegative(ps[1..]);
    }
  }

  /** What `updateResources` frees never exceeds what the parts hold plus what was admitted for them. */
  lemma {:induction false} DoomedCovered(ps: seq<Part>)
    requires AllOk(ps)
    ensures Doomed(ps) <= Occupied(ps) + Pending(ps)
    decreases |ps|
  {
    if |ps| > 0 {
      assert PartOk(ps[0]);
      if ps[0].rect.Some? {
        var p := ps[0].rect.value;
        assert p.textureWidth * p.textureHeight >= 0;
      }
      DoomedCovered(ps[1..]);
    }
  }

  // ----- setupRectangles -----------------------------------------------------

  /** Whether part `k` should have a rectangle: visible node, and for custom graphics a set layer. */
  predicate Wanted(v: NodeView, k: nat)
    requires |v.cgInfo| == NumCustomGraphics && k < PartCount
  {
    v.visible && (k < 2 || v.cgInfo[k - 2].Some?)
  }

  /** One part of `setupRectangles`: create with REDRAW, or delete with KEEP, or leave alone. */
  function SetupPart(p: Part, wanted: bool, at: Vec3): (r: Part)
    ensures r.rect.Some? <==> wanted
    ensures wanted && p.rect.None? ==> r == p.(rect := Some(Prim(at, 1, 1, None)), state := Redraw)
    ensures !wanted && p.rect.Some? ==> r == p.(rect := None, state := Keep)
    ensures wanted == p.rect.Some? ==> r == p
  {
    if wanted && p.rect.None? then p.(rect := Some(Prim(at, 1, 1, None)), state := Redraw)
    else if !wanted && p.rect.Some? then p.(rect := None, state := Keep)
    else p
  }

  /**
    `setupRectangles` over a run of parts, in order: each deleted rectangle
    first returns its occupied bytes to the counter.
  */
  function SetupAll(ps: seq<Part>, wanted: seq<bool>, at: Vec3, mem: Limit): (res: (seq<Part>, Limit))
    requires |wanted| == |ps|
    ensures |res.0| == |ps|
    ensures forall k :: 0 <= k < |ps| ==> res.0[k] == SetupPart(ps[k], wanted[k], at)
    ensures res.1.maxMemory == mem.maxMemory
    ensures AllOk(ps) ==> AllOk(res.0)
    ensures AllOk(ps) && mem.currentMemory >= Occupied(ps) ==>
              res.1.currentMemory == mem.currentMemory - (Occupied(ps) - Occupied(res.0))
              && res.1.currentMemory >= Occupied(res.0)
    ensures (forall k :: 0 <= k < |ps| && ps[k].rect.Some? ==> wanted[k]) ==> res.1 == mem
    decreases |ps|
  {
    if |ps| == 0 then ([], mem)
    else
      var p := SetupPart(ps[0], wanted[0], at);
      var m1 := if ps[0].rect.Some? && !wanted[0] then FreeMemory(mem, OccupiedOf(ps[0])) else mem;
      var rest := SetupAll(ps[1..], wanted[1..], at, m1);
      SplitOk(ps);
      ([p] + rest.0, rest.1)
  }

  function WantedAll(v: NodeView): (w: seq<bool>)
    requires |v.cgInfo| == NumCustomGraphics
    ensures |w| == PartCount && forall k :: 0 <= k < PartCount ==> w[k] == Wanted(v, k)
  {
    seq(PartCount, k requires 0 <= k < PartCount => Wanted(v, k))
  }

  /** `setupRectangles`. */
  function SetupRectangles(v: NodeView, mem: Limit): (res: (NodeView, Limit))
    requires Valid(v)
    ensures Valid(res.0)
    ensures res.0 == v.(parts := res.0.parts)
    ensures forall k :: 0 <= k < PartCount ==> (res.0.parts[k].rect.Some? <==> Wanted(v, k))
    ensures forall k :: 0 <= k < PartCount && Wanted(v, k) && v.parts[k].rect.None? ==>
              res.0.parts[k].state == Redraw && !OnDevice(res.0.parts[k])
    ensures forall k :: 0 <= k < PartCount && !Wanted(v, k) && v.parts[k].rect.Some? ==>
              res.0.parts[k].state == Keep
    ensures forall k :: 0 <= k < PartCount && Wanted(v, k) == v.parts[k].rect.Some? ==> res.0.parts[k] == v.parts[k]
    ensures res.1.maxMemory == mem.maxMemory
    ensures mem.currentMemory >= Occupied(v.parts) ==>
              res.1.currentMemory == mem.currentMemory - (Occupied(v.parts) - Occupied(res.0.parts))
              && res.1.currentMemory >= Occupied(res.0.parts)
    ensures (forall k :: 0 <= k < PartCount && v.parts[k].rect.Some? ==> Wanted(v, k)) ==> res.1 == mem
  {
    var psPair := SetupAll(v.parts, WantedAll(v), v.position, mem);
    var ps := psPair.0;
    var m := psPair.1;
    (v.(parts := ps), m)
  }

  // ----- updateState ---------------------------------------------------------

  /** Java `Math.abs(a - b) > 1` on shorts. */
  predicate FarApart(a: int, b: int)
  {
    a - b > 1 || b - a > 1
  }

  /**
    The marking of `updateState` for one part: off screen, a texture on the
    device is marked for deletion; on screen, a part is marked for redraw
    when it has no texture (for the label: and has text) or the texture is
    more than one pixel off the optimum.
  */
  function MarkPart(p: Part, onScreen: bool, isLabel: bool, hasText: bool): (r: Part)
    ensures r.rect == p.rect && r.optimumWidth == p.optimumWidth && r.optimumHeight == p.optimumHeight
    ensures !onScreen ==> r.state == (if OnDevice(p) then Delete else p.state)
    ensures onScreen && p.rect.Some? ==>
              r.state == (if (!OnDevice(p) && (!isLabel || hasText))
                             || FarApart(p.rect.value.textureWidth, p.optimumWidth)
                             || FarApart(p.rect.value.textureHeight, p.optimumHeight)
                          then Redraw else p.state)
    ensures onScreen && p.rect.None? ==> r == p
  {
    if !onScreen then (if OnDevice(p) then p.(state := Delete) else p)
    else if p.rect.None? then p
    else if (!OnDevice(p) && (!isLabel || hasText))
            || FarApart(p.rect.value.textureWidth, p.optimumWidth)
            || FarApart(p.rect.value.textureHeight, p.optimumHeight)
    then p.(state := Redraw)
    else p
  }

  /** Optimum sizes are refreshed, and the frustum consulted, only for parts that had a rectangle before setup. */
  function Measure(p: Part, f: Frame, k: nat): (r: Part)
    requires FrameOk(f) && k < PartCount
  {
    if p.rect.Some? then p.(optimumWidth := f.optimumWidth[k], optimumHeight := f.optimumHeight[k]) else p
  }

  /** On screen iff some rectangle present before setup passes the frustum test. */
  predicate SeenIn(ps: seq<Part>, f: Frame)
    requires FrameOk(f) && |ps| == PartCount
  {
    exists k :: 0 <= k < PartCount && ps[k].rect.Some? && f.inFrustum[k]
  }

  /** `updateState`'s result: a shape or label redraw state other than KEEP. */
  predicate Busy(v: NodeView)
    requires |v.parts| == PartCount
  {
    v.parts[ShapePart].state != Keep || v.parts[LabelPart].state != Keep
  }

  /** The optimum sizes of this frame, for the parts that had a rectangle before setup. */
  function MeasureAll(ps: seq<Part>, f: Frame): (r: seq<Part>)
    requires FrameOk(f) && |ps| == PartCount
    ensures |r| == PartCount
    ensures forall k :: 0 <= k < PartCount ==> r[k] == Measure(ps[k], f, k)
    ensures forall k :: 0 <= k < PartCount ==> r[k].rect == ps[k].rect
    ensures AllOk(ps) ==> AllOk(r)
    ensures Occupied(r) == Occupied(ps)
  {
    var r := seq(PartCount, k requires 0 <= k < PartCount => Measure(ps[k], f, k));
    SameTextures(r, ps);
    r
  }

  /** The marking pass, shared by `updateState` and the off-screen branch of `redrawTextures`. */
  function MarkAll(ps: seq<Part>, onScreen: bool, hasText: bool): (r: seq<Part>)
    requires |ps| == PartCount
    ensures |r| == PartCount
    ensures forall k :: 0 <= k < PartCount ==> r[k] == MarkPart(ps[k], onScreen, k == LabelPart, hasText)
    ensures forall k :: 0 <= k < PartCount ==> r[k].rect == ps[k].rect
    ensures !onScreen ==> forall k :: 0 <= k < PartCount && OnDevice(r[k]) ==> r[k].state == Delete
    ensures onScreen ==>
              forall k :: (0 <= k < PartCount && k != LabelPart && r[k].rect.Some? && !OnDevice(r[k])) ==>
                r[k].state == Redraw
    ensures AllOk(ps) ==> AllOk(r)
    ensures Occupied(r) == Occupied(ps)
  {
    var r := seq(PartCount, k requires 0 <= k < PartCount => MarkPart(ps[k], onScreen, k == LabelPart, hasText));
    SameTextures(r, ps);
    r
  }

  /** The first half of `updateState`: decide visibility on screen, measure, set up. */
  function Prepare(v: NodeView, f: Frame, mem: Limit): (res: (NodeView, Limit))
    requires Valid(v) && FrameOk(f)
    ensures Valid(res.0)
    ensures res.0 == v.(parts := res.0.parts, onScreen := SeenIn(v.parts, f))
    ensures forall k :: 0 <= k < PartCount ==>
              res.0.parts[k] == SetupPart(Measure(v.parts[k], f, k), Wanted(v, k), v.position)
    ensures forall k :: 0 <= k < PartCount ==>
              res.0.parts[k].rect == SetupPart(v.parts[k], Wanted(v, k), v.position).rect
    ensures res.1.maxMemory == mem.maxMemory
    ensures mem.currentMemory >= Occupied(v.parts) ==>
              res.1.currentMemory == mem.currentMemory - (Occupied(v.parts) - Occupied(res.0.parts))
              && res.1.currentMemory >= Occupied(res.0.parts)
    ensures (forall k :: 0 <= k < PartCount && v.parts[k].rect.Some? ==> Wanted(v, k)) ==> res.1 == mem
  {
    var v1 := v.(parts := MeasureAll(v.parts, f), onScreen := SeenIn(v.parts, f));
    assert forall k :: 0 <= k < PartCount ==> Wanted(v1, k) == Wanted(v, k);
    SetupRectangles(v1, mem)
  }

  /** `updateState`: measure, set up, mark. The property sync it starts with is modelled by the setters. */
  function UpdateState(v: NodeView, f: Frame, mem: Limit): (res: (NodeView, Limit, bool))
    requires Valid(v) && FrameOk(f)
    ensures Valid(res.0)
    ensures res.0.onScreen == SeenIn(v.parts, f)
    ensures res.2 == Busy(res.0)
    ensures forall k :: 0 <= k < PartCount ==>
              res.0.parts[k].rect == SetupPart(v.parts[k], Wanted(v, k), v.position).rect
    ensures !res.0.onScreen ==>
              forall k :: 0 <= k < PartCount && OnDevice(res.0.parts[k]) ==> res.0.parts[k].state == Delete
    ensures res.0.onScreen ==>
              forall k :: (0 <= k < PartCount && k != LabelPart && res.0.parts[k].rect.Some?
                           && !OnDevice(res.0.parts[k])) ==> res.0.parts[k].state == Redraw
    ensures res.1.maxMemory == mem.maxMemory
    ensures mem.currentMemory >= Occupied(v.parts) ==>
              res.1.currentMemory == mem.currentMemory - (Occupied(v.parts) - Occupied(res.0.parts))
              && res.1.currentMemory >= Occupied(res.0.parts)
  {
    var prepared := Prepare(v, f, mem);
    var v3 := prepared.0.(parts := MarkAll(prepared.0.parts, prepared.0.onScreen, |v.labelText| > 0));
    (v3, prepared.1, Busy(v3))
  }

  /** `updateState` frees memory only for deleted rectangles: when none is deleted the counter is untouched. */
  lemma UpdateStateKeepsCounter(v: NodeView, f: Frame, mem: Limit)
    requires Valid(v) && FrameOk(f)
    requires forall k :: 0 <= k < PartCount && v.parts[k].rect.Some? ==> Wanted(v, k)
    ensures UpdateState(v, f, mem).1 == mem
  {
    assert UpdateState(v, f, mem).1 == Prepare(v, f, mem).1;
  }

  /** `updateState` moves no rectangle: every one present afterwards sits where the node is. */
  lemma UpdateStateKeepsCentered(v: NodeView, f: Frame, mem: Limit)
    requires Valid(v) && FrameOk(f) && Centered(v)
    ensures Centered(UpdateState(v, f, mem).0)
  {
    var r := UpdateState(v, f, mem).0;
    forall k | 0 <= k < PartCount && r.parts[k].rect.Some?
      ensures r.parts[k].rect.value.center == r.position
    {
      assert r.parts[k].rect == SetupPart(v.parts[k], Wanted(v, k), v.position).rect;
    }
  }

  /** Both parts have a rectangle, with the same device texture, or neither has one. */
  predicate SameTexture(p: Part, q: Part)
  {
    p.rect.Some? == q.rect.Some? && (p.rect.Some? ==> p.rect.value.texture == q.rect.value.texture)
  }

  /** Two runs of parts with the same device textures hold the same device bytes. */
  lemma {:induction false} SameTextures(a: seq<Part>, b: seq<Part>)
    requires |a| == |b| && forall k :: 0 <= k < |a| ==> SameTexture(a[k], b[k])
    ensures Occupied(a) == Occupied(b)
    decreases |a|
  {
    if |a| > 0 {
      SameTextures(a[1..], b[1..]);
    }
  }

  // ----- redrawTextures ------------------------------------------------------

  /**
    Whether part `k` passes the guard of its branch of `redrawTextures`,
    rectangle presence aside. Only the custom-graphics guard looks at the
    optimum size; the shape and label branches allocate an image of the
    optimum size whatever it is.
  */
  predicate Drawable(v: NodeView, k: nat)
    requires Valid(v) && k < PartCount
  {
    if k == ShapePart then true
    else if k == LabelPart then |v.labelText| > 0 && v.labelFits
    else v.cgInfo[k - 2].Some? && v.parts[k].optimumWidth >= 1 && v.parts[k].optimumHeight >= 1
  }

  /** An optimum size that `new BufferedImage` refuses: a width or height below 1. */
  predicate Degenerate(p: Part)
  {
    p.optimumWidth < 1 || p.optimumHeight < 1
  }

  /** The counter's answer to a REDRAW part: the optimum texture's bytes, its current texture counted as freed. */
  function Request(p: Part, mem: Limit): (Limit, bool)
  {
    TryGetMemory(mem, p.optimumWidth * p.optimumHeight * 4, OccupiedOf(p))
  }

  /**
    One part of `redrawTextures` on screen: a REDRAW that passes its guard
    asks the counter for the optimum texture's bytes. On admission the image
    is allocated at the optimum size. For a degenerate size the allocation
    throws (the last component): the counter has already moved and the part
    is left as it was. Otherwise the host texture takes the optimum size and
    REDRAW stays. Without admission the part becomes DELETE if it still has
    a device texture and KEEP if not.
  */
  function RedrawPart(p: Part, drawable: bool, mem: Limit): (res: (Part, Limit, bool))
    ensures res.0.rect.Some? <==> p.rect.Some?
    ensures p.rect.Some? ==> res.0.rect.value.texture == p.rect.value.texture
    ensures p.rect.Some? ==> res.0.rect.value.center == p.rect.value.center
    ensures res.0.optimumWidth == p.optimumWidth && res.0.optimumHeight == p.optimumHeight
    ensures p.state != Redraw ==> res == (p, mem, false)
    ensures res.2 <==> p.state == Redraw && drawable && p.rect.Some? && Request(p, mem).1 && Degenerate(p)
    ensures res.2 ==> res.0 == p && res.1 == Request(p, mem).0
    ensures p.state == Redraw && res.0.state == Redraw && !res.2 ==>
              drawable && p.rect.Some? && !Degenerate(p)
              && res.0.rect.value.textureWidth == p.optimumWidth && res.0.rect.value.textureHeight == p.optimumHeight
              && Request(p, mem) == (res.1, true)
    ensures p.state == Redraw && res.0.state != Redraw ==>
              res.1 == mem && res.0.rect == p.rect && res.0.state == (if OnDevice(p) then Delete else Keep)
    ensures p.state == Redraw && drawable && p.rect.Some? ==> (res.0.state == Redraw <==> Request(p, mem).1)
  {
    if p.state != Redraw then (p, mem, false)
    else
      var admitted := if drawable && p.rect.Some? then Request(p, mem) else (mem, false);
      if admitted.1 && Degenerate(p) then (p, admitted.0, true)
      else if admitted.1 then
        (p.(rect := Some(p.rect.value.(textureWidth := p.optimumWidth, textureHeight := p.optimumHeight))), admitted.0, false)
      else if OnDevice(p) then (p.(state := Delete), mem, false)
      else (p.(state := Keep), mem, false)
  }

  /** A part whose allocation throws in `RedrawPart`. */
  predicate Throws(p: Part, drawable: bool)
  {
    p.state == Redraw && drawable && p.rect.Some? && Degenerate(p)
  }

  /**
    The on-screen pass of `redrawTextures` over a run of parts, in order.
    A throw (the last component) ends the pass: the parts from the one that
    threw on are left as they were.
  */
  function RedrawAll(ps: seq<Part>, drawable: seq<bool>, mem: Limit): (res: (seq<Part>, Limit, bool))
    requires |drawable| == |ps|
    ensures |res.0| == |ps|
    ensures forall k :: 0 <= k < |ps| ==> res.0[k].state != Redraw || ps[k].state == Redraw
    ensures forall k :: 0 <= k < |ps| ==> res.0[k].rect.Some? == ps[k].rect.Some?
    ensures forall k :: 0 <= k < |ps| && ps[k].rect.Some? ==> res.0[k].rect.value.center == ps[k].rect.value.center
    ensures forall k :: 0 <= k < |ps| && ps[k].state != Redraw ==> res.0[k] == ps[k]
    ensures res.1.maxMemory == mem.maxMemory
    ensures AllOk(ps) ==> AllOk(res.0)
    ensures Occupied(res.0) == Occupied(ps)
    ensures (forall k :: 0 <= k < |ps| ==> !Throws(ps[k], drawable[k])) ==> !res.2
    ensures !res.2 ==> forall k :: 0 <= k < |ps| && ps[k].state == Redraw ==> res.0[k].state != Redraw || drawable[k]
    ensures !res.2 ==> res.1.currentMemory == mem.currentMemory + Pending(res.0)
    decreases |ps|
  {
    if |ps| == 0 then ([], mem, false)
    else
      var p := RedrawPart(ps[0], drawable[0], mem);
      if p.2 then (ps, p.1, true)
      else
        var rest := RedrawAll(ps[1..], drawable[1..], p.1);
        var r := [p.0] + rest.0;
        assert r[1..] == rest.0;
        assert forall k :: 1 <= k < |ps| ==> r[k] == rest.0[k - 1] && ps[k] == ps[1..][k - 1] && drawable[k] == drawable[1..][k - 1];
        (r, rest.1, rest.2)
  }

  /** A pass that throws met a part whose allocation throws. */
  lemma {:induction false} ThrowSite(ps: seq<Part>, drawable: seq<bool>, mem: Limit)
    requires |drawable| == |ps|
    ensures RedrawAll(ps, drawable, mem).2 ==> exists k :: 0 <= k < |ps| && Throws(ps[k], drawable[k])
    decreases |ps|
  {
    if |ps| > 0 && RedrawAll(ps, drawable, mem).2 {
      var p := RedrawPart(ps[0], drawable[0], mem);
      if !p.2 {
        ThrowSite(ps[1..], drawable[1..], p.1);
        var j :| 0 <= j < |ps| - 1 && Throws(ps[1..][j], drawable[1..][j]);
        assert Throws(ps[j + 1], drawable[j + 1]);
      }
    }
  }

  function DrawableAll(v: NodeView): (d: seq<bool>)
    requires Valid(v)
    ensures |d| == PartCount && forall k :: 0 <= k < PartCount ==> d[k] == Drawable(v, k)
  {
    seq(PartCount, k requires 0 <= k < PartCount => Drawable(v, k))
  }

  /**
    `redrawTextures` as written. The last component says whether the
    allocation of a shape or label image threw; the source then leaves the
    method with the exception, so it reports nothing (the third component
    is false).
  */
  function RedrawTextures(v: NodeView, mem: Limit): (res: (NodeView, Limit, bool, bool))
    requires Valid(v)
    ensures Valid(res.0) && res.0 == v.(parts := res.0.parts)
    ensures res.2 <==> Busy(res.0) && !res.3
    ensures forall k :: 0 <= k < PartCount ==> res.0.parts[k].rect.Some? == v.parts[k].rect.Some?
    ensures forall k :: 0 <= k < PartCount && v.parts[k].rect.Some? ==>
              res.0.parts[k].rect.value.center == v.parts[k].rect.value.center
    ensures !v.onScreen ==>
              res.1 == mem && !res.3
              && forall k :: 0 <= k < PartCount ==>
                   res.0.parts[k].state == (if OnDevice(v.parts[k]) then Delete else v.parts[k].state)
    ensures res.3 ==> v.onScreen && v.visible
    ensures v.onScreen && v.visible && !res.3 ==>
              forall k :: (0 <= k < PartCount && v.parts[k].state == Redraw && res.0.parts[k].state == Redraw) ==>
                Drawable(v, k)
    ensures v.onScreen && !v.visible ==> res.0 == v && res.1 == mem && !res.3
    ensures Occupied(res.0.parts) == Occupied(v.parts)
    ensures res.1.maxMemory == mem.maxMemory
    ensures v.onScreen && v.visible && !res.3 ==> res.1.currentMemory == mem.currentMemory + Pending(res.0.parts)
  {
    if !v.onScreen then
      var r := v.(parts := MarkAll(v.parts, false, false));
      (r, mem, Busy(r), false)
    else if v.visible then
      var d := DrawableAll(v);
      var psTriple := RedrawAll(v.parts, d, mem);
      var r := v.(parts := psTriple.0);
      (r, psTriple.1, Busy(r) && !psTriple.2, psTriple.2)
    else (v, mem, Busy(v), false)
  }

  /** `redrawTextures` throws only at a shape or label marked REDRAW, with a rectangle, at a degenerate optimum size. */
  lemma ThrowingPart(v: NodeView, mem: Limit)
    requires Valid(v)
    ensures RedrawTextures(v, mem).3 ==>
              exists k :: 0 <= k < 2 && v.parts[k].state == Redraw && v.parts[k].rect.Some? && Degenerate(v.parts[k])
  {
    if RedrawTextures(v, mem).3 {
      ThrowSite(v.parts, DrawableAll(v), mem);
    }
  }

  // ----- updateResources -----------------------------------------------------

  /**
    One part of `updateResources`: a DELETE returns its bytes to the
    counter, discards the device texture and resets the host texture to
    1×1; a REDRAW uploads the host texture under the handle `id`. Every
    part ends in KEEP.
  */
  function ResourcePart(p: Part, id: int, mem: Limit): (res: (Part, Limit))
    ensures res.0.state == Keep
    ensures res.0.rect.Some? <==> p.rect.Some?
    ensures res.0.optimumWidth == p.optimumWidth && res.0.optimumHeight == p.optimumHeight
    ensures p.rect.Some? && p.state == Delete ==>
              res.0.rect.value == p.rect.value.(textureWidth := 1, textureHeight := 1, texture := None)
              && res.1 == FreeMemory(mem, OccupiedOf(p))
    ensures p.rect.Some? && p.state == Redraw ==>
              res.0.rect.value
                == p.rect.value.(texture := Some(Texture(id, p.rect.value.textureWidth, p.rect.value.textureHeight)))
              && res.1 == mem
    ensures p.rect.None? || p.state == Keep ==> res.0 == p.(state := Keep) && res.1 == mem
  {
    if p.rect.None? then (p.(state := Keep), mem)
    else if p.state == Delete then
      (p.(rect := Some(p.rect.value.(textureWidth := 1, textureHeight := 1, texture := None)), state := Keep),
       FreeMemory(mem, OccupiedOf(p)))
    else if p.state == Redraw then
      (p.(rect := Some(p.rect.value.(texture := Some(Texture(id, p.rect.value.textureWidth, p.rect.value.textureHeight)))),
          state := Keep),
       mem)
    else (p.(state := Keep), mem)
  }

  /** `updateResources` over a run of parts, in order; `ids` are the handles the uploads receive. */
  function ResourcesAll(ps: seq<Part>, ids: seq<int>, mem: Limit): (res: (seq<Part>, Limit))
    requires |ids| == |ps|
    ensures |res.0| == |ps|
    ensures forall k :: 0 <= k < |ps| ==> res.0[k] == ResourcePart(ps[k], ids[k], mem).0
    ensures res.1.maxMemory == mem.maxMemory
    ensures AllOk(ps) ==> AllOk(res.0)
    ensures Occupied(res.0) == Occupied(ps) - Doomed(ps) + Pending(ps)
    ensures AllOk(ps) && mem.currentMemory >= Doomed(ps) ==> res.1.currentMemory == mem.currentMemory - Doomed(ps)
    decreases |ps|
  {
    if |ps| == 0 then ([], mem)
    else
      var pPair := ResourcePart(ps[0], ids[0], mem);
      var p := pPair.0;
      var m1 := pPair.1;
      var rest := ResourcesAll(ps[1..], ids[1..], m1);
      SplitOk(ps);
      var r := [p] + rest.0;
      assert r[1..] == rest.0;
      assert forall k :: 1 <= k < |ps| ==> ResourcePart(ps[k], ids[k], mem).0 == ResourcePart(ps[k], ids[k], m1).0;
      (r, rest.1)
  }

  /** `updateResources`. */
  function UpdateResources(v: NodeView, ids: seq<int>, mem: Limit): (res: (NodeView, Limit))
    requires Valid(v) && |ids| == PartCount
    ensures Valid(res.0) && res.0 == v.(parts := res.0.parts)
    ensures forall k :: 0 <= k < PartCount ==> res.0.parts[k].state == Keep
    ensures forall k :: 0 <= k < PartCount ==> res.0.parts[k].rect.Some? == v.parts[k].rect.Some?
    ensures forall k :: 0 <= k < PartCount && v.parts[k].rect.Some? && v.parts[k].state == Delete ==>
              !OnDevice(res.0.parts[k]) && res.0.parts[k].rect.value.textureWidth == 1
              && res.0.parts[k].rect.value.textureHeight == 1
    ensures forall k :: 0 <= k < PartCount && v.parts[k].rect.Some? && v.parts[k].state == Redraw ==>
              OnDevice(res.0.parts[k]) && res.0.parts[k].rect.value.texture.value.id == ids[k]
    ensures Centered(v) ==> Centered(res.0)
    ensures Occupied(res.0.parts) == Occupied(v.parts) - Doomed(v.parts) + Pending(v.parts)
    ensures mem.currentMemory >= Doomed(v.parts) ==> res.1.currentMemory == mem.currentMemory - Doomed(v.parts)
    ensures res.1.maxMemory == mem.maxMemory
  {
    var psPair := ResourcesAll(v.parts, ids, mem);
    var ps := psPair.0;
    var m := psPair.1;
    (v.(parts := ps), m)
  }

  // ----- property setters ----------------------------------------------------

  /** Rectangles exist exactly for the wanted parts, as `setupRectangles` leaves them. */
  ghost predicate Synced(v: NodeView)
    requires Valid(v)
  {
    forall k :: 0 <= k < PartCount ==> (v.parts[k].rect.Some? <==> Wanted(v, k))
  }

  /** `setVisible`: nothing when unchanged, otherwise rectangles follow the new visibility. */
  function SetVisible(v: NodeView, value: bool, mem: Limit): (res: (NodeView, Limit))
    requires Valid(v)
    ensures Valid(res.0) && res.0.visible == value
    ensures v.visible == value ==> res == (v, mem)
    ensures v.visible != value || Synced(v) ==> Synced(res.0)
    ensures !value && v.visible ==> forall k :: 0 <= k < PartCount ==> res.0.parts[k].rect.None?
    ensures value && !v.visible ==>
              forall k :: 0 <= k < PartCount && v.parts[k].rect.None? && Wanted(res.0, k) ==>
                res.0.parts[k].state == Redraw
    ensures mem.currentMemory >= Occupied(v.parts) ==>
              res.1.currentMemory == mem.currentMemory - (Occupied(v.parts) - Occupied(res.0.parts))
  {
    if v.visible == value then (v, mem)
    else SetupRectangles(v.(visible := value), mem)
  }

  /** Hiding a node hands every byte its textures held back to the counter. */
  lemma HidingFreesEverything(v: NodeView, mem: Limit)
    requires Valid(v) && v.visible && mem.currentMemory >= Occupied(v.parts)
    ensures SetVisible(v, false, mem).1.currentMemory == mem.currentMemory - Occupied(v.parts)
    ensures Occupied(SetVisible(v, false, mem).0.parts) == 0
  {
    var r := SetVisible(v, false, mem).0;
    NoneOccupy(r.parts);
  }

  /** `setSelected`: a change of selection asks for a new shape texture. */
  function SetSelected(v: NodeView, value: bool): (r: NodeView)
    requires Valid(v)
    ensures Valid(r) && r.selected == value
    ensures v.selected == value ==> r == v
    ensures v.selected != value ==>
              r.parts[ShapePart].state == Redraw && r.parts[ShapePart].rect == v.parts[ShapePart].rect
              && forall k :: 0 < k < PartCount ==> r.parts[k] == v.parts[k]
  {
    if v.selected == value then v
    else v.(selected := value, parts := v.parts[ShapePart := v.parts[ShapePart].(state := Redraw)])
  }

  /** `setWidth`: a new width asks for a new shape texture. */
  function SetWidth(v: NodeView, value: int): (r: NodeView)
    requires Valid(v)
    ensures Valid(r) && r.width == value
    ensures v.width == value ==> r == v
    ensures v.width != value ==>
              r.parts[ShapePart].state == Redraw
              && forall k :: 0 < k < PartCount ==> r.parts[k] == v.parts[k]
  {
    if v.width == value then v
    else v.(width := value, parts := v.parts[ShapePart := v.parts[ShapePart].(state := Redraw)])
  }

  /** `setHeight`: as `setWidth`. */
  function SetHeight(v: NodeView, value: int): (r: NodeView)
    requires Valid(v)
    ensures Valid(r) && r.height == value
    ensures v.height == value ==> r == v
    ensures v.height != value ==>
              r.parts[ShapePart].state == Redraw
              && forall k :: 0 < k < PartCount ==> r.parts[k] == v.parts[k]
  {
    if v.height == value then v
    else v.(height := value, parts := v.parts[ShapePart := v.parts[ShapePart].(state := Redraw)])
  }

  /** Moves one rectangle to `at`. */
  function Recenter(p: Part, at: Vec3): (r: Part)
    ensures r.rect.Some? == p.rect.Some? && r.state == p.state
    ensures r.rect.Some? ==> r.rect.value == p.rect.value.(center := at)
  {
    if p.rect.Some? then p.(rect := Some(p.rect.value.(center := at))) else p
  }

  /**
    `setPosition`: every rectangle of the node moves with it. The forwarding
    to the attached edges is `EdgeViews.SetSourcePosition` and
    `EdgeViews.SetTargetPosition`, called once per listed edge.
  */
  function SetPosition(v: NodeView, value: Vec3): (r: NodeView)
    requires Valid(v)
    ensures Valid(r) && r.position == value
    ensures v.position != value ==> Centered(r)
    ensures Centered(v) ==> Centered(r)
    ensures forall k :: 0 <= k < PartCount ==>
              r.parts[k].state == v.parts[k].state && r.parts[k].rect.Some? == v.parts[k].rect.Some?
    ensures Occupied(r.parts) == Occupied(v.parts)
  {
    if v.position == value then v
    else
      var ps := seq(PartCount, k requires 0 <= k < PartCount => Recenter(v.parts[k], value));
      assert Occupied(ps) == Occupied(v.parts) by { SameTextures(ps, v.parts); }
      v.(position := value, parts := ps)
  }

  /**
    `setLabel`: a new text asks for a new label texture. Whether the text
    fits a drawable rectangle comes from font measurement, outside the model.
  */
  function SetLabel(v: NodeView, text: string, fits: bool): (r: NodeView)
    requires Valid(v)
    ensures Valid(r) && r.labelText == text
    ensures v.labelText == text ==> r == v
    ensures v.labelText != text ==>
              r.labelFits == fits && r.parts[LabelPart].state == Redraw
              && r.parts[LabelPart].rect == v.parts[LabelPart].rect
              && forall k :: 0 <= k < PartCount && k != LabelPart ==> r.parts[k] == v.parts[k]
  {
    if v.labelText == text then v
    else v.(labelText := text, labelFits := fits, parts := v.parts[LabelPart := v.parts[LabelPart].(state := Redraw)])
  }

  /** Setup after a change of layer `index` leaves every other part alone when the node was in sync. */
  function Resync(v: NodeView, index: nat, mem: Limit): (res: (NodeView, Limit))
    requires Valid(v) && index < NumCustomGraphics
    ensures Valid(res.0) && Synced(res.0)
    ensures res.0 == v.(parts := res.0.parts)
    ensures (forall k :: 0 <= k < PartCount && k != 2 + index ==> (v.parts[k].rect.Some? <==> Wanted(v, k))) ==>
              forall k :: 0 <= k < PartCount && k != 2 + index ==> res.0.parts[k] == v.parts[k]
    ensures Wanted(v, 2 + index) && v.parts[2 + index].rect.None? ==> res.0.parts[2 + index].state == Redraw
    ensures mem.currentMemory >= Occupied(v.parts) ==>
              res.1.currentMemory == mem.currentMemory - (Occupied(v.parts) - Occupied(res.0.parts))
    ensures (forall k :: 0 <= k < PartCount && v.parts[k].rect.Some? ==> Wanted(v, k)) ==> res.1 == mem
  {
    SetupRectangles(v, mem)
  }

  /** Custom graphics `g` on layer `index`, which held nothing: the layer's rectangle is set up. */
  function AddLayer(v: NodeView, index: nat, g: int, mem: Limit): (res: (NodeView, Limit))
    requires Valid(v) && index < NumCustomGraphics && v.cgInfo[index].None?
    ensures Valid(res.0)
    ensures res.0 == v.(cgInfo := v.cgInfo[index := Some(g)], parts := res.0.parts)
    ensures Synced(res.0)
    ensures Synced(v) ==> forall k :: 0 <= k < PartCount && k != 2 + index ==> res.0.parts[k] == v.parts[k]
    ensures res.0.parts[2 + index].state == Redraw
    ensures v.parts[2 + index].rect.None? ==> !OnDevice(res.0.parts[2 + index])
    ensures mem.currentMemory >= Occupied(v.parts) ==>
              res.1.currentMemory == mem.currentMemory - (Occupied(v.parts) - Occupied(res.0.parts))
  {
    var v0 := v.(cgInfo := v.cgInfo[index := Some(g)]);
    ResyncKeeps(v, v0, index, mem);
    var res := Resync(v0, index, mem);
    MarkLayerSynced(res.0, index);
    (MarkLayer(res.0, index), res.1)
  }

  /** Adding a layer to a node in sync deletes nothing, so the counter is untouched. */
  lemma AddLayerKeepsCounter(v: NodeView, index: nat, g: int, mem: Limit)
    requires Valid(v) && index < NumCustomGraphics && v.cgInfo[index].None? && Synced(v)
    ensures AddLayer(v, index, g, mem).1 == mem
  {
    var v0 := v.(cgInfo := v.cgInfo[index := Some(g)]);
    assert forall k :: 0 <= k < PartCount && v0.parts[k].rect.Some? ==> Wanted(v0, k) by {
      forall k | 0 <= k < PartCount && v0.parts[k].rect.Some?
        ensures Wanted(v0, k)
      {
        assert Wanted(v, k);
      }
    }
    assert AddLayer(v, index, g, mem).1 == Resync(v0, index, mem).1;
  }

  /** Custom graphics `g` replacing other custom graphics on layer `index`: only a redraw. */
  function ReplaceLayer(v: NodeView, index: nat, g: int): (r: NodeView)
    requires Valid(v) && index < NumCustomGraphics && v.cgInfo[index].Some?
    ensures Valid(r)
    ensures r == v.(cgInfo := v.cgInfo[index := Some(g)], parts := r.parts)
    ensures Synced(v) ==> Synced(r)
    ensures forall k :: 0 <= k < PartCount && k != 2 + index ==> r.parts[k] == v.parts[k]
    ensures r.parts[2 + index].state == Redraw
    ensures Occupied(r.parts) == Occupied(v.parts)
  {
    var v0 := v.(cgInfo := v.cgInfo[index := Some(g)]);
    assert forall k :: 0 <= k < PartCount ==> Wanted(v0, k) == Wanted(v, k);
    MarkLayer(v0, index)
  }

  /** A node in sync before a change of layer `index` keeps every other part through the setup after it. */
  lemma ResyncKeeps(v: NodeView, v0: NodeView, index: nat, mem: Limit)
    requires Valid(v) && index < NumCustomGraphics
    requires v0 == v.(cgInfo := v0.cgInfo) && |v0.cgInfo| == NumCustomGraphics
    requires forall k :: 0 <= k < NumCustomGraphics && k != index ==> v0.cgInfo[k] == v.cgInfo[k]
    ensures Synced(v) ==> forall k :: 0 <= k < PartCount && k != 2 + index ==> Resync(v0, index, mem).0.parts[k] == v.parts[k]
  {
    if Synced(v) {
      assert forall k :: 0 <= k < PartCount && k != 2 + index ==> Wanted(v0, k) == Wanted(v, k);
    }
  }

  lemma MarkLayerSynced(v: NodeView, index: nat)
    requires Valid(v) && index < NumCustomGraphics && Synced(v)
    ensures Synced(MarkLayer(v, index))
  {
    var r := MarkLayer(v, index);
    assert forall k :: 0 <= k < PartCount ==> Wanted(r, k) == Wanted(v, k);
  }

  /** Layer `index` asks for its texture to be drawn. */
  function MarkLayer(v: NodeView, index: nat): (r: NodeView)
    requires Valid(v) && index < NumCustomGraphics
    ensures Valid(r) && r == v.(parts := r.parts)
    ensures r.parts[2 + index].state == Redraw && r.parts[2 + index].rect == v.parts[2 + index].rect
    ensures forall k :: 0 <= k < PartCount && k != 2 + index ==> r.parts[k] == v.parts[k]
    ensures Occupied(r.parts) == Occupied(v.parts)
  {
    var ps := v.parts[2 + index := v.parts[2 + index].(state := Redraw)];
    assert Occupied(ps) == Occupied(v.parts) by { SameTextures(ps, v.parts); }
    v.(parts := ps)
  }

  /** Layer `index` reset to the null custom graphics, its rectangle deleted. */
  function ClearLayer(v: NodeView, index: nat, mem: Limit): (res: (NodeView, Limit))
    requires Valid(v) && index < NumCustomGraphics && v.cgInfo[index].Some?
    ensures Valid(res.0)
    ensures res.0 == v.(cgInfo := v.cgInfo[index := None], parts := res.0.parts)
    ensures res.0.parts[2 + index].rect.None?
    ensures Synced(res.0)
    ensures Synced(v) ==> forall k :: 0 <= k < PartCount && k != 2 + index ==> res.0.parts[k] == v.parts[k]
    ensures mem.currentMemory >= Occupied(v.parts) ==>
              res.1.currentMemory == mem.currentMemory - (Occupied(v.parts) - Occupied(res.0.parts))
  {
    var v0 := v.(cgInfo := v.cgInfo[index := None]);
    ResyncKeeps(v, v0, index, mem);
    assert !Wanted(v0, 2 + index);
    Resync(v0, index, mem)
  }

  /**
    `setCustomGraphics` for layer `index`: `None` stands for the null
    custom graphics and clears the layer; a new graphics creates the layer
    if needed and asks for its texture to be drawn; the same graphics again
    changes nothing.
  */
  function SetCustomGraphics(v: NodeView, index: nat, value: Option<int>, mem: Limit): (res: (NodeView, Limit))
    requires Valid(v) && index < NumCustomGraphics
    ensures Valid(res.0)
    ensures res.0 == v.(cgInfo := v.cgInfo[index := value], parts := res.0.parts)
    ensures Synced(v) ==> Synced(res.0)
    ensures Synced(v) ==> forall k :: 0 <= k < PartCount && k != 2 + index ==> res.0.parts[k] == v.parts[k]
    ensures value.Some? && v.cgInfo[index] != value ==> res.0.parts[2 + index].state == Redraw
    ensures value.None? ==> res.0.parts[2 + index].rect.None? || (v.cgInfo[index].None? && !Synced(v))
    ensures v.cgInfo[index] == value ==> res == (v, mem)
    ensures mem.currentMemory >= Occupied(v.parts) ==>
              res.1.currentMemory == mem.currentMemory - (Occupied(v.parts) - Occupied(res.0.parts))
  {
    if v.cgInfo[index] == value then (v, mem)
    else if value.None? then ClearLayer(v, index, mem)
    else if v.cgInfo[index].None? then AddLayer(v, index, value.value, mem)
    else (ReplaceLayer(v, index, value.value), mem)
  }

  // ----- attached edges ----------------------------------------------------------

  /** No edge is listed twice. */
  predicate NoDuplicates(edges: seq<int>)
  {
    forall i, j :: 0 <= i < j < |edges| ==> edges[i] != edges[j]
  }

  /** `addOutgoingEdgeView` / `addIncomingEdgeView`: append unless an edge with that SUID is listed. */
  function AddEdge(edges: seq<int>, suid: int): (r: seq<int>)
    ensures suid in r
    ensures suid in edges ==> r == edges
    ensures suid !in edges ==> r == edges + [suid]
    ensures NoDuplicates(edges) ==> NoDuplicates(r)
  {
    if suid in edges then edges else edges + [suid]
  }

  /** `removeOutgoingEdgeView` / `removeIncomingEdgeView`: `List.remove`, the first occurrence only. */
  function RemoveEdge(edges: seq<int>, suid: int): (r: seq<int>)
    ensures suid !in edges ==> r == edges
    ensures suid in edges ==> |r| == |edges| - 1
    ensures forall e :: e in r ==> e in edges
    ensures forall e :: e in edges && e != suid ==> e in r
    ensures NoDuplicates(edges) ==> NoDuplicates(r) && suid !in r
  {
    if |edges| == 0 then edges
    else if edges[0] == suid then edges[1..]
    else
      var rest := RemoveEdge(edges[1..], suid);
      assert NoDuplicates(edges) ==> NoDuplicates(edges[1..]) && edges[0] !in edges[1..];
      [edges[0]] + rest
  }

  /** Adding an edge that was not listed and removing it again restores the list. */
  lemma {:induction false} AddThenRemove(edges: seq<int>, suid: int)
    requires suid !in edges
    ensures RemoveEdge(AddEdge(edges, suid), suid) == edges
    decreases |edges|
  {
    if |edges| > 0 {
      assert (edges + [suid])[1..] == edges[1..] + [suid];
      AddThenRemove(edges[1..], suid);
    }
  }

  // ----- dispose ---------------------------------------------------------------

  /** `dispose` for one part: a device texture is given back to the counter and discarded. */
  function DisposePart(p: Part, mem: Limit): (res: (Part, Limit))
    ensures !OnDevice(res.0) && res.0.state == p.state && res.0.rect.Some? == p.rect.Some?
    ensures OnDevice(p) ==> res.0.rect.value == p.rect.value.(texture := None) && res.1 == FreeMemory(mem, OccupiedOf(p))
    ensures !OnDevice(p) ==> res == (p, mem)
  {
    if OnDevice(p) then (p.(rect := Some(p.rect.value.(texture := None))), FreeMemory(mem, OccupiedOf(p)))
    else (p, mem)
  }

  function DisposeAll(ps: seq<Part>, mem: Limit): (res: (seq<Part>, Limit))
    ensures |res.0| == |ps|
    ensures forall k :: 0 <= k < |ps| ==> res.0[k] == DisposePart(ps[k], mem).0
    ensures AllOk(ps) ==> AllOk(res.0)
    ensures res.1.maxMemory == mem.maxMemory
    ensures AllOk(ps) && mem.currentMemory >= Occupied(ps) ==> res.1.currentMemory == mem.currentMemory - Occupied(ps)
    decreases |ps|
  {
    if |ps| == 0 then ([], mem)
    else
      var pPair := DisposePart(ps[0], mem);
      var p := pPair.0;
      var m1 := pPair.1;
      var rest := DisposeAll(ps[1..], m1);
      SplitOk(ps);
      var r := [p] + rest.0;
      assert r[1..] == rest.0;
      assert forall k :: 1 <= k < |ps| ==> DisposePart(ps[k], mem).0 == DisposePart(ps[k], m1).0;
      (r, rest.1)
  }

  /** `dispose`: no texture of the node stays on the device, and the counter gets all their bytes back. */
  function Dispose(v: NodeView, mem: Limit): (res: (NodeView, Limit))
    requires Valid(v)
    ensures Valid(res.0) && res.0 == v.(parts := res.0.parts)
    ensures forall k :: 0 <= k < PartCount ==>
              !OnDevice(res.0.parts[k]) && res.0.parts[k].rect.Some? == v.parts[k].rect.Some?
    ensures Occupied(res.0.parts) == 0
    ensures mem.currentMemory >= Occupied(v.parts) ==> res.1.currentMemory == mem.currentMemory - Occupied(v.parts)
  {
    var psPair := DisposeAll(v.parts, mem);
    var ps := psPair.0;
    var m := psPair.1;
    NoneOccupy(ps);
    (v.(parts := ps), m)
  }

  // ----- a whole frame ---------------------------------------------------------

  /**
    The three stages as the network view drives them: `redrawTextures` only
    when `updateState` said so, `updateResources` only when `redrawTextures`
    said so. A throw in `redrawTextures` ends the frame where it happened.
  */
  function RunFrame(v: NodeView, f: Frame, ids: seq<int>, mem: Limit): (res: (NodeView, Limit))
    requires Valid(v) && FrameOk(f) && |ids| == PartCount
    ensures Valid(res.0)
  {
    var v1Triple := UpdateState(v, f, mem);
    var v1 := v1Triple.0;
    var m1 := v1Triple.1;
    var go1 := v1Triple.2;
    if !go1 then (v1, m1)
    else
      var v2Quad := RedrawTextures(v1, m1);
      var v2 := v2Quad.0;
      var m2 := v2Quad.1;
      var go2 := v2Quad.2;
      if !go2 then (v2, m2)
      else UpdateResources(v2, ids, m2)
  }

  /**
    Off screen the accounting slips: a rectangle that is set up but not yet
    drawn keeps its REDRAW through the off-screen branch of
    `redrawTextures`, and `updateResources` uploads it without it ever
    being admitted. The constructor's `setupRectangles` leaves every new
    visible node in that state (`SetupLeavesLeakStart`), so a node whose
    first frame fails the frustum test ends the frame holding device bytes
    the counter never saw.
  */
  lemma OffScreenFrameLeaks(v: NodeView, f: Frame, ids: seq<int>, mem: Limit)
    requires Valid(v) && FrameOk(f) && |ids| == PartCount && Bounded(mem)
    requires v.visible && Synced(v)
    requires forall k :: 0 <= k < PartCount ==> !OnDevice(v.parts[k]) && !f.inFrustum[k]
    requires v.parts[ShapePart].state == Redraw && v.parts[ShapePart].rect.Some?
    requires v.parts[ShapePart].rect.value.textureWidth == 1 && v.parts[ShapePart].rect.value.textureHeight == 1
    ensures Occupied(RunFrame(v, f, ids, mem).0.parts) > Occupied(v.parts)
    ensures RunFrame(v, f, ids, mem).1 == mem
  {
    assert Occupied(v.parts) == 0 by { NoneOccupy(v.parts); }
    OffScreenStateStage(v, f, mem);
    var v1 := UpdateState(v, f, mem).0;
    OffScreenRedrawStage(v1, mem);
  }

  /**
    The constructor runs `setupRectangles` on a visible node with no
    rectangles: the result is in sync, holds nothing on the device, and has
    a fresh 1×1 shape rectangle marked REDRAW.
  */
  lemma SetupLeavesLeakStart(v: NodeView, mem: Limit)
    requires Valid(v) && v.visible && forall k :: 0 <= k < PartCount ==> v.parts[k].rect.None?
    ensures Synced(SetupRectangles(v, mem).0) && SetupRectangles(v, mem).0.visible
    ensures forall k :: 0 <= k < PartCount ==> !OnDevice(SetupRectangles(v, mem).0.parts[k])
    ensures SetupRectangles(v, mem).0.parts[ShapePart].state == Redraw
    ensures SetupRectangles(v, mem).0.parts[ShapePart].rect == Some(Prim(v.position, 1, 1, None))
  {
    var s := SetupRectangles(v, mem).0;
    assert forall k :: 0 <= k < PartCount ==> Wanted(s, k) == Wanted(v, k);
    assert s.parts[ShapePart] == SetupPart(v.parts[ShapePart], true, v.position);
  }

  /** `updateState` of the node above: off screen, work reported, the 1×1 shape rectangle still REDRAW, nothing on the device. */
  lemma OffScreenStateStage(v: NodeView, f: Frame, mem: Limit)
    requires Valid(v) && FrameOk(f) && Bounded(mem)
    requires v.visible && Synced(v)
    requires forall k :: 0 <= k < PartCount ==> !OnDevice(v.parts[k]) && !f.inFrustum[k]
    requires v.parts[ShapePart].state == Redraw && v.parts[ShapePart].rect.Some?
    requires v.parts[ShapePart].rect.value.textureWidth == 1 && v.parts[ShapePart].rect.value.textureHeight == 1
    ensures !UpdateState(v, f, mem).0.onScreen && UpdateState(v, f, mem).2 && UpdateState(v, f, mem).1 == mem
    ensures forall k :: 0 <= k < PartCount ==> !OnDevice(UpdateState(v, f, mem).0.parts[k])
    ensures UpdateState(v, f, mem).0.parts[ShapePart].state == Redraw
    ensures UpdateState(v, f, mem).0.parts[ShapePart].rect.Some?
    ensures UpdateState(v, f, mem).0.parts[ShapePart].rect.value.textureWidth == 1
    ensures UpdateState(v, f, mem).0.parts[ShapePart].rect.value.textureHeight == 1
  {
    assert !SeenIn(v.parts, f);
    assert Occupied(v.parts) == 0 by { NoneOccupy(v.parts); }
    var prepared := Prepare(v, f, mem);
    forall k | 0 <= k < PartCount
      ensures prepared.0.parts[k] == Measure(v.parts[k], f, k)
    {
      assert prepared.0.parts[k] == SetupPart(Measure(v.parts[k], f, k), Wanted(v, k), v.position);
    }
    var v1 := UpdateState(v, f, mem).0;
    assert v1.parts == MarkAll(prepared.0.parts, false, |v.labelText| > 0);
    assert Occupied(prepared.0.parts) == 0 by { NoneOccupy(prepared.0.parts); }
  }

  /** `redrawTextures` off screen keeps the REDRAW of a part with no device texture, so four bytes are pending and none are freed. */
  lemma OffScreenRedrawStage(v1: NodeView, mem: Limit)
    requires Valid(v1) && !v1.onScreen
    requires forall k :: 0 <= k < PartCount ==> !OnDevice(v1.parts[k])
    requires v1.parts[ShapePart].state == Redraw && v1.parts[ShapePart].rect.Some?
    requires v1.parts[ShapePart].rect.value.textureWidth == 1 && v1.parts[ShapePart].rect.value.textureHeight == 1
    ensures RedrawTextures(v1, mem).1 == mem && RedrawTextures(v1, mem).2 && !RedrawTextures(v1, mem).3
    ensures Doomed(RedrawTextures(v1, mem).0.parts) == 0
    ensures Pending(RedrawTextures(v1, mem).0.parts) >= 4
    ensures Occupied(RedrawTextures(v1, mem).0.parts) == 0
  {
    var v2 := RedrawTextures(v1, mem).0;
    assert v2.parts[ShapePart].state == Redraw && v2.parts[ShapePart].rect.Some?;
    assert v2.parts[ShapePart].rect.value.textureWidth == 1 && v2.parts[ShapePart].rect.value.textureHeight == 1;
    assert forall k :: 0 <= k < PartCount ==> !OnDevice(v2.parts[k]);
    assert Doomed(v2.parts) == 0 by { NothingDoomed(v2.parts); }
    assert Pending(v2.parts) >= 4 by { PendingAtLeast(v2.parts, ShapePart); }
    assert Occupied(v2.parts) == 0 by { NoneOccupy(v1.parts); }
  }

  /**
    A visible, in-sync node seen on screen whose shape and label textures
    are settled at this frame's optimum size, while layer 0 is set but its
    rectangle has no device texture.
  */
  ghost predicate StallReady(v: NodeView, f: Frame)
    requires Valid(v) && FrameOk(f)
  {
    Synced(v) && v.visible && f.inFrustum[ShapePart] && v.cgInfo[0].Some? && !OnDevice(v.parts[2])
    && forall k :: 0 <= k < 2 ==>
         OnDevice(v.parts[k]) && v.parts[k].state == Keep
         && !FarApart(v.parts[k].rect.value.textureWidth, f.optimumWidth[k])
         && !FarApart(v.parts[k].rect.value.textureHeight, f.optimumHeight[k])
  }

  /**
    Both stages report work only for the shape and the label, so for such a
    node the frame stops after `updateState`: the layer is marked REDRAW,
    is not drawn, and the node is left stalled.
  */
  lemma StalledFrame(v: NodeView, f: Frame, ids: seq<int>, mem: Limit)
    requires Valid(v) && FrameOk(f) && |ids| == PartCount && StallReady(v, f)
    ensures RunFrame(v, f, ids, mem).0.parts[2].state == Redraw
    ensures Stalled(RunFrame(v, f, ids, mem).0, f)
  {
    var prepared := Prepare(v, f, mem);
    assert SeenIn(v.parts, f);
    forall k | 0 <= k < PartCount
      ensures prepared.0.parts[k] == Measure(v.parts[k], f, k)
    {
      assert prepared.0.parts[k] == SetupPart(Measure(v.parts[k], f, k), Wanted(v, k), v.position);
    }
    var v1 := UpdateState(v, f, mem).0;
    assert v1.parts == MarkAll(prepared.0.parts, true, |v.labelText| > 0);
    assert v1.parts[ShapePart].state == Keep && v1.parts[LabelPart].state == Keep;
    assert RunFrame(v, f, ids, mem).0 == v1;
    assert forall k :: 0 <= k < PartCount ==> Wanted(v1, k) == Wanted(v, k);
  }

  /**
    A stall-ready node that has been through a frame with these inputs:
    on screen, and every part already measured and marked for them.
  */
  ghost predicate Stalled(u: NodeView, f: Frame)
    requires Valid(u) && FrameOk(f)
  {
    StallReady(u, f) && u.onScreen
    && forall k :: 0 <= k < PartCount ==>
         u.parts[k] == MarkPart(Measure(u.parts[k], f, k), true, k == LabelPart, |u.labelText| > 0)
  }

  /** A stalled node is a fixed point of the frame: another frame with the same inputs changes neither the node nor the counter. */
  lemma StallIsFixed(u: NodeView, f: Frame, ids: seq<int>, m: Limit)
    requires Valid(u) && FrameOk(f) && |ids| == PartCount && Stalled(u, f)
    ensures RunFrame(u, f, ids, m) == (u, m)
  {
    var prepared := Prepare(u, f, m);
    assert SeenIn(u.parts, f);
    forall k | 0 <= k < PartCount
      ensures prepared.0.parts[k] == Measure(u.parts[k], f, k)
    {
      assert prepared.0.parts[k] == SetupPart(Measure(u.parts[k], f, k), Wanted(u, k), u.position);
    }
    var v1 := UpdateState(u, f, m).0;
    assert v1.parts == MarkAll(prepared.0.parts, true, |u.labelText| > 0);
    assert v1.parts == u.parts;
    assert v1 == u;
    UpdateStateKeepsCounter(u, f, m);
  }

  /**
    A custom graphics layer added by `setCustomGraphics` to an on-screen
    node whose shape and label textures are settled is marked REDRAW and
    never drawn: after one frame with unchanged inputs the node is a fixed
    point of the frame, with the layer off the device, so no number of
    further frames puts it there.
  */
  lemma CustomGraphicsStall(v: NodeView, g: int, f: Frame, ids: seq<int>, mem: Limit)
    requires Valid(v) && FrameOk(f) && |ids| == PartCount && Synced(v)
    requires v.visible && f.inFrustum[ShapePart] && v.cgInfo[0].None?
    requires forall k :: 0 <= k < 2 ==>
               OnDevice(v.parts[k]) && v.parts[k].state == Keep
               && !FarApart(v.parts[k].rect.value.textureWidth, f.optimumWidth[k])
               && !FarApart(v.parts[k].rect.value.textureHeight, f.optimumHeight[k])
    ensures SetCustomGraphics(v, 0, Some(g), mem).0.parts[2].state == Redraw
    ensures !OnDevice(SetCustomGraphics(v, 0, Some(g), mem).0.parts[2])
    ensures RunFrame(SetCustomGraphics(v, 0, Some(g), mem).0, f, ids, SetCustomGraphics(v, 0, Some(g), mem).1).0.parts[2].state == Redraw
    ensures !OnDevice(RunFrame(SetCustomGraphics(v, 0, Some(g), mem).0, f, ids, SetCustomGraphics(v, 0, Some(g), mem).1).0.parts[2])
    ensures var r := RunFrame(SetCustomGraphics(v, 0, Some(g), mem).0, f, ids, SetCustomGraphics(v, 0, Some(g), mem).1);
            RunFrame(r.0, f, ids, r.1) == r
  {
    var w := SetCustomGraphics(v, 0, Some(g), mem);
    assert w == AddLayer(v, 0, g, mem);
    assert v.parts[2].rect.None?;
    assert StallReady(w.0, f);
    StalledFrame(w.0, f, ids, w.1);
    var r := RunFrame(w.0, f, ids, w.1);
    StallIsFixed(r.0, f, ids, r.1);
  }

  /**
    A shape marked REDRAW at a degenerate optimum size asks the counter for
    nothing and counts its device texture as freed, so it is admitted, and
    the image allocation throws: the node is left as it was and the counter
    has dropped by the bytes of a texture that stays on the device.
  */
  lemma ZeroOptimumThrows(v: NodeView, mem: Limit)
    requires Valid(v) && v.onScreen && v.visible
    requires v.parts[ShapePart].state == Redraw && v.parts[ShapePart].rect.Some? && Degenerate(v.parts[ShapePart])
    requires mem.maxMemory - mem.currentMemory + OccupiedOf(v.parts[ShapePart]) > 0
    ensures RedrawTextures(v, mem).3 && !RedrawTextures(v, mem).2
    ensures RedrawTextures(v, mem).0 == v
    ensures RedrawTextures(v, mem).1.currentMemory == mem.currentMemory - OccupiedOf(v.parts[ShapePart])
  {
    var s := v.parts[ShapePart];
    assert PartOk(s);
    assert s.optimumWidth == 0 || s.optimumHeight == 0;
    assert s.optimumWidth * s.optimumHeight * 4 == 0;
  }

  /**
    A whole frame of an in-sync node on screen whose shape texture is on
    the device while the frame's optimum shape size is 0 by 0, as it is once
    the network view's downsampling factor is below 1/2048: `updateState`
    marks the shape REDRAW, `redrawTextures` throws, and the frame ends with
    the texture still on the device and the counter short by its bytes.
  */
  lemma ZeroOptimumFrameUndercounts(v: NodeView, f: Frame, ids: seq<int>, mem: Limit)
    requires Valid(v) && FrameOk(f) && |ids| == PartCount && Bounded(mem)
    requires Synced(v) && v.visible && f.inFrustum[ShapePart]
    requires mem.currentMemory >= Occupied(v.parts)
    requires OnDevice(v.parts[ShapePart]) && v.parts[ShapePart].rect.value.textureWidth >= 2
    requires v.parts[ShapePart].rect.value.texture.value.width >= 1 && v.parts[ShapePart].rect.value.texture.value.height >= 1
    requires f.optimumWidth[ShapePart] == 0 && f.optimumHeight[ShapePart] == 0
    ensures OccupiedOf(v.parts[ShapePart]) > 0
    ensures RunFrame(v, f, ids, mem).0.parts[ShapePart].state == Redraw
    ensures OnDevice(RunFrame(v, f, ids, mem).0.parts[ShapePart])
    ensures Occupied(RunFrame(v, f, ids, mem).0.parts) == Occupied(v.parts)
    ensures RunFrame(v, f, ids, mem).1.currentMemory == mem.currentMemory - OccupiedOf(v.parts[ShapePart])
  {
    var t := v.parts[ShapePart].rect.value.texture.value;
    assert t.width * t.height >= 1;
    var prepared := Prepare(v, f, mem);
    assert SeenIn(v.parts, f);
    forall k | 0 <= k < PartCount
      ensures prepared.0.parts[k] == Measure(v.parts[k], f, k)
    {
      assert prepared.0.parts[k] == SetupPart(Measure(v.parts[k], f, k), Wanted(v, k), v.position);
    }
    SameTextures(prepared.0.parts, v.parts);
    var u := UpdateState(v, f, mem);
    assert u.0.parts == MarkAll(prepared.0.parts, true, |v.labelText| > 0);
    assert u.1 == mem;
    assert u.0.parts[ShapePart].state == Redraw && u.2;
    ZeroOptimumThrows(u.0, u.1);
  }

  /** Parts without device textures hold no device bytes. */
  lemma {:induction false} NoneOccupy(ps: seq<Part>)
    requires forall k :: 0 <= k < |ps| ==> !OnDevice(ps[k])
    ensures Occupied(ps) == 0
    decreases |ps|
  {
    if |ps| > 0 {
      NoneOccupy(ps[1..]);
    }
  }

  lemma {:induction false} NothingDoomed(ps: seq<Part>)
    requires forall k :: 0 <= k < |ps| && ps[k].rect.Some? ==> !OnDevice(ps[k])
    ensures Doomed(ps) == 0
    decreases |ps|
  {
    if |ps| > 0 {
      NothingDoomed(ps[1..]);
    }
  }

  /** A fresh 1×1 REDRAW part contributes four pending bytes, and no part contributes a negative amount here. */
  lemma {:induction false} PendingAtLeast(ps: seq<Part>, j: nat)
    requires AllOk(ps) && j < |ps|
    requires forall k :: 0 <= k < |ps| && ps[k].rect.Some? ==> !OnDevice(ps[k])
    requires ps[j].rect.Some? && ps[j].state == Redraw
    requires ps[j].rect.value.textureWidth == 1 && ps[j].rect.value.textureHeight == 1
    ensures Pending(ps) >= 4
    decreases |ps|
  {
    PendingNonNegative(ps[1..]);
    if j > 0 {
      PendingAtLeast(ps[1..], j - 1);
      assert PartOk(ps[0]);
      if ps[0].rect.Some? {
        assert ps[0].rect.value.textureWidth * ps[0].rect.value.textureHeight >= 0;
      }
    }
  }

  lemma {:induction false} PendingNonNegative(ps: seq<Part>)
    requires AllOk(ps)
    requires forall k :: 0 <= k < |ps| && ps[k].rect.Some? ==> !OnDevice(ps[k])
    ensures Pending(ps) >= 0
    decreases |ps|
  {
    if |ps| > 0 {
      assert PartOk(ps[0]);
      if ps[0].rect.Some? {
        assert ps[0].rect.value.textureWidth * ps[0].rect.value.textureHeight >= 0;
      }
      PendingNonNegative(ps[1..]);
    }
  }

  /** Every part of the node is at rest. */
  predicate Settled(v: NodeView)
  {
    forall k :: 0 <= k < |v.parts| ==> v.parts[k].state == Keep
  }

  /** `updateState` reporting work whenever any part, custom graphics included, needs it. */
  function UpdateStateCorrected(v: NodeView, f: Frame, mem: Limit): (res: (NodeView, Limit, bool))
    requires Valid(v) && FrameOk(f)
    ensures (res.0, res.1) == (UpdateState(v, f, mem).0, UpdateState(v, f, mem).1)
    ensures res.2 <==> !Settled(res.0)
  {
    var v1Triple := UpdateState(v, f, mem);
    var v1 := v1Triple.0;
    var m1 := v1Triple.1;
    (v1, m1, !Settled(v1))
  }

  /**
    `redrawTextures` with the off-screen branch also dropping REDRAW
    requests of rectangles that have no device texture, so that nothing
    reaches `updateResources` as REDRAW without having been admitted, and
    reporting work whenever any part needs it.
  */
  function RedrawTexturesCorrected(v: NodeView, mem: Limit): (res: (NodeView, Limit, bool))
    requires Valid(v)
    ensures Valid(res.0) && res.0 == v.(parts := res.0.parts)
    ensures res.2 <==> !Settled(res.0)
    ensures forall k :: 0 <= k < PartCount ==> res.0.parts[k].rect.Some? == v.parts[k].rect.Some?
    ensures !v.onScreen ==>
              res.1 == mem
              && forall k :: 0 <= k < PartCount ==>
                   res.0.parts[k].state == (if OnDevice(v.parts[k]) then Delete
                                            else if v.parts[k].state == Redraw then Keep else v.parts[k].state)
    ensures v.onScreen && !RedrawTextures(v, mem).3 ==> (res.0, res.1) == (RedrawTextures(v, mem).0, RedrawTextures(v, mem).1)
    ensures v.onScreen && v.visible ==>
              forall k :: (0 <= k < PartCount && v.parts[k].state == Redraw && res.0.parts[k].state == Redraw) ==>
                Drawable(v, k) && !Degenerate(v.parts[k])
    ensures Occupied(res.0.parts) == Occupied(v.parts)
    ensures res.1.maxMemory == mem.maxMemory
    ensures v.onScreen && v.visible ==> res.1.currentMemory == mem.currentMemory + Pending(res.0.parts)
    ensures !v.onScreen ==> Pending(res.0.parts) == 0
  {
    if !v.onScreen then
      OffScreenCorrectedFacts(v);
      var r := OffScreenCorrected(v);
      (r, mem, !Settled(r))
    else if v.visible then
      var d := DrawableAllCorrected(v);
      var psTriple := RedrawAll(v.parts, d, mem);
      var r := v.(parts := psTriple.0);
      RedrawAgrees(v.parts, DrawableAll(v), d, mem);
      (r, psTriple.1, !Settled(r))
    else (v, mem, !Settled(v))
  }

  /** `Drawable` with the size check of the custom-graphics guard applied to the shape and the label too. */
  function DrawableAllCorrected(v: NodeView): (d: seq<bool>)
    requires Valid(v)
    ensures |d| == PartCount
    ensures forall k :: 0 <= k < PartCount ==> (d[k] <==> Drawable(v, k) && !Degenerate(v.parts[k]))
  {
    seq(PartCount, k requires 0 <= k < PartCount => Drawable(v, k) && !Degenerate(v.parts[k]))
  }

  /**
    Where the pass as written does not throw, skipping degenerate sizes
    changes nothing: the two passes agree part for part and on the counter.
  */
  lemma {:induction false} RedrawAgrees(ps: seq<Part>, d: seq<bool>, e: seq<bool>, mem: Limit)
    requires |d| == |ps| && |e| == |ps|
    requires forall k :: 0 <= k < |ps| ==> (e[k] <==> d[k] && !Degenerate(ps[k]))
    ensures !RedrawAll(ps, d, mem).2 ==>
              (RedrawAll(ps, e, mem).0, RedrawAll(ps, e, mem).1) == (RedrawAll(ps, d, mem).0, RedrawAll(ps, d, mem).1)
    ensures !RedrawAll(ps, e, mem).2
    decreases |ps|
  {
    if |ps| > 0 {
      var p := RedrawPart(ps[0], d[0], mem);
      var q := RedrawPart(ps[0], e[0], mem);
      assert !q.2;
      if !p.2 {
        assert (p.0, p.1) == (q.0, q.1);
      }
      RedrawAgrees(ps[1..], d[1..], e[1..], q.1);
    }
  }

  /** The off-screen branch of `RedrawTexturesCorrected`: device textures go, REDRAW requests are dropped. */
  function OffScreenCorrected(v: NodeView): NodeView
    requires Valid(v)
  {
    v.(parts := seq(PartCount, k requires 0 <= k < PartCount =>
                      if OnDevice(v.parts[k]) then v.parts[k].(state := Delete)
                      else if v.parts[k].state == Redraw then v.parts[k].(state := Keep)
                      else v.parts[k]))
  }

  lemma OffScreenCorrectedFacts(v: NodeView)
    requires Valid(v)
    ensures Valid(OffScreenCorrected(v)) && OffScreenCorrected(v) == v.(parts := OffScreenCorrected(v).parts)
    ensures forall k :: 0 <= k < PartCount ==> OffScreenCorrected(v).parts[k].rect == v.parts[k].rect
    ensures forall k :: 0 <= k < PartCount ==>
              OffScreenCorrected(v).parts[k].state == (if OnDevice(v.parts[k]) then Delete
                                                      else if v.parts[k].state == Redraw then Keep else v.parts[k].state)
    ensures Occupied(OffScreenCorrected(v).parts) == Occupied(v.parts)
    ensures Pending(OffScreenCorrected(v).parts) == 0
  {
    var ps := OffScreenCorrected(v).parts;
    SameTextures(ps, v.parts);
    NoRedraw(ps);
  }

  lemma {:induction false} NoRedraw(ps: seq<Part>)
    requires forall k :: 0 <= k < |ps| ==> ps[k].state != Redraw
    ensures Pending(ps) == 0
    decreases |ps|
  {
    if |ps| > 0 {
      NoRedraw(ps[1..]);
    }
  }

  /** The three stages with both corrections, gated the same way. */
  function RunFrameCorrected(v: NodeView, f: Frame, ids: seq<int>, mem: Limit): (res: (NodeView, Limit))
    requires Valid(v) && FrameOk(f) && |ids| == PartCount
    ensures Valid(res.0)
  {
    var v1Triple := UpdateStateCorrected(v, f, mem);
    var v1 := v1Triple.0;
    var m1 := v1Triple.1;
    var go1 := v1Triple.2;
    if !go1 then (v1, m1) else FrameTailCorrected(v1, ids, m1)
  }

  /** The stages after `updateState`, with the corrections: redraw, and upload if there is work. */
  function FrameTailCorrected(v1: NodeView, ids: seq<int>, m1: Limit): (res: (NodeView, Limit))
    requires Valid(v1) && |ids| == PartCount
    ensures Valid(res.0) && Settled(res.0)
  {
    var v2Triple := RedrawTexturesCorrected(v1, m1);
    if !v2Triple.2 then (v2Triple.0, v2Triple.1) else UpdateResources(v2Triple.0, ids, v2Triple.1)
  }

  /** After `updateState` the corrected stages move the counter by exactly the change in device bytes. */
  lemma FrameTailBalances(v1: NodeView, ids: seq<int>, m1: Limit)
    requires Valid(v1) && |ids| == PartCount && m1.currentMemory >= Occupied(v1.parts)
    requires v1.onScreen && !v1.visible ==> forall k :: 0 <= k < PartCount ==> v1.parts[k].rect.None?
    ensures FrameTailCorrected(v1, ids, m1).1.currentMemory - m1.currentMemory
            == Occupied(FrameTailCorrected(v1, ids, m1).0.parts) - Occupied(v1.parts)
  {
    var v2Triple := RedrawTexturesCorrected(v1, m1);
    var v2 := v2Triple.0;
    if !v2Triple.2 {
      assert Pending(v2.parts) == 0 by { NoRedraw(v2.parts); }
    } else {
      DoomedCovered(v2.parts);
      OccupiedNonNegative(v2.parts);
      if v1.onScreen && !v1.visible {
        assert Pending(v2.parts) == 0 by { NonePending(v2.parts); }
      }
    }
  }

  /**
    With the corrections every frame balances, on screen or not, visible or
    not: the counter moves by exactly the change in device bytes the node
    holds.
  */
  lemma EveryFrameBalances(v: NodeView, f: Frame, ids: seq<int>, mem: Limit)
    requires Valid(v) && FrameOk(f) && |ids| == PartCount
    requires mem.currentMemory >= Occupied(v.parts)
    ensures RunFrameCorrected(v, f, ids, mem).1.currentMemory - mem.currentMemory
            == Occupied(RunFrameCorrected(v, f, ids, mem).0.parts) - Occupied(v.parts)
  {
    var v1Triple := UpdateStateCorrected(v, f, mem);
    var v1 := v1Triple.0;
    if v1Triple.2 {
      assert v1.onScreen && !v1.visible ==> forall k :: 0 <= k < PartCount ==> v1.parts[k].rect.None?;
      FrameTailBalances(v1, ids, v1Triple.1);
    }
  }

  /** With the corrections a frame leaves every part of the node at rest. */
  lemma CorrectedFrameSettles(v: NodeView, f: Frame, ids: seq<int>, mem: Limit)
    requires Valid(v) && FrameOk(f) && |ids| == PartCount
    ensures Settled(RunFrameCorrected(v, f, ids, mem).0)
  {
  }

  /**
    With the corrections, the layer that `CustomGraphicsStall` leaves off
    the device is drawn and uploaded in the next frame, provided its optimum
    size is not degenerate and the counter admits it.
  */
  lemma CorrectedFrameDrawsLayer(v: NodeView, g: int, f: Frame, ids: seq<int>, mem: Limit)
    requires Valid(v) && FrameOk(f) && |ids| == PartCount && Synced(v)
    requires v.visible && f.inFrustum[ShapePart] && v.cgInfo[0].None?
    requires forall k :: 0 <= k < 2 ==>
               OnDevice(v.parts[k]) && v.parts[k].state == Keep
               && !FarApart(v.parts[k].rect.value.textureWidth, f.optimumWidth[k])
               && !FarApart(v.parts[k].rect.value.textureHeight, f.optimumHeight[k])
    requires f.optimumWidth[2] >= 1 && f.optimumHeight[2] >= 1
    requires TryGetMemory(mem, f.optimumWidth[2] * f.optimumHeight[2] * 4, 0).1
    ensures OnDevice(RunFrameCorrected(SetCustomGraphics(v, 0, Some(g), mem).0, f, ids,
                                       SetCustomGraphics(v, 0, Some(g), mem).1).0.parts[2])
  {
    var w := SetCustomGraphics(v, 0, Some(g), mem);
    assert w == AddLayer(v, 0, g, mem);
    AddLayerKeepsCounter(v, 0, g, mem);
    assert v.parts[2].rect.None?;
    assert StallReady(w.0, f);
    LayerFrame(w.0, f, ids, mem);
  }

  /** The corrected frame of a stall-ready node draws and uploads layer 0 when the counter admits it. */
  lemma LayerFrame(u: NodeView, f: Frame, ids: seq<int>, mem: Limit)
    requires Valid(u) && FrameOk(f) && |ids| == PartCount && StallReady(u, f)
    requires f.optimumWidth[2] >= 1 && f.optimumHeight[2] >= 1
    requires TryGetMemory(mem, f.optimumWidth[2] * f.optimumHeight[2] * 4, 0).1
    ensures OnDevice(RunFrameCorrected(u, f, ids, mem).0.parts[2])
  {
    LayerStateStage(u, f, mem);
    var v1 := UpdateState(u, f, mem).0;
    LayerRedrawStage(v1, mem);
  }

  /** `updateState` of a stall-ready node: the counter is untouched, the shape and label stay KEEP, the layer is REDRAW at the frame's optimum. */
  lemma LayerStateStage(u: NodeView, f: Frame, mem: Limit)
    requires Valid(u) && FrameOk(f) && StallReady(u, f)
    ensures UpdateState(u, f, mem).1 == mem
    ensures UpdateState(u, f, mem).0.onScreen && UpdateState(u, f, mem).0.visible
    ensures UpdateState(u, f, mem).0.cgInfo[0].Some?
    ensures UpdateState(u, f, mem).0.parts[ShapePart].state == Keep
    ensures UpdateState(u, f, mem).0.parts[LabelPart].state == Keep
    ensures UpdateState(u, f, mem).0.parts[2].state == Redraw
    ensures UpdateState(u, f, mem).0.parts[2].rect.Some? && !OnDevice(UpdateState(u, f, mem).0.parts[2])
    ensures UpdateState(u, f, mem).0.parts[2].optimumWidth == f.optimumWidth[2]
    ensures UpdateState(u, f, mem).0.parts[2].optimumHeight == f.optimumHeight[2]
  {
    var prepared := Prepare(u, f, mem);
    assert SeenIn(u.parts, f);
    forall k | 0 <= k < PartCount
      ensures prepared.0.parts[k] == Measure(u.parts[k], f, k)
    {
      assert prepared.0.parts[k] == SetupPart(Measure(u.parts[k], f, k), Wanted(u, k), u.position);
    }
    var v1 := UpdateState(u, f, mem).0;
    assert v1.parts == MarkAll(prepared.0.parts, true, |u.labelText| > 0);
    UpdateStateKeepsCounter(u, f, mem);
  }

  /** The corrected `redrawTextures` draws an admitted layer behind a KEEP shape and label, and reports the work. */
  lemma LayerRedrawStage(v1: NodeView, mem: Limit)
    requires Valid(v1) && v1.onScreen && v1.visible && v1.cgInfo[0].Some?
    requires v1.parts[ShapePart].state == Keep && v1.parts[LabelPart].state == Keep
    requires v1.parts[2].state == Redraw && v1.parts[2].rect.Some? && !Degenerate(v1.parts[2])
    requires Request(v1.parts[2], mem).1
    ensures RedrawTexturesCorrected(v1, mem).0.parts[2].state == Redraw
    ensures RedrawTexturesCorrected(v1, mem).2
  {
    var d := DrawableAllCorrected(v1);
    assert d[2];
    var ps := v1.parts;
    var r1 := RedrawAll(ps[1..], d[1..], mem);
    var r2 := RedrawAll(ps[2..], d[2..], mem);
    assert ps[2..][0] == ps[2] && d[2..][0] == d[2];
    assert r2.0[0].state == Redraw;
    assert ps[1..][1..] == ps[2..] && d[1..][1..] == d[2..];
    assert r1.0[1].state == Redraw;
    assert RedrawAll(ps, d, mem).0[2].state == Redraw;
  }

  lemma {:induction false} NonePending(ps: seq<Part>)
    requires forall k :: 0 <= k < |ps| ==> ps[k].rect.None?
    ensures Pending(ps) == 0 && Doomed(ps) == 0
    decreases |ps|
  {
    if |ps| > 0 {
      NonePending(ps[1..]);
    }
  }
}

=== FILE: primitives.dfy ===
/**
  Values shared by the two primitive handles (rendering/ZZRectangle.java
  and rendering/ZZLine.java): vectors, the abstract device texture, and
  Java's truncating halving of a `short`.
*/
module Primitives {
  import opened Wrappers

  datatype Vec3 = Vec3(x: real, y: real, z: real)

  datatype Vec4 = Vec4(x: real, y: real, z: real, w: real)

  const Origin4 := Vec4(0.0, 0.0, 0.0, 0.0)

  /**
    A bindless device texture, reduced to its handle and dimensions; the
    GL object behind it is outside the model.
  */
  datatype Texture = Texture(id: int, width: int, height: int)

  /** Java's `a / 2` on an `int`, which rounds toward zero. */
  function JavaHalf(a: int): (q: int)
    ensures a >= 0 ==> 0 <= 2 * q <= a <= 2 * q + 1
    ensures a < 0 ==> 2 * q - 1 <= a <= 2 * q <= 0
  {
    if a >= 0 then a / 2 else -((-a) / 2)
  }

  /** Device bytes of an RGBA8 texture: four per texel, nothing when absent. */
  function OccupiedMemory(t: Option<Texture>): (bytes: int)
    ensures t.None? ==> bytes == 0
    ensures t.Some? && t.value.width >= 0 && t.value.height >= 0 ==> bytes >= 0
  {
    match t
    case None => 0
    case Some(tex) => tex.width * tex.height * 4
  }

  /** A freshly allocated Java `byte[n]`. */
  function ZeroBytes(n: nat): (b: seq<bv8>)
    ensures |b| == n && forall i :: 0 <= i < n ==> b[i] == 0
  {
    seq(n, _ => 0)
  }
}

=== FILE: rectangle.dfy ===
/**
  The rectangle handle (rendering/ZZRectangle.java): the local copy of one
  rectangle's geometry and texture, forwarded to its slot in the pool.

  Every operation takes the handle and the pool state and returns both;
  an operation that disposes a device texture also returns the texture it
  disposed, so that "the previous texture is released" is observable.
*/
module Rectangles {
  import opened Wrappers
  import opened SlotMaps
  import opened Primitives
  import Pool = RectangleManager

  datatype Rect = Rect(
    index: int,
    center: Vec3,
    width: int,
    height: int,
    offsetX: int,
    offsetY: int,
    textureWidth: int,
    textureHeight: int,
    textureHost: seq<bv8>,
    texture: Option<Texture>)

  /** What a rectangle and the pool need to have in common for any handle operation. */
  ghost predicate Attached(r: Rect, m: Pool.Manager)
  {
    Pool.Valid(m) && IsLive(m.slots, r.index)
  }

  /** The slot holds the geometry the handle holds. */
  ghost predicate Consistent(r: Rect, m: Pool.Manager)
  {
    Attached(r, m)
    && Pool.RecordOf(m, r.index).position == [r.center.x, r.center.y, r.center.z]
    && Pool.RecordOf(m, r.index).size[0] == r.width
    && Pool.RecordOf(m, r.index).size[1] == r.height
    && Pool.RecordOf(m, r.index).offset == [r.offsetX, r.offsetY]
  }

  /** Only handle `h`'s record may differ, the slot layout and mirror are kept. */
  ghost predicate OthersKept(m: Pool.Manager, r: Pool.Manager, h: int)
    requires Pool.Valid(m) && Pool.Valid(r)
  {
    r.slots == m.slots
    && (forall g :: IsLive(m.slots, g) && g != h ==> Pool.RecordOf(r, g) == Pool.RecordOf(m, g))
    && (Pool.Mirrored(m) ==> Pool.Mirrored(r))
    && r.defaultTexture == m.defaultTexture && r.defaultWidth == m.defaultWidth
    && r.defaultHeight == m.defaultHeight
  }

  /** The three `setPositionX/Y/Z` calls of `setCenter`. */
  function WriteCenter(m: Pool.Manager, h: int, c: Vec3): (r: Pool.Manager)
    requires Pool.Valid(m) && IsLive(m.slots, h)
    ensures Pool.Valid(r) && OthersKept(m, r, h)
    ensures Pool.RecordOf(r, h) == Pool.RecordOf(m, h).(position := [c.x, c.y, c.z])
  {
    var m1 := Pool.SetPosition(m, h, 0, c.x);
    var m2 := Pool.SetPosition(m1, h, 1, c.y);
    var r := Pool.SetPosition(m2, h, 2, c.z);
    assert Pool.RecordOf(r, h).position == [c.x, c.y, c.z];
    r
  }

  /** Two size entries `k` and `k + 1` of one record, as `setSizeX/Y` or `setTextureSizeU/V` write them. */
  function WriteSizePair(m: Pool.Manager, h: int, k: nat, a: int, b: int): (r: Pool.Manager)
    requires Pool.Valid(m) && IsLive(m.slots, h) && k <= 2
    ensures Pool.Valid(r) && OthersKept(m, r, h)
    ensures Pool.RecordOf(r, h) == Pool.RecordOf(m, h).(size := Pool.RecordOf(m, h).size[k := a][k + 1 := b])
  {
    var m1 := Pool.SetSize(m, h, k, a);
    Pool.SetSize(m1, h, k + 1, b)
  }

  /** The `setOffsetX/Y` calls of `setOffset`. */
  function WriteOffset(m: Pool.Manager, h: int, x: int, y: int): (r: Pool.Manager)
    requires Pool.Valid(m) && IsLive(m.slots, h)
    ensures Pool.Valid(r) && OthersKept(m, r, h)
    ensures Pool.RecordOf(r, h) == Pool.RecordOf(m, h).(offset := [x, y])
  {
    var m1 := Pool.SetOffset(m, h, 0, x);
    var r := Pool.SetOffset(m1, h, 1, y);
    assert Pool.RecordOf(r, h).offset == [x, y];
    r
  }

  /** The Java field initialisers of a new rectangle before its constructor body runs. */
  function Fresh(index: int): Rect
  {
    Rect(index, Vec3(0.0, 0.0, 0.0), 0, 0, 0, 0, 1, 1, [0, 0, 0, 0], None)
  }

  /**
    `createRectangle` with the constructor as written: size, center and the
    default texture reach the slot, the offset arguments reach nothing.
    The new slot therefore keeps whatever offset its previous occupant left
    there.
  */
  function CreateAsWritten(m: Pool.Manager, center: Vec3, width: int, height: int, offsetX: int, offsetY: int)
    : (res: (Rect, Pool.Manager))
    requires Pool.Valid(m)
    ensures Attached(res.0, res.1)
    ensures res.0.offsetX == 0 && res.0.offsetY == 0
    ensures res.0.center == center && res.0.width == width && res.0.height == height
    ensures m.slots.elements < m.slots.capacity ==>
              Pool.RecordOf(res.1, res.0.index).offset == Pool.RecordAt(m, m.slots.elements).offset
  {
    var m1Pair := Pool.Create(m);
    var m1 := m1Pair.0;
    var h := m1Pair.1;
    var m2 := WriteSizePair(m1, h, 0, width, height);
    var m3 := WriteCenter(m2, h, center);
    var m4 := Pool.SetTextureToDefault(m3, h);
    (Fresh(h).(center := center, width := width, height := height), m4)
  }

  /**
    When the new rectangle reuses a slot whose stale offset differs from the
    requested one, the slot does not carry the requested offset.
  */
  lemma CreateAsWrittenLeaksOffset(m: Pool.Manager, center: Vec3, width: int, height: int, offsetX: int, offsetY: int)
    requires Pool.Valid(m) && m.slots.elements < m.slots.capacity
    requires Pool.RecordAt(m, m.slots.elements).offset != [offsetX, offsetY]
    ensures var res := CreateAsWritten(m, center, width, height, offsetX, offsetY);
            Pool.RecordOf(res.1, res.0.index).offset != [offsetX, offsetY]
  {
  }

  /**
    `createRectangle` with the offsets forwarded through `setOffset`, as the
    constructor's parameters promise: the new handle and its slot agree on
    every geometric field and carry the requested offset.
  */
  function Create(m: Pool.Manager, center: Vec3, width: int, height: int, offsetX: int, offsetY: int)
    : (res: (Rect, Pool.Manager))
    requires Pool.Valid(m)
    ensures Consistent(res.0, res.1)
    ensures !IsLive(m.slots, res.0.index)
    ensures forall g :: IsLive(res.1.slots, g) <==> IsLive(m.slots, g) || g == res.0.index
    ensures forall g :: IsLive(m.slots, g) ==> Pool.RecordOf(res.1, g) == Pool.RecordOf(m, g)
    ensures res.0.center == center && res.0.width == width && res.0.height == height
    ensures res.0.offsetX == offsetX && res.0.offsetY == offsetY
    ensures Pool.RecordOf(res.1, res.0.index).texture == m.defaultTexture
    ensures !IsOnDevice(res.0)
    ensures Pool.Mirrored(m) ==> Pool.Mirrored(res.1)
  {
    var m1Pair := Pool.Create(m);
    var m1 := m1Pair.0;
    var h := m1Pair.1;
    var m2 := Construct(m1, h, center, width, height, offsetX, offsetY);
    (Fresh(h).(center := center, width := width, height := height, offsetX := offsetX, offsetY := offsetY), m2)
  }

  /** The corrected constructor body on the pool: geometry, then the default texture. */
  function Construct(m: Pool.Manager, h: int, center: Vec3, width: int, height: int, offsetX: int, offsetY: int)
    : (r: Pool.Manager)
    requires Pool.Valid(m) && IsLive(m.slots, h)
    ensures Pool.Valid(r) && OthersKept(m, r, h)
    ensures Consistent(Fresh(h).(center := center, width := width, height := height, offsetX := offsetX, offsetY := offsetY), r)
    ensures Pool.RecordOf(r, h).texture == m.defaultTexture
  {
    var m1 := Place(m, h, center, width, height, offsetX, offsetY);
    DefaultTextureKeepsGeometry(m1, h);
    OthersKeptTransitive(m, m1, Pool.SetTextureToDefault(m1, h), h);
    Pool.SetTextureToDefault(m1, h)
  }

  /** `setTextureToDefault` keeps the slot's geometry and every other slot. */
  lemma DefaultTextureKeepsGeometry(m: Pool.Manager, h: int)
    requires Pool.Valid(m) && IsLive(m.slots, h)
    ensures Pool.Valid(Pool.SetTextureToDefault(m, h))
    ensures OthersKept(m, Pool.SetTextureToDefault(m, h), h)
    ensures Pool.RecordOf(Pool.SetTextureToDefault(m, h), h).position == Pool.RecordOf(m, h).position
    ensures Pool.RecordOf(Pool.SetTextureToDefault(m, h), h).size[0] == Pool.RecordOf(m, h).size[0]
    ensures Pool.RecordOf(Pool.SetTextureToDefault(m, h), h).size[1] == Pool.RecordOf(m, h).size[1]
    ensures Pool.RecordOf(Pool.SetTextureToDefault(m, h), h).offset == Pool.RecordOf(m, h).offset
  {
  }

  lemma OthersKeptTransitive(a: Pool.Manager, b: Pool.Manager, c: Pool.Manager, h: int)
    requires Pool.Valid(a) && Pool.Valid(b) && Pool.Valid(c)
    requires OthersKept(a, b, h) && OthersKept(b, c, h)
    ensures OthersKept(a, c, h)
  {
  }

  /** The geometry writes of the corrected constructor: size, center, then offset. */
  function Place(m: Pool.Manager, h: int, center: Vec3, width: int, height: int, offsetX: int, offsetY: int)
    : (r: Pool.Manager)
    requires Pool.Valid(m) && IsLive(m.slots, h)
    ensures Pool.Valid(r) && OthersKept(m, r, h)
    ensures Pool.RecordOf(r, h).position == [center.x, center.y, center.z]
    ensures Pool.RecordOf(r, h).size[0] == width && Pool.RecordOf(r, h).size[1] == height
    ensures Pool.RecordOf(r, h).offset == [offsetX, offsetY]
  {
    var m1 := WriteSizePair(m, h, 0, width, height);
    var m2 := WriteCenter(m1, h, center);
    WriteOffset(m2, h, offsetX, offsetY)
  }

  /** `setSize`. */
  function SetSize(r: Rect, m: Pool.Manager, width: int, height: int): (res: (Rect, Pool.Manager))
    requires Attached(r, m)
    ensures Attached(res.0, res.1) && OthersKept(m, res.1, r.index)
    ensures res.0 == r.(width := width, height := height)
    ensures Consistent(r, m) ==> Consistent(res.0, res.1)
    ensures Pool.RecordOf(res.1, r.index).size[0] == width && Pool.RecordOf(res.1, r.index).size[1] == height
  {
    (r.(width := width, height := height), WriteSizePair(m, r.index, 0, width, height))
  }

  /** `setCenter`. */
  function SetCenter(r: Rect, m: Pool.Manager, center: Vec3): (res: (Rect, Pool.Manager))
    requires Attached(r, m)
    ensures Attached(res.0, res.1) && OthersKept(m, res.1, r.index)
    ensures res.0 == r.(center := center)
    ensures Consistent(r, m) ==> Consistent(res.0, res.1)
    ensures Pool.RecordOf(res.1, r.index).position == [center.x, center.y, center.z]
  {
    (r.(center := center), WriteCenter(m, r.index, center))
  }

  /** `setOffset`. */
  function SetOffset(r: Rect, m: Pool.Manager, offsetX: int, offsetY: int): (res: (Rect, Pool.Manager))
    requires Attached(r, m)
    ensures Attached(res.0, res.1) && OthersKept(m, res.1, r.index)
    ensures res.0 == r.(offsetX := offsetX, offsetY := offsetY)
    ensures Consistent(r, m) ==> Consistent(res.0, res.1)
    ensures Pool.RecordOf(res.1, r.index).offset == [offsetX, offsetY]
  {
    (r.(offsetX := offsetX, offsetY := offsetY), WriteOffset(m, r.index, offsetX, offsetY))
  }

  /**
    `setTextureSize`: a zeroed host buffer of four bytes per texel,
    dimensions forwarded to the slot. A negative byte count makes
    `new byte[]` throw.
  */
  function SetTextureSize(r: Rect, m: Pool.Manager, width: int, height: int): (res: (Rect, Pool.Manager))
    requires Attached(r, m) && 0 <= width * height * 4 < 0x8000_0000
    ensures Attached(res.0, res.1) && OthersKept(m, res.1, r.index)
    ensures res.0.textureWidth == width && res.0.textureHeight == height
    ensures |res.0.textureHost| == width * height * 4
    ensures forall i :: 0 <= i < |res.0.textureHost| ==> res.0.textureHost[i] == 0
    ensures res.0.(textureWidth := r.textureWidth, textureHeight := r.textureHeight, textureHost := r.textureHost) == r
    ensures Pool.RecordOf(res.1, r.index).size[Pool.TextureU] == width
    ensures Pool.RecordOf(res.1, r.index).size[Pool.TextureV] == height
    ensures Consistent(r, m) ==> Consistent(res.0, res.1)
  {
    (r.(textureWidth := width, textureHeight := height, textureHost := ZeroBytes(width * height * 4)),
     WriteSizePair(m, r.index, Pool.TextureU, width, height))
  }

  /** `setTexture(data, width, height)`: the host buffer is the caller's data. */
  function SetTexture(r: Rect, m: Pool.Manager, data: seq<bv8>, width: int, height: int): (res: (Rect, Pool.Manager))
    requires Attached(r, m)
    ensures Attached(res.0, res.1) && OthersKept(m, res.1, r.index)
    ensures res.0 == r.(textureWidth := width, textureHeight := height, textureHost := data)
    ensures Pool.RecordOf(res.1, r.index).size[Pool.TextureU] == width
    ensures Pool.RecordOf(res.1, r.index).size[Pool.TextureV] == height
    ensures Consistent(r, m) ==> Consistent(res.0, res.1)
  {
    (r.(textureWidth := width, textureHeight := height, textureHost := data),
     WriteSizePair(m, r.index, Pool.TextureU, width, height))
  }

  /** `isOnDevice`. */
  predicate IsOnDevice(r: Rect)
  {
    r.texture.Some?
  }

  /**
    `putOnDevice`: any texture held is disposed, a new one of the current
    texture dimensions is uploaded under handle `id`, and the slot points to
    it. The third component is the disposed texture.
  */
  function PutOnDevice(r: Rect, m: Pool.Manager, id: int): (res: (Rect, Pool.Manager, Option<Texture>))
    requires Attached(r, m)
    ensures Attached(res.0, res.1) && OthersKept(m, res.1, r.index)
    ensures IsOnDevice(res.0)
    ensures res.0.texture == Some(Texture(id, r.textureWidth, r.textureHeight))
    ensures res.2 == r.texture
    ensures res.0.(texture := r.texture) == r
    ensures Pool.RecordOf(res.1, r.index) == Pool.RecordOf(m, r.index).(texture := id)
    ensures OccupiedTextureMemory(res.0) == r.textureWidth * r.textureHeight * 4
    ensures Consistent(r, m) ==> Consistent(res.0, res.1)
  {
    (r.(texture := Some(Texture(id, r.textureWidth, r.textureHeight))), Pool.SetTexture(m, r.index, id), r.texture)
  }

  /** `discardOnDevice`: nothing to do without a texture; otherwise it is disposed and the slot reverts to the default. */
  function DiscardOnDevice(r: Rect, m: Pool.Manager): (res: (Rect, Pool.Manager, Option<Texture>))
    requires Attached(r, m)
    ensures Attached(res.0, res.1) && OthersKept(m, res.1, r.index)
    ensures !IsOnDevice(res.0) && OccupiedTextureMemory(res.0) == 0
    ensures res.2 == r.texture
    ensures res.0 == r.(texture := None)
    ensures !IsOnDevice(r) ==> res.1 == m
    ensures IsOnDevice(r) ==> Pool.RecordOf(res.1, r.index).texture == m.defaultTexture
    ensures IsOnDevice(r) ==> Pool.RecordOf(res.1, r.index).size[Pool.TextureU] == m.defaultWidth
    ensures IsOnDevice(r) ==> Pool.RecordOf(res.1, r.index).size[Pool.TextureV] == m.defaultHeight
    ensures Consistent(r, m) ==> Consistent(res.0, res.1)
  {
    if !IsOnDevice(r) then (r, m, None)
    else (r.(texture := None), Pool.SetTextureToDefault(m, r.index), r.texture)
  }

  /** `getBounds2D`: left and top use `w / 2`, right and bottom `(w + 1) / 2`, in Java integer division. */
  function Bounds2D(r: Rect): (b: Vec4)
  {
    Vec4(-(JavaHalf(r.width) as real), -(JavaHalf(r.height) as real),
         JavaHalf(r.width + 1) as real, JavaHalf(r.height + 1) as real)
  }

  /** For non-negative dimensions the bounds enclose the centre and span exactly the width and height. */
  lemma BoundsSpanSize(r: Rect)
    requires r.width >= 0 && r.height >= 0
    ensures Bounds2D(r).z - Bounds2D(r).x == r.width as real
    ensures Bounds2D(r).w - Bounds2D(r).y == r.height as real
    ensures Bounds2D(r).x <= 0.0 <= Bounds2D(r).z && Bounds2D(r).y <= 0.0 <= Bounds2D(r).w
  {
    HalvesAddUp(r.width);
    HalvesAddUp(r.height);
  }

  /** `a / 2 + (a + 1) / 2 == a` for a non-negative Java `int`. */
  lemma HalvesAddUp(a: int)
    requires a >= 0
    ensures JavaHalf(a) + JavaHalf(a + 1) == a
  {
  }

  /** `getOccupiedTextureMemory`. */
  function OccupiedTextureMemory(r: Rect): (bytes: int)
    ensures !IsOnDevice(r) ==> bytes == 0
    ensures IsOnDevice(r) ==> bytes == r.texture.value.width * r.texture.value.height * 4
  {
    OccupiedMemory(r.texture)
  }

  /** `dispose`: the texture, if any, is released; the second component is what was released. */
  function Dispose(r: Rect): (res: (Rect, Option<Texture>))
    ensures !IsOnDevice(res.0) && res.1 == r.texture
    ensures res.0 == r.(texture := None)
  {
    (r.(texture := None), r.texture)
  }

  /** Disposing twice releases nothing the second time and leaves the rectangle as the first call did. */
  lemma DisposeIdempotent(r: Rect)
    ensures Dispose(Dispose(r).0).0 == Dispose(r).0
    ensures Dispose(Dispose(r).0).1 == None
  {
  }

  /**
    `deleteRectangle` as a whole: the pool gives up the handle's slot
    (`RectangleManager.Delete`) and the rectangle is then disposed, so the
    texture it held, if any, is what the call releases.
  */
  function DeleteRectangle(r: Rect, m: Pool.Manager): (res: (Rect, Pool.Manager, Option<Texture>))
    requires Attached(r, m)
    ensures Pool.Valid(res.1) && !IsOnDevice(res.0)
    ensures res.2 == r.texture
    ensures res.0 == r.(texture := None)
    ensures forall g :: IsLive(res.1.slots, g) <==> IsLive(m.slots, g) && g != r.index
    ensures forall g :: IsLive(res.1.slots, g) ==> Pool.RecordOf(res.1, g) == Pool.RecordOf(m, g)
    ensures Pool.Mirrored(m) ==> Pool.Mirrored(res.1)
  {
    var d := Dispose(r);
    (d.0, Pool.Delete(m, r.index), d.1)
  }

  /** A rectangle created and deleted again releases nothing and leaves the pool's live handles and their records as they were. */
  lemma CreateThenDelete(m: Pool.Manager, center: Vec3, width: int, height: int, offsetX: int, offsetY: int)
    requires Pool.Valid(m)
    ensures var (r, m1) := Create(m, center, width, height, offsetX, offsetY);
            var (_, m2, released) := DeleteRectangle(r, m1);
            && released == None
            && (forall g :: IsLive(m2.slots, g) <==> IsLive(m.slots, g))
            && (forall g :: IsLive(m.slots, g) ==> Pool.RecordOf(m2, g) == Pool.RecordOf(m, g))
  {
  }

  /** Deleting a rectangle whose texture was just uploaded releases exactly that texture. */
  lemma UploadThenDelete(r: Rect, m: Pool.Manager, id: int)
    requires Attached(r, m)
    ensures var (r1, m1, _) := PutOnDevice(r, m, id);
            DeleteRectangle(r1, m1).2 == Some(Texture(id, r.textureWidth, r.textureHeight))
  {
  }
}

=== FILE: rectangle_manager.dfy ===
/**
  The rectangle buffer pool (rendering/ZZRectangleManager.java).

  Each rectangle owns one dense slot: 3 position floats, 4 size shorts
  (width, height, texture width, texture height), 2 offset shorts and one
  texture handle. Host arrays are mirrored into mapped device buffers; the
  dirty flags record which device buffers still need a flush. Device
  buffers are modelled as plain sequences beside the host arrays.
*/
module RectangleManager {
  import opened SlotMaps
  import opened Buffers

  datatype Dirty = Dirty(position: bool, size: bool, offset: bool, texture: bool)

  const AllClean := Dirty(false, false, false, false)
  const AllDirty := Dirty(true, true, true, true)

  datatype Manager = Manager(
    slots: SlotMap,
    defaultTexture: int,
    defaultWidth: int,
    defaultHeight: int,
    hostPosition: seq<real>,
    hostSize: seq<int>,
    hostOffset: seq<int>,
    hostTexture: seq<int>,
    devicePosition: seq<real>,
    deviceSize: seq<int>,
    deviceOffset: seq<int>,
    deviceTexture: seq<int>,
    dirty: Dirty)

  /** What one rectangle's slot holds. */
  datatype Record = Record(position: seq<real>, size: seq<int>, offset: seq<int>, texture: int)

  /** Size entries 2 and 3 of a slot are the texture width and height. */
  const TextureU := 2
  const TextureV := 3

  ghost predicate Valid(m: Manager)
  {
    SlotMaps.Valid(m.slots)
    && |m.hostPosition| == m.slots.capacity * 3 == |m.devicePosition|
    && |m.hostSize| == m.slots.capacity * 4 == |m.deviceSize|
    && |m.hostOffset| == m.slots.capacity * 2 == |m.deviceOffset|
    && |m.hostTexture| == m.slots.capacity == |m.deviceTexture|
  }

  /**
    Every write to positions, sizes and offsets goes to the host array and
    to the mapped device buffer at the same address.
  */
  ghost predicate Mirrored(m: Manager)
  {
    m.devicePosition == m.hostPosition && m.deviceSize == m.hostSize && m.deviceOffset == m.hostOffset
  }

  function RecordAt(m: Manager, d: nat): (r: Record)
    requires Valid(m) && d < m.slots.capacity
    ensures |r.position| == 3 && |r.size| == 4 && |r.offset| == 2
  {
    Record(Slot(m.hostPosition, d * 3, 3), Slot(m.hostSize, d * 4, 4), Slot(m.hostOffset, d * 2, 2),
           m.hostTexture[d])
  }

  /** The record a live handle reads. */
  function RecordOf(m: Manager, h: int): (r: Record)
    requires Valid(m) && IsLive(m.slots, h)
    ensures |r.position| == 3 && |r.size| == 4 && |r.offset| == 2
  {
    RecordAt(m, SlotOf(m.slots, h))
  }

  /** The constructor: every handle free, zeroed buffers, nothing dirty. */
  function New(capacity: nat, defaultTexture: int, defaultWidth: int, defaultHeight: int): (m: Manager)
    requires 2 <= capacity
    ensures Valid(m) && Mirrored(m)
    ensures m.slots.elements == 0 && m.slots.capacity == capacity
    ensures m.slots.free == Range(0, capacity)
    ensures forall h :: !IsLive(m.slots, h)
    ensures m.dirty == AllClean
    ensures m.defaultTexture == defaultTexture && m.defaultWidth == defaultWidth && m.defaultHeight == defaultHeight
  {
    var position := seq(capacity * 3, _ => 0.0);
    var size := seq(capacity * 4, _ => 0);
    var offset := seq(capacity * 2, _ => 0);
    var texture := seq(capacity, _ => 0);
    Manager(Init(capacity), defaultTexture, defaultWidth, defaultHeight,
            position, size, offset, texture, position, size, offset, texture, AllClean)
  }

  /**
    `resize`: the host arrays keep the records of the first
    `min(old, new)` slots; new device buffers are filled from the host.
  */
  function Resize(m: Manager, newCapacity: nat): (r: Manager)
    requires Valid(m) && 2 <= newCapacity && m.slots.elements <= newCapacity
    ensures Valid(r)
    ensures r.slots.capacity == newCapacity && r.slots.elements == m.slots.elements
    ensures newCapacity == m.slots.capacity ==> r == m
    ensures newCapacity != m.slots.capacity ==> Mirrored(r)
    ensures Mirrored(m) ==> Mirrored(r)
    ensures |r.slots.indicesMap| >= |m.slots.indicesMap|
    ensures newCapacity <= |m.slots.indicesMap| ==> r.slots.free == m.slots.free && r.slots.indicesMap == m.slots.indicesMap
    ensures newCapacity > |m.slots.indicesMap| ==>
              r.slots.free == m.slots.free + Range(|m.slots.indicesMap|, newCapacity)
    ensures forall d :: 0 <= d < m.slots.capacity && d < newCapacity ==> RecordAt(r, d) == RecordAt(m, d)
    ensures forall g :: IsLive(r.slots, g) <==> IsLive(m.slots, g)
    ensures forall g :: IsLive(m.slots, g) ==> SlotOf(r.slots, g) == SlotOf(m.slots, g) && RecordOf(r, g) == RecordOf(m, g)
    ensures r.dirty == m.dirty
    ensures r.defaultTexture == m.defaultTexture && r.defaultWidth == m.defaultWidth && r.defaultHeight == m.defaultHeight
  {
    if newCapacity == m.slots.capacity then m
    else
      var keep := if newCapacity < m.slots.capacity then newCapacity else m.slots.capacity;
      var position := Resized(m.hostPosition, keep * 3, newCapacity * 3, 0.0);
      var size := Resized(m.hostSize, keep * 4, newCapacity * 4, 0);
      var offset := Resized(m.hostOffset, keep * 2, newCapacity * 2, 0);
      var texture := Resized(m.hostTexture, keep, newCapacity, 0);
      var r := m.(slots := ResizeMaps(m.slots, newCapacity),
                  hostPosition := position, hostSize := size, hostOffset := offset, hostTexture := texture,
                  devicePosition := position, deviceSize := size, deviceOffset := offset, deviceTexture := texture);
      forall d | 0 <= d < keep
        ensures RecordAt(r, d) == RecordAt(m, d)
      {
        ResizedSlot(m.hostPosition, keep * 3, newCapacity * 3, 0.0, d * 3, 3);
        ResizedSlot(m.hostSize, keep * 4, newCapacity * 4, 0, d * 4, 4);
        ResizedSlot(m.hostOffset, keep * 2, newCapacity * 2, 0, d * 2, 2);
      }
      r
  }

  /**
    `createRectangle`, the pool's part: grow by half when full, then hand
    out the head of the free queue mapped to the first unused slot. The
    slot still holds whatever the last occupant left; the rectangle's
    constructor writes it.
  */
  function Create(m: Manager): (r: (Manager, int))
    requires Valid(m)
    ensures Valid(r.0)
    ensures r.0.slots.capacity
              == if m.slots.elements >= m.slots.capacity then GrownCapacity(m.slots.capacity) else m.slots.capacity
    ensures r.0.slots.elements == m.slots.elements + 1
    ensures IsLive(r.0.slots, r.1) && !IsLive(m.slots, r.1) && SlotOf(r.0.slots, r.1) == m.slots.elements
    ensures forall g :: IsLive(r.0.slots, g) <==> IsLive(m.slots, g) || g == r.1
    ensures forall g :: IsLive(m.slots, g) ==> RecordOf(r.0, g) == RecordOf(m, g)
    ensures Mirrored(m) ==> Mirrored(r.0)
    ensures r.0.dirty == m.dirty
    ensures r.0.defaultTexture == m.defaultTexture && r.0.defaultWidth == m.defaultWidth
            && r.0.defaultHeight == m.defaultHeight
  {
    var grown := if m.slots.elements >= m.slots.capacity then Resize(m, GrownCapacity(m.slots.capacity)) else m;
    var slotsPair := Acquire(grown.slots);
    var slots := slotsPair.0;
    var h := slotsPair.1;
    var r := grown.(slots := slots);
    assert forall g :: IsLive(m.slots, g) ==> RecordOf(r, g) == RecordOf(grown, g);
    (r, h)
  }

  /**
    `deleteRectangle`, the pool's part: the handle returns to the free
    queue, the last slot's record moves into the vacated slot (host and
    device), every dirty flag is raised, and the pool shrinks to
    `max(10, capacity * 2 / 3)` once fewer than half the slots are used.
  */
  function Delete(m: Manager, h: int): (r: Manager)
    requires Valid(m) && IsLive(m.slots, h)
    ensures Valid(r)
    ensures r.slots.elements == m.slots.elements - 1
    ensures r.slots.capacity
              == if m.slots.elements - 1 < m.slots.capacity / 2 then ShrunkCapacity(m.slots.capacity) else m.slots.capacity
    ensures r.slots.elements <= r.slots.capacity
    ensures forall g :: IsLive(r.slots, g) <==> IsLive(m.slots, g) && g != h
    ensures forall g :: IsLive(r.slots, g) ==> RecordOf(r, g) == RecordOf(m, g)
    ensures Mirrored(m) ==> Mirrored(r)
    ensures r.dirty == AllDirty
    ensures r.defaultTexture == m.defaultTexture && r.defaultWidth == m.defaultWidth && r.defaultHeight == m.defaultHeight
  {
    var moved := MovedDown(m, h);
    MovedDownRecords(m, h);
    if m.slots.elements - 1 < m.slots.capacity / 2 then
      ShrinkKeepsElements(m.slots.elements - 1, m.slots.capacity);
      Resize(moved, ShrunkCapacity(m.slots.capacity))
    else moved
  }

  /** The pool after the release of `h` and the move of the last record into its slot, before any shrinking. */
  function MovedDown(m: Manager, h: int): Manager
    requires Valid(m) && IsLive(m.slots, h)
  {
    var dense := SlotOf(m.slots, h);
    var last := m.slots.elements - 1;
    m.(slots := Release(m.slots, h),
       hostPosition := CopySlot(m.hostPosition, dense * 3, m.hostPosition, last * 3, 3),
       devicePosition := CopySlot(m.devicePosition, dense * 3, m.hostPosition, last * 3, 3),
       hostSize := CopySlot(m.hostSize, dense * 4, m.hostSize, last * 4, 4),
       deviceSize := CopySlot(m.deviceSize, dense * 4, m.hostSize, last * 4, 4),
       hostOffset := CopySlot(m.hostOffset, dense * 2, m.hostOffset, last * 2, 2),
       deviceOffset := CopySlot(m.deviceOffset, dense * 2, m.hostOffset, last * 2, 2),
       hostTexture := m.hostTexture[dense := m.hostTexture[last]],
       dirty := AllDirty)
  }

  lemma MovedDownValid(m: Manager, h: int)
    requires Valid(m) && IsLive(m.slots, h)
    ensures Valid(MovedDown(m, h))
  {
  }

  /** After the move, every surviving handle reads its old record. */
  lemma MovedDownRecords(m: Manager, h: int)
    requires Valid(m) && IsLive(m.slots, h)
    ensures Valid(MovedDown(m, h))
    ensures forall g :: IsLive(MovedDown(m, h).slots, g) ==> RecordOf(MovedDown(m, h), g) == RecordOf(m, g)
  {
    MovedDownValid(m, h);
    forall g | IsLive(MovedDown(m, h).slots, g)
      ensures RecordOf(MovedDown(m, h), g) == RecordOf(m, g)
    {
      MovedDownRecord(m, h, g);
    }
  }

  lemma MovedDownRecord(m: Manager, h: int, g: int)
    requires Valid(m) && IsLive(m.slots, h) && IsLive(Release(m.slots, h), g)
    ensures Valid(MovedDown(m, h)) && IsLive(m.slots, g)
    ensures RecordOf(MovedDown(m, h), g) == RecordOf(m, g)
  {
    MovedDownValid(m, h);
    var dense := SlotOf(m.slots, h);
    var last := m.slots.elements - 1;
    var e := SlotOf(m.slots, g);
    assert SlotOf(Release(m.slots, h), g) == if e == last then dense else e;
    MovedRecordAt(m, MovedDown(m, h), dense, last, e);
  }

  /**
    After the last record is copied over slot `dense`, the record of slot
    `e` sits at `dense` if `e` was the last one and where it was otherwise.
  */
  lemma MovedRecordAt(m: Manager, moved: Manager, dense: nat, last: nat, e: nat)
    requires Valid(m) && Valid(moved)
    requires dense <= last < m.slots.capacity && e <= last && e != dense
    requires (if e == last then dense else e) < moved.slots.capacity
    requires moved.hostPosition == CopySlot(m.hostPosition, dense * 3, m.hostPosition, last * 3, 3)
    requires moved.hostSize == CopySlot(m.hostSize, dense * 4, m.hostSize, last * 4, 4)
    requires moved.hostOffset == CopySlot(m.hostOffset, dense * 2, m.hostOffset, last * 2, 2)
    requires moved.hostTexture == m.hostTexture[dense := m.hostTexture[last]]
    ensures RecordAt(moved, if e == last then dense else e) == RecordAt(m, e)
  {
    if e != last {
      RecordsApart(e, dense, 3);
      RecordsApart(e, dense, 4);
      RecordsApart(e, dense, 2);
      CopySlotFrame(m.hostPosition, dense * 3, m.hostPosition, last * 3, 3, e * 3);
      CopySlotFrame(m.hostSize, dense * 4, m.hostSize, last * 4, 4, e * 4);
      CopySlotFrame(m.hostOffset, dense * 2, m.hostOffset, last * 2, 2, e * 2);
    }
  }

  /**
    The setters `setPositionX/Y/Z` (`axis` 0, 1, 2): write the addressed
    entry in host and device and raise the flag, but only when the value
    changes.
  */
  function SetPosition(m: Manager, h: int, axis: nat, v: real): (r: Manager)
    requires Valid(m) && IsLive(m.slots, h) && axis < 3
    ensures Valid(r) && r.slots == m.slots
    ensures RecordOf(r, h) == RecordOf(m, h).(position := RecordOf(m, h).position[axis := v])
    ensures forall g :: IsLive(m.slots, g) && g != h ==> RecordOf(r, g) == RecordOf(m, g)
    ensures r.dirty == m.dirty.(position := m.dirty.position || RecordOf(m, h).position[axis] != v)
    ensures RecordOf(m, h).position[axis] == v ==> r == m
    ensures r.devicePosition[SlotOf(m.slots, h) * 3 + axis] == if RecordOf(m, h).position[axis] == v then m.devicePosition[SlotOf(m.slots, h) * 3 + axis] else v
    ensures forall i :: 0 <= i < |m.devicePosition| && i != SlotOf(m.slots, h) * 3 + axis ==> r.devicePosition[i] == m.devicePosition[i]
    ensures Mirrored(m) ==> Mirrored(r)
    ensures r.hostSize == m.hostSize && r.hostOffset == m.hostOffset && r.hostTexture == m.hostTexture
  {
    PositionWrittenRecords(m, h, axis, v);
    PositionWritten(m, h, axis, v)
  }

  /** The manager after the write of `position` entry `axis` of `h`'s slot. */
  function PositionWritten(m: Manager, h: int, axis: nat, v: real): Manager
    requires Valid(m) && IsLive(m.slots, h) && axis < 3
  {
    var a := SlotOf(m.slots, h) * 3 + axis;
    if m.hostPosition[a] == v then m
    else m.(hostPosition := m.hostPosition[a := v], devicePosition := m.devicePosition[a := v], dirty := m.dirty.(position := true))
  }

  lemma PositionWrittenValid(m: Manager, h: int, axis: nat, v: real)
    requires Valid(m) && IsLive(m.slots, h) && axis < 3
    ensures Valid(PositionWritten(m, h, axis, v))
  {
  }

  lemma PositionWrittenRecords(m: Manager, h: int, axis: nat, v: real)
    requires Valid(m) && IsLive(m.slots, h) && axis < 3
    ensures Valid(PositionWritten(m, h, axis, v))
    ensures forall g :: IsLive(m.slots, g) ==> (RecordOf(PositionWritten(m, h, axis, v), g)
              == if g == h then RecordOf(m, h).(position := RecordOf(m, h).position[axis := v]) else RecordOf(m, g))
  {
    PositionWrittenValid(m, h, axis, v);
    var r := PositionWritten(m, h, axis, v);
    forall g | IsLive(m.slots, g)
      ensures RecordOf(r, g) == if g == h then RecordOf(m, h).(position := RecordOf(m, h).position[axis := v]) else RecordOf(m, g)
    {
      PositionWrittenRecord(m, h, axis, v, g);
    }
  }

  lemma PositionWrittenRecord(m: Manager, h: int, axis: nat, v: real, g: int)
    requires Valid(m) && IsLive(m.slots, h) && axis < 3 && IsLive(m.slots, g)
    ensures Valid(PositionWritten(m, h, axis, v))
    ensures RecordOf(PositionWritten(m, h, axis, v), g)
              == if g == h then RecordOf(m, h).(position := RecordOf(m, h).position[axis := v]) else RecordOf(m, g)
  {
    PositionWrittenValid(m, h, axis, v);
    if m.hostPosition[SlotOf(m.slots, h) * 3 + axis] != v {
      if g != h {
        RecordsApart(SlotOf(m.slots, g), SlotOf(m.slots, h), 3);
      }
      UpdateSlot(m.hostPosition, SlotOf(m.slots, h) * 3, 3, axis, v, SlotOf(m.slots, g) * 3);
    }
  }

  /**
    The setters `setSizeX/Y` (`k` 0, 1) and `setTextureSizeU/V` (`k` 2, 3):
    same change-detecting write into the size record.
  */
  function SetSize(m: Manager, h: int, k: nat, v: int): (r: Manager)
    requires Valid(m) && IsLive(m.slots, h) && k < 4
    ensures Valid(r) && r.slots == m.slots
    ensures RecordOf(r, h) == RecordOf(m, h).(size := RecordOf(m, h).size[k := v])
    ensures forall g :: IsLive(m.slots, g) && g != h ==> RecordOf(r, g) == RecordOf(m, g)
    ensures r.dirty == m.dirty.(size := m.dirty.size || RecordOf(m, h).size[k] != v)
    ensures RecordOf(m, h).size[k] == v ==> r == m
    ensures r.deviceSize[SlotOf(m.slots, h) * 4 + k] == if RecordOf(m, h).size[k] == v then m.deviceSize[SlotOf(m.slots, h) * 4 + k] else v
    ensures forall i :: 0 <= i < |m.deviceSize| && i != SlotOf(m.slots, h) * 4 + k ==> r.deviceSize[i] == m.deviceSize[i]
    ensures Mirrored(m) ==> Mirrored(r)
    ensures r.hostPosition == m.hostPosition && r.hostOffset == m.hostOffset && r.hostTexture == m.hostTexture
  {
    SizeWrittenRecords(m, h, k, v);
    SizeWritten(m, h, k, v)
  }

  /** The manager after the write of `size` entry `k` of `h`'s slot. */
  function SizeWritten(m: Manager, h: int, k: nat, v: int): Manager
    requires Valid(m) && IsLive(m.slots, h) && k < 4
  {
    var a := SlotOf(m.slots, h) * 4 + k;
    if m.hostSize[a] == v then m
    else m.(hostSize := m.hostSize[a := v], deviceSize := m.deviceSize[a := v], dirty := m.dirty.(size := true))
  }

  lemma SizeWrittenValid(m: Manager, h: int, k: nat, v: int)
    requires Valid(m) && IsLive(m.slots, h) && k < 4
    ensures Valid(SizeWritten(m, h, k, v))
  {
  }

  lemma SizeWrittenRecords(m: Manager, h: int, k: nat, v: int)
    requires Valid(m) && IsLive(m.slots, h) && k < 4
    ensures Valid(SizeWritten(m, h, k, v))
    ensures forall g :: IsLive(m.slots, g) ==> (RecordOf(SizeWritten(m, h, k, v), g)
              == if g == h then RecordOf(m, h).(size := RecordOf(m, h).size[k := v]) else RecordOf(m, g))
  {
    SizeWrittenValid(m, h, k, v);
    var r := SizeWritten(m, h, k, v);
    forall g | IsLive(m.slots, g)
      ensures RecordOf(r, g) == if g == h then RecordOf(m, h).(size := RecordOf(m, h).size[k := v]) else RecordOf(m, g)
    {
      SizeWrittenRecord(m, h, k, v, g);
    }
  }

  lemma SizeWrittenRecord(m: Manager, h: int, k: nat, v: int, g: int)
    requires Valid(m) && IsLive(m.slots, h) && k < 4 && IsLive(m.slots, g)
    ensures Valid(SizeWritten(m, h, k, v))
    ensures RecordOf(SizeWritten(m, h, k, v), g)
              == if g == h then RecordOf(m, h).(size := RecordOf(m, h).size[k := v]) else RecordOf(m, g)
  {
    SizeWrittenValid(m, h, k, v);
    if m.hostSize[SlotOf(m.slots, h) * 4 + k] != v {
      if g != h {
        RecordsApart(SlotOf(m.slots, g), SlotOf(m.slots, h), 4);
      }
      UpdateSlot(m.hostSize, SlotOf(m.slots, h) * 4, 4, k, v, SlotOf(m.slots, g) * 4);
    }
  }

  /** The setters `setOffsetX/Y` (`k` 0, 1). */
  function SetOffset(m: Manager, h: int, k: nat, v: int): (r: Manager)
    requires Valid(m) && IsLive(m.slots, h) && k < 2
    ensures Valid(r) && r.slots == m.slots
    ensures RecordOf(r, h) == RecordOf(m, h).(offset := RecordOf(m, h).offset[k := v])
    ensures forall g :: IsLive(m.slots, g) && g != h ==> RecordOf(r, g) == RecordOf(m, g)
    ensures r.dirty == m.dirty.(offset := m.dirty.offset || RecordOf(m, h).offset[k] != v)
    ensures RecordOf(m, h).offset[k] == v ==> r == m
    ensures r.deviceOffset[SlotOf(m.slots, h) * 2 + k] == if RecordOf(m, h).offset[k] == v then m.deviceOffset[SlotOf(m.slots, h) * 2 + k] else v
    ensures forall i :: 0 <= i < |m.deviceOffset| && i != SlotOf(m.slots, h) * 2 + k ==> r.deviceOffset[i] == m.deviceOffset[i]
    ensures Mirrored(m) ==> Mirrored(r)
    ensures r.hostPosition == m.hostPosition && r.hostSize == m.hostSize && r.hostTexture == m.hostTexture
  {
    OffsetWrittenRecords(m, h, k, v);
    OffsetWritten(m, h, k, v)
  }

  /** The manager after the write of `offset` entry `k` of `h`'s slot. */
  function OffsetWritten(m: Manager, h: int, k: nat, v: int): Manager
    requires Valid(m) && IsLive(m.slots, h) && k < 2
  {
    var a := SlotOf(m.slots, h) * 2 + k;
    if m.hostOffset[a] == v then m
    else m.(hostOffset := m.hostOffset[a := v], deviceOffset := m.deviceOffset[a := v], dirty := m.dirty.(offset := true))
  }

  lemma OffsetWrittenValid(m: Manager, h: int, k: nat, v: int)
    requires Valid(m) && IsLive(m.slots, h) && k < 2
    ensures Valid(OffsetWritten(m, h, k, v))
  {
  }

  lemma OffsetWrittenRecords(m: Manager, h: int, k: nat, v: int)
    requires Valid(m) && IsLive(m.slots, h) && k < 2
    ensures Valid(OffsetWritten(m, h, k, v))
    ensures forall g :: IsLive(m.slots, g) ==> (RecordOf(OffsetWritten(m, h, k, v), g)
              == if g == h then RecordOf(m, h).(offset := RecordOf(m, h).offset[k := v]) else RecordOf(m, g))
  {
    OffsetWrittenValid(m, h, k, v);
    var r := OffsetWritten(m, h, k, v);
    forall g | IsLive(m.slots, g)
      ensures RecordOf(r, g) == if g == h then RecordOf(m, h).(offset := RecordOf(m, h).offset[k := v]) else RecordOf(m, g)
    {
      OffsetWrittenRecord(m, h, k, v, g);
    }
  }

  lemma OffsetWrittenRecord(m: Manager, h: int, k: nat, v: int, g: int)
    requires Valid(m) && IsLive(m.slots, h) && k < 2 && IsLive(m.slots, g)
    ensures Valid(OffsetWritten(m, h, k, v))
    ensures RecordOf(OffsetWritten(m, h, k, v), g)
              == if g == h then RecordOf(m, h).(offset := RecordOf(m, h).offset[k := v]) else RecordOf(m, g)
  {
    OffsetWrittenValid(m, h, k, v);
    if m.hostOffset[SlotOf(m.slots, h) * 2 + k] != v {
      if g != h {
        RecordsApart(SlotOf(m.slots, g), SlotOf(m.slots, h), 2);
      }
      UpdateSlot(m.hostOffset, SlotOf(m.slots, h) * 2, 2, k, v, SlotOf(m.slots, g) * 2);
    }
  }

  /** `setTexture`: the texture handle lives on the host only until the next flush. */
  function SetTexture(m: Manager, h: int, v: int): (r: Manager)
    requires Valid(m) && IsLive(m.slots, h)
    ensures Valid(r) && r.slots == m.slots
    ensures RecordOf(r, h) == RecordOf(m, h).(texture := v)
    ensures forall g :: IsLive(m.slots, g) && g != h ==> RecordOf(r, g) == RecordOf(m, g)
    ensures r.dirty == m.dirty.(texture := m.dirty.texture || RecordOf(m, h).texture != v)
    ensures r.deviceTexture == m.deviceTexture
    ensures Mirrored(m) ==> Mirrored(r)
  {
    var d := SlotOf(m.slots, h);
    if m.hostTexture[d] == v then m
    else m.(hostTexture := m.hostTexture[d := v], dirty := m.dirty.(texture := true))
  }

  /** The record a slot holds once it shows the default texture `(t, w, h)`. */
  function WithDefault(rec: Record, t: int, w: int, h: int): (r: Record)
    requires |rec.size| == 4
  {
    rec.(texture := t, size := rec.size[TextureU := w][TextureV := h])
  }

  /**
    `setTextureToDefault`: the slot shows the default texture and the
    default texture dimensions; the texture and size flags are raised.
  */
  function SetTextureToDefault(m: Manager, h: int): (r: Manager)
    requires Valid(m) && IsLive(m.slots, h)
    ensures Valid(r) && r.slots == m.slots
    ensures RecordOf(r, h).texture == m.defaultTexture
    ensures RecordOf(r, h).size[TextureU] == m.defaultWidth && RecordOf(r, h).size[TextureV] == m.defaultHeight
    ensures RecordOf(r, h) == WithDefault(RecordOf(m, h), m.defaultTexture, m.defaultWidth, m.defaultHeight)
    ensures forall g :: IsLive(m.slots, g) && g != h ==> RecordOf(r, g) == RecordOf(m, g)
    ensures r.dirty == m.dirty.(texture := true, size := true)
    ensures Mirrored(m) ==> Mirrored(r)
    ensures r.defaultTexture == m.defaultTexture && r.defaultWidth == m.defaultWidth && r.defaultHeight == m.defaultHeight
  {
    var d := SlotOf(m.slots, h);
    var r := DefaultSlot(m, d, m.defaultTexture, m.defaultWidth, m.defaultHeight);
    r.(dirty := m.dirty.(texture := true, size := true))
  }

  /**
    Writes the texture `t` and texture dimensions `(w, h)` into slot `d`,
    host and device; every other slot keeps its record.
  */
  function DefaultSlot(m: Manager, d: nat, t: int, w: int, h: int): (r: Manager)
    requires Valid(m) && d < m.slots.capacity
    ensures Valid(r) && r.slots == m.slots && r.dirty == m.dirty
    ensures RecordAt(r, d) == WithDefault(RecordAt(m, d), t, w, h)
    ensures forall e :: 0 <= e < m.slots.capacity && e != d ==> RecordAt(r, e) == RecordAt(m, e)
    ensures Mirrored(m) ==> Mirrored(r)
    ensures r.defaultTexture == m.defaultTexture && r.defaultWidth == m.defaultWidth && r.defaultHeight == m.defaultHeight
    ensures r.hostPosition == m.hostPosition && r.hostOffset == m.hostOffset
  {
    var size := m.hostSize[d * 4 + TextureU := w][d * 4 + TextureV := h];
    var r := m.(hostTexture := m.hostTexture[d := t], hostSize := size,
                deviceSize := m.deviceSize[d * 4 + TextureU := w][d * 4 + TextureV := h]);
    forall e | 0 <= e < m.slots.capacity
      ensures RecordAt(r, e) == if e == d then WithDefault(RecordAt(m, d), t, w, h) else RecordAt(m, e)
    {
      UpdateSlot(m.hostSize, d * 4, 4, TextureU, w, e * 4);
      UpdateSlot(m.hostSize[d * 4 + TextureU := w], d * 4, 4, TextureV, h, e * 4);
    }
    r
  }

  /** What `switchDefaultTexture` does to one record: only the old default is replaced. */
  function Switched(rec: Record, oldDefault: int, t: int, w: int, h: int): Record
    requires |rec.size| == 4
  {
    if rec.texture == oldDefault then WithDefault(rec, t, w, h) else rec
  }

  /**
    `switchDefaultTexture`: every used slot that shows the old default
    texture is switched to the new one with its dimensions; unused slots
    and other textures are untouched; the new default is adopted.
  */
  method SwitchDefaultTexture(m: Manager, t: int, w: int, h: int) returns (r: Manager)
    requires Valid(m)
    ensures Valid(r) && r.slots == m.slots
    ensures r.defaultTexture == t && r.defaultWidth == w && r.defaultHeight == h
    ensures r.dirty == m.dirty.(texture := true, size := true)
    ensures forall d :: 0 <= d < m.slots.elements ==>
              RecordAt(r, d) == Switched(RecordAt(m, d), m.defaultTexture, t, w, h)
    ensures forall d :: m.slots.elements <= d < m.slots.capacity ==> RecordAt(r, d) == RecordAt(m, d)
    ensures forall g :: IsLive(m.slots, g) ==>
              RecordOf(r, g) == Switched(RecordOf(m, g), m.defaultTexture, t, w, h)
    ensures Mirrored(m) ==> Mirrored(r)
  {
    r := m;
    var i := 0;
    while i < m.slots.elements
      invariant 0 <= i <= m.slots.elements
      invariant Valid(r) && r.slots == m.slots && r.dirty == m.dirty
      invariant r.defaultTexture == m.defaultTexture && r.defaultWidth == m.defaultWidth
      invariant r.defaultHeight == m.defaultHeight
      invariant forall d :: 0 <= d < i ==> RecordAt(r, d) == Switched(RecordAt(m, d), m.defaultTexture, t, w, h)
      invariant forall d :: i <= d < m.slots.capacity ==> RecordAt(r, d) == RecordAt(m, d)
      invariant Mirrored(m) ==> Mirrored(r)
    {
      if r.hostTexture[i] == m.defaultTexture {
        r := DefaultSlot(r, i, t, w, h);
      }
      i := i + 1;
    }
    r := r.(dirty := m.dirty.(texture := true, size := true), defaultTexture := t, defaultWidth := w,
            defaultHeight := h);
  }

  /**
    `flush`: with no rectangles nothing happens; otherwise every dirty flag
    is cleared and, when the texture flag was up, the used prefix of the
    device texture buffer is rewritten from the host.
  */
  method Flush(m: Manager) returns (r: Manager)
    requires Valid(m)
    ensures Valid(r) && r.slots == m.slots
    ensures m.slots.elements == 0 ==> r == m
    ensures m.slots.elements > 0 ==> r.dirty == AllClean
    ensures m.slots.elements > 0 && m.dirty.texture ==>
              r.deviceTexture[..m.slots.elements] == m.hostTexture[..m.slots.elements]
    ensures forall d :: m.slots.elements <= d < m.slots.capacity ==> r.deviceTexture[d] == m.deviceTexture[d]
    ensures !m.dirty.texture ==> r.deviceTexture == m.deviceTexture
    ensures r.(deviceTexture := m.deviceTexture, dirty := m.dirty) == m
  {
    if m.slots.elements == 0 {
      return m;
    }
    var device := m.deviceTexture;
    if m.dirty.texture {
      var i := 0;
      while i < m.slots.elements
        invariant 0 <= i <= m.slots.elements
        invariant |device| == |m.deviceTexture|
        invariant forall d :: 0 <= d < i ==> device[d] == m.hostTexture[d]
        invariant forall d :: i <= d < |device| ==> device[d] == m.deviceTexture[d]
      {
        device := device[i := m.hostTexture[i]];
        i := i + 1;
      }
    }
    r := m.(deviceTexture := device, dirty := AllClean);
  }

  /** `size()`: the number of rectangles in use. */
  function Size(m: Manager): nat
  {
    m.slots.elements
  }

  /** `capacity()`: the number of slots the buffers hold. */
  function Capacity(m: Manager): nat
  {
    m.slots.capacity
  }

  /** The used slots never exceed the capacity, and every handle is either in use or queued. */
  lemma SizeWithinCapacity(m: Manager)
    requires Valid(m)
    ensures Size(m) <= Capacity(m)
    ensures Size(m) + |m.slots.free| == |m.slots.indicesMap|
  {
  }
}

=== FILE: slot_map.dfy ===
/**
  The index bookkeeping shared by the rectangle and line managers.

  A primitive is known to the outside by a stable logical handle. The data
  buffers must stay packed, so each handle is mapped to a dense slot in
  `[0, elements)`: `indicesMap` goes from handle to slot and `reverseMap`
  from slot back to handle. Handles that are not in use wait in the FIFO
  queue `free`. Both managers run exactly this logic; only the data they
  move differs.
*/
module SlotMaps {

  datatype SlotMap = SlotMap(
    elements: nat,
    capacity: nat,
    indicesMap: seq<int>,
    reverseMap: seq<int>,
    free: seq<int>)

  /** Handle `h` is currently in use and owns dense slot `indicesMap[h]`. */
  predicate IsLive(m: SlotMap, h: int)
  {
    0 <= h < |m.indicesMap|
    && 0 <= m.indicesMap[h] < m.elements
    && m.indicesMap[h] < |m.reverseMap|
    && m.reverseMap[m.indicesMap[h]] == h
  }

  /** No handle occurs twice in the free queue. */
  ghost predicate Distinct(q: seq<int>)
  {
    forall k, l :: 0 <= k < l < |q| ==> q[k] != q[l]
  }

  /**
    The packing invariant: slots `[0, elements)` and live handles are in
    bijection through the two maps, and the live handles together with the
    free queue partition `[0, |indicesMap|)`.
  */
  ghost predicate Valid(m: SlotMap)
  {
    2 <= m.capacity
    && m.elements <= m.capacity <= |m.indicesMap|
    && |m.reverseMap| == m.capacity
    && |m.free| + m.elements == |m.indicesMap|
    && SlotsMapped(m) && FreeDead(m) && Distinct(m.free) && Covered(m)
  }

  /** Every used slot names a handle that names the slot back. */
  ghost predicate SlotsMapped(m: SlotMap)
  {
    forall d :: 0 <= d < m.elements ==>
      d < |m.reverseMap| && 0 <= m.reverseMap[d] < |m.indicesMap| && m.indicesMap[m.reverseMap[d]] == d
  }

  /** Every queued handle is in range and not in use. */
  ghost predicate FreeDead(m: SlotMap)
  {
    forall k :: 0 <= k < |m.free| ==> 0 <= m.free[k] < |m.indicesMap| && !IsLive(m, m.free[k])
  }

  /** Every handle in range is in use or queued. */
  ghost predicate Covered(m: SlotMap)
  {
    forall h :: 0 <= h < |m.indicesMap| ==> IsLive(m, h) || h in m.free
  }

  /** The dense slot of a live handle. */
  function SlotOf(m: SlotMap, h: int): (d: nat)
    requires Valid(m) && IsLive(m, h)
    ensures d < m.elements && m.reverseMap[d] == h
  {
    m.indicesMap[h]
  }

  /** `[lo, hi)` as a sequence, in increasing order. */
  function Range(lo: int, hi: int): (r: seq<int>)
    requires lo <= hi
    ensures |r| == hi - lo
    ensures forall k :: 0 <= k < |r| ==> r[k] == lo + k
    decreases hi - lo
  {
    if lo == hi then [] else [lo] + Range(lo + 1, hi)
  }

  /** The freshly constructed map: every handle of `[0, capacity)` is free, in order. */
  function Init(capacity: nat): (m: SlotMap)
    requires 2 <= capacity
    ensures Valid(m)
    ensures m.elements == 0 && m.capacity == capacity
    ensures m.free == Range(0, capacity)
    ensures forall h :: !IsLive(m, h)
  {
    var r := SlotMap(0, capacity, seq(capacity, _ => 0), seq(capacity, _ => 0), Range(0, capacity));
    forall h | 0 <= h < capacity
      ensures h in r.free
    {
      assert r.free[h] == h;
    }
    r
  }

  /**
    Hands out the handle at the head of the free queue and maps it to the
    first unused slot. The caller has already grown the buffers when full.
  */
  function Acquire(m: SlotMap): (r: (SlotMap, int))
    requires Valid(m) && m.elements < m.capacity
    ensures Valid(r.0)
    ensures r.1 == m.free[0]
    ensures r.0.elements == m.elements + 1 && r.0.capacity == m.capacity
    ensures |r.0.indicesMap| == |m.indicesMap|
    ensures r.0.free == m.free[1..]
    ensures IsLive(r.0, r.1) && !IsLive(m, r.1) && SlotOf(r.0, r.1) == m.elements
    ensures forall g :: IsLive(m, g) ==> IsLive(r.0, g) && SlotOf(r.0, g) == SlotOf(m, g)
    ensures forall g :: IsLive(r.0, g) ==> IsLive(m, g) || g == r.1
  {
    AcquiredLive(m);
    AcquiredFree(m);
    AcquiredCovered(m);
    (Acquired(m), m.free[0])
  }

  /** The map `Acquire` builds: the head of the queue takes the first unused slot. */
  function Acquired(m: SlotMap): SlotMap
    requires Valid(m) && m.elements < m.capacity
  {
    var h := m.free[0];
    m.(indicesMap := m.indicesMap[h := m.elements],
       reverseMap := m.reverseMap[m.elements := h],
       free := m.free[1..],
       elements := m.elements + 1)
  }

  lemma AcquiredLive(m: SlotMap)
    requires Valid(m) && m.elements < m.capacity
    ensures IsLive(Acquired(m), m.free[0]) && !IsLive(m, m.free[0])
    ensures Acquired(m).indicesMap[m.free[0]] == m.elements
    ensures forall g :: IsLive(m, g) ==> IsLive(Acquired(m), g) && Acquired(m).indicesMap[g] == m.indicesMap[g]
    ensures forall g :: IsLive(Acquired(m), g) ==> IsLive(m, g) || g == m.free[0]
    ensures SlotsMapped(Acquired(m))
  {
    var h := m.free[0];
    assert forall d :: 0 <= d < m.elements ==> m.reverseMap[d] != h by {
      forall d | 0 <= d < m.elements
        ensures m.reverseMap[d] != h
      {
        assert IsLive(m, m.reverseMap[d]);
      }
    }
    assert forall g :: IsLive(m, g) ==> g != h;
  }

  lemma AcquiredFree(m: SlotMap)
    requires Valid(m) && m.elements < m.capacity
    ensures FreeDead(Acquired(m)) && Distinct(Acquired(m).free)
  {
    var r := Acquired(m);
    var h := m.free[0];
    AcquiredLive(m);
    forall k | 0 <= k < |r.free|
      ensures 0 <= r.free[k] < |r.indicesMap| && !IsLive(r, r.free[k])
    {
      assert r.free[k] == m.free[k + 1];
      assert m.free[k + 1] != h;
    }
    forall k, l | 0 <= k < l < |r.free|
      ensures r.free[k] != r.free[l]
    {
      assert r.free[k] == m.free[k + 1] && r.free[l] == m.free[l + 1];
    }
  }

  lemma AcquiredCovered(m: SlotMap)
    requires Valid(m) && m.elements < m.capacity
    ensures Covered(Acquired(m))
  {
    var r := Acquired(m);
    var h := m.free[0];
    AcquiredLive(m);
    forall g | 0 <= g < |r.indicesMap|
      ensures IsLive(r, g) || g in r.free
    {
      if g != h && !IsLive(m, g) {
        assert g in m.free;
        var k :| 0 <= k < |m.free| && m.free[k] == g;
        assert k != 0;
        assert r.free[k - 1] == g;
      }
    }
  }

  /**
    Returns handle `h` to the back of the free queue and moves the handle of
    the last slot into the slot `h` vacates. The caller moves the data the
    same way: from slot `r.elements` to slot `SlotOf(m, h)`.
  */
  function Release(m: SlotMap, h: int): (r: SlotMap)
    requires Valid(m) && IsLive(m, h)
    ensures Valid(r)
    ensures r.elements == m.elements - 1 && r.capacity == m.capacity
    ensures |r.indicesMap| == |m.indicesMap|
    ensures r.free == m.free + [h]
    ensures !IsLive(r, h)
    ensures forall g :: IsLive(r, g) <==> IsLive(m, g) && g != h
    ensures forall g :: IsLive(r, g) ==>
              SlotOf(r, g) == (if SlotOf(m, g) == r.elements then SlotOf(m, h) else SlotOf(m, g))
  {
    ReleasedLive(m, h);
    ReleasedSlots(m, h);
    ReleasedFree(m, h);
    ReleasedCovered(m, h);
    Released(m, h)
  }

  /** The map `Release` builds: the last slot's handle moves into the vacated slot. */
  function Released(m: SlotMap, h: int): SlotMap
    requires Valid(m) && IsLive(m, h)
  {
    var dense := m.indicesMap[h];
    var lastIndex := m.reverseMap[m.elements - 1];
    m.(free := m.free + [h],
       reverseMap := m.reverseMap[m.elements - 1 := -1][dense := lastIndex],
       indicesMap := m.indicesMap[lastIndex := dense],
       elements := m.elements - 1)
  }

  lemma ReleasedLive(m: SlotMap, h: int)
    requires Valid(m) && IsLive(m, h)
    ensures forall g :: IsLive(Released(m, h), g) <==> IsLive(m, g) && g != h
    ensures forall g :: IsLive(Released(m, h), g) ==>
              Released(m, h).indicesMap[g] == (if m.indicesMap[g] == m.elements - 1 then m.indicesMap[h] else m.indicesMap[g])
  {
    var r := Released(m, h);
    var dense := m.indicesMap[h];
    var lastIndex := m.reverseMap[m.elements - 1];
    assert IsLive(m, lastIndex);
    assert forall g :: IsLive(m, g) && g != h && g != lastIndex ==> m.indicesMap[g] != dense;
    assert forall g :: IsLive(m, g) && g != h && g != lastIndex ==> m.indicesMap[g] < m.elements - 1;
    forall g | IsLive(r, g)
      ensures IsLive(m, g) && g != h
    {
      if g == lastIndex {
        assert dense < m.elements - 1;
        assert h != lastIndex;
      } else {
        assert r.indicesMap[g] == m.indicesMap[g];
        var d := m.indicesMap[g];
        assert d != dense;
        assert m.reverseMap[d] == g;
      }
    }
  }

  lemma ReleasedSlots(m: SlotMap, h: int)
    requires Valid(m) && IsLive(m, h)
    ensures SlotsMapped(Released(m, h))
  {
    var r := Released(m, h);
    var dense := m.indicesMap[h];
    forall d | 0 <= d < r.elements
      ensures d < |r.reverseMap| && 0 <= r.reverseMap[d] < |r.indicesMap| && r.indicesMap[r.reverseMap[d]] == d
    {
      if d != dense {
        assert IsLive(m, m.reverseMap[d]);
      }
    }
  }

  lemma ReleasedFree(m: SlotMap, h: int)
    requires Valid(m) && IsLive(m, h)
    ensures FreeDead(Released(m, h)) && Distinct(Released(m, h).free)
  {
    var r := Released(m, h);
    ReleasedLive(m, h);
    forall k | 0 <= k < |r.free|
      ensures 0 <= r.free[k] < |r.indicesMap| && !IsLive(r, r.free[k])
    {
      if k < |m.free| {
        assert r.free[k] == m.free[k];
        assert !IsLive(m, m.free[k]);
      }
    }
    forall k, l | 0 <= k < l < |r.free|
      ensures r.free[k] != r.free[l]
    {
      if l == |m.free| {
        assert r.free[k] == m.free[k];
        assert !IsLive(m, m.free[k]);
      }
    }
  }

  lemma ReleasedCovered(m: SlotMap, h: int)
    requires Valid(m) && IsLive(m, h)
    ensures Covered(Released(m, h))
  {
    var r := Released(m, h);
    ReleasedLive(m, h);
    forall g | 0 <= g < |r.indicesMap|
      ensures IsLive(r, g) || g in r.free
    {
      if g == h {
        assert r.free[|m.free|] == h;
      } else if !IsLive(m, g) {
        assert g in m.free;
        var k :| 0 <= k < |m.free| && m.free[k] == g;
        assert r.free[k] == g;
      }
    }
  }

  /**
    The map part of `resize`: `reverseMap` keeps its first `min(old, new)`
    entries, and only when the new capacity exceeds `|indicesMap|` does the
    handle range grow, the new handles joining the back of the free queue.
  */
  function ResizeMaps(m: SlotMap, newCapacity: nat): (r: SlotMap)
    requires Valid(m) && 2 <= newCapacity && m.elements <= newCapacity
    ensures Valid(r)
    ensures r.elements == m.elements && r.capacity == newCapacity
    ensures |r.indicesMap| == if newCapacity > |m.indicesMap| then newCapacity else |m.indicesMap|
    ensures r.free == if newCapacity > |m.indicesMap| then m.free + Range(|m.indicesMap|, newCapacity) else m.free
    ensures forall g :: IsLive(r, g) <==> IsLive(m, g)
    ensures forall g :: IsLive(r, g) ==> SlotOf(r, g) == SlotOf(m, g)
  {
    var keep := if newCapacity < m.capacity then newCapacity else m.capacity;
    var rm := m.reverseMap[..keep] + seq(newCapacity - keep, _ => 0);
    var kept := m.(capacity := newCapacity, reverseMap := rm);
    KeptMapsLive(m, kept);
    if newCapacity > |m.indicesMap| then GrowHandles(kept) else kept
  }

  /** Truncating or zero-extending `reverseMap` beyond the used slots changes no liveness. */
  lemma KeptMapsLive(m: SlotMap, r: SlotMap)
    requires Valid(m) && 2 <= r.capacity && m.elements <= r.capacity
    requires r == m.(capacity := r.capacity, reverseMap := r.reverseMap)
    requires |r.reverseMap| == r.capacity
    requires forall d :: 0 <= d < m.elements ==> r.reverseMap[d] == m.reverseMap[d]
    ensures forall g :: IsLive(r, g) <==> IsLive(m, g)
    ensures r.capacity <= |r.indicesMap| ==> Valid(r)
  {
    forall g
      ensures IsLive(r, g) <==> IsLive(m, g)
    {
      if 0 <= g < |m.indicesMap| && 0 <= m.indicesMap[g] < m.elements {
        assert r.reverseMap[m.indicesMap[g]] == m.reverseMap[m.indicesMap[g]];
      }
    }
  }

  /**
    Extends the handle range to the capacity: the new handles are mapped to
    slot 0 and join the back of the free queue.
  */
  function GrowHandles(m: SlotMap): (r: SlotMap)
    requires GrowReady(m)
    ensures Valid(r)
    ensures r == m.(indicesMap := r.indicesMap, free := m.free + Range(|m.indicesMap|, m.capacity))
    ensures |r.indicesMap| == m.capacity
    ensures forall g :: IsLive(r, g) <==> IsLive(m, g)
  {
    GrownLive(m);
    GrownFree(m);
    GrownCovered(m);
    Grown(m)
  }

  /** Valid, except that the handle range is still shorter than the capacity. */
  ghost predicate GrowReady(m: SlotMap)
  {
    2 <= m.capacity && m.elements <= m.capacity && |m.indicesMap| < m.capacity
    && |m.reverseMap| == m.capacity && |m.free| + m.elements == |m.indicesMap|
    && SlotsMapped(m) && FreeDead(m) && Distinct(m.free) && Covered(m)
  }

  /** The map `GrowHandles` builds. */
  function Grown(m: SlotMap): SlotMap
    requires |m.indicesMap| <= m.capacity
  {
    m.(indicesMap := m.indicesMap + seq(m.capacity - |m.indicesMap|, _ => 0),
       free := m.free + Range(|m.indicesMap|, m.capacity))
  }

  lemma GrownLive(m: SlotMap)
    requires GrowReady(m)
    ensures forall g :: IsLive(Grown(m), g) <==> IsLive(m, g)
    ensures SlotsMapped(Grown(m))
  {
    var r := Grown(m);
    forall g
      ensures IsLive(r, g) <==> IsLive(m, g)
    {
      if 0 <= g < |m.indicesMap| {
        assert r.indicesMap[g] == m.indicesMap[g];
      }
    }
  }

  lemma GrownFree(m: SlotMap)
    requires GrowReady(m)
    ensures FreeDead(Grown(m)) && Distinct(Grown(m).free)
  {
    var r := Grown(m);
    var added := Range(|m.indicesMap|, m.capacity);
    GrownLive(m);
    forall k, l | 0 <= k < l < |r.free|
      ensures r.free[k] != r.free[l]
    {
      if k >= |m.free| {
        assert r.free[k] == added[k - |m.free|];
        assert r.free[l] == added[l - |m.free|];
      } else if l >= |m.free| {
        assert r.free[k] == m.free[k];
        assert r.free[l] == added[l - |m.free|];
      }
    }
    forall k | 0 <= k < |r.free|
      ensures 0 <= r.free[k] < |r.indicesMap| && !IsLive(r, r.free[k])
    {
      if k < |m.free| {
        assert r.free[k] == m.free[k];
      } else {
        assert r.free[k] == added[k - |m.free|];
      }
    }
  }

  lemma GrownCovered(m: SlotMap)
    requires GrowReady(m)
    ensures Covered(Grown(m))
  {
    var r := Grown(m);
    var n := |m.indicesMap|;
    var added := Range(n, m.capacity);
    GrownLive(m);
    forall g | 0 <= g < |r.indicesMap|
      ensures IsLive(r, g) || g in r.free
    {
      if g < n {
        if !IsLive(m, g) {
          var k :| 0 <= k < |m.free| && m.free[k] == g;
          assert r.free[k] == g;
        }
      } else {
        assert added[g - n] == g;
        assert r.free[|m.free| + (g - n)] == g;
      }
    }
  }

  /** The capacity `create` grows to when every slot is taken. */
  function GrownCapacity(capacity: nat): nat
  {
    capacity * 3 / 2
  }

  /** The capacity `delete` shrinks to once fewer than half the slots are used. */
  function ShrunkCapacity(capacity: nat): nat
  {
    if 10 > capacity * 2 / 3 then 10 else capacity * 2 / 3
  }

  /** Growth is strict exactly because the capacity is at least 2. */
  lemma GrowthIsStrict(capacity: nat)
    requires 2 <= capacity
    ensures capacity < GrownCapacity(capacity)
  {
  }

  /** From capacity 1 the growth rule stays at 1, so creating a second primitive would fail. */
  lemma GrowthStallsAtOne()
    ensures GrownCapacity(1) == 1
  {
  }

  /** A shrink never drops below the number of used slots, nor below 2. */
  lemma ShrinkKeepsElements(elements: nat, capacity: nat)
    requires elements < capacity / 2
    ensures elements < ShrunkCapacity(capacity) && 2 <= ShrunkCapacity(capacity)
  {
  }
}

=== FILE: view_locks.dfy ===
/**
  Visual-property values and locks of a node or edge view
  (viewmodel/ZZView.java): regular values, direct locks and all locks
  (direct plus those inherited from a locked ancestor property), the
  resolution order of `getVisualProperty`, and the breadth-first lock
  propagation and release over the lexicon tree.

  Java `null` values are `None`. `applyVisualProperty` is the subclass's
  hook; the model reports whether it is called, not what it does. The
  lexicon lookup `getVisualLexiconNode` is replaced by passing the
  property's node.
*/
module ViewLocks {
  import opened Wrappers
  import opened LexiconTree

  datatype View = View(values: map<Prop, int>, direct: map<Prop, Option<int>>, all: map<Prop, Option<int>>)

  const Unlocked := View(map[], map[], map[])

  /** Every direct lock is also in the all-locks map, with the same value. */
  ghost predicate Coherent(v: View)
  {
    forall p :: p in v.direct ==> p in v.all && v.all[p] == v.direct[p]
  }

  predicate IsValueLocked(v: View, p: Prop)
  {
    p in v.all
  }

  predicate IsDirectlyLocked(v: View, p: Prop)
  {
    p in v.direct
  }

  /**
    `getVisualProperty`: the first non-null of the direct lock, the
    inherited lock, the regular value and the vault's default
    (`vaultDefault`, the subclass's `getDefaultValue`); failing all four,
    the property's own default.
  */
  function GetVisualProperty(v: View, p: Prop, vaultDefault: Option<int>): (r: int)
    ensures p in v.direct && v.direct[p].Some? ==> r == v.direct[p].value
    ensures r == p.default
            || (p in v.direct && v.direct[p] == Some(r))
            || (p in v.all && v.all[p] == Some(r))
            || (p in v.values && r == v.values[p])
            || vaultDefault == Some(r)
    ensures p !in v.all && p !in v.direct && p in v.values ==> r == v.values[p]
    ensures p !in v.all && p !in v.direct && p !in v.values ==> r == Fallback(p, vaultDefault)
  {
    if p in v.direct && v.direct[p].Some? then v.direct[p].value
    else if p in v.all && v.all[p].Some? then v.all[p].value
    else if p in v.values then v.values[p]
    else Fallback(p, vaultDefault)
  }

  /** The value a property shows with nothing set or locked. */
  function Fallback(p: Prop, vaultDefault: Option<int>): int
  {
    if vaultDefault.Some? then vaultDefault.value else p.default
  }

  /**
    `setVisualProperty`: `null` removes the regular value, anything else
    stores it; the result's second half says whether the value is applied,
    which happens unless the property is a selection property or locked.
  */
  function SetVisualProperty(v: View, p: Prop, value: Option<int>): (r: (View, bool))
    ensures r.0.direct == v.direct && r.0.all == v.all
    ensures value.None? ==> p !in r.0.values
    ensures value.Some? ==> p in r.0.values && r.0.values[p] == value.value
    ensures forall q :: q != p ==> (q in r.0.values <==> q in v.values)
    ensures forall q :: q != p && q in v.values ==> r.0.values[q] == v.values[q]
    ensures r.1 <==> !p.isSelection && !IsValueLocked(v, p)
  {
    var values := if value.None? then v.values - {p} else v.values[p := value.value];
    (v.(values := values), !p.isSelection && !IsValueLocked(v, p))
  }

  /** A regular value set on an unlocked property is what the getter returns; `null` exposes the defaults. */
  lemma SetThenGet(v: View, p: Prop, value: Option<int>, vaultDefault: Option<int>)
    requires p !in v.all && p !in v.direct
    ensures GetVisualProperty(SetVisualProperty(v, p, value).0, p, vaultDefault)
            == (if value.Some? then value.value else Fallback(p, vaultDefault))
  {
  }

  /** A regular value never shows through a lock. */
  lemma LockHidesRegularValue(v: View, p: Prop, value: Option<int>, vaultDefault: Option<int>)
    requires Coherent(v) && p in v.all && v.all[p].Some?
    ensures GetVisualProperty(SetVisualProperty(v, p, value).0, p, vaultDefault) == GetVisualProperty(v, p, vaultDefault)
    ensures !SetVisualProperty(v, p, value).1
  {
  }

  /**
    The reference for `setLockedValue`: the property is locked directly,
    and every property of the same class that the walk from its children
    reaches without entering a directly locked node inherits the value.
  */
  function Locked(v: View, node: Node, value: Option<int>): View
  {
    var stop := v.direct.Keys + {node.vp};
    var inherited := set p | p in Reach(node.children, stop, None) && p.kind == node.vp.kind;
    View(v.values, v.direct[node.vp := value], Inherit(v.all, inherited, value)[node.vp := value])
  }

  /** `all` with every property of `marked` locked to `value`. */
  function Inherit(all: map<Prop, Option<int>>, marked: set<Prop>, value: Option<int>): (r: map<Prop, Option<int>>)
    ensures r.Keys == all.Keys + marked
    ensures forall p :: p in marked ==> r[p] == value
    ensures forall p :: p in all && p !in marked ==> r[p] == all[p]
  {
    map p | p in all.Keys + marked :: if p in marked then value else all[p]
  }

  /** What `setLockedValue` changes: the property's two entries, and inherited locks of the same class only. */
  lemma LockedEffect(v: View, node: Node, value: Option<int>)
    ensures Locked(v, node, value).values == v.values
    ensures Locked(v, node, value).direct.Keys == v.direct.Keys + {node.vp}
    ensures Locked(v, node, value).direct[node.vp] == value && Locked(v, node, value).all[node.vp] == value
    ensures forall p :: p in Locked(v, node, value).all && p !in v.all ==> p.kind == node.vp.kind
    ensures Coherent(v) ==> Coherent(Locked(v, node, value))
    ensures Coherent(v) ==> forall p :: p in v.direct && p != node.vp ==> Locked(v, node, value).all[p] == v.all[p]
  {
  }

  /** `setLockedValue`, with the breadth-first walk. */
  method SetLockedValue(v: View, node: Node, value: Option<int>) returns (r: View)
    ensures r == Locked(v, node, value)
  {
    var direct := v.direct[node.vp := value];
    assert direct.Keys == v.direct.Keys + {node.vp};
    var visited := Walk(node.children, direct.Keys, None);
    var marked := set p | p in visited && p.kind == node.vp.kind;
    r := View(v.values, direct, Inherit(v.all, marked, value)[node.vp := value]);
  }

  /**
    The reference for `clearValueLock` as written: the direct lock goes,
    and the walk from the property's own node removes inherited locks; it
    enters only nodes of the property's class that are not directly
    locked, so it does not pass through a node of another class.
  */
  function Cleared(v: View, node: Node): View
  {
    var stop := v.direct.Keys - {node.vp};
    var removed := Reach([node], stop, Some(node.vp.kind));
    View(v.values, v.direct - {node.vp}, v.all - removed)
  }

  /** `clearValueLock` as written, with the breadth-first walk. */
  method ClearValueLock(v: View, node: Node) returns (r: View)
    ensures r == Cleared(v, node)
  {
    var direct := v.direct - {node.vp};
    var removed := Walk([node], direct.Keys, Some(node.vp.kind));
    r := View(v.values, direct, v.all - removed);
  }

  /** After `clearValueLock` the property is in neither lock map and other direct locks are untouched. */
  lemma ClearedEffect(v: View, node: Node)
    ensures node.vp !in Cleared(v, node).direct && node.vp !in Cleared(v, node).all
    ensures Cleared(v, node).direct == v.direct - {node.vp} && Cleared(v, node).values == v.values
    ensures Cleared(v, node).all.Keys <= v.all.Keys
    ensures Coherent(v) ==> Coherent(Cleared(v, node))
  {
    var stop := v.direct.Keys - {node.vp};
    assert node.vp in Reach([node], stop, Some(node.vp.kind));
  }

  /** Clearing a lock the property did not have before reverts what the getter shows for it. */
  lemma LockThenClearShowsRegular(v: View, node: Node, value: Option<int>, vaultDefault: Option<int>)
    requires node.vp !in v.direct && node.vp !in v.all
    ensures GetVisualProperty(Cleared(Locked(v, node, value), node), node.vp, vaultDefault)
            == GetVisualProperty(v, node.vp, vaultDefault)
  {
    ClearedEffect(Locked(v, node, value), node);
  }

  /** A tree in which a property of another class sits between two of the same class. */
  const Outer := Prop(1, 1, false, false, 0)
  const Between := Prop(2, 2, false, false, 0)
  const Inner := Prop(3, 1, false, false, 0)
  const Sandwich := Node(Outer, [Node(Between, [Node(Inner, [])])])

  /**
    Locking walks through the property of the other class and locks the
    inner one; releasing stops there, so the inner property keeps an
    inherited lock with no direct lock above it, and the getter keeps
    returning the released value.
  */
  lemma StaleInheritedLock()
    ensures Locked(Unlocked, Sandwich, Some(5)).all == map[Outer := Some(5), Inner := Some(5)]
    ensures Cleared(Locked(Unlocked, Sandwich, Some(5)), Sandwich).direct == map[]
    ensures Cleared(Locked(Unlocked, Sandwich, Some(5)), Sandwich).all == map[Inner := Some(5)]
    ensures GetVisualProperty(Cleared(Locked(Unlocked, Sandwich, Some(5)), Sandwich), Inner, None) == 5
  {
    var inner := Node(Inner, []);
    var between := Node(Between, [inner]);
    assert Sandwich.children == [between];
    assert Reach(Sandwich.children, {Outer}, None) == {Between, Inner} by {
      assert Reach([inner], {Outer}, None) == {Inner};
      assert Reach(between.children, {Outer}, None) == {Inner};
    }
    assert Unlocked.direct.Keys + {Outer} == {Outer};
    var inherited := set p | p in Reach(Sandwich.children, {Outer}, None) && p.kind == Outer.kind;
    assert inherited == {Inner};
    var locked := Locked(Unlocked, Sandwich, Some(5));
    assert locked.all.Keys == {Outer, Inner};
    assert locked.all == map[Outer := Some(5), Inner := Some(5)];
    assert Reach([Sandwich], {}, Some(1)) == {Outer} by {
      assert Reach([between], {}, Some(1)) == {};
      assert Reach(Sandwich.children, {}, Some(1)) == {};
    }
    var cleared := Cleared(locked, Sandwich);
    assert locked.direct.Keys - {Outer} == {};
    assert cleared.all.Keys == {Inner};
  }

  /**
    The release that mirrors propagation: it walks through nodes of every
    class, as locking does, and removes the inherited locks of the
    property's class.
  */
  function ClearedCorrected(v: View, node: Node): View
  {
    var stop := v.direct.Keys - {node.vp};
    var removed := set p | p in Reach([node], stop, None) && p.kind == node.vp.kind;
    View(v.values, v.direct - {node.vp}, v.all - removed)
  }

  /** The corrected `clearValueLock`, with the breadth-first walk. */
  method ClearValueLockCorrected(v: View, node: Node) returns (r: View)
    ensures r == ClearedCorrected(v, node)
  {
    var direct := v.direct - {node.vp};
    var visited := Walk([node], direct.Keys, None);
    var removed := set p | p in visited && p.kind == node.vp.kind;
    r := View(v.values, direct, v.all - removed);
  }

  /** The corrected release keeps the same promises as the original one. */
  lemma ClearedCorrectedEffect(v: View, node: Node)
    ensures node.vp !in ClearedCorrected(v, node).direct && node.vp !in ClearedCorrected(v, node).all
    ensures ClearedCorrected(v, node).direct == v.direct - {node.vp}
    ensures ClearedCorrected(v, node).values == v.values
    ensures Coherent(v) ==> Coherent(ClearedCorrected(v, node))
  {
    var stop := v.direct.Keys - {node.vp};
    assert node.vp in Reach([node], stop, None);
  }

  /**
    Locking a property whose subtree holds no locks of its class and
    releasing it with the corrected walk restores the view exactly.
  */
  lemma LockThenClearRestores(v: View, node: Node, value: Option<int>)
    requires node.vp !in v.direct
    requires forall p :: p in Reach([node], v.direct.Keys, None) && p.kind == node.vp.kind ==> p !in v.all
    ensures ClearedCorrected(Locked(v, node, value), node) == v
  {
    var locked := Locked(v, node, value);
    var lockStop := v.direct.Keys + {node.vp};
    assert locked.direct.Keys - {node.vp} == v.direct.Keys;
    ReachAntitone(node.children, v.direct.Keys, lockStop, None);
    assert Reach([node], v.direct.Keys, None) == {node.vp} + Reach(node.children, v.direct.Keys, None);
    assert locked.direct - {node.vp} == v.direct;
    var removed := set p | p in Reach([node], v.direct.Keys, None) && p.kind == node.vp.kind;
    assert locked.all - removed == v.all;
  }

  /** The as-written release does not restore the view the sandwich tree was locked from. */
  lemma LockThenClearAsWrittenDiffers()
    ensures Cleared(Locked(Unlocked, Sandwich, Some(5)), Sandwich) != Unlocked
    ensures ClearedCorrected(Locked(Unlocked, Sandwich, Some(5)), Sandwich) == Unlocked
  {
    StaleInheritedLock();
    LockThenClearRestores(Unlocked, Sandwich, Some(5));
  }

  /**
    `isSet`: a regular value, a non-null inherited lock, or a vault
    default exists.
  */
  function IsSet(v: View, p: Prop, vaultDefault: Option<int>): (r: bool)
    ensures !r && Coherent(v) ==> GetVisualProperty(v, p, vaultDefault) == p.default
    ensures r && p !in v.all && p !in v.direct && p !in v.values ==> GetVisualProperty(v, p, vaultDefault) == Fallback(p, vaultDefault)
  {
    p in v.values || (p in v.all && v.all[p].Some?) || vaultDefault.Some?
  }

  /** `clearVisualProperties`: only the regular values of properties that ignore defaults remain; locks stay. */
  function ClearVisualProperties(v: View): (r: View)
    ensures r.direct == v.direct && r.all == v.all
    ensures forall p :: p in r.values <==> p in v.values && p.ignoresDefault
    ensures forall p :: p in r.values ==> r.values[p] == v.values[p]
  {
    v.(values := map p | p in v.values && p.ignoresDefault :: v.values[p])
  }

  /** After clearing, an unlocked property that honours defaults shows its default again. */
  lemma ClearedPropertyShowsDefault(v: View, p: Prop, vaultDefault: Option<int>)
    requires !p.ignoresDefault && p !in v.all && p !in v.direct
    ensures GetVisualProperty(ClearVisualProperties(v), p, vaultDefault) == Fallback(p, vaultDefault)
  {
  }
}

=== FILE: visual_lexicon.dfy ===
/**
  The renderer's custom-graphics property tables and its unsupported set
  (viewmodel/ZZVisualLexicon.java). Properties are named by what they
  are; the numbered custom-graphics properties carry their number, 1 to 9.
*/
module VisualLexicon {
  import opened Wrappers
  import NodeViews

  datatype VisualProp =
    | CustomGraphics(n: int)
    | CustomGraphicsSize(n: int)
    | CustomGraphicsPosition(n: int)
    | CustomPaint(n: int)
    | NodeLabelPosition
    | NodeTransparency
    | NodeBorderTransparency
    | NodeLabelTransparency
    | NodeDepth
    | EdgeTransparency
    | EdgeLabelTransparency
    | EdgeBend
    | OtherBasic(name: string)

  /** `numCustomGraphics`. */
  const NumCustomGraphics: int := 9

  /** `CG`, `CG_SIZE` and `CG_POSITIONS`, filled in property-number order. */
  const CgList: seq<VisualProp> := [CustomGraphics(1), CustomGraphics(2), CustomGraphics(3), CustomGraphics(4), CustomGraphics(5), CustomGraphics(6), CustomGraphics(7), CustomGraphics(8), CustomGraphics(9)]
  const CgSizeList: seq<VisualProp> := [CustomGraphicsSize(1), CustomGraphicsSize(2), CustomGraphicsSize(3), CustomGraphicsSize(4), CustomGraphicsSize(5), CustomGraphicsSize(6), CustomGraphicsSize(7), CustomGraphicsSize(8), CustomGraphicsSize(9)]
  const CgPositionList: seq<VisualProp> := [CustomGraphicsPosition(1), CustomGraphicsPosition(2), CustomGraphicsPosition(3), CustomGraphicsPosition(4), CustomGraphicsPosition(5), CustomGraphicsPosition(6), CustomGraphicsPosition(7), CustomGraphicsPosition(8), CustomGraphicsPosition(9)]

  /** No entry twice. */
  predicate Distinct(s: seq<VisualProp>)
  {
    forall i, j :: 0 <= i < j < |s| ==> s[i] != s[j]
  }

  /** The map the static initialiser builds with one `put` per index, in order. */
  function Zip(ks: seq<VisualProp>, vs: seq<VisualProp>): (m: map<VisualProp, VisualProp>)
    requires |ks| == |vs|
    ensures forall k :: k in m <==> k in ks
    ensures Distinct(ks) ==> forall i :: 0 <= i < |ks| ==> m[ks[i]] == vs[i]
    decreases |ks|
  {
    if |ks| == 0 then map[]
    else
      var n := |ks| - 1;
      var m := Zip(ks[..n], vs[..n]);
      assert forall k :: k in ks <==> k in ks[..n] || k == ks[n];
      m[ks[n] := vs[n]]
  }

  /** Zipping the other way round undoes a zip of two duplicate-free lists. */
  lemma ZipInverse(ks: seq<VisualProp>, vs: seq<VisualProp>)
    requires |ks| == |vs| && Distinct(ks) && Distinct(vs)
    ensures forall k :: k in Zip(ks, vs) ==> Zip(ks, vs)[k] in Zip(vs, ks) && Zip(vs, ks)[Zip(ks, vs)[k]] == k
    ensures forall v :: v in Zip(vs, ks) <==> v in Zip(ks, vs).Values
  {
    var m := Zip(ks, vs);
    var inv := Zip(vs, ks);
    forall k | k in m
      ensures m[k] in inv && inv[m[k]] == k
    {
      var i :| 0 <= i < |ks| && ks[i] == k;
      assert m[k] == vs[i];
    }
    forall v | v in inv
      ensures v in m.Values
    {
      var i :| 0 <= i < |vs| && vs[i] == v;
      assert m[ks[i]] == v;
    }
  }

  /** `CG_TO_SIZE`. */
  const CgToSize: map<VisualProp, VisualProp> := Zip(CgList, CgSizeList)

  /** `CG_TO_POSITION`. */
  const CgToPosition: map<VisualProp, VisualProp> := Zip(CgList, CgPositionList)

  /** `SIZE_TO_CG`. */
  const SizeToCg: map<VisualProp, VisualProp> := Zip(CgSizeList, CgList)

  /** Each list holds its kind of property numbered by position, so no list repeats an entry. */
  lemma Tables()
    ensures forall i :: 0 <= i < NumCustomGraphics ==>
              CgList[i] == CustomGraphics(i + 1) && CgSizeList[i] == CustomGraphicsSize(i + 1)
              && CgPositionList[i] == CustomGraphicsPosition(i + 1)
    ensures Distinct(CgList) && Distinct(CgSizeList) && Distinct(CgPositionList)
  {
  }

  /** The three lists have one entry per custom-graphics slot, and agree with the node view's slot count. */
  lemma ListsAligned()
    ensures |CgList| == |CgSizeList| == |CgPositionList| == NumCustomGraphics == NodeViews.NumCustomGraphics
    ensures forall i :: 0 <= i < NumCustomGraphics ==>
              CgList[i].n == CgSizeList[i].n == CgPositionList[i].n == i + 1
  {
  }

  /** `getAssociatedCGSizeVP`: the size property at the same index; `None` (Java `null`) off the table. */
  function AssociatedSize(vp: VisualProp): (r: Option<VisualProp>)
    ensures forall i :: 0 <= i < NumCustomGraphics && vp == CgList[i] ==> r == Some(CgSizeList[i])
    ensures vp !in CgList ==> r.None?
  {
    Tables();
    if vp in CgToSize then Some(CgToSize[vp]) else None
  }

  /** `getAssociatedCGPositionVP`: the position property at the same index; `None` off the table. */
  function AssociatedPosition(vp: VisualProp): (r: Option<VisualProp>)
    ensures forall i :: 0 <= i < NumCustomGraphics && vp == CgList[i] ==> r == Some(CgPositionList[i])
    ensures vp !in CgList ==> r.None?
  {
    Tables();
    if vp in CgToPosition then Some(CgToPosition[vp]) else None
  }

  /** `getAssociatedCGVisualProperties`: the custom-graphics property of a size property; `None` off the table. */
  function AssociatedCustomGraphics(vp: VisualProp): (r: Option<VisualProp>)
    ensures forall i :: 0 <= i < NumCustomGraphics && vp == CgSizeList[i] ==> r == Some(CgList[i])
    ensures vp !in CgSizeList ==> r.None?
  {
    Tables();
    if vp in SizeToCg then Some(SizeToCg[vp]) else None
  }

  /** `SIZE_TO_CG` undoes `CG_TO_SIZE` and the other way round: the two maps are exact inverses. */
  lemma SizeTableInverse()
    ensures SizeToCg.Keys == CgToSize.Values && CgToSize.Keys == SizeToCg.Values
    ensures forall vp :: vp in CgToSize ==> AssociatedCustomGraphics(CgToSize[vp]) == Some(vp)
    ensures forall vp :: vp in SizeToCg ==> AssociatedSize(SizeToCg[vp]) == Some(vp)
  {
    SizeTableKeys();
    CgToSizeInverse();
    SizeToCgInverse();
  }

  lemma SizeTableKeys()
    ensures SizeToCg.Keys == CgToSize.Values && CgToSize.Keys == SizeToCg.Values
  {
    Tables();
    ZipKeysValues(CgList, CgSizeList);
    ZipKeysValues(CgSizeList, CgList);
  }

  /** The keys of the reversed table are the values of the table. */
  lemma ZipKeysValues(ks: seq<VisualProp>, vs: seq<VisualProp>)
    requires |ks| == |vs| && Distinct(ks) && Distinct(vs)
    ensures Zip(vs, ks).Keys == Zip(ks, vs).Values
  {
    ZipInverse(ks, vs);
  }

  lemma CgToSizeInverse()
    ensures forall vp :: vp in CgToSize ==> AssociatedCustomGraphics(CgToSize[vp]) == Some(vp)
  {
    Tables();
    ZipInverse(CgList, CgSizeList);
  }

  lemma SizeToCgInverse()
    ensures forall vp :: vp in SizeToCg ==> AssociatedSize(SizeToCg[vp]) == Some(vp)
  {
    Tables();
    ZipInverse(CgSizeList, CgList);
  }

  /** The seven properties the renderer does not support (`initUnsupportedProps`). */
  const Unsupported: set<VisualProp> := {
    NodeTransparency, NodeBorderTransparency, NodeLabelTransparency, NodeDepth,
    EdgeTransparency, EdgeLabelTransparency, EdgeBend
  }

  /** `isSupported`: false for the unsupported set, otherwise the base lexicon's answer. */
  function IsSupported(vp: VisualProp, baseSupports: bool): (r: bool)
    ensures vp in Unsupported ==> !r
    ensures vp !in Unsupported ==> r == baseSupports
    ensures r ==> baseSupports
  {
    vp !in Unsupported && baseSupports
  }

  /** No custom-graphics property is unsupported. */
  lemma CustomGraphicsSupported(i: int, baseSupports: bool)
    requires 0 <= i < NumCustomGraphics
    ensures IsSupported(CgList[i], baseSupports) == baseSupports
    ensures IsSupported(CgSizeList[i], baseSupports) == baseSupports
    ensures IsSupported(CgPositionList[i], baseSupports) == baseSupports
  {
  }
}

=== FILE: wrappers.dfy ===
/** Optional values: `None` stands for a Java `null` reference. */
module Wrappers {

  datatype Option<+T> = None | Some(value: T)
  {
    predicate IsNone() {
      this.None?
    }

    function GetOr(default: T): T {
      match this
      case None => default
      case Some(v) => v
    }
  }
}
